=== FILE: README.md ===
# Edlio customer map — a Dafny model of its data pipeline

The Edlio customer map is a browser map of Edlio's customer schools and of a
competitor's (Apptegy's) schools. Behind it sit Python scripts that geocode
spreadsheet rows through Nominatim, keep caches and checkpoints, merge
geocoded batches into the map's dataset and write the `data.js` file the page
loads. Beside them, browser JavaScript pulls companies from HubSpot, merges
them with the static data and drives a searchable, sortable and paginated
table.

This project models that logic in Dafny and proves what the scripts promise.
Each script becomes one module (helper modules hold what several share).
- **Loading and I/O.** Spreadsheets, JSON files, HTTP answers, the clock and
  signals are inputs: a row is a map from column to cell (`Records`), and the
  geocoding service is a sequence of answers or an oracle function (`Service`).
  Files are a name-to-content map (`DatasetFile`), so a backup, write or
  restore is modelled step by step.
- **Imperative parts.** Loops that append to lists, fill caches and move
  counters are methods with loop invariants. Each is proved against a
  function that states the whole result.
  - Objects whose fields change become classes: the checkpoint store, the
    geocoding caches, the HubSpot client, the live-data merger, the table
    component and the daemon.
- **Pure parts.** Address cleaning, keyword classifiers, URL formatting,
  query building, key derivation and JS literal emission are functions.
  Lemmas state their orderings, round trips and invariants.
- **Python and JavaScript semantics.** Truthiness, `dict.get`, `str.find`,
  `str.replace`, `str.split`, slicing, insertion-ordered dicts and maps, and
  `||` are written out in `Text`, `Seqs`, `OrderedMaps` and `JsValues`.

## Model

| member | source | states |
|---|---|---|
| Reconcile.FirstTruthy | direct_merge_execution.py:19-22 | the city is the value of the first key whose value is non-empty, or the fallback when every value is empty |
| Reconcile.FirstPresent | execute_merge.py:66 | the city is the value of the first key present in the address, however empty, or the fallback when none is present |
| Reconcile.PresenceAndTruthinessDisagree | execute_merge.py:66 | a present but empty `town` gives '' under key presence and the next non-empty value under the truthiness chain |
| Reconcile.BuildRecord | direct_merge_execution.py:24-43 | every field of the canonical record: id, name, domain and dates copied, state from the address, coordinates passed through, the fixed Apptegy defaults |
| Reconcile.FirstTruthyOfThree | direct_merge_execution.py:19-22 | the first non-empty of three address fields, else the fallback, written out as a chain of tests |
| Reconcile.ConvertBatchRecord | direct_merge_execution.py:10-43 | owner "Unknown", `recordId` is the batch `record_id`, the state the address's state, the create date the batch time stamp, and the city the first non-empty of neighbourhood, town and city, else the existing city |
| Reconcile.ExistingIds | direct_merge_execution.py:81 | the id set holds exactly the `recordId`s of the dataset; it is undefined (a KeyError) exactly when some record lacks the key |
| Reconcile.NewEntries | direct_merge_execution.py:88-93 | the appended entries are never more than the batch |
| Reconcile.ConvertAll | direct_merge_execution.py:91-92 | one converted record per appended entry |
| Reconcile.ConvertAllAt | direct_merge_execution.py:91-92 | the k-th appended record is the conversion of the k-th appended entry |
| Reconcile.NewEntriesMembers | direct_merge_execution.py:88-93 | an entry is appended exactly when it is in the batch and its id is not in the once-computed set |
| Reconcile.MergeBatch | direct_merge_execution.py:80-101 | the result is the untouched dataset followed by the converted new entries in batch order; appended plus skipped equals the batch length |
| Reconcile.NewEntriesStep | direct_merge_execution.py:88-97 | one loop step appends the entry exactly when its id is unknown |
| Reconcile.ConvertAllSnoc | direct_merge_execution.py:91-92 | converting one more entry appends one more record |
| Reconcile.NoNewEntries | direct_merge_execution.py:90 | a batch whose ids are all known appends nothing |
| Reconcile.KeysAppend | direct_merge_execution.py:81 | the ids of a concatenation are the ids of its parts |
| Reconcile.KeysConvertAll | direct_merge_execution.py:25 | a conversion that keeps the id gives records whose `recordId`s are the entries' ids in order |
| Reconcile.MergedKeys | direct_merge_execution.py:81-93 | the ids after a merge are the old ids followed by the appended entries' ids |
| Reconcile.MergedDistinctIff | direct_merge_execution.py:81-93 | the merged dataset has no repeated id exactly when the dataset had none and the appended entries' ids are pairwise different |
| Reconcile.RepeatedNewIdAppendedTwice | direct_merge_execution.py:81-93 | two batch entries with the same new id are both appended, leaving a repeated id |
| Reconcile.SecondMergeAddsNothing | direct_merge_execution.py:81-93 | merging the same batch into the merged dataset appends nothing |
| Reconcile.MergedIdsDefined | direct_merge_execution.py:81 | every record of a merged dataset still carries a `recordId` |
| Reconcile.SetPreviewAgainstLoop | final_merge_attempt.py:37-53 | overlap and unique ids partition the batch ids; the unique count never exceeds the loop's append count and equals it exactly when the appended ids are pairwise different |
| Reconcile.CountStateSnoc | direct_merge_execution.py:138-142 | one more record adds one to the count of its state |
| Reconcile.TallyStates | direct_merge_execution.py:138-142 | the tally holds exactly the states that occur (the empty state left out when skipped), each with its number of records |
| DatasetFile.Rename | direct_merge_execution.py:107 | a rename fails when refused or when the source is missing; otherwise the content moves to the new name and every other file is unchanged |
| DatasetFile.CommitSafety | direct_merge_execution.py:103-127 | a commit leaves the new records under the dataset name and the old content under the backup name; a refused backup changes nothing; a failed write is either fully undone by the restore or leaves the old content in the backup |
| DatasetFile.Reread | direct_merge_execution.py:150-156 | the re-read reports exactly the number of records in the file, and fails on a torn file |
| DatasetFile.MergedList | direct_merge_execution.py:88-101 | the written list is as long as the dataset plus the appended entries |
| DatasetFile.MergeAndCommit | direct_merge_execution.py:53-127 | load failures and a missing `recordId` change no file; otherwise the run is the commit of the merged list, and a commit reports the appended, skipped and total counts |
| DirectMergeExecution.Run | direct_merge_execution.py:45-158 | nothing written before both loads succeed; backup then write with restore on a failed write; after a commit the non-empty states are tallied with "Unknown" for a missing state and the re-read reports the total |
| FinalMergeAttempt.AnalyseIds | final_merge_attempt.py:35-45 | duplicates are existing ∩ batch ids, unique ids are batch − existing, and the unique count never exceeds the entries appended, matching it exactly when those ids are distinct |
| FinalMergeAttempt.MergeAndReport | final_merge_attempt.py:47-143 | backup then write with no restore (the outer handler only reports); after a commit the non-empty states are tallied with '' for a missing state |
| FinalMergeAttempt.Run | final_merge_attempt.py:14-143 | the analysis runs before the merge, and the reported unique count never exceeds the records the merge appends (equal exactly when the appended ids are distinct); a failed load or a missing `recordId` changes no file; otherwise the files are those of the backup-then-write commit with no restore; after a commit the non-empty states are tallied with '' for a missing state and the re-read reports the total |
| InlineMergeNow.Run | inline_merge_now.py:15-150 | exit status 1 on every failure (after trying to restore the backup when the write fails) and 0 after a commit; appended plus skipped equals the batch length |
| SimpleMerge.Run | simple_merge.py:7-93 | backup then write with no restore; the total is the old length plus the appended records; non-empty states tallied with '' for a missing state |
| ExecMerge.Run | exec_merge.py:11-99 | backup then write with no restore; non-empty states tallied with "Unknown" for a missing state |
| ExecuteMerge.ConvertTownThenCity | execute_merge.py:56-82 | owner "Geocoded"; the city is `town` when that key is present, else `city` when present, else '' |
| ExecuteMerge.Run | execute_merge.py:11-100 | when the external merge succeeds, true with the files as that merge left them; otherwise the fallback merge runs over those files, and the result is true exactly when its commit succeeds |
| ExecuteMergeManually.ConvertPresenceChain | execute_merge_manually.py:27-49 | owner "Geocoded"; the city is the first of town, city and neighbourhood whose key is present, however empty |
| ExecuteMergeManually.Run | execute_merge_manually.py:9-78 | backup then write with no restore; appended count and total; non-empty states tallied with '' for a missing state |
| MergeGeocodedData.VerbatimNew | merge_geocoded_data.py:26-33 | defined exactly when every batch element has `recordId`; the appended elements are batch elements with unknown ids |
| MergeGeocodedData.AppendVerbatim | merge_geocoded_data.py:29-33 | fails exactly when some element lacks `recordId`; otherwise appends the new elements unconverted after the dataset |
| MergeGeocodedData.NoneStaysNone | merge_geocoded_data.py:31 | once a prefix of the batch raises, the whole batch raises |
| MergeGeocodedData.Run | merge_geocoded_data.py:9-65 | both KeyErrors end the run before the backup; otherwise backup then write with no restore, and the tally counts every state, empty ones included |
| MergeGeocodedData.ProgressBatchNeverMerges | merge_geocoded_data.py:31 | a non-empty batch of progress entries, keyed by `record_id`, always raises before the backup |
| MergePreview.CountNew | merge_analysis.py:27-40 | the counted new records are exactly the entries a merge appends; new plus duplicates equals the batch length |
| MergePreview.TallyNewStates | merge_analysis.py:55-63 | the states of the entries a merge would append, "Unknown" for a missing key and empty states skipped, each with its count |
| MergePreview.PredictionIsMergedLength | merge_analysis.py:84 | the predicted total is the length every converting merge produces |
| MergeAnalysis.SampleCity | merge_analysis.py:79 | a non-empty neighbourhood is shown; else a non-empty town; else the city, or "N/A" without a city key |
| MergeAnalysis.AnalyzeMerge | merge_analysis.py:9-84 | fails exactly when a record lacks `recordId`; otherwise the counts, the predicted total equal to any merge's length, the state distribution and the sample city |
| SimulateMerge.Simulate | simulate_merge.py:26-58 | nothing when the batch has no success rate (the ValueError at line 44); otherwise the new-record count (repeats in the batch included), the predicted total and the state distribution of the entries a merge would append |
| CountRecords.DuplicateCheck | count_records.py:25-37 | overlap and unique ids partition the batch ids; the expected total falls short of a merge's length exactly when a new id repeats in the batch |
| CheckAndMerge.CheckDataStatus | check_and_merge.py:9-52 | load failures and a missing `recordId` are reported; otherwise the processed total adds the two metadata totals (0 when absent), and overlap plus new ids equals the batch ids |
| ApptegyGeocoder.FirstFragmentIn | geocode_apptegy_schools.py:144-147 | a state is only found in a non-empty table |
| ApptegyGeocoder.FirstFragmentInIsFirst | geocode_apptegy_schools.py:144-147 | the state found belongs to the first entry, in table order, whose fragment occurs in the text; none is found exactly when no fragment occurs |
| ApptegyGeocoder.ExtractStateFromDomain | geocode_apptegy_schools.py:138-142 | an empty domain gives no state |
| ApptegyGeocoder.ExtractStateFromDomainIsFirst | geocode_apptegy_schools.py:138-147 | a non-empty domain gives the state of the first `STATE_MAPPING` fragment, in insertion order, found in the lower-cased domain, and none when no fragment occurs |
| ApptegyGeocoder.InferStateFromCity | geocode_apptegy_schools.py:173-215 | an empty city gives none; otherwise the state is found exactly when the lower-cased, stripped city is a key of the city table, and is its value |
| ApptegyGeocoder.FromGroups | geocode_apptegy_schools.py:166-169 | with two groups or more a city is always returned: the second group when non-empty, else the first; a state exactly when a non-empty third group took part |
| ApptegyGeocoder.TryPatterns | geocode_apptegy_schools.py:162-169 | a state is never found without a city |
| ApptegyGeocoder.ExtractLocationFromName | geocode_apptegy_schools.py:149-171 | an empty name gives neither city nor state; a state never comes without a city |
| ApptegyGeocoder.OnlyFirstTwoPatternsCount | geocode_apptegy_schools.py:155-169 | the result depends only on the first two patterns, because the last two have one group and fail the two-group test; with neither matching the result is empty |
| ApptegyGeocoder.RemoveParens | geocode_apptegy_schools.py:225 | removing parenthesised text never lengthens the name and leaves a name without '(' unchanged |
| ApptegyGeocoder.QueryParts | geocode_apptegy_schools.py:219-258 | the query parts are never empty and always end with "school" |
| ApptegyGeocoder.BuildSearchQuery | geocode_apptegy_schools.py:217-260 | the query always ends with "school" |
| ApptegyGeocoder.QueryLeadsWithName | geocode_apptegy_schools.py:222-227 | a non-empty company name, with parenthesised text removed and whitespace collapsed, is the first part |
| ApptegyGeocoder.QueryCityIsRowCity | geocode_apptegy_schools.py:230-239 | the row's own 'City' (else 'Agile Location City') wins over the city taken from the name |
| ApptegyGeocoder.AssembleKeepsCity | geocode_apptegy_schools.py:231-239 | a non-empty city is one of the parts |
| ApptegyGeocoder.QueryUsesRowCity | geocode_apptegy_schools.py:230-232 | the row's own city is one of the query's parts |
| ApptegyGeocoder.QueryDomainStateFirst | geocode_apptegy_schools.py:242-255 | a state from the domain takes precedence over the name and the city table, and is the part just before "school" |
| ApptegyGeocoder.StripKeepsSchool | geocode_apptegy_schools.py:258-260 | a text ending in "school" keeps at least six characters when stripped |
| ApptegyGeocoder.InsufficientDataUnreachable | geocode_apptegy_schools.py:340-343 | the "Insufficient data" guard never fires: every query is non-empty with a stripped length of at least six |
| ApptegyGeocoder.Variants | geocode_apptegy_schools.py:267-271 | three variants, the first being the query itself |
| ApptegyGeocoder.TryVariantFinds | geocode_apptegy_schools.py:285-316 | a variant yields a place exactly when some attempt within the budget of three finds it and every earlier attempt failed at the transport level |
| ApptegyGeocoder.ToHit | geocode_apptegy_schools.py:294-302 | the location carries the place's coordinates and the variant that found it as `query_used` |
| ApptegyGeocoder.FirstHit | geocode_apptegy_schools.py:273-318 | a location found was found by one of the variants, never a blank one |
| ApptegyGeocoder.TryWithRetries | geocode_apptegy_schools.py:285-316 | the retry loop gives the variant's outcome after between one and three attempts, numbered in order |
| ApptegyGeocoder.GeocodeVariants | geocode_apptegy_schools.py:273-318 | the variant loop gives the first place found, skipping blank variants, and sends at most three requests per variant |
| ApptegyGeocoder.GeocodeAddress | geocode_apptegy_schools.py:262-318 | the three variants are tried in order with at most nine requests in all |
| ApptegyGeocoder.ProcessSpec | geocode_apptegy_schools.py:320-358 | the location is the first hit among the query's variants; a result is geocoded exactly when it has a location and exactly when it has no error; the only error is "No geocoding results found"; the time stamp, domain, zip and existing city (City, else Agile Location City) come from the row |
| ApptegyGeocoder.ProcessSchool | geocode_apptegy_schools.py:320-358 | the method computes the result dict `process_school` builds |
| ApptegyGeocoder.Load | geocode_apptegy_schools.py:81-100 | a missing or unreadable checkpoint leaves the defaults (index 50, empty lists); a parsed one supplies the index, defaulting to 50 |
| ApptegyGeocoder.LoadSave | geocode_apptegy_schools.py:88-113 | loading a saved checkpoint restores exactly the saved state |
| ApptegyGeocoder.LoadCsvData | geocode_apptegy_schools.py:360-373 | the rows loaded are those whose position is at least the resume index |
| ApptegyGeocoder.GeocodingProgress.constructor | geocode_apptegy_schools.py:81-100 | a new store holds the loaded state |
| ApptegyGeocoder.GeocodingProgress.Record | geocode_apptegy_schools.py:402-408 | the new state is the old one with the row routed and the index set to `current + 1` |
| ApptegyGeocoder.Route | geocode_apptegy_schools.py:402-408 | each row lands in exactly one list, results when geocoded and errors otherwise, and the index becomes `current + 1` |
| ApptegyGeocoder.RowProcessor | geocode_apptegy_schools.py:400 | the processor the run uses is `process_school` with the clock reading of the row |
| ApptegyGeocoder.TriClosedForm | geocode_apptegy_schools.py:397-408 | 0 + 1 + … + k is k(k+1)/2 |
| ApptegyGeocoder.StateAfterIndex | geocode_apptegy_schools.py:393-408 | after k rows the resume index has moved by k when corrected and by 0 + 1 + … + k as written |
| ApptegyGeocoder.StateAfterShape | geocode_apptegy_schools.py:393-408 | after k rows each row is in exactly one list, the lists only grow, results gain only geocoded rows and errors only the others; as written the index moved by k(k+1)/2 |
| ApptegyGeocoder.CorrectedResumes | geocode_apptegy_schools.py:360-408 | corrected, a checkpoint after k rows resumes at the first row not yet processed |
| ApptegyGeocoder.AsWrittenSkipsRow | geocode_apptegy_schools.py:360-408 | as written, a checkpoint after two rows resumes three rows on, so the third row is never processed |
| ApptegyGeocoder.Periodic | geocode_apptegy_schools.py:417-419 | c full batches give c checkpoints |
| ApptegyGeocoder.PeriodicNext | geocode_apptegy_schools.py:417-419 | the next periodic checkpoint is the state after the next full batch of 100 |
| ApptegyGeocoder.Saves | geocode_apptegy_schools.py:417-423 | a run of n rows writes one checkpoint per 100 rows plus one at the end |
| ApptegyGeocoder.BatchOf | geocode_apptegy_schools.py:418 | a count within the c-th batch has c complete batches and is a multiple of 100 only at the batch's start |
| ApptegyGeocoder.RowsDone | geocode_apptegy_schools.py:393-395 | the run gets through every row unless the signal arrives before the last |
| ApptegyGeocoder.SchoolGeocoder.constructor | geocode_apptegy_schools.py:119-129 | the geocoder owns a freshly loaded progress store |
| ApptegyGeocoder.SchoolGeocoder.ProcessRow | geocode_apptegy_schools.py:397-408 | one pass of the loop advances the progress to the state after one more row |
| ApptegyGeocoder.SchoolGeocoder.ProcessRows | geocode_apptegy_schools.py:391-420 | after n rows the progress is the state after n rows, and the checkpoints taken are the periodic ones |
| ApptegyGeocoder.SchoolGeocoder.Run | geocode_apptegy_schools.py:375-424 | no rows gives no checkpoint; otherwise the rows from the resume index are processed until done or interrupted, the periodic checkpoints and a final one are written, and the run finishes exactly when every row was processed |
| AddressClean.CommaSub | intelligent_geocoder.py:86 | the comma substitution never lengthens the text and keeps single plain spaces plain |
| AddressClean.Tidy | intelligent_geocoder.py:85-87 | after the whitespace collapse, the comma substitution and `strip(', ')`, the text neither starts nor ends with a comma or a space, and every space left is a plain one |
| AddressClean.CleanJoined | geocode_with_dedup.py:24-29 | the joined and cleaned address neither starts nor ends with a comma or a space, and has only plain spaces |
| AddressClean.CollapseSingleSpaced | geocode_with_dedup.py:27 | collapsing whitespace leaves single-spaced text unchanged |
| AddressClean.CommaSubSeparated | geocode_with_dedup.py:28 | the double-comma substitution leaves text whose commas are separated by non-space text unchanged |
| AddressClean.GlueSingleSpaced | geocode_with_dedup.py:24 | joining two single-spaced parts with ", " stays single-spaced |
| AddressClean.GlueCommasSeparate | geocode_with_dedup.py:24 | joining a comma-free part to well separated text with ", " keeps the commas well separated |
| AddressClean.JoinCleanParts | geocode_with_dedup.py:24 | the join of clean parts is single-spaced, has well separated commas, and starts and ends with its first and last parts' characters |
| AddressClean.CleanJoinedOfCleanParts | geocode_with_dedup.py:17-29 | on parts that are already clean, the clean-up is the identity: the address is exactly the ", " join |
| SchoolType.KeywordType | geocode_with_dedup.py:97-121 | the label is one of the five; private exactly when a private word occurs without "district"; cmo and esc only when their words occur |
| SchoolType.AcademyIsPrivate | geocode_with_dedup.py:101-106 | "academy" without "district" is always private: the private rule shadows the charter rule for it |
| SchoolType.CharterManagementNeverCmo | geocode_with_dedup.py:105-112 | a name holding "charter management" but not "cmo" never comes out cmo, because the charter rule fires first |
| SchoolType.SchoolDistrictIsDistrictWord | geocode_with_dedup.py:108 | any name with "school district" already contains "district" |
| SchoolType.DetermineSchoolType | intelligent_geocoder.py:126-164 | the label is one of the five; an institution type or a non-NaN building charter mentioning "charter" makes it charter |
| SchoolType.WithoutFieldsIsKeywordType | intelligent_geocoder.py:126-164 | without the two extra fields the classifier is the keyword rules on the lower-cased name |
| SchoolType.NaNBuildingCharterIgnored | intelligent_geocoder.py:135-137 | a NaN building-charter cell decides nothing, as if absent |
| GeoRetry.Requests | intelligent_geocoder.py:93-122 | the lookup sends at least one and at most `max_retries` requests |
| GeoRetry.OutcomeFinds | intelligent_geocoder.py:93-124 | the lookup finds a place exactly when some attempt under the budget answers with one after only failed attempts, and returns that attempt's coordinates |
| GeoRetry.Geocode | intelligent_geocoder.py:91-124 | the retry loop returns the specified outcome and sends the specified number of requests |
| IntelligentGeocoder.AddressParts | intelligent_geocoder.py:72-79 | at most four parts, each non-empty, not 'nan' and not 'None', and every such column value is kept |
| IntelligentGeocoder.CleanAddress | intelligent_geocoder.py:66-88 | the address neither starts nor ends with a comma or a space and has only plain spaces |
| IntelligentGeocoder.CleanAddressOfCleanColumns | intelligent_geocoder.py:66-88 | when every surviving column is clean the address is exactly their ", " join |
| IntelligentGeocoder.Website | intelligent_geocoder.py:187-189 | a non-empty website not starting with "http" gets "https://" in front; any other is kept |
| IntelligentGeocoder.View | intelligent_geocoder.py:178-210 | a row is readable exactly when it has a School Name; its key is the lower-cased name and it starts without coordinates |
| IntelligentGeocoder.LoadAndCombine | intelligent_geocoder.py:166-220 | the loading loop returns the combination of the rows' views |
| IntelligentGeocoder.CombinedIsFirstRows | intelligent_geocoder.py:177-213 | the seen set is every readable name, and the customers are exactly the first row of each name when that row has an address |
| IntelligentGeocoder.CombinedNamesDistinct | intelligent_geocoder.py:181-184 | no two combined customers share a lower-cased name, and every kept name is in the seen set |
| IntelligentGeocoder.LoadedNamesDistinct | intelligent_geocoder.py:166-220 | the loaded customers have pairwise different lower-cased names |
| IntelligentGeocoder.Step | intelligent_geocoder.py:283-303 | a customer sends requests exactly when its address is not cached, is counted once as geocoded or failed, and a cache hit is a geocoded customer |
| IntelligentGeocoder.StateAt | intelligent_geocoder.py:279-308 | after k customers, geocoded plus failed is k and cache hits are at most the geocoded |
| IntelligentGeocoder.StateAtFrame | intelligent_geocoder.py:286-297 | customers not yet reached are untouched and the cache only grows, an entry keeping its coordinates |
| IntelligentGeocoder.RequestsBound | intelligent_geocoder.py:286-293 | requests are at most three per customer that missed the cache |
| IntelligentGeocoder.StepCaches | intelligent_geocoder.py:295-297 | one step adds at most the processed address, with the coordinates its lookup found |
| IntelligentGeocoder.CacheGrowsOnlyBySuccesses | intelligent_geocoder.py:295-297 | every address the run added belongs to a processed customer whose lookup returned the cached coordinates |
| IntelligentGeocoder.Reached | intelligent_geocoder.py:268-281 | the run gets through at most all the customers |
| IntelligentGeocoder.Emitted | intelligent_geocoder.py:231-232 | the written customers are at most the list and all have truthy lat and lng |
| IntelligentGeocoder.EmittedExactly | intelligent_geocoder.py:231-232 | a customer is written exactly when it is in the list with truthy lat and lng |
| IntelligentGeocoder.BatchEnd | intelligent_geocoder.py:268-273 | a batch never ends past the customers the run gets through |
| IntelligentGeocoder.BatchSavesAt | intelligent_geocoder.py:310-311 | each save is the snapshot of the state at the end of its batch |
| IntelligentGeocoder.RunBatch | intelligent_geocoder.py:279-308 | one batch moves the state from customer i to twenty further, or to the end |
| IntelligentGeocoder.SaveBatch | intelligent_geocoder.py:268-311 | one pass of the batch loop extends the saves by the snapshot at the batch's end |
| IntelligentGeocoder.RunBatches | intelligent_geocoder.py:268-321 | the batch loop ends in the state after n customers, with one save per batch of 20 |
| IntelligentGeocoder.RunGeocoding | intelligent_geocoder.py:251-333 | the final state is the state after the customers reached; the last save is of the final state, preceded by one save per started batch |
| IntelligentGeocoder.BatchSavesSnoc | intelligent_geocoder.py:310-311 | saving the state at the end of the next batch extends the list of batch saves |
| GeocodeWithDedup.KeptParts | geocode_with_dedup.py:17-20 | at most one part per cell, none empty: NaN, missing and blank cells are dropped |
| GeocodeWithDedup.Address | geocode_with_dedup.py:143-150 | the cleaned address neither starts nor ends with a comma or a space |
| GeocodeWithDedup.Name | geocode_with_dedup.py:161-164 | the name is readable exactly when the name column is present and holds text |
| GeocodeWithDedup.Url | geocode_with_dedup.py:179-181 | a text website always yields a url, and a non-empty one starts with "http" |
| GeocodeWithDedup.View | geocode_with_dedup.py:184-189 | the type of a readable row is the keyword classification of its lower-cased name |
| GeocodeWithDedup.Step | geocode_with_dedup.py:140-201 | a row adds at most one entry; a row without address changes nothing; a cache hit sends no request and leaves the cache alone; each row that reaches the cache check is counted once, except a miss whose name raises |
| GeocodeWithDedup.StateAt | geocode_with_dedup.py:140-201 | after k rows there are at most k entries and at most k counted rows |
| GeocodeWithDedup.SavesOnlyAtMultiples | geocode_with_dedup.py:194-197 | a save follows only a row whose one-based index is a multiple of 50 and that appended an entry, and it saves the cache and the entries |
| GeocodeWithDedup.EntryFromCache | geocode_with_dedup.py:157-192 | an entry carries the row's name and the coordinates cached for the row's address |
| GeocodeWithDedup.CacheOnlyGrows | geocode_with_dedup.py:158-168 | the cache only grows, an entry keeping its coordinates |
| GeocodeWithDedup.ProcessRow | geocode_with_dedup.py:141-201 | the loop body computes the row step, every `continue` and exception included |
| GeocodeWithDedup.Run | geocode_with_dedup.py:123-204 | the run ends in the state after every row, and the final save holds its cache and entries |
| GeocodeAllCustomers.Tag | geocode_all_customers.py:76 | one job per row of the sheet |
| GeocodeAllCustomers.Step | geocode_all_customers.py:76-124 | a row without a website changes nothing; a row with one is counted; at most one customer is appended |
| GeocodeAllCustomers.StateAt | geocode_all_customers.py:76-177 | after k rows at most k are counted |
| GeocodeAllCustomers.Counters | geocode_all_customers.py:89-118 | new geocodes are at most the customers, customers plus failures are at most the processed rows, and requests are at most three per lookup |
| GeocodeAllCustomers.SavesPerFifty | geocode_all_customers.py:120-122 | the cache is saved once per 50 processed rows, the count running across both sheets |
| GeocodeAllCustomers.WithWebsite | geocode_all_customers.py:80 | at most every row has a website |
| GeocodeAllCustomers.ProcessedIsWithWebsite | geocode_all_customers.py:80-118 | the processed rows are exactly the rows with a website |
| GeocodeAllCustomers.CacheKept | geocode_all_customers.py:90-100 | the cache only grows, an address keeping its coordinates |
| GeocodeAllCustomers.StepCache | geocode_all_customers.py:90-103 | a row changes the cache only by adding a truthy answer for an uncached address |
| GeocodeAllCustomers.CacheStaysTruthy | geocode_all_customers.py:98-100 | a cache of truthy coordinates stays truthy |
| GeocodeAllCustomers.RowCustomer | geocode_all_customers.py:108-116 | only a row with a website and truthy coordinates appends a customer, with its name, url, sheet and state and the cached coordinates |
| GeocodeAllCustomers.AppendedIsFinallyCached | geocode_all_customers.py:89-116 | every appended customer has the coordinates the final cache holds for its address |
| GeocodeAllCustomers.ProcessRow | geocode_all_customers.py:77-124 | the loop body computes the row step |
| GeocodeAllCustomers.Run | geocode_all_customers.py:58-206 | the run ends in the state after both sheets, and data.js is the rendering of its customers |
| Sheet.StripEnds | geocode_all_customers.py:82-85 | a stripped cell has no whitespace at either end |
| Sheet.StripStripped | geocode_all_customers.py:82-85 | stripping text without outer whitespace changes nothing |
| Sheet.FormatUrl | geocode_all_customers.py:37-44 | no url exactly for a missing value, NaN, '' or 'N/A'; otherwise the stripped text, kept when it names http:// or https:// and prefixed with "https://" when not, so every url has a scheme |
| Sheet.FormatUrlIdempotent | geocode_all_customers.py:37-44 | formatting a formatted url changes nothing |
| ClientSheets.FullAddress | geocode_all_customers.py:82-87 | the address built from the stripped columns always ends in ", USA" |
| ClientSheets.ReadClient | geocode_all_customers.py:77-87 | a read row's address ends in ", USA" |
| ClientSheets.ReadClients | geocode_all_customers.py:76-87 | one client per row, in order |
| ClientSheets.EntryTexts | geocode_all_customers.py:194-197 | one object literal per customer, in order |
| UpdateFromCache.FromCache | update_from_cache.py:29-51 | a row yields a customer exactly when it has a url and its address is cached, with the cached coordinates and no truthiness test |
| UpdateFromCache.Collected | update_from_cache.py:28-77 | at most one customer per row |
| UpdateFromCache.Visit | update_from_cache.py:29-51 | one loop pass extends the customers by the row's contribution |
| UpdateFromCache.CollectRows | update_from_cache.py:28-77 | the two sheet loops collect the customers of the rows in order |
| UpdateFromCache.Rebuild | update_from_cache.py:15-99 | the script collects the cached customers of both sheets and writes them as data.js |
| UpdateFromCache.CachedFromLookup | geocode_all_customers.py:89-103 | an address in the run's cache was in the starting cache or holds the lookup's truthy answer |
| UpdateFromCache.RebuildStep | update_from_cache.py:40-51 | each row adds to the geocoding run's customers what the rebuild takes for it from the final cache |
| UpdateFromCache.RebuildMatchesRunUpTo | update_from_cache.py:28-77 | rebuilding from the cache a full geocoding run leaves reproduces that run's customers over any prefix, given a starting cache of truthy coordinates |
| UpdateFromCache.RebuildMatchesRun | update_from_cache.py:28-77 | rebuilding from the final cache reproduces the geocoding run's customers |
| UpdateFromCache.ZeroCachedEntryKeptOnlyByRebuild | update_from_cache.py:40-51 | with a zero coordinate in the starting cache the run drops the row and the rebuild keeps it, so the truthy-cache condition is needed |
| ParseExcel.ReadRow | parse_excel.py:19-30 | a row is skipped exactly when a coordinate is NaN or missing or it has no url; a listed entry has a url with a scheme and the sheet's type; `float()` raising on a coordinate is the only error |
| ParseExcel.Outcomes | parse_excel.py:19-45 | one outcome per row |
| ParseExcel.Collect | parse_excel.py:19-45 | a finished loop lists at most one entry per row |
| ParseExcel.ListedCount | parse_excel.py:23-24 | at most one listing per row |
| ParseExcel.CollectFinishes | parse_excel.py:19-45 | the loop finishes exactly when no row raises |
| ParseExcel.CollectListed | parse_excel.py:19-45 | a finished loop holds exactly the listed entries, one per listing row |
| ParseExcel.RaisedStays | parse_excel.py:26-27 | once a row raises, the script fails whatever rows follow |
| ParseExcel.ListingsOfRows | parse_excel.py:19-45 | a sheet finishes exactly when no listable row has a coordinate `float()` rejects, and each of its entries has a url with a scheme and the sheet's type |
| ParseExcel.NumbersNeverRaise | parse_excel.py:26-27 | a listable row with numeric coordinates is listed |
| ParseExcel.ProcessSheet | parse_excel.py:18-30 | one sheet's loop returns the sheet's listings, or the error |
| ParseExcel.EntryTexts | parse_excel.py:58-59 | one object literal per entry |
| ParseExcel.Run | parse_excel.py:4-68 | data.js is the rendering of the charter entries then the district entries, or nothing when a row raises |
| ParseExcelWithGeocoding.LookupOnce | parse_excel_with_geocoding.py:7-28 | a single request: coordinates exactly when it finds a place, and then the found place's coordinates |
| ParseExcelWithGeocoding.Scan | parse_excel_with_geocoding.py:48-80 | a sheet appends at most one customer per request |
| ParseExcelWithGeocoding.ScanRequestBound | parse_excel_with_geocoding.py:78-80 | at most twenty requests per sheet |
| ParseExcelWithGeocoding.StopsAtLastIndex | parse_excel_with_geocoding.py:78-80 | when row 19 has a website the rows after it are never looked at |
| ParseExcelWithGeocoding.ScanCustomers | parse_excel_with_geocoding.py:65-73 | every customer has truthy coordinates and the sheet's type |
| ParseExcelWithGeocoding.ProcessSheet | parse_excel_with_geocoding.py:48-80 | one sheet's loop, with its `break`, gives the scan's customers and requests |
| ParseExcelWithGeocoding.Run | parse_excel_with_geocoding.py:39-135 | the customers are the charter scan's then the district scan's, the requests are at most forty, and data.js renders the customers |
| ExtractGeocodedProgress.ToCompetitor | extract_geocoded_progress.py:24-42 | a successful result becomes a competitor record with its id, name, time stamp, coordinates and display name; 'Apptegy', empty domain and owner; the state from the address; the city the first non-empty of city, town and village, else empty |
| ExtractGeocodedProgress.Extracted | extract_geocoded_progress.py:21-44 | at most one record per result, each the conversion of a successful result |
| ExtractGeocodedProgress.ExtractSuccessful | extract_geocoded_progress.py:21-44 | the loop returns the converted successful results in order |
| ExtractGeocodedProgress.ExtractedCount | extract_geocoded_progress.py:23-44 | exactly one record per successful result |
| ExtractGeocodedProgress.Run | extract_geocoded_progress.py:9-78 | without a progress file nothing changes; otherwise the demo records followed by the extracted ones overwrite the output file, and every state and "city, state" pair is counted |
| ProcessApptegyData.FirstHit | process_apptegy_data.py:45-56 | the scan stops at the first table position whose abbreviation fires, and none fires when it finds nothing |
| ProcessApptegyData.City | process_apptegy_data.py:17-19 | a non-blank 'City' is the city; otherwise the stripped 'Agile Location City' |
| ProcessApptegyData.Location | process_apptegy_data.py:14-58 | the city comes from City; when the domain is non-empty and some abbreviation fires on it, the state comes from the domain, and otherwise from the first abbreviation firing on the company name ('' when none does) |
| ProcessApptegyData.ScanTable | process_apptegy_data.py:45-56 | the loop with its `break` returns the state of the first abbreviation that fires, or '' |
| ProcessApptegyData.CleanLocationData | process_apptegy_data.py:14-58 | the method returns the city and the state of the location rules |
| ProcessApptegyData.K12TestSubsumed | process_apptegy_data.py:46 | the ".k12.xx." test never decides: a domain fires exactly when it contains ".xx." |
| ProcessApptegyData.FirstHitNoLater | process_apptegy_data.py:45-56 | whenever an abbreviation fires, the scan settles on a state no later than its position: the table order decides |
| ProcessApptegyData.QueryParts | process_apptegy_data.py:64-70 | only non-empty parts; none exactly when name, city and state are all empty; the state last when present |
| ProcessApptegyData.Query | process_apptegy_data.py:64-72 | the query is empty exactly when all three parts are, and ends with the state when there is one |
| ProcessApptegyData.GeocodeSchool | process_apptegy_data.py:60-104 | one request: a place exactly when the answer is a non-empty list, its first place |
| ProcessApptegyData.SchoolData | process_apptegy_data.py:122-154 | a record exactly when the name is non-blank and the lookup finds a place; it carries the name, 'Apptegy', 'competitor', the location's city and state, and coordinates |
| ProcessApptegyData.Outcomes | process_apptegy_data.py:118-161 | one outcome per row |
| ProcessApptegyData.Kept | process_apptegy_data.py:136-154 | at most one record per row |
| ProcessApptegyData.KeptExactly | process_apptegy_data.py:136-154 | the records are exactly the rows' answers |
| ProcessApptegyData.Named | process_apptegy_data.py:127-134 | at most every row sends a request |
| ProcessApptegyData.ProcessedStep | process_apptegy_data.py:118-161 | one more row adds its record, if any, at the end |
| ProcessApptegyData.NamedStep | process_apptegy_data.py:127-134 | one more row adds a request exactly when its name is non-blank |
| ProcessApptegyData.Considered | process_apptegy_data.py:119-120 | the script reads the first 100 rows, or all when fewer |
| ProcessApptegyData.ProcessedRecords | process_apptegy_data.py:118-161 | the records are exactly the answers of the rows that have a name and whose lookup answered |
| ProcessApptegyData.RowsPastLimitIgnored | process_apptegy_data.py:119-120 | rows past the first 100 change nothing |
| ProcessApptegyData.ProcessRow | process_apptegy_data.py:122-161 | the loop body yields the row's record and sends a request exactly when the name is non-blank |
| ProcessApptegyData.Visit | process_apptegy_data.py:118-161 | one pass adds row i's record and request, one pause per record |
| ProcessApptegyData.ProcessApptegy | process_apptegy_data.py:106-168 | the records are those of the first 100 rows, the requests are their named rows, and there is one pause per record |
| AddProductData.PySlice | add_product_data_template.py:17 | Python slicing never gives more than the text |
| AddProductData.BracketedSlice | add_product_data_template.py:15-17 | when the first '[' comes before the last ']', the slice is the text from one to the other, both included |
| AddProductData.NoOpeningBracket | add_product_data_template.py:15-17 | without any '[' the find gives -1 and at most "]" survives the slice |
| AddProductData.CommaFixKeepsCleanText | add_product_data_template.py:19 | a slice with no trailing comma before a closing bracket or brace is passed on unchanged |
| AddProductData.PyFlagReadsNoAsYes | add_product_data_template.py:39-42 | as written, an "N" cell and a NaN cell both read as having the product; the yes/no reading says no |
| AddProductData.YesNoFlagAgreement | add_product_data_template.py:26-42 | the yes/no reading takes "Y" as yes and "N", "No", blank text and NaN as no, agrees with `bool()` on missing cells, numbers and empty text, and is never true where `bool()` is false |
| AddProductData.RowProductsOfNoCell | add_product_data_template.py:38-43 | a row whose CMS cell is "N" gets CMS as written and not under the yes/no reading |
| AddProductData.Entries | add_product_data_template.py:36-44 | one lookup entry per row, in row order; the flags are `bool()` of the cells as written, or the yes/no reading when corrected |
| AddProductData.LookupOfRows | add_product_data_template.py:36-44 | a key maps to the products of the last row with that key (as written or corrected), and to nothing when no row has it |
| AddProductData.BuildLookup | add_product_data_template.py:35-44 | nothing exactly when some row lacks the name column (the KeyError at line 37); otherwise the loop assigns one entry per row in order |
| AddProductData.FirstPartial | add_product_data_template.py:61-67 | the scan stops at the first key, in insertion order, that contains the name or is contained in it |
| AddProductData.ProductsFor | add_product_data_template.py:52-77 | an exact key gives its products, matched; an unmatched customer gets CMS only and no key partially matches it |
| AddProductData.PartialMatch | add_product_data_template.py:58-67 | without an exact key a customer is matched exactly when some key partially matches, and then gets the first such key's products |
| AddProductData.BlankNameAlwaysMatches | add_product_data_template.py:62-63 | a blank name is contained in every key, so it matches whenever the lookup is non-empty |
| AddProductData.Customer.constructor | add_product_data_template.py:10-20 | a customer read from data.js has its fields and no products yet |
| AddProductData.Matches | add_product_data_template.py:51-79 | one match outcome per customer |
| AddProductData.MatchedCount | add_product_data_template.py:57-65 | at most every customer is matched |
| AddProductData.MatchCustomer | add_product_data_template.py:52-77 | the exact lookup then the loop with its `break` gives the customer's products and whether they matched |
| AddProductData.AssignProducts | add_product_data_template.py:51-79 | one pass sets customer i's products and counts it, keeping the earlier customers' products |
| AddProductData.ApplyLookup | add_product_data_template.py:47-85 | every customer gets its match's products in place; the same customers come back in order; matched and unmatched add up to their number |
| AddProductData.AddProductData | add_product_data_template.py:22-85 | fails, changing no customer, exactly when some row lacks the name column; otherwise the lookup is built from the rows and applied to every customer in place |
| AddProductData.Decimal | add_product_data_template.py:92 | a count is written as a non-empty run of digits |
| AddProductData.Header | add_product_data_template.py:90-92 | the header lines hold no '[' |
| AddProductData.SaveUpdatedData | add_product_data_template.py:87-105 | the file is the header, one indented line per customer followed by a comma, and `];` |
| AddProductData.AppendEntry | add_product_data_template.py:95-103 | after one more pass the body holds the indented, comma-terminated lines of every customer so far, in order |
| AddProductData.TerminatedFileSlice | add_product_data_template.py:87-105 | reading back a written file slices exactly its array, from the opening '[' to the final ']', whatever the entries contain |
| AddProductData.ClosedArraySlice | add_product_data_template.py:15-17 | text ending in `];` with no '[' before the array slices to that array |
| AddProductData.SavedFileSlice | add_product_data_template.py:87-105 | a file `save_updated_data` wrote reads back as its own array |
| UpdateInlineData.InlineBlock | update_inline_data.py:24 | the spliced block starts with the marker and is the marker, data.js and 36 characters of script element |
| UpdateInlineData.Untagged | update_inline_data.py:18 | a page without the data.js script tag is unchanged by its removal |
| UpdateInlineData.Splice | update_inline_data.py:21-24 | the cut keeps the whole page around the block: the block sits at the cut (clamped to the end, as slices are) and removing it gives back the page |
| UpdateInlineData.InlinedAsWritten | update_inline_data.py:11-24 | as written: it stops exactly when the original page has no marker, and otherwise the result is the untagged page plus the block |
| UpdateInlineData.Inlined | update_inline_data.py:11-24 | corrected: it stops exactly when the untagged page has no marker |
| UpdateInlineData.InlinedBeforeMarker | update_inline_data.py:11-24 | corrected: the block lands right before the first marker of the untagged page, no marker ahead of it, and removing it gives back the untagged page |
| UpdateInlineData.SpliceBeforeFirst | update_inline_data.py:21-24 | a block spliced in at the first occurrence of a text comes right before it, with no occurrence ahead of it |
| UpdateInlineData.AgreeWithoutTag | update_inline_data.py:11-24 | on a page without the data.js tag, the written and the corrected script agree |
| UpdateInlineData.UntagAfterTag | update_inline_data.py:18 | removing the tag from tag, marker, tag-free text leaves the marker and the text |
| UpdateInlineData.TagBeforeMarkerShiftsSplice | update_inline_data.py:12-24 | as written, a page with the data.js tag before the marker gets the block nine characters past the end of the marker, inside what follows it |
| UpdateInlineData.AsWrittenCut | update_inline_data.py:12-24 | as written, the cut is at the marker's index in the original page, applied to the untagged page |
| UpdateInlineData.TagBeforeMarkerSplicedAtMarker | update_inline_data.py:12-24 | corrected, the same page gets the block right before the marker |
| JsEmit.EscapeQuotes | geocode_all_customers.py:196 | escaping never shortens the name, and every double quote in the result has a backslash before it |
| JsEmit.EscapeRoundTrip | geocode_all_customers.py:196 | unescaping the escaped name gives back the name |
| JsEmit.Indent | geocode_all_customers.py:197 | each entry on its own line, four spaces in, in order |
| JsEmit.TerminatedIsSeparatedPlusComma | geocode_all_customers.py:194-202 | the comma-after-every-entry layout and the comma-between-entries layout hold the same entries in the same order and differ only in the last comma |
| JsEmit.EmitSeparated | geocode_all_customers.py:188-202 | the accumulation loop writes the header, the entries separated by commas, and `];` |
| JsEmit.LastEntryUnterminated | geocode_all_customers.py:198-202 | a non-empty file ends with its last entry and `];`, no comma between |
| HubSpotFields.PropOr | hubspot-api.js:47 | a non-empty property is taken, an empty or missing one gives the default |
| HubSpotFields.RecordId | hubspot-api.js:46 | every record id starts with "hs_" |
| HubSpotFields.BlankIffSpaces | hubspot-api.js:70 | a part is dropped exactly when it is empty or all JavaScript whitespace |
| HubSpotFields.NonBlankParts | hubspot-api.js:65-70 | the filter keeps every non-blank part, in order, and nothing else |
| HubSpotFields.BuildAddressParts | hubspot-api.js:64-73 | with all four parts present the address lists them in order joined by ", "; with none it is empty |
| HubSpotFields.NonBlankKeepsOrDrops | hubspot-api.js:65-70 | a list with no blank part is kept whole, one with only blank parts is emptied |
| HubSpotFields.NameKind | hubspot-api.js:81-88 | a keyword decides one of charter, district or private |
| HubSpotFields.NameKindIgnoresCase | hubspot-api.js:81 | the keywords ignore the case of the name |
| HubSpotFields.Flags | hubspot-geocode-integration.js:223-240 | a products object has exactly the four keys cms, mobile, masscomm and payments, with the given flags |
| HubSpotFields.Lowered | hubspot-geocode-integration.js:222 | each entry lower-cased, in order |
| HubSpotFields.LowerJoin | hubspot-geocode-integration.js:222 | lower-casing a comma-joined list lower-cases each entry |
| HubSpotFields.TokensOfEntries | hubspot-geocode-integration.js:222 | the tokens of a comma-joined list are its entries, lower-cased |
| HubSpotFields.ProductListOfEntries | hubspot-geocode-integration.js:222-228 | a flag is set exactly when one of its spellings is an entry of the list, in any order and any case |
| HubSpotFields.SpacedEntryNotCounted | hubspot-geocode-integration.js:222-228 | "cms, mobile" sets cms but not mobile, because the second entry is " mobile" |
| HubSpotApi.DetermineSchoolType | hubspot-api.js:79-89 | the type is charter, district or private |
| HubSpotApi.SchoolTypeOrder | hubspot-api.js:79-89 | the keywords are tried in order: charter, then district, then private, then academy as charter, else district |
| HubSpotApi.SchoolTypeIgnoresCase | hubspot-api.js:81 | the type does not depend on the case of the name |
| HubSpotApi.ExtractProducts | hubspot-api.js:95-102 | each flag is set exactly when its property is the string 'true' |
| HubSpotApi.ProductsAreCaseSensitive | hubspot-api.js:97 | 'True' sets no flag |
| HubSpotApi.ConvertedFields | hubspot-api.js:42-59 | a school carries the "hs_" id, the 'hubspot' source and the stamp, a non-empty name that is HubSpot's own when it has one, the built address and a known type |
| HubSpotApi.ConvertedAddress | hubspot-api.js:64-73 | with all four address parts the address lists them in order; with none it is empty |
| HubSpotApi.Synced | hubspot-api.js:107-125 | a successful sync converts every company, one school each, in order; a failed fetch or a company without properties fails it |
| HubSpotApi.SyncSucceeds | hubspot-api.js:107-119 | a sync of companies that all have properties succeeds |
| HubSpotApi.FreshForAnHour | hubspot-api.js:141-146 | a sync is fresh for exactly one hour, inclusive, and once stale stays stale until the next sync |
| HubSpotApi.HubSpotClient.constructor | hubspot-api.js:7-12 | a new client has an empty cache and has never synced |
| HubSpotApi.HubSpotClient.SyncData | hubspot-api.js:107-125 | on success the schools are cached under 'schools' and the sync time recorded; on failure nothing changes |
| HubSpotApi.HubSpotClient.GetData | hubspot-api.js:130-136 | the cached list unless forced, uncached or stale, and otherwise a sync; a successful sync stores the list under "schools", leaves the rest of the cache alone and stamps the sync time; whatever is returned is what the cache holds |
| HubSpotGeocodeIntegration.Fetched | hubspot-geocode-integration.js:62-110 | a request returns a place exactly when it finds one, and is cached exactly when it finds one or gets an empty answer |
| HubSpotGeocodeIntegration.GeocodeStep | hubspot-geocode-integration.js:45-111 | an empty address gives null; a cached address gives its cached value, null included, with no request; any other is requested and a place or empty answer is cached |
| HubSpotGeocodeIntegration.RepeatNeedsNoRequest | hubspot-geocode-integration.js:49-51 | asking again after a call that did not fail sends no request and returns the same value |
| HubSpotGeocodeIntegration.FailureIsRetried | hubspot-geocode-integration.js:107-110 | a failed request leaves no trace, so the next call asks again |
| HubSpotGeocodeIntegration.CacheIsTransparent | hubspot-geocode-integration.js:45-111 | a cache that agrees with the service stays so, and the result is the service's answer for the address |
| HubSpotGeocodeIntegration.SchoolTypeCases | hubspot-geocode-integration.js:197-209 | a set school_type wins, lower-cased; without one the type is a keyword kind |
| HubSpotGeocodeIntegration.ProductsCases | hubspot-geocode-integration.js:214-241 | no products field gives CMS only; text starting with '{' is parsed, CMS only when the parse fails; other text is read as a list |
| HubSpotGeocodeIntegration.CoordOrNull | hubspot-geocode-integration.js:165-166 | no geocode gives null |
| HubSpotGeocodeIntegration.HubSpotRecordFields | hubspot-geocode-integration.js:133-169 | a record has the "hs_" id, the built address, the 'hubspot' source, a non-empty name and type, and is geocoded exactly when a place was found; without one its coordinates and display name are null |
| HubSpotGeocodeIntegration.Resolved | hubspot-geocode-integration.js:131-149 | an address of five characters or fewer is not geocoded |
| HubSpotGeocodeIntegration.BatchRecordsSnoc | hubspot-geocode-integration.js:131-173 | one more company of a batch adds its record at the end |
| HubSpotGeocodeIntegration.AfterBatchSnoc | hubspot-geocode-integration.js:131-149 | one more company of a batch adds its answer to the cache |
| HubSpotGeocodeIntegration.BatchEnd | hubspot-geocode-integration.js:129 | a batch is non-empty, at most the batch size, and ends within the list |
| HubSpotGeocodeIntegration.Direct | hubspot-geocode-integration.js:147-149 | an address of five characters or fewer is never looked up |
| HubSpotGeocodeIntegration.AfterBatchConsistent | hubspot-geocode-integration.js:131-171 | a batch keeps a cache that agrees with the service in agreement |
| HubSpotGeocodeIntegration.ResolvedIsDirect | hubspot-geocode-integration.js:131-149 | with an agreeing cache, a call resolves to the direct answer |
| HubSpotGeocodeIntegration.BatchIsDirect | hubspot-geocode-integration.js:131-173 | with an agreeing cache, a batch's records are the direct ones |
| HubSpotGeocodeIntegration.ProcessedStep | hubspot-geocode-integration.js:128-187 | the records are the current batch's followed by the rest's, over the cache the batch leaves |
| HubSpotGeocodeIntegration.ProcessedIsDirect | hubspot-geocode-integration.js:116-192 | with an agreeing cache there is one record per company, in order, each geocoded as a direct request would be: neither the batch size nor the cache changes a record |
| HubSpotGeocodeIntegration.GeocodeIntegration.constructor | hubspot-geocode-integration.js:7-12 | the integration starts with the cache it loaded |
| HubSpotGeocodeIntegration.GeocodeIntegration.GeocodeAddress | hubspot-geocode-integration.js:45-111 | the call returns and caches what the geocoding step prescribes |
| HubSpotGeocodeIntegration.GeocodeIntegration.RunBatch | hubspot-geocode-integration.js:129-173 | every call of a batch checks the cache as it stood when the batch began, then the answers are stored |
| HubSpotGeocodeIntegration.GeocodeIntegration.ProcessHubSpotData | hubspot-geocode-integration.js:116-192 | the records and the new cache are those of processing the batches in order |
| HubSpotGeocodeIntegration.StripScheme | hubspot-geocode-integration.js:287 | a url with neither scheme is unchanged |
| HubSpotGeocodeIntegration.StripWww | hubspot-geocode-integration.js:287 | text not starting with "www." is unchanged |
| HubSpotGeocodeIntegration.DomainOf | hubspot-geocode-integration.js:287 | a domain holds no '/' |
| HubSpotGeocodeIntegration.KeyChars | hubspot-geocode-integration.js:292 | only lower-case letters and digits remain, and never more than the text |
| HubSpotGeocodeIntegration.NameKey | hubspot-geocode-integration.js:291-294 | a name key starts with "name:" |
| HubSpotGeocodeIntegration.CustomerKey | hubspot-geocode-integration.js:283-295 | a customer gets a "domain:" key exactly when it has a website or url |
| HubSpotGeocodeIntegration.HostIsOwnDomain | hubspot-geocode-integration.js:287 | a bare host is its own domain |
| HubSpotGeocodeIntegration.FullUrlSameDomain | hubspot-geocode-integration.js:287 | the same site with "https://www." and a path has the bare host's domain |
| HubSpotGeocodeIntegration.HttpSameDomain | hubspot-geocode-integration.js:287 | an "http://" scheme is dropped too |
| HubSpotGeocodeIntegration.WwwSameDomain | hubspot-geocode-integration.js:287 | a leading "www." is dropped too |
| HubSpotGeocodeIntegration.NameKeyIgnoresCase | hubspot-geocode-integration.js:292-293 | name keys ignore the case of the name and of the state |
| HubSpotGeocodeIntegration.NameKeyIgnoresPunctuation | hubspot-geocode-integration.js:292 | name keys ignore a space, a period or any other character that is not a letter or digit |
| HubSpotGeocodeIntegration.WithSource | hubspot-geocode-integration.js:252-255 | a stored customer keeps every field and has its source, or 'static' |
| HubSpotGeocodeIntegration.Updated | hubspot-geocode-integration.js:264-270 | HubSpot's fields win, the source is 'hubspot_updated' and the old record is kept as originalData |
| HubSpotGeocodeIntegration.KeysOf | hubspot-geocode-integration.js:251-260 | one key per customer, in order |
| HubSpotGeocodeIntegration.StagedEntries | hubspot-geocode-integration.js:247-256 | the staged Map holds one entry per key of the existing customers, the last such customer's |
| HubSpotGeocodeIntegration.Pairs | hubspot-geocode-integration.js:250-256 | the existing customers as key and stored-record pairs, in order |
| HubSpotGeocodeIntegration.OverlaidUntouched | hubspot-geocode-integration.js:259-275 | the overlay keeps one entry per key, and leaves keys no HubSpot customer has alone |
| HubSpotGeocodeIntegration.OverlaidLast | hubspot-geocode-integration.js:259-275 | under a HubSpot customer's key the Map holds the last HubSpot customer with it, laid over what the key held just before |
| HubSpotGeocodeIntegration.MergedEntries | hubspot-geocode-integration.js:246-278 | one record per distinct key of the two lists; a key no HubSpot customer has keeps the staged existing record |
| HubSpotGeocodeIntegration.LastKey | hubspot-geocode-integration.js:259-275 | the last position of a key in a list that has it |
| HubSpotGeocodeIntegration.StageExisting | hubspot-geocode-integration.js:249-256 | fails exactly when getCustomerKey would throw on some existing customer; otherwise each one set under its key in order |
| HubSpotGeocodeIntegration.OverlayHubSpot | hubspot-geocode-integration.js:258-275 | fails exactly when getCustomerKey would throw on some HubSpot customer; otherwise each one laid over the Map in order |
| HubSpotGeocodeIntegration.MergeWithExistingData | hubspot-geocode-integration.js:246-278 | fails exactly when getCustomerKey would throw on some customer; otherwise the two loops set the existing customers into the Map, lay the HubSpot customers over them, and return the Map's values |
| HubSpotGeocodeIntegration.GeocodeIntegration.ResolveOne | hubspot-geocode-integration.js:132-149 | one call of a batch resolves as specified: nothing for a short address, else the cached answer as the batch began, else the request's |
| LiveDataIntegration.ExtractDomain | live-data-integration.js:247-255 | no url gives '' |
| LiveDataIntegration.ExtractDomainCases | live-data-integration.js:247-255 | no url gives ''; a url the URL parser reads gives its hostname without the first "www."; one it rejects gives the raw text without the first "www."; "https://" is put in front only of a url not starting with "http" |
| LiveDataIntegration.BareHostIsItsDomain | live-data-integration.js:247-255 | a bare host without "www." that the parser reads back unchanged is its own domain |
| LiveDataIntegration.OnlyFirstWwwDropped | live-data-integration.js:253 | text the parser rejects loses only its first "www." |
| LiveDataIntegration.Labelled | live-data-integration.js:187-191 | a labelled customer keeps every other field and gets source 'static' and lastUpdated 'static' |
| LiveDataIntegration.LabelledKeepsDomain | live-data-integration.js:186-191 | labelling keeps the url and so the domain |
| LiveDataIntegration.LabellingKeepsDomains | live-data-integration.js:186-191 | labelling keeps the domain of every customer |
| LiveDataIntegration.StaticMapSnoc | live-data-integration.js:139-144 | one more static customer is set under its domain when it has a url, and otherwise skipped |
| LiveDataIntegration.LastStatic | live-data-integration.js:139-144 | the reference reading finds a static customer with a url of the domain |
| LiveDataIntegration.StaticMapEntries | live-data-integration.js:138-144 | the Map keeps one entry per domain, each a customer with a url of that domain |
| LiveDataIntegration.StaticMapEmpty | live-data-integration.js:138-144 | the Map is empty exactly when no static customer has a url |
| LiveDataIntegration.StaticLookup | live-data-integration.js:139-152 | looking a domain up finds the last static customer of that domain |
| LiveDataIntegration.StaticField | live-data-integration.js:157-166 | without a static customer, a field of it is undefined |
| LiveDataIntegration.FromProps | live-data-integration.js:162-172 | a non-empty property is taken, an empty one gives the fallback |
| LiveDataIntegration.DetermineSchoolType | live-data-integration.js:260-275 | the type is never falsy |
| LiveDataIntegration.DetermineSchoolTypeCases | live-data-integration.js:260-275 | a set school_type wins, lower-cased; else a name keyword; only without both the static customer's truthy type, else 'district' |
| LiveDataIntegration.ProductsFallback | live-data-integration.js:303-308 | the fallback is truthy, and CMS only without a static customer |
| LiveDataIntegration.ExtractProductsCases | live-data-integration.js:280-309 | no field gives the fallback; text starting with '{' gives the parse, or the fallback when it throws; other text is read as a list |
| LiveDataIntegration.ComputedFields | live-data-integration.js:155-176 | HubSpot values win over the static customer's, which win over the defaults; coordinates come only from the static customer; the id has "hs_"; name and type are never falsy |
| LiveDataIntegration.EnrichSpread | live-data-integration.js:178 | a company without an id takes every field of its static customer over the computed ones; any other keeps the computed record |
| LiveDataIntegration.FoundByDomain | live-data-integration.js:149-152 | a found static customer has a url of the domain it was found by |
| LiveDataIntegration.RecordDomain | live-data-integration.js:147-182 | a company's record has the domain the company was looked up by |
| LiveDataIntegration.RecordDomains | live-data-integration.js:147-182 | the records' domains are the companies' lookup domains, in order |
| LiveDataIntegration.Unmatched | live-data-integration.js:185-193 | at most one pushed customer per Map entry |
| LiveDataIntegration.UnmatchedKeys | live-data-integration.js:185-193 | every pushed customer has the domain of a Map entry |
| LiveDataIntegration.WithStaticsSplit | live-data-integration.js:185-193 | with one entry per domain, the pushes depend only on the records: a pushed customer never covers a later one |
| LiveDataIntegration.UnmatchedEmpty | live-data-integration.js:185-193 | nothing is pushed exactly when every Map domain is a record's domain |
| LiveDataIntegration.MergedContents | live-data-integration.js:132-217 | the merge is one record per company, in order, then the static customers, one per domain, that no company has; only when that is empty does the labelled static list replace it |
| LiveDataIntegration.FallbackIff | live-data-integration.js:209-216 | the labelled fallback is taken exactly when there are static customers but no company and no static customer with a url |
| LiveDataIntegration.MergedEmptyIff | live-data-integration.js:132-217 | the merge is empty exactly when there is neither a company nor a static customer |
| LiveDataIntegration.LiveData.constructor | live-data-integration.js:7-25 | the integration starts with the static list and nothing merged |
| LiveDataIntegration.LiveData.MergeHubSpotData | live-data-integration.js:132-217 | the static list is kept; it throws exactly when a static url or a company's properties make it throw, leaving mergedData alone; otherwise mergedData is the merge |
| LiveDataIntegration.LiveData.IndexStatics | live-data-integration.js:138-144 | the loop stops exactly when a static url throws; otherwise it builds the Map of domains |
| LiveDataIntegration.LiveData.PushUnmatched | live-data-integration.js:185-193 | the loop pushes each static customer no record so far has the domain of |
| LiveDataIntegration.LiveData.GetMergedData | live-data-integration.js:314-316 | the merge when non-empty; empty only when both lists are |
| LiveDataIntegration.MergedNeedsNoFallback | live-data-integration.js:314-316 | after a merge that did not throw, getMergedData returns the merge itself |
| EnhancedTable.FalsyStays | enhanced-table-component.js:310 | a falsy value stays what it is along any path |
| EnhancedTable.NestedConcat | enhanced-table-component.js:310 | following one path then another is following the two joined |
| EnhancedTable.ShortCircuit | enhanced-table-component.js:310 | the path stops at the first falsy value, whatever follows it |
| EnhancedTable.NestedKeys | enhanced-table-component.js:309-311 | a key without a dot is a plain property; "a.b" reads b of a, unless a is falsy |
| EnhancedTable.CellText | enhanced-table-component.js:290 | a falsy value prints as '' |
| EnhancedTable.Kept | enhanced-table-component.js:285 | the filter never gives more elements than it got |
| EnhancedTable.KeptMembers | enhanced-table-component.js:285 | an element is kept exactly when it is in the list and accepted |
| EnhancedTable.KeptCount | enhanced-table-component.js:285 | the filter keeps each element at most as often as it occurs |
| EnhancedTable.KeptAll | enhanced-table-component.js:285 | when every element is accepted the list is kept whole |
| EnhancedTable.KeptConcat | enhanced-table-component.js:285 | filtering a joined list filters each part, in order |
| EnhancedTable.Filtered | enhanced-table-component.js:285-292 | the search never gives more rows than the data |
| EnhancedTable.FilteredMembers | enhanced-table-component.js:285-292 | a row is kept exactly when some column's text contains the term, no more often than it occurs, and every row is kept when there is no term |
| EnhancedTable.FilteredConcat | enhanced-table-component.js:285-292 | the search keeps the rows' order |
| EnhancedTable.InsertSorted | enhanced-table-component.js:296-303 | inserting adds exactly one element, and the last is the inserted one or the old last |
| EnhancedTable.StableSort | enhanced-table-component.js:296-303 | the sort keeps the number of rows |
| EnhancedTable.InsertCount | enhanced-table-component.js:296-303 | inserting adds the element and loses none |
| EnhancedTable.InsertKeepsSorted | enhanced-table-component.js:296-303 | inserting into a sorted list keeps it sorted |
| EnhancedTable.SortIsPermutation | enhanced-table-component.js:296-303 | the sort rearranges the rows: the same rows, as often as before |
| EnhancedTable.SortIsSorted | enhanced-table-component.js:296-303 | with an asymmetric comparison no row ends up right behind one that goes before it |
| EnhancedTable.SortKeepsTies | enhanced-table-component.js:296-303 | rows no comparison orders keep their order |
| EnhancedTable.BeforeIsAsymmetric | enhanced-table-component.js:296-303 | the comparator never puts two rows each before the other when `<` is asymmetric |
| EnhancedTable.ViewContents | enhanced-table-component.js:283-307 | the view holds the matching rows, each as often as in the data; ascending order never has a value right after a greater one, descending never after a smaller one |
| EnhancedTable.TotalPages | enhanced-table-component.js:211 | with a positive page size the page count is the rounded-up quotient: enough pages for every row and no empty last page |
| EnhancedTable.JsSlice | enhanced-table-component.js:326 | the slice is the run of the list from the clamped start, never longer than the list |
| EnhancedTable.RowOnItsPage | enhanced-table-component.js:324-326 | with k rows a page, row i is on page i / k + 1 at place i % k, and no page holds more than k rows |
| EnhancedTable.SliceAt | enhanced-table-component.js:324-326 | a k-row slice from a start holds row i at place i minus the start |
| EnhancedTable.PagesHoldRows | enhanced-table-component.js:324-326 | every page up to the page count shows a row, and a page past it is empty |
| EnhancedTable.SliceFrom | enhanced-table-component.js:326 | a slice from a start before the end is not empty, and from the end on it is |
| EnhancedTable.Quote | enhanced-table-component.js:412 | an exported cell is wrapped in double quotes |
| EnhancedTable.ConvertToCsv | enhanced-table-component.js:405-417 | the export is empty exactly when there are no rows |
| EnhancedTable.ReadQuoted | enhanced-table-component.js:412 | reading a quoted field consumes at least one character |
| EnhancedTable.ReadEscaped | enhanced-table-component.js:412 | a text with its quotes doubled, followed by the closing quote, reads back as the text |
| EnhancedTable.ParseLast | enhanced-table-component.js:412 | a quoted cell alone reads back as that cell |
| EnhancedTable.ParseFirst | enhanced-table-component.js:412-413 | a quoted cell and a comma read back as that cell ahead of the cells after them |
| EnhancedTable.QuotedLineRoundTrip | enhanced-table-component.js:409-414 | an exported line reads back, under RFC 4180, as exactly the cells it was made from |
| EnhancedTable.RowLineRoundTrip | enhanced-table-component.js:409-414 | each exported row line reads back as the texts of its cells, in column order |
| EnhancedTable.Table.constructor | enhanced-table-component.js:7-22 | an empty table on page 1, ascending, no term and no sort column, with the given columns and 50 rows a page unless a size is given |
| EnhancedTable.Table.FilterAndSort | enhanced-table-component.js:283-307 | the shown rows are the view of the data and the table back on page 1, the rest of the state kept |
| EnhancedTable.Table.Search | enhanced-table-component.js:187-192 | the term is kept lower-cased, the view rebuilt and the table back on page 1 |
| EnhancedTable.Table.SortBy | enhanced-table-component.js:255-266 | the same column flips the direction, another column sorts ascending; the view is rebuilt and the table back on page 1 |
| EnhancedTable.Table.SetData | enhanced-table-component.js:219-224 | the rows are replaced, the view rebuilt and the table back on page 1 |
| EnhancedTable.Table.SetColumns | enhanced-table-component.js:226-229 | the columns are replaced and every other part of the table state is kept |
| EnhancedTable.Table.ChangePageSize | enhanced-table-component.js:195-200 | the page size is the chosen one, or the number of rows shown for "all", and the table back on page 1 |
| EnhancedTable.Table.PrevPage | enhanced-table-component.js:203-208 | back one page, never below 1 |
| EnhancedTable.Table.NextPage | enhanced-table-component.js:210-216 | on one page only while below the page count, never past it |
| EnhancedTable.Table.PageData | enhanced-table-component.js:323-326 | the rows shown are at most the filtered rows |
| RunGeocodingDaemon.EqualEndsNeverOff | run_geocoding_daemon.py:53-56 | a window whose ends coincide holds no hour |
| RunGeocodingDaemon.SwappedWindowIsComplement | run_geocoding_daemon.py:53-56 | swapping a window's ends gives the rest of the day: a wrapping window is the complement of a same-day one |
| RunGeocodingDaemon.DefaultWindow | run_geocoding_daemon.py:49-56 | with the defaults the daemon works at 22:00, 23:00 and from 0:00 to 5:00, and at no other hour |
| RunGeocodingDaemon.MonitorFrom | run_geocoding_daemon.py:73-84 | a signal once seen stays seen, and an exit or termination happens at one of the steps |
| RunGeocodingDaemon.MonitorStopsInTime | run_geocoding_daemon.py:73-84 | by the first step with a signal, a set stop flag or an hour outside the window, the child has exited or been terminated |
| RunGeocodingDaemon.MonitorReasons | run_geocoding_daemon.py:73-84 | the child is terminated only when the flag is set or the hour is outside the window; the steps run out only when none had a signal, an exit or an hour outside the window |
| RunGeocodingDaemon.RoundsFrom | run_geocoding_daemon.py:99-121 | the rounds run are a prefix of the rounds given |
| RunGeocodingDaemon.StopsOnlyOnStop | run_geocoding_daemon.py:99-121 | the loop is left only once a round sets the stop flag: every earlier round kept it clear |
| RunGeocodingDaemon.GeocodingDaemon.constructor | run_geocoding_daemon.py:27-40 | no stop, no child, and the window from 22 to 6 |
| RunGeocodingDaemon.GeocodingDaemon.SignalHandler | run_geocoding_daemon.py:42-47 | the stop flag is set and a running child is terminated |
| RunGeocodingDaemon.GeocodingDaemon.RunGeocoding | run_geocoding_daemon.py:58-93 | the watch ends as the monitor prescribes; the flag records any signal; the child is terminated when the monitor says so or a signal came; no child is left |
| RunGeocodingDaemon.GeocodingDaemon.Wait | run_geocoding_daemon.py:110-114 | the wait lasts 1800 seconds, or until a signal sets the flag, or not at all when it was already set |
| RunGeocodingDaemon.GeocodingDaemon.RunDaemon | run_geocoding_daemon.py:95-123 | with the flag set nothing runs; otherwise the rounds up to the first that sets the flag run, and the flag ends set exactly when the last round run set it |

## Left out

- Network traffic: the Nominatim requests, the HubSpot fetches in hubspot-api.js and live-data-integration.js (`fetchCompanies`, `initialize`, `syncHubSpotData`, `startPeriodicSync`, `syncNow`, `configureAPIs`), and the proxy endpoints. An answer is a parameter: a sequence of service answers, an oracle function, or the list of companies a fetch returned, with None for a failed request.
- Wall-clock behaviour: `time.sleep`, the `2**attempt` backoff, rate-limit waits, the daemon's 60-second and 1800-step sleeps, timers, and `Date.now`/`datetime.now` stamps. Only retry counts, the order of attempts and which steps sleep are kept; a time stamp is a parameter.
- Process control: signal delivery, `subprocess.Popen` and its exceptions, `Promise.all` concurrency and the `--now`/`--test` modes of the daemon's entry point. Signals and the current hour are inputs of the daemon's steps.
- Parsing and serialising JSON, CSV and Excel files, and the file reads and writes themselves. Loaded data are sequences of rows, and files are a name-to-content map. The text of `data.js` is modelled where the scripts build or slice it. JSON.parse of products is a parameter.
- Floating point: latitudes and longitudes are opaque values compared only for truthiness. Success rates, percentages and the size estimates are not modelled.
- The regex engine behind the name patterns of geocode_apptegy_schools.py is an uninterpreted matcher. Only the rule that a match needs two capture groups is kept.
- The URL parser behind `extractDomain` in live-data-integration.js is a parameter: the hostname, or None where parsing throws. (`getCustomerKey` in hubspot-geocode-integration.js uses no parser; its scheme and "www." removal and its split on '/' are written out.)
- Number-to-string conversion and JavaScript's `<` between mixed values are parameters of the table component. Array-valued cells are not modelled: a cell is a string, number, boolean, null, undefined or object.
- Case mapping is ASCII only. Python's and JavaScript's Unicode case tables are not modelled.
- Whitespace for Python's `strip` is ASCII only (space, tab to carriage return, and the separators U+001C to U+001F). U+00A0 and the other Unicode spaces Python also strips are not modelled. Whitespace for JavaScript's `trim` (used by `Text.Trim` and `HubSpotFields.Blank`) is the ASCII set plus U+00A0; U+FEFF, U+1680, U+2000 to U+200A, U+2028, U+2029, U+202F, U+205F and U+3000, which `trim` also removes, are not modelled.
- The table's sort: `Array.prototype.sort` is modelled as a stable insertion sort under the comparator. The engine's algorithm is not modelled, and neither is its order for comparators that are not consistent.
- In enhanced-table-component.js: DOM construction, styling and rendering (`init`, `createTableStructure`, `addTableStyles`, `attachEventListeners`, `render`, `renderHeaders`, `renderBody`, `renderPagination`, `renderStats`, `updateSortIndicators`, `highlightRow`) and `refresh`, which only calls `render`. `Table.PageData` models only the page slice `renderBody` shows. The download performed by `exportData` (only `convertToCSV` is modelled) and lookups of properties of primitive values in `getNestedValue` are left out too. `setColumns` is `Table.SetColumns` without its `renderHeaders` call.
- In hubspot-geocode-integration.js: `loadCache`/`saveCache` (localStorage), the rate-limit delay and the `onProgress` callback.
- In live-data-integration.js: `refreshStaticData`'s global variables, `getStatus`, and the first `getMergedData`, which the second definition overrides.
- In hubspot-api.js: `fetchCompanies` and `getStatus`.
- Logging and printing everywhere. This includes the sorted top-ten summaries of process_apptegy_data.py and extract_geocoded_progress.py and the type breakdown of geocode_with_dedup.py.
- The cache files of update_from_cache.py, geocode_all_customers.py and the geocoders are loaded maps. Their reading and writing, and the header date written to `data.js`, are not modelled.
- The daemon's generic exception handler is not modelled. A failing geocoding run is an input of the round.
- customers_backup.json, which geocode_all_customers.py and update_from_cache.py write next to data.js, is not modelled.
- Records.AddressOf: a batch entry without a location gives an empty address, where Python's `.get('address', {})` on `None` raises. The merge scripts read only the successful results, which always have a location.
- The scripts that only launch or import merge_geocoded_data_v2.py (run_merge.py, run_merge_now.py, run_merge_via_subprocess.py, execute_merge_now.py, inline_merge.py, analyze_and_merge.py) are not part of this model. merge_geocoded_data_v2.py itself is not part of the repository's files. execute_merge.py's call to it is an input that succeeds or fails.
- comprehensive_analysis.py, check_geocoding_status.py, check_excel.py, create_competitor_data.py and data.js hold reporting, random data or a literal table. They are not part of this model.

## Findings

| source | as written | input that shows it | evidently intended | confidence | as-written member | corrected member |
|---|---|---|---|---|---|---|
| geocode_apptegy_schools.py:397-408 | each row's index is the current resume index plus its position in the run, and the resume index is then set past that index, so after k rows it has moved by k(k+1)/2 | a run from index 50 that is interrupted after two rows saves 53, so row 52 is never processed when the run resumes | the index of the row at position i is the run's start plus i, so a checkpoint after k rows resumes at start + k | not executed | ApptegyGeocoder.AsWrittenSkipsRow | ApptegyGeocoder.CorrectedResumes |
| add_product_data_template.py:39-42 | a product flag is `bool` of the cell, so the text "N" and a NaN cell both read as having the product | a product-sheet row whose CMS column holds "N" | "N", "No" (any case), blank and NaN cells read as no; other cells as Python's truthiness | not executed | AddProductData.RowProductsOfNoCell | AddProductData.YesNoFlagAgreement |
| update_inline_data.py:12-22 | the marker's index is found in the page before the data.js script tag is removed, and the cut is then made in the page without the tag | a page holding `<script src="data.js"></script>` before `<!-- Customer Data -->`: the inline block lands inside the text after the marker, 9 characters past the end of the marker | the block is spliced right before the marker of the page it is inserted into | not executed | UpdateInlineData.TagBeforeMarkerShiftsSplice | UpdateInlineData.TagBeforeMarkerSplicedAtMarker |

=== FILE: add_product_data_template.dfy ===
/**
 * add_product_data_template.py: the customers read back from data.js, a
 * product table keyed by lower-cased school name, each customer given the
 * products of its exact or first partial match (CMS only when none
 * matches), and data.js written again with the products.
 */
module AddProductData {
  import opened Wrappers
  import opened Text
  import opened Service
  import opened Sheet
  import opened JsEmit
  import opened OrderedMaps
  import Seqs

  // ----- Reading data.js back -----------------------------------------------

  /** Python's normalisation of a slice bound against a length n. */
  function SliceBound(i: int, n: nat): (k: nat)
    ensures k <= n
    ensures 0 <= i <= n ==> k == i
  {
    if i < 0 then (if i + n < 0 then 0 else i + n) else if i > n then n else i
  }

  /** `s[a:b]` with Python's negative and out-of-range bounds. */
  function PySlice(s: string, a: int, b: int): (r: string)
    ensures |r| <= |s|
  {
    var lo := SliceBound(a, |s|);
    var hi := SliceBound(b, |s|);
    if lo < hi then s[lo..hi] else []
  }

  /** `content[content.find('['):content.rfind(']') + 1]`. */
  function ArraySlice(content: string): string
  {
    PySlice(content, Find(content, "["), RFind(content, "]") + 1)
  }

  /** The text handed to json.loads: the slice with ",\n]" and then ",\n}" trailing commas removed. */
  function JsonText(content: string): string
  {
    ReplaceAll(ReplaceAll(ArraySlice(content), ",\n]", "\n]"), ",\n}", "\n}")
  }

  /** When the first '[' comes before the last ']', the slice runs from one to the other, both included. */
  lemma BracketedSlice(content: string)
    requires Contains(content, "[") && Contains(content, "]")
    requires Find(content, "[") <= RFind(content, "]")
    ensures ArraySlice(content) == content[Find(content, "[")..RFind(content, "]") + 1]
    ensures StartsWith(ArraySlice(content), "[") && EndsWith(ArraySlice(content), "]")
  {
    var a, b := BracketsAt(content);
    SliceBetween(content, a, b);
    EndsAt(content, a, b);
  }

  /** Where the first '[' and the last ']' are found, the text holds them. */
  lemma BracketsAt(content: string) returns (a: nat, b: nat)
    requires Contains(content, "[") && Contains(content, "]")
    ensures a == Find(content, "[") && a < |content| && content[a] == '['
    ensures b == RFind(content, "]") && b < |content| && content[b] == ']'
  {
    a, b := Find(content, "["), RFind(content, "]");
    OccursAtOne(content, '[', a);
    OccursAtOne(content, ']', b);
  }

  /** Bounds inside the text are taken as they are. */
  lemma SliceBetween(content: string, a: int, b: int)
    requires 0 <= a <= b < |content|
    ensures PySlice(content, a, b + 1) == content[a..b + 1]
  {
  }

  /** A slice from a '[' to a ']', both included, starts and ends with them. */
  lemma EndsAt(content: string, a: int, b: int)
    requires 0 <= a <= b < |content| && content[a] == '[' && content[b] == ']'
    ensures StartsWith(content[a..b + 1], "[") && EndsWith(content[a..b + 1], "]")
  {
    var t := content[a..b + 1];
    assert t[..1] == "[";
    assert t[|t| - 1..] == "]";
  }

  /** Without any '[' the find gives -1, which Python reads as the last character: at most "]" survives. */
  lemma NoOpeningBracket(content: string)
    requires !Contains(content, "[")
    ensures ArraySlice(content) == "" || ArraySlice(content) == "]"
  {
    var b := RFind(content, "]");
    if b != -1 && b + 1 == |content| && |content| > 0 {
      OccursAtOne(content, ']', b);
      assert content[|content| - 1..|content|] == [content[|content| - 1]];
    }
  }

  /** A slice with no trailing comma before a closing bracket or brace is handed over unchanged. */
  lemma CommaFixKeepsCleanText(content: string)
    requires !Contains(ArraySlice(content), ",\n]") && !Contains(ArraySlice(content), ",\n}")
    ensures JsonText(content) == ArraySlice(content)
  {
  }

  // ----- Product flags --------------------------------------------------------

  datatype Products = Products(cms: bool, mobile: bool, masscomm: bool, payments: bool)

  /** What an unmatched customer gets. */
  const CmsOnly := Products(true, false, false, false)

  /** `bool(row.get(col, False))` as written: any non-empty text, "N" included, and a blank (NaN) cell are true. */
  predicate PyFlag(v: Option<Cell>)
  {
    v.Some? && CellTruthy(v.value)
  }

  /**
   * The flag the columns' Y/N convention calls for: "N" and "No" (any case,
   * surrounding spaces ignored) and blank cells are false; everything else
   * reads as Python's truthiness does.
   */
  predicate YesNoFlag(v: Option<Cell>)
  {
    match v
    case None => false
    case Some(NaN) => false
    case Some(Number(x, _)) => x != 0.0
    case Some(Str(s)) => var t := Upper(Strip(s)); t != "" && t != "N" && t != "NO"
  }

  /** As written, a "N" cell and a blank cell both count as having the product. */
  lemma PyFlagReadsNoAsYes()
    ensures PyFlag(Some(Str("N"))) && PyFlag(Some(NaN))
    ensures !YesNoFlag(Some(Str("N"))) && !YesNoFlag(Some(NaN))
  {
    assert Strip("N") == "N" by { StripStripped("N"); }
    assert Upper("N") == "N";
  }

  /** The corrected flag reads "Y" as true, and agrees with Python on absent cells, numbers and empty text. */
  lemma YesNoFlagAgreement(v: Option<Cell>)
    ensures YesNoFlag(Some(Str("Y")))
    ensures !YesNoFlag(Some(Str("N"))) && !YesNoFlag(Some(Str("No"))) && !YesNoFlag(Some(Str(""))) && !YesNoFlag(Some(NaN))
    ensures (v.None? || v.value.Number? || v == Some(Str(""))) ==> (YesNoFlag(v) <==> PyFlag(v))
    ensures YesNoFlag(v) ==> PyFlag(v)
  {
    assert Strip("Y") == "Y" by { StripStripped("Y"); }
    assert Upper("Y") == "Y";
    assert Strip("N") == "N" by { StripStripped("N"); }
    assert Upper("N") == "N";
    assert Strip("No") == "No" by { StripStripped("No"); }
    assert Upper("No") == "NO";
    assert Strip("") == "" by { StripStripped(""); }
  }

  /**
   * A product flag: as written (`corrected` false) Python's `bool()` of the
   * cell, corrected the yes/no reading.
   */
  predicate Flag(v: Option<Cell>, corrected: bool)
  {
    if corrected then YesNoFlag(v) else PyFlag(v)
  }

  // ----- The product lookup ---------------------------------------------------

  const NameColumn := "School or District Name"

  /** A product row's key: `str(row[...]).strip().lower()`. */
  function RowKey(row: Row): string
    requires NameColumn in row
  {
    Lower(Strip(CellStr(row[NameColumn])))
  }

  /** A product row's products, the four flags read as written or corrected. */
  function RowProducts(row: Row, corrected: bool): Products
  {
    Products(Flag(Lookup(row, "CMS"), corrected), Flag(Lookup(row, "Mobile App"), corrected),
             Flag(Lookup(row, "Mass Communications"), corrected), Flag(Lookup(row, "Payments"), corrected))
  }

  /**
   * A row whose CMS cell is "N": as written it gives CMS, corrected it does
   * not; every flag of a row agrees between the two readings when its cell
   * is missing, a number or empty text.
   */
  lemma RowProductsOfNoCell(row: Row)
    requires Lookup(row, "CMS") == Some(Str("N"))
    ensures RowProducts(row, false).cms && !RowProducts(row, true).cms
  {
    PyFlagReadsNoAsYes();
  }

  /** `product_lookup`: lower-cased, stripped names to products, in insertion order (a dict's entries). */
  type Table = Dict<string, Products>

  /** A product row's key and products. */
  function Entry(row: Row, corrected: bool): (string, Products)
    requires NameColumn in row
  {
    (RowKey(row), RowProducts(row, corrected))
  }

  /** The rows' entries, in row order. */
  function Entries(rows: seq<Row>, corrected: bool): (es: Table)
    requires forall i :: 0 <= i < |rows| ==> NameColumn in rows[i]
    ensures |es| == |rows|
  {
    if rows == [] then [] else Entries(rows[..|rows| - 1], corrected) + [Entry(rows[|rows| - 1], corrected)]
  }

  lemma {:induction false} EntriesAt(rows: seq<Row>, i: nat, corrected: bool)
    requires forall i :: 0 <= i < |rows| ==> NameColumn in rows[i]
    requires i < |rows|
    ensures Entries(rows, corrected)[i] == Entry(rows[i], corrected)
  {
    if i < |rows| - 1 {
      EntriesAt(rows[..|rows| - 1], i, corrected);
    }
  }

  /** The same for the rows themselves: the products of the last row whose key is k. */
  lemma LookupOfRows(rows: seq<Row>, k: string, corrected: bool)
    requires forall i :: 0 <= i < |rows| ==> NameColumn in rows[i]
    ensures var es := Entries(rows, corrected); var j := LastWith(es, k);
      && (j.Some? ==> RowKey(rows[j.value]) == k && Get(Assigned(es), k) == Some(RowProducts(rows[j.value], corrected)))
      && (j.None? <==> Get(Assigned(es), k).None?)
  {
    var es := Entries(rows, corrected);
    AssignedIsLast(es, k);
    if LastWith(es, k).Some? {
      EntriesAt(rows, LastWith(es, k).value, corrected);
    }
  }

  /**
   * The first loop of `add_product_data`: one dict assignment per row, in
   * row order; a row without the name column raises a KeyError (None).
   */
  method BuildLookup(rows: seq<Row>, corrected: bool) returns (lookup: Option<Table>)
    ensures lookup.None? <==> exists i :: 0 <= i < |rows| && NameColumn !in rows[i]
    ensures lookup.Some? ==> ((forall i :: 0 <= i < |rows| ==> NameColumn in rows[i])
                               && lookup.value == Assigned(Entries(rows, corrected)))
  {
    var t: Table := [];
    for i := 0 to |rows|
      invariant forall j :: 0 <= j < i ==> NameColumn in rows[j]
      invariant t == Assigned(Entries(rows[..i], corrected))
    {
      if NameColumn !in rows[i] {
        return None;
      }
      LookupStep(rows, i, corrected);
      t := Put(t, RowKey(rows[i]), RowProducts(rows[i], corrected));
    }
    assert rows[..|rows|] == rows;
    return Some(t);
  }

  /** One more row of the first loop assigns its entry. */
  lemma LookupStep(rows: seq<Row>, i: nat, corrected: bool)
    requires i < |rows| && forall j :: 0 <= j <= i ==> NameColumn in rows[j]
    ensures Assigned(Entries(rows[..i + 1], corrected))
      == Put(Assigned(Entries(rows[..i], corrected)), RowKey(rows[i]), RowProducts(rows[i], corrected))
  {
    assert rows[..i + 1][..i] == rows[..i];
    assert Entries(rows[..i + 1], corrected)[..i] == Entries(rows[..i], corrected);
  }

  // ----- Matching -------------------------------------------------------------

  /** Whether a key partially matches a name: one contains the other. */
  predicate Partial(key: string, name: string)
  {
    Contains(name, key) || Contains(key, name)
  }

  /** The first entry, in insertion order, whose key partially matches. */
  function FirstPartial(t: Table, name: string, i: nat): (r: Option<nat>)
    ensures r.Some? ==> i <= r.value < |t| && Partial(t[r.value].0, name)
    ensures r.Some? ==> forall k :: i <= k < r.value ==> !Partial(t[k].0, name)
    ensures r.None? ==> forall k :: i <= k < |t| ==> !Partial(t[k].0, name)
    decreases |t| - i
  {
    if i >= |t| then None
    else if Partial(t[i].0, name) then Some(i)
    else FirstPartial(t, name, i + 1)
  }

  /** The key a customer name is matched with: `name.lower().strip()`. */
  function MatchKey(name: string): string
  {
    Strip(Lower(name))
  }

  /** A customer's products, and whether they came from a match. */
  function ProductsFor(t: Table, name: string): (r: (Products, bool))
    ensures Get(t, MatchKey(name)).Some? ==> r == (Get(t, MatchKey(name)).value, true)
    ensures !r.1 ==> r.0 == CmsOnly && forall k :: 0 <= k < |t| ==> !Partial(t[k].0, MatchKey(name))
  {
    var n := MatchKey(name);
    match Get(t, n)
    case Some(p) => (p, true)
    case None =>
      match FirstPartial(t, n, 0)
      case Some(i) => (t[i].1, true)
      case None => (CmsOnly, false)
  }

  /**
   * Without an exact match, a customer gets the first entry whose key
   * contains its name or is contained in it, and it is matched exactly when
   * such an entry exists.
   */
  lemma PartialMatch(t: Table, name: string)
    requires Get(t, MatchKey(name)).None?
    ensures ProductsFor(t, name).1 <==> exists k :: 0 <= k < |t| && Partial(t[k].0, MatchKey(name))
    ensures ProductsFor(t, name).1 ==> exists k :: (0 <= k < |t| && Partial(t[k].0, MatchKey(name))
      && ProductsFor(t, name).0 == t[k].1 && forall k' :: 0 <= k' < k ==> !Partial(t[k'].0, MatchKey(name)))
  {
  }

  /** A blank name is in every key, so it matches as soon as the lookup has an entry. */
  lemma BlankNameAlwaysMatches(t: Table, name: string)
    requires MatchKey(name) == "" && t != []
    ensures ProductsFor(t, name).1
  {
    assert OccursAt(t[0].0, "", 0);
  }

  // ----- The customers --------------------------------------------------------

  /** A customer dict read back from data.js; only its products are changed. */
  class Customer {
    const name: string
    const lat: Coord
    const lng: Coord
    const url: string
    const kind: string
    const state: string
    var products: Option<Products>

    constructor (name: string, lat: Coord, lng: Coord, url: string, kind: string, state: string)
      ensures this.name == name && this.lat == lat && this.lng == lng
      ensures this.url == url && this.kind == kind && this.state == state
      ensures products == None
    {
      this.name, this.lat, this.lng := name, lat, lng;
      this.url, this.kind, this.state := url, kind, state;
      products := None;
    }
  }

  /** What each customer is matched with, in order. */
  function Matches(t: Table, cs: seq<Customer>): (ms: seq<(Products, bool)>)
    ensures |ms| == |cs|
  {
    Seqs.Mapped(cs, (c: Customer) => ProductsFor(t, c.name))
  }

  lemma MatchesAt(t: Table, cs: seq<Customer>, k: nat)
    requires k < |cs|
    ensures Matches(t, cs)[k] == ProductsFor(t, cs[k].name)
  {
    Seqs.MappedAt(cs, (c: Customer) => ProductsFor(t, c.name), k);
  }

  /** How many of the outcomes are matches. */
  function MatchedCount(ms: seq<(Products, bool)>): (n: nat)
    ensures n <= |ms|
  {
    if ms == [] then 0 else MatchedCount(ms[..|ms| - 1]) + if ms[|ms| - 1].1 then 1 else 0
  }

  /**
   * `add_product_data`, with the flags read as written or corrected: a
   * product sheet without the name column raises before any customer is
   * touched (`ok` false); otherwise every customer gets the products of its
   * match in place (a customer listed twice gets them twice, to the same
   * effect), the same customers come back in the same order, and the
   * matched and unmatched counts add up to their number.
   */
  method AddProductData(customers: seq<Customer>, rows: seq<Row>, corrected: bool)
    returns (ok: bool, updated: seq<Customer>, matched: nat, unmatched: nat)
    modifies set c | c in customers
    ensures ok <==> forall i :: 0 <= i < |rows| ==> NameColumn in rows[i]
    ensures !ok ==> forall c :: c in customers ==> c.products == old(c.products)
    ensures ok ==> updated == customers
    ensures ok ==> var ms := Matches(Assigned(Entries(rows, corrected)), customers);
      && (forall k :: 0 <= k < |customers| ==> customers[k].products == Some(ms[k].0))
      && matched == MatchedCount(ms) && matched + unmatched == |customers|
  {
    var lookup := BuildLookup(rows, corrected);
    if lookup.None? {
      return false, [], 0, 0;
    }
    ok := true;
    updated, matched, unmatched := ApplyLookup(customers, lookup.value);
  }

  /** The matching loop of `add_product_data` over the built lookup. */
  method ApplyLookup(customers: seq<Customer>, lookup: Table) returns (updated: seq<Customer>, matched: nat, unmatched: nat)
    modifies set c | c in customers
    ensures updated == customers
    ensures var ms := Matches(lookup, customers);
      && (forall k :: 0 <= k < |customers| ==> customers[k].products == Some(ms[k].0))
      && matched == MatchedCount(ms) && matched + unmatched == |customers|
  {
    ghost var ms := Matches(lookup, customers);
    updated, matched, unmatched := [], 0, 0;
    for i := 0 to |customers|
      invariant updated == customers[..i]
      invariant forall k :: 0 <= k < i ==> customers[k].products == Some(ms[k].0)
      invariant matched == MatchedCount(ms[..i]) && matched + unmatched == i
    {
      assert customers[..i + 1] == customers[..i] + [customers[i]];
      updated := updated + [customers[i]];
      matched, unmatched := AssignProducts(lookup, customers, i, ms, matched, unmatched);
    }
    assert customers[..|customers|] == customers;
    assert ms[..|customers|] == ms;
  }

  /**
   * The loop body: match customer i, set its `products` and count it; a
   * customer met earlier in the list that is the same object gets the same
   * products.
   */
  method AssignProducts(lookup: Table, customers: seq<Customer>, i: nat, ghost ms: seq<(Products, bool)>, matched0: nat, unmatched0: nat)
    returns (matched: nat, unmatched: nat)
    requires i < |customers| && ms == Matches(lookup, customers)
    requires forall k :: 0 <= k < i ==> customers[k].products == Some(ms[k].0)
    requires matched0 == MatchedCount(ms[..i]) && matched0 + unmatched0 == i
    modifies customers[i]
    ensures forall k :: 0 <= k <= i ==> customers[k].products == Some(ms[k].0)
    ensures matched == MatchedCount(ms[..i + 1]) && matched + unmatched == i + 1
  {
    assert ms[..i + 1][..i] == ms[..i];
    var customer := customers[i];
    var p, found := MatchCustomer(lookup, customer.name);
    matched, unmatched := if found then matched0 + 1 else matched0, if found then unmatched0 else unmatched0 + 1;
    MatchesAt(lookup, customers, i);
    customer.products := Some(p);
    forall k | 0 <= k < i && customers[k] == customer
      ensures ms[k] == ms[i]
    {
      Seqs.MappedSame(customers, (c: Customer) => ProductsFor(lookup, c.name), k, i);
    }
  }

  /** The matching for one customer: the exact key, else the loop over the keys with its `break`. */
  method MatchCustomer(lookup: Table, name: string) returns (p: Products, found: bool)
    ensures (p, found) == ProductsFor(lookup, name)
  {
    var n := Strip(Lower(name));
    var exact := Get(lookup, n);
    if exact.Some? {
      return exact.value, true;
    }
    for i := 0 to |lookup|
      invariant FirstPartial(lookup, n, 0) == FirstPartial(lookup, n, i)
    {
      if Contains(n, lookup[i].0) || Contains(lookup[i].0, n) {
        return lookup[i].1, true;
      }
    }
    return CmsOnly, false;
  }

  // ----- Writing data.js ------------------------------------------------------

  function DigitChar(d: nat): char
    requires d < 10
  {
    "0123456789"[d]
  }

  /** The decimal text of a count. */
  function Decimal(n: nat): (s: string)
    ensures s != [] && forall i :: 0 <= i < |s| ==> '0' <= s[i] <= '9'
  {
    if n < 10 then [DigitChar(n)] else Decimal(n / 10) + [DigitChar(n % 10)]
  }

  function BoolText(b: bool): string
  {
    if b then "true" else "false"
  }

  /** `json.dumps(customer.get('products', {}))`. */
  function ProductsJson(p: Option<Products>): string
  {
    match p
    case None => "{}"
    case Some(q) =>
      "{\"cms\": " + BoolText(q.cms) + ", \"mobile\": " + BoolText(q.mobile) + ", \"masscomm\": "
        + BoolText(q.masscomm) + ", \"payments\": " + BoolText(q.payments) + "}"
  }

  /** One written entry; names and other text go out unescaped. */
  function EntryText(c: Customer, show: Coord -> string): string
    reads c
  {
    ObjectLiteral([("name", Quoted(c.name)), ("lat", show(c.lat)), ("lng", show(c.lng)), ("url", Quoted(c.url)),
                   ("type", Quoted(c.kind)), ("state", Quoted(c.state)), ("products", ProductsJson(c.products))])
  }

  function EntryTexts(cs: seq<Customer>, show: Coord -> string): (r: seq<string>)
    reads set c | c in cs
    ensures |r| == |cs|
  {
    if cs == [] then [] else EntryTexts(cs[..|cs| - 1], show) + [EntryText(cs[|cs| - 1], show)]
  }

  /** The three comment lines save_updated_data writes before the declaration. */
  function Header(count: nat): (h: string)
    ensures '[' !in h
  {
    "// Real Edlio " + "customer data " + "with product " + "information\n"
      + "// Updated with " + "product data\n"
      + "// Total " + "customers: " + Decimal(count) + "\n"
  }

  /** The file `save_updated_data` writes: every entry, the last included, followed by a comma. */
  function SavedFile(cs: seq<Customer>, show: Coord -> string): string
    reads set c | c in cs
  {
    TerminatedFile(Header(|cs|), EntryTexts(cs, show))
  }

  /** `save_updated_data`: the header lines, one line per customer, and `];`. */
  method SaveUpdatedData(customers: seq<Customer>, show: Coord -> string) returns (text: string)
    ensures text == SavedFile(customers, show)
  {
    var body := "";
    ghost var lines: seq<string> := [];
    for i := 0 to |customers|
      invariant lines == Indent(EntryTexts(customers[..i], show))
      invariant body == Terminated(lines)
    {
      lines, body := AppendEntry(customers, i, show, lines, body);
    }
    assert customers[..|customers|] == customers;
    text := Header(|customers|) + Declaration + "[\n" + body + "];\n";
  }

  /** The loop body: one more line, indented and followed by a comma. */
  method AppendEntry(customers: seq<Customer>, i: nat, show: Coord -> string, ghost lines0: seq<string>, body0: string)
    returns (ghost lines: seq<string>, body: string)
    requires i < |customers|
    requires lines0 == Indent(EntryTexts(customers[..i], show)) && body0 == Terminated(lines0)
    ensures body == Terminated(Indent(EntryTexts(customers[..i + 1], show)))
    ensures lines == Indent(EntryTexts(customers[..i + 1], show))
  {
    assert customers[..i + 1][..i] == customers[..i];
    var line := "    " + EntryText(customers[i], show);
    assert Terminated(lines0 + [line]) == Terminated(lines0) + line + ",\n" by {
      assert (lines0 + [line])[..|lines0|] == lines0;
    }
    body := body0 + line + ",\n";
    lines := lines0 + [line];
  }

  /**
   * Reading back a terminated file: its array is sliced from the "[" after
   * `const customers =` to the "]" of the closing `];`, whatever the entries
   * contain, as long as the header holds no "[".
   */
  lemma TerminatedFileSlice(header: string, entries: seq<string>)
    requires '[' !in header
    ensures ArraySlice(TerminatedFile(header, entries)) == "[\n" + Terminated(Indent(entries)) + "]"
  {
    assert '[' !in header + Declaration by {
      assert '[' !in Declaration;
    }
    ClosedArraySlice(header + Declaration, Terminated(Indent(entries)));
  }

  /** The slice of a text that ends in the array's `];` and has no "[" before the array. */
  lemma ClosedArraySlice(head: string, body: string)
    requires '[' !in head
    ensures ArraySlice(head + "[\n" + body + "];\n") == "[\n" + body + "]"
  {
    var s := head + "[\n" + body + "];\n";
    var mid := "\n" + body;
    Regroup(head, body);
    assert ']' !in ";\n";
    Enclosed(head, '[', mid, ']', ";\n");
    SliceBetween(s, |head|, |head| + |mid| + 1);
  }

  lemma Regroup(head: string, body: string)
    ensures head + "[\n" + body + "];\n" == head + ['['] + ("\n" + body) + [']'] + ";\n"
    ensures ['['] + ("\n" + body) + [']'] == "[\n" + body + "]"
  {
  }

  /** A file this script wrote reads back as its array, from "[" to the final "]". */
  lemma SavedFileSlice(cs: seq<Customer>, show: Coord -> string)
    ensures ArraySlice(SavedFile(cs, show)) == "[\n" + Terminated(Indent(EntryTexts(cs, show))) + "]"
  {
    TerminatedFileSlice(Header(|cs|), EntryTexts(cs, show));
  }
}

=== FILE: address_clean.dfy ===
/**
 * The address clean-up shared by intelligent_geocoder.py and
 * geocode_with_dedup.py: the kept parts are joined with ", ", whitespace runs
 * become one space, a comma, optional whitespace and a comma become one
 * comma, and commas and spaces are stripped from both ends.
 */
module AddressClean {
  import opened Text

  predicate CommaOrSpace(c: char)
  {
    c == ',' || c == ' '
  }

  /** Every whitespace character is a plain space. */
  predicate PlainSpaces(s: string)
  {
    forall i :: 0 <= i < |s| && IsSpace(s[i]) ==> s[i] == ' '
  }

  /**
   * re.sub(r',\s*,', ',', s): scanning left to right, a comma followed by
   * optional whitespace and another comma becomes one comma, and scanning
   * resumes after the second comma.
   */
  function CommaSub(s: string): (r: string)
    ensures |r| <= |s|
    ensures PlainSpaces(s) ==> PlainSpaces(r)
    decreases |s|
  {
    if s == [] then []
    else
      var t := LStripBy(s[1..], IsSpace);
      if s[0] == ',' && t != [] && t[0] == ',' then
        LStripBySuffix(s[1..], IsSpace);
        assert PlainSpaces(s) ==> PlainSpaces(t[1..]) by {
          assert t[1..] == s[|s| - |t| + 1..];
        }
        [','] + CommaSub(t[1..])
      else
        assert PlainSpaces(s) ==> PlainSpaces(s[1..]);
        [s[0]] + CommaSub(s[1..])
  }

  /** The clean-up applied to the joined address. */
  function Tidy(s: string): (r: string)
    ensures r == [] || (!CommaOrSpace(r[0]) && !CommaOrSpace(r[|r| - 1]))
    ensures PlainSpaces(r)
  {
    var c := CollapseSpaces(s);
    assert PlainSpaces(c);
    var t := CommaSub(c);
    var l := LStripBy(t, CommaOrSpace);
    LStripBySuffix(t, CommaOrSpace);
    assert PlainSpaces(l) by {
      assert forall i :: 0 <= i < |l| ==> l[i] == t[|t| - |l| + i];
    }
    RStripByPrefix(l, CommaOrSpace);
    var r := RStripBy(l, CommaOrSpace);
    assert forall i :: 0 <= i < |r| ==> r[i] == l[i];
    r
  }

  /** `', '.join(parts)` followed by the clean-up. */
  function CleanJoined(parts: seq<string>): (r: string)
    ensures r == [] || (!CommaOrSpace(r[0]) && !CommaOrSpace(r[|r| - 1]))
    ensures forall i :: 0 <= i < |r| && IsSpace(r[i]) ==> r[i] == ' '
  {
    Tidy(Join(parts, ", "))
  }

  /**
   * A part that needs no cleaning: not empty, no comma, no whitespace at
   * either end, and only single plain spaces inside.
   */
  predicate CleanPart(p: string)
  {
    && p != []
    && !IsSpace(p[0]) && !IsSpace(p[|p| - 1])
    && (forall i :: 0 <= i < |p| ==> p[i] != ',')
    && SingleSpaced(p)
  }

  predicate SingleSpaced(s: string)
  {
    && PlainSpaces(s)
    && (forall i :: 0 <= i < |s| - 1 ==> !(IsSpace(s[i]) && IsSpace(s[i + 1])))
  }

  /** Every comma is followed by one space and then by neither a comma nor whitespace. */
  predicate CommasSeparate(s: string)
  {
    forall i :: 0 <= i < |s| && s[i] == ',' ==> i + 2 < |s| && s[i + 1] == ' ' && !CommaOrSpace(s[i + 2]) && !IsSpace(s[i + 2])
  }

  lemma {:induction false} CollapseSingleSpaced(s: string)
    requires SingleSpaced(s)
    ensures CollapseSpaces(s) == s
    decreases |s|
  {
    if s != [] {
      assert SingleSpaced(s[1..]);
      if IsSpace(s[0]) {
        assert s[1..] == [] || !IsSpace(s[1]);
        assert LStripBy(s, IsSpace) == LStripBy(s[1..], IsSpace) == s[1..];
      }
      CollapseSingleSpaced(s[1..]);
    }
  }

  lemma {:induction false} CommaSubSeparated(s: string)
    requires CommasSeparate(s)
    ensures CommaSub(s) == s
    decreases |s|
  {
    if s != [] {
      assert CommasSeparate(s[1..]) by {
        forall i | 0 <= i < |s[1..]| && s[1..][i] == ','
          ensures i + 2 < |s[1..]| && s[1..][i + 1] == ' ' && !CommaOrSpace(s[1..][i + 2]) && !IsSpace(s[1..][i + 2])
        {
          assert s[i + 1] == ',';
        }
      }
      if s[0] == ',' {
        assert s[1..][1..] == s[2..];
        assert LStripBy(s[1..], IsSpace) == LStripBy(s[2..], IsSpace) == s[2..];
      }
      CommaSubSeparated(s[1..]);
    }
  }

  /** Gluing two single-spaced strings with ", " keeps them single-spaced. */
  lemma GlueSingleSpaced(a: string, b: string)
    requires SingleSpaced(a) && SingleSpaced(b) && a != [] && b != []
    requires !IsSpace(a[|a| - 1]) && !IsSpace(b[0])
    ensures SingleSpaced(a + ", " + b)
  {
    var s := a + ", " + b;
    assert forall i :: 0 <= i < |a| ==> s[i] == a[i];
    assert forall i :: |a| + 2 <= i < |s| ==> s[i] == b[i - |a| - 2];
  }

  /** Gluing a comma-free string to a well separated one with ", " keeps commas well separated. */
  lemma GlueCommasSeparate(a: string, b: string)
    requires CommasSeparate(b) && b != [] && !CommaOrSpace(b[0]) && !IsSpace(b[0])
    requires forall i :: 0 <= i < |a| ==> a[i] != ','
    ensures CommasSeparate(a + ", " + b)
  {
    var s := a + ", " + b;
    assert forall i :: 0 <= i < |a| ==> s[i] == a[i];
    assert forall i :: |a| + 2 <= i < |s| ==> s[i] == b[i - |a| - 2];
  }

  /** A joined list of clean parts has single spaces and well separated commas. */
  lemma {:induction false} JoinCleanParts(parts: seq<string>)
    requires parts != []
    requires forall k :: 0 <= k < |parts| ==> CleanPart(parts[k])
    ensures var s := Join(parts, ", "); SingleSpaced(s) && CommasSeparate(s)
    ensures var s := Join(parts, ", "); CleanPart(parts[0]) && |s| > 0 && s[0] == parts[0][0]
    ensures var s := Join(parts, ", "); var p := parts[|parts| - 1];
      CleanPart(p) && |s| > 0 && s[|s| - 1] == p[|p| - 1]
  {
    var p := parts[0];
    if |parts| == 1 {
      assert Join(parts, ", ") == p;
    } else {
      var rest := Join(parts[1..], ", ");
      JoinCleanParts(parts[1..]);
      assert Join(parts, ", ") == p + ", " + rest;
      GlueSingleSpaced(p, rest);
      GlueCommasSeparate(p, rest);
      assert (p + ", " + rest)[0] == p[0];
      assert (p + ", " + rest)[|p + ", " + rest| - 1] == rest[|rest| - 1];
    }
  }

  /** Cleaning leaves an address made of clean parts exactly as `', '.join` built it. */
  lemma CleanJoinedOfCleanParts(parts: seq<string>)
    requires forall k :: 0 <= k < |parts| ==> CleanPart(parts[k])
    ensures CleanJoined(parts) == Join(parts, ", ")
  {
    if parts != [] {
      var s := Join(parts, ", ");
      JoinCleanParts(parts);
      CollapseSingleSpaced(s);
      CommaSubSeparated(s);
      assert !CommaOrSpace(s[0]) && !CommaOrSpace(s[|s| - 1]);
      assert LStripBy(s, CommaOrSpace) == s;
      assert RStripBy(s, CommaOrSpace) == s;
    }
  }
}

=== FILE: apptegy_geocoder.dfy ===
/**
 * geocode_apptegy_schools.py: the checkpointed geocoding run over the
 * Apptegy CSV export.  Query building (domain table, name patterns, city
 * table), the variant and retry control around the geocoding service, the
 * per-row result, and the run loop that routes rows into results or errors
 * and checkpoints its progress.
 */
module ApptegyGeocoder {
  import opened Wrappers
  import opened Text
  import opened Service
  import opened Records

  const SkipRows: int := 50
  const BatchSize: nat := 100
  const MaxRetries: nat := 3

  /** A CSV row as csv.DictReader gives it. */
  type Row = map<string, string>

  // ----- State and city lookups ---------------------------------------------

  /**
   * The two lookup tables the state inference reads: domain fragments with
   * their state, searched in order, and city names with their state.
   */
  datatype Tables = Tables(byDomain: seq<(string, string)>, byCity: map<string, string>)

  /**
   * STATE_MAPPING in insertion order.  The query functions take the table
   * as a parameter; this is the one the program passes.
   */
  const StateMapping: seq<(string, string)> := [
    (".k12.al.us", "Alabama"), (".k12.ak.us", "Alaska"), (".k12.az.us", "Arizona"),
    (".k12.ar.us", "Arkansas"), (".k12.ca.us", "California"), (".k12.co.us", "Colorado"),
    (".k12.ct.us", "Connecticut"), (".k12.de.us", "Delaware"), (".k12.fl.us", "Florida"),
    (".k12.ga.us", "Georgia"), (".k12.hi.us", "Hawaii"), (".k12.id.us", "Idaho"),
    (".k12.il.us", "Illinois"), (".k12.in.us", "Indiana"), (".k12.ia.us", "Iowa"),
    (".k12.ks.us", "Kansas"), (".k12.ky.us", "Kentucky"), (".k12.la.us", "Louisiana"),
    (".k12.me.us", "Maine"), (".k12.md.us", "Maryland"), (".k12.ma.us", "Massachusetts"),
    (".k12.mi.us", "Michigan"), (".k12.mn.us", "Minnesota"), (".k12.ms.us", "Mississippi"),
    (".k12.mo.us", "Missouri"), (".k12.mt.us", "Montana"), (".k12.ne.us", "Nebraska"),
    (".k12.nv.us", "Nevada"), (".k12.nh.us", "New Hampshire"), (".k12.nj.us", "New Jersey"),
    (".k12.nm.us", "New Mexico"), (".k12.ny.us", "New York"), (".k12.nc.us", "North Carolina"),
    (".k12.nd.us", "North Dakota"), (".k12.oh.us", "Ohio"), (".k12.ok.us", "Oklahoma"),
    (".k12.or.us", "Oregon"), (".k12.pa.us", "Pennsylvania"), (".k12.ri.us", "Rhode Island"),
    (".k12.sc.us", "South Carolina"), (".k12.sd.us", "South Dakota"), (".k12.tn.us", "Tennessee"),
    (".k12.tx.us", "Texas"), (".k12.ut.us", "Utah"), (".k12.vt.us", "Vermont"),
    (".k12.va.us", "Virginia"), (".k12.wa.us", "Washington"), (".k12.wv.us", "West Virginia"),
    (".k12.wi.us", "Wisconsin"), (".k12.wy.us", "Wyoming"), (".tx.us", "Texas"),
    (".ca.us", "California"), (".ny.us", "New York"), (".fl.us", "Florida"),
    (".il.us", "Illinois"), (".pa.us", "Pennsylvania"), (".oh.us", "Ohio"),
    (".ga.us", "Georgia"), (".nc.us", "North Carolina"), (".mi.us", "Michigan"),
    (".nj.us", "New Jersey"), (".va.us", "Virginia"), (".wa.us", "Washington"),
    (".az.us", "Arizona"), (".ma.us", "Massachusetts"), (".tn.us", "Tennessee"),
    (".in.us", "Indiana"), (".mo.us", "Missouri"), (".md.us", "Maryland"),
    (".wi.us", "Wisconsin"), (".co.us", "Colorado"), (".mn.us", "Minnesota"),
    (".sc.us", "South Carolina"), (".al.us", "Alabama"), (".la.us", "Louisiana"),
    (".ky.us", "Kentucky"), (".or.us", "Oregon"), (".ok.us", "Oklahoma"),
    (".ct.us", "Connecticut"), (".ut.us", "Utah"), (".ia.us", "Iowa"),
    (".nv.us", "Nevada"), (".ar.us", "Arkansas"), (".ms.us", "Mississippi"),
    (".ks.us", "Kansas"), (".nm.us", "New Mexico"), (".ne.us", "Nebraska"),
    (".wv.us", "West Virginia"), (".id.us", "Idaho"), (".nh.us", "New Hampshire"),
    (".me.us", "Maine"), (".ri.us", "Rhode Island"), (".mt.us", "Montana"),
    (".de.us", "Delaware"), (".sd.us", "South Dakota"), (".nd.us", "North Dakota"),
    (".ak.us", "Alaska"), (".vt.us", "Vermont"), (".wy.us", "Wyoming"),
    (".hi.us", "Hawaii")
  ]

  /** The first table entry whose fragment occurs in `d`, if any. */
  function FirstFragmentIn(table: seq<(string, string)>, d: string): (r: Option<string>)
    ensures r.Some? ==> table != []
  {
    if table == [] then None
    else if Contains(d, table[0].0) then Some(table[0].1)
    else FirstFragmentIn(table[1..], d)
  }

  /** The entry found is the first, in table order, whose fragment occurs; None when none occurs. */
  lemma {:induction false} FirstFragmentInIsFirst(table: seq<(string, string)>, d: string)
    ensures FirstFragmentIn(table, d).None? <==> forall j :: 0 <= j < |table| ==> !Contains(d, table[j].0)
    ensures FirstFragmentIn(table, d).Some? ==>
      exists j :: (0 <= j < |table| && Contains(d, table[j].0) && FirstFragmentIn(table, d).value == table[j].1
        && (forall i :: 0 <= i < j ==> !Contains(d, table[i].0)))
  {
    if table != [] && !Contains(d, table[0].0) {
      FirstFragmentInIsFirst(table[1..], d);
      assert forall j :: 0 < j < |table| ==> table[1..][j - 1] == table[j];
      if FirstFragmentIn(table, d).Some? {
        var k :| 0 <= k < |table| - 1 && Contains(d, table[1..][k].0) && FirstFragmentIn(table, d).value == table[1..][k].1
          && (forall i :: 0 <= i < k ==> !Contains(d, table[1..][i].0));
        assert Contains(d, table[k + 1].0) && forall i :: 0 <= i < k + 1 ==> !Contains(d, table[i].0);
      }
    }
  }

  /** `extract_state_from_domain`: an empty domain gives no state. */
  function ExtractStateFromDomain(domain: string, tables: Tables): (r: Option<string>)
    ensures domain == "" ==> r.None?
  {
    if domain == "" then None else FirstFragmentIn(tables.byDomain, Lower(domain))
  }

  /**
   * A non-empty domain yields the state of the first fragment, in table
   * order, found in the lower-cased domain, and none when no fragment occurs.
   */
  lemma ExtractStateFromDomainIsFirst(domain: string, tables: Tables)
    requires domain != ""
    ensures var r := ExtractStateFromDomain(domain, tables);
      && (r.None? <==> forall j :: 0 <= j < |tables.byDomain| ==> !Contains(Lower(domain), tables.byDomain[j].0))
      && (r.Some? ==> exists j :: (0 <= j < |tables.byDomain| && Contains(Lower(domain), tables.byDomain[j].0)
            && r.value == tables.byDomain[j].1 && (forall i :: 0 <= i < j ==> !Contains(Lower(domain), tables.byDomain[i].0))))
  {
    FirstFragmentInIsFirst(tables.byDomain, Lower(domain));
  }

  /** The city table of `infer_state_from_city`. */
  const CityStateMap: map<string, string> := map[
    "euclid" := "Ohio", "cleveland" := "Ohio", "columbus" := "Ohio",
    "cincinnati" := "Ohio", "toledo" := "Ohio", "akron" := "Ohio",
    "dayton" := "Ohio", "houston" := "Texas", "dallas" := "Texas",
    "austin" := "Texas", "san antonio" := "Texas", "fort worth" := "Texas",
    "los angeles" := "California", "san francisco" := "California", "san diego" := "California",
    "sacramento" := "California", "fresno" := "California", "chicago" := "Illinois",
    "springfield" := "Illinois", "peoria" := "Illinois", "rockford" := "Illinois",
    "phoenix" := "Arizona", "tucson" := "Arizona", "mesa" := "Arizona",
    "atlanta" := "Georgia", "savannah" := "Georgia", "augusta" := "Georgia",
    "miami" := "Florida", "tampa" := "Florida", "orlando" := "Florida",
    "jacksonville" := "Florida", "tallahassee" := "Florida"
  ]

  /** The tables the program itself consults. */
  const ProgramTables: Tables := Tables(StateMapping, CityStateMap)

  /** `infer_state_from_city`: None for an empty city, else an exact lookup of the lower-cased, stripped city. */
  function InferStateFromCity(city: string, tables: Tables): (r: Option<string>)
    ensures city == "" ==> r.None?
    ensures city != "" ==> (r.Some? <==> Strip(Lower(city)) in tables.byCity)
    ensures r.Some? ==> r.value == tables.byCity[Strip(Lower(city))]
  {
    if city == "" then None
    else
      var key := Strip(Lower(city));
      if key in tables.byCity then Some(tables.byCity[key]) else None
  }

  // ----- Location from the company name ---------------------------------------

  /**
   * The regular-expression search behind `extract_location_from_name`:
   * `m(p, name)` is None when pattern p does not match and otherwise the
   * match's groups, an unmatched optional group as None.
   */
  type Matcher = (nat, string) -> Option<seq<Option<string>>>

  /**
   * What the four pattern texts fix about their matches: the first two have
   * three groups of which the first two always take part, the last two have
   * one group.
   */
  ghost predicate WellFormed(m: Matcher)
  {
    forall p: nat, name: string :: p < 4 && m(p, name).Some? ==>
      |m(p, name).value| == (if p < 2 then 3 else 1)
      && (p < 2 ==> m(p, name).value[0].Some? && m(p, name).value[1].Some?)
  }

  /**
   * City and state from a match with at least two groups.  The city is the
   * second group when it is non-empty, else the first; the state is the
   * third group when it took part and is non-empty.  (Both city groups
   * always take part in the first two patterns; an absent one reads as "".)
   */
  function FromGroups(groups: seq<Option<string>>): (r: (Option<string>, Option<string>))
    requires |groups| >= 2
    ensures r.0.Some?
    ensures groups[1].GetOr("") != "" ==> r.0.value == Strip(groups[1].value)
    ensures r.1.Some? <==> |groups| > 2 && groups[2].Some? && groups[2].value != ""
  {
    var city := if groups[1].GetOr("") != "" then Strip(groups[1].value) else Strip(groups[0].GetOr(""));
    var state := if |groups| > 2 && groups[2].Some? && groups[2].value != "" then Some(Strip(groups[2].value)) else None;
    (Some(city), state)
  }

  /** The pattern loop from pattern p on: a match with fewer than two groups falls through. */
  function TryPatterns(name: string, m: Matcher, p: nat): (r: (Option<string>, Option<string>))
    ensures r.1.Some? ==> r.0.Some?
    decreases 4 - p
  {
    if p >= 4 then (None, None)
    else
      var found := m(p, name);
      if found.Some? && |found.value| >= 2 then FromGroups(found.value)
      else TryPatterns(name, m, p + 1)
  }

  /** `extract_location_from_name`. */
  function ExtractLocationFromName(name: string, m: Matcher): (r: (Option<string>, Option<string>))
    ensures name == "" ==> r == (None, None)
    ensures r.1.Some? ==> r.0.Some?
  {
    if name == "" then (None, None) else TryPatterns(name, m, 0)
  }

  /**
   * Only the first two patterns can produce a location: the last two have a
   * single group and fail the two-group test, so the result is decided by
   * the first two patterns alone and is empty when neither matches.
   */
  lemma OnlyFirstTwoPatternsCount(name: string, m1: Matcher, m2: Matcher)
    requires WellFormed(m1) && WellFormed(m2)
    requires m1(0, name) == m2(0, name) && m1(1, name) == m2(1, name)
    ensures ExtractLocationFromName(name, m1) == ExtractLocationFromName(name, m2)
    ensures m1(0, name).None? && m1(1, name).None? ==> ExtractLocationFromName(name, m1) == (None, None)
  {
    if name != "" {
      assert TryPatterns(name, m1, 2) == (None, None);
      assert TryPatterns(name, m2, 2) == (None, None);
    }
  }

  // ----- Query building ------------------------------------------------------

  /** re.sub(r'\(.*?\)', '', s): each '(' up to the nearest ')' on the same line is removed. */
  function RemoveParens(s: string): (r: string)
    ensures |r| <= |s|
    ensures '(' !in s ==> r == s
    decreases |s|
  {
    if s == [] then []
    else if s[0] == '(' then
      var k := Find(s[1..], ")");
      if k != -1 && '\n' !in s[1..1 + k] then RemoveParens(s[k + 2..])
      else [s[0]] + RemoveParens(s[1..])
    else
      [s[0]] + RemoveParens(s[1..])
  }

  /** Truthiness of an optional state. */
  predicate Given(s: Option<string>)
  {
    s.Some? && s.value != ""
  }

  /** The row's own city: 'City', else 'Agile Location City', both stripped. */
  function RowCity(row: Row): string
  {
    var city := Strip(Get(row, "City"));
    if city != "" then city else Strip(Get(row, "Agile Location City"))
  }

  /** The city the query uses: the row's own, else the city extracted from the name. */
  function QueryCity(row: Row, m: Matcher): string
  {
    var own := RowCity(row);
    if own != "" then own
    else
      var extracted := ExtractLocationFromName(Strip(Get(row, "Company name")), m).0;
      if Given(extracted) then extracted.value else ""
  }

  /** The state the query uses: from the domain, else from the name, else from the city table. */
  function QueryState(row: Row, m: Matcher, tables: Tables): Option<string>
  {
    var fromDomain := ExtractStateFromDomain(Strip(Get(row, "Company Domain Name")), tables);
    if Given(fromDomain) then fromDomain
    else
      var fromName := ExtractLocationFromName(Strip(Get(row, "Company name")), m).1;
      if Given(fromName) then fromName
      else if QueryCity(row, m) != "" then InferStateFromCity(QueryCity(row, m), tables)
      else fromName
  }

  /** The name, city and state parts of a query, each present only when truthy. */
  function Assemble(name: string, city: string, state: Option<string>): seq<string>
  {
    var nameParts := if name != "" then [Strip(CollapseSpaces(RemoveParens(name)))] else [];
    var cityParts := if city != "" then [city] else [];
    var stateParts := if Given(state) then [state.value] else [];
    nameParts + cityParts + stateParts
  }

  /** The leading parts of the query for a row. */
  function LeadingParts(row: Row, m: Matcher, tables: Tables): seq<string>
  {
    Assemble(Strip(Get(row, "Company name")), QueryCity(row, m), QueryState(row, m, tables))
  }

  /** The parts `build_search_query` joins: the leading parts, then "school". */
  function QueryParts(row: Row, m: Matcher, tables: Tables): (parts: seq<string>)
    ensures parts != [] && parts[|parts| - 1] == "school"
  {
    var front := LeadingParts(row, m, tables);
    front + ["school"]
  }

  /** `build_search_query`: the parts joined with ", ". */
  function BuildSearchQuery(row: Row, m: Matcher, tables: Tables): (q: string)
    ensures EndsWith(q, "school")
  {
    var parts := QueryParts(row, m, tables);
    JoinEndsWithLast(parts, ", ");
    Join(parts, ", ")
  }

  /** The cleaned company name, when there is one, is the query's first part. */
  lemma QueryLeadsWithName(row: Row, m: Matcher, tables: Tables)
    requires Strip(Get(row, "Company name")) != ""
    ensures QueryParts(row, m, tables)[0] == Strip(CollapseSpaces(RemoveParens(Strip(Get(row, "Company name")))))
  {
    var name := Strip(Get(row, "Company name"));
    var first := [Strip(CollapseSpaces(RemoveParens(name)))];
    var rest := LeadingParts(row, m, tables)[1..] + ["school"];
    assert LeadingParts(row, m, tables)[0] == first[0];
    assert QueryParts(row, m, tables)[0] == LeadingParts(row, m, tables)[0];
  }

  /** The row's own city, when it has one, is the city the query uses. */
  lemma QueryCityIsRowCity(row: Row, m: Matcher)
    requires RowCity(row) != ""
    ensures QueryCity(row, m) == RowCity(row)
  {
  }

  /** A non-empty city is one of the assembled parts. */
  lemma AssembleKeepsCity(name: string, city: string, state: Option<string>)
    requires city != ""
    ensures city in Assemble(name, city, state) + ["school"]
  {
    var k := if name != "" then 1 else 0;
    assert (Assemble(name, city, state) + ["school"])[k] == city;
  }

  /** The row's own city, when it has one, is one of the query's parts. */
  lemma QueryUsesRowCity(row: Row, m: Matcher, tables: Tables)
    requires RowCity(row) != ""
    ensures RowCity(row) in QueryParts(row, m, tables)
  {
    QueryCityIsRowCity(row, m);
    AssembleKeepsCity(Strip(Get(row, "Company name")), QueryCity(row, m), QueryState(row, m, tables));
  }

  /** A state found from the domain takes precedence and sits just before "school". */
  lemma QueryDomainStateFirst(row: Row, m: Matcher, tables: Tables)
    requires Given(ExtractStateFromDomain(Strip(Get(row, "Company Domain Name")), tables))
    ensures QueryState(row, m, tables) == ExtractStateFromDomain(Strip(Get(row, "Company Domain Name")), tables)
    ensures var parts := QueryParts(row, m, tables);
      |parts| >= 2 && parts[|parts| - 2] == QueryState(row, m, tables).value
  {
    var front := LeadingParts(row, m, tables);
    assert front[|front| - 1] == QueryState(row, m, tables).value;
  }

  /** A string ending in "school" keeps at least those six letters when stripped. */
  lemma {:induction false} StripKeepsSchool(q: string)
    requires EndsWith(q, "school")
    ensures |Strip(q)| >= 6
  {
    var school := "school";
    assert q[|q| - 6..] == school;
    assert q[|q| - 6] == school[0] == 's';
    assert !IsSpace(q[|q| - 6]);
    var l := LStripBy(q, IsSpace);
    assert |l| >= 6;
    LStripBySuffix(q, IsSpace);
    assert l[|l| - 1] == q[|q| - 1] == school[5] == 'l';
    assert !IsSpace(l[|l| - 1]);
    var r := RStripBy(l, IsSpace);
    assert |r| == |l|;
  }

  /**
   * The "Insufficient data" guard of `process_school` can never fire: every
   * query ends in "school", so it is non-empty and its stripped length is at
   * least six.
   */
  lemma InsufficientDataUnreachable(row: Row, m: Matcher, tables: Tables)
    ensures var q := BuildSearchQuery(row, m, tables); q != "" && |Strip(q)| >= 5
  {
    StripKeepsSchool(BuildSearchQuery(row, m, tables));
  }

  // ----- Variants and retries ---------------------------------------------------

  /** The three query variations, in the order they are tried. */
  function Variants(q: string): (vs: seq<string>)
    ensures |vs| == 3 && vs[0] == q
  {
    [q, ReplaceAll(q, ", school", ""), ReplaceAll(q, " school", "")]
  }

  /**
   * The retry loop for one variant from attempt `a` on: a place ends it, an
   * empty answer or an unexpected failure abandons the variant, a transport
   * failure is retried until MaxRetries attempts have been made.
   */
  function TryVariant(v: string, svc: Oracle, a: nat): (r: Option<Place>)
    requires a < MaxRetries
    decreases MaxRetries - a
  {
    match svc(v, a)
    case Found(p) => Some(p)
    case NoResults => None
    case UnexpectedFailure => None
    case RequestFailure => if a < MaxRetries - 1 then TryVariant(v, svc, a + 1) else None
  }

  /**
   * A variant yields a place exactly when some attempt within the budget
   * finds it and every earlier attempt failed at the transport level.
   */
  lemma {:induction false} TryVariantFinds(v: string, svc: Oracle, a: nat, p: Place)
    requires a < MaxRetries
    ensures TryVariant(v, svc, a) == Some(p) <==>
      exists k :: a <= k < MaxRetries && svc(v, k) == Found(p)
        && forall b :: a <= b < k ==> svc(v, b) == RequestFailure
    decreases MaxRetries - a
  {
    if a < MaxRetries - 1 {
      TryVariantFinds(v, svc, a + 1, p);
      if svc(v, a) != RequestFailure {
        forall k | a < k < MaxRetries && svc(v, k) == Found(p)
          ensures exists b :: a <= b < k && svc(v, b) != RequestFailure
        {
          assert a <= a < k;
        }
      }
    }
  }

  /** The location dict built from a place and the variant that found it. */
  function ToHit(p: Place, v: string): (h: GeoHit)
    ensures h.latitude == p.lat && h.longitude == p.lon && h.queryUsed == v
  {
    GeoHit(p.lat, p.lon, p.displayName, p.address.GetOr(map[]), p.importance.GetOr(0.0), p.placeId, v)
  }

  /** The variant loop over `vs`: blank variants are skipped, the first place wins. */
  function FirstHit(vs: seq<string>, svc: Oracle): (r: Option<GeoHit>)
    ensures r.Some? ==> r.value.queryUsed in vs && Strip(r.value.queryUsed) != ""
  {
    if vs == [] then None
    else if Strip(vs[0]) == "" then FirstHit(vs[1..], svc)
    else
      var found := TryVariant(vs[0], svc, 0);
      if found.Some? then Some(ToHit(found.value, vs[0])) else FirstHit(vs[1..], svc)
  }

  /**
   * The retry loop of `geocode_address` for one variant: `attempts` lists
   * the attempt numbers sent, in order.
   */
  method TryWithRetries(v: string, svc: Oracle) returns (outcome: Option<Place>, attempts: seq<nat>)
    ensures outcome == TryVariant(v, svc, 0)
    ensures 1 <= |attempts| <= MaxRetries
    ensures forall k :: 0 <= k < |attempts| ==> attempts[k] == k
  {
    var attempt := 0;
    outcome, attempts := None, [];
    var done := false;
    while attempt < MaxRetries && !done
      invariant 0 <= attempt <= MaxRetries
      invariant |attempts| == attempt && forall k :: 0 <= k < attempt ==> attempts[k] == k
      invariant !done ==> attempt < MaxRetries && outcome.None? && TryVariant(v, svc, 0) == TryVariant(v, svc, attempt)
      invariant done ==> attempt >= 1 && outcome == TryVariant(v, svc, 0)
      decreases MaxRetries - attempt
    {
      attempts := attempts + [attempt];
      match svc(v, attempt) {
        case Found(p) =>
          outcome := Some(p);
          done := true;
        case NoResults =>
          done := true;
        case UnexpectedFailure =>
          done := true;
        case RequestFailure =>
          if attempt == MaxRetries - 1 {
            done := true;
          } else {
            assert TryVariant(v, svc, attempt) == TryVariant(v, svc, attempt + 1);
          }
      }
      attempt := attempt + 1;
    }
  }

  /**
   * The variant loop of `geocode_address` over `vs`: blank variants are
   * skipped, each other one gets its retry budget, and the first place
   * found ends the search.  `requests` lists every (variant, attempt) sent
   * to the service.
   */
  method GeocodeVariants(vs: seq<string>, svc: Oracle) returns (hit: Option<GeoHit>, requests: seq<(string, nat)>)
    ensures hit == FirstHit(vs, svc)
    ensures |requests| <= |vs| * MaxRetries
    ensures forall k :: 0 <= k < |requests| ==> requests[k].0 in vs && requests[k].1 < MaxRetries
  {
    requests := [];
    var i := 0;
    while i < |vs|
      invariant 0 <= i <= |vs|
      invariant FirstHit(vs, svc) == FirstHit(vs[i..], svc)
      invariant |requests| <= i * MaxRetries
      invariant forall k :: 0 <= k < |requests| ==> requests[k].0 in vs && requests[k].1 < MaxRetries
    {
      var v := vs[i];
      assert vs[i..][1..] == vs[i + 1..];
      if Strip(v) != "" {
        var outcome, attempts := TryWithRetries(v, svc);
        requests := requests + seq(|attempts|, k requires 0 <= k < |attempts| => (v, attempts[k]));
        if outcome.Some? {
          return Some(ToHit(outcome.value, v)), requests;
        }
      }
      i := i + 1;
    }
    hit := None;
  }

  /** `geocode_address`: the three variants of the query, in order. */
  method GeocodeAddress(query: string, svc: Oracle) returns (hit: Option<GeoHit>, requests: seq<(string, nat)>)
    ensures hit == FirstHit(Variants(query), svc)
    ensures |requests| <= 3 * MaxRetries
    ensures forall k :: 0 <= k < |requests| ==> requests[k].0 in Variants(query) && requests[k].1 < MaxRetries
  {
    hit, requests := GeocodeVariants(Variants(query), svc);
  }

  // ----- One row --------------------------------------------------------------

  const InsufficientData := "Insufficient data to build search query"
  const NoResultsFound := "No geocoding results found"

  /** The result dict of `process_school`, `now` standing for datetime.now().isoformat(). */
  function ProcessSpec(row: Row, index: int, now: string, svc: Oracle, m: Matcher, tables: Tables): (e: ProgressEntry)
    ensures e.geocoded <==> e.location.Some?
    ensures e.geocoded <==> e.error.None?
    ensures e.error.Some? ==> e.error.value == NoResultsFound
    ensures e.index == index && e.recordId == Get(row, "Record ID") && e.companyName == Get(row, "Company name")
    ensures e.location.Some? ==> EndsWith(BuildSearchQuery(row, m, tables), "school") && e.location.value.queryUsed in Variants(BuildSearchQuery(row, m, tables))
    ensures e.location == FirstHit(Variants(BuildSearchQuery(row, m, tables)), svc)
    ensures e.processedAt == now && e.domain == Get(row, "Company Domain Name")
    ensures e.existingCity == (if Get(row, "City") != "" then Get(row, "City") else Get(row, "Agile Location City"))
    ensures e.existingZip == Get(row, "Agile Location Zip")
  {
    var query := BuildSearchQuery(row, m, tables);
    InsufficientDataUnreachable(row, m, tables);
    var base := ProgressEntry(
      recordId := Get(row, "Record ID"),
      companyName := Get(row, "Company name"),
      index := index,
      processedAt := now,
      geocoded := false,
      error := None,
      location := None,
      domain := Get(row, "Company Domain Name"),
      existingCity := if Get(row, "City") != "" then Get(row, "City") else Get(row, "Agile Location City"),
      existingZip := Get(row, "Agile Location Zip"));
    if query == "" || |Strip(query)| < 5 then
      base.(error := Some(InsufficientData))
    else
      var location := FirstHit(Variants(query), svc);
      if location.Some? then base.(geocoded := true, location := location)
      else base.(error := Some(NoResultsFound))
  }

  /** `process_school`. */
  method ProcessSchool(row: Row, index: int, now: string, svc: Oracle, m: Matcher, tables: Tables) returns (e: ProgressEntry)
    ensures e == ProcessSpec(row, index, now, svc, m, tables)
  {
    var query := BuildSearchQuery(row, m, tables);
    e := ProgressEntry(
      recordId := Get(row, "Record ID"),
      companyName := Get(row, "Company name"),
      index := index,
      processedAt := now,
      geocoded := false,
      error := None,
      location := None,
      domain := Get(row, "Company Domain Name"),
      existingCity := if Get(row, "City") != "" then Get(row, "City") else Get(row, "Agile Location City"),
      existingZip := Get(row, "Agile Location Zip"));
    if query == "" || |Strip(query)| < 5 {
      e := e.(error := Some(InsufficientData));
      return;
    }
    var location, _ := GeocodeAddress(query, svc);
    if location.Some? {
      e := e.(geocoded := true, location := location);
    } else {
      e := e.(error := Some(NoResultsFound));
    }
  }

  // ----- The checkpoint ---------------------------------------------------------

  /** The progress file as `load_progress` finds it; an absent key is None. */
  datatype Checkpoint =
    | Missing
    | Unreadable
    | Parsed(lastProcessedIndex: Option<int>, results: Option<seq<ProgressEntry>>, errors: Option<seq<ProgressEntry>>)

  datatype ProgressState = ProgressState(lastProcessedIndex: int, results: seq<ProgressEntry>, errors: seq<ProgressEntry>)

  /** The defaults, then whatever the checkpoint supplies. */
  function Load(c: Checkpoint): (s: ProgressState)
    ensures c.Missing? || c.Unreadable? ==> s == ProgressState(SkipRows, [], [])
    ensures c.Parsed? && c.lastProcessedIndex.None? ==> s.lastProcessedIndex == SkipRows
    ensures c.Parsed? && c.lastProcessedIndex.Some? ==> s.lastProcessedIndex == c.lastProcessedIndex.value
  {
    match c
    case Parsed(i, r, e) => ProgressState(i.GetOr(SkipRows), r.GetOr([]), e.GetOr([]))
    case _ => ProgressState(SkipRows, [], [])
  }

  /** `save_progress`: what the file holds afterwards (the timestamp left out). */
  function Save(s: ProgressState): Checkpoint
  {
    Parsed(Some(s.lastProcessedIndex), Some(s.results), Some(s.errors))
  }

  /** Loading a saved checkpoint resumes exactly the saved state. */
  lemma LoadSave(s: ProgressState)
    ensures Load(Save(s)) == s
  {
  }

  /** `load_csv_data`: the rows whose position is at least the resume index. */
  function LoadCsvData(csv: seq<Row>, from: int): (rows: seq<Row>)
    ensures |rows| <= |csv|
    ensures 0 <= from <= |csv| ==> rows == csv[from..]
    ensures from < 0 ==> rows == csv
  {
    if from <= 0 then csv else if from >= |csv| then [] else csv[from..]
  }

  class GeocodingProgress {
    var lastProcessedIndex: int
    var results: seq<ProgressEntry>
    var errors: seq<ProgressEntry>

    function State(): ProgressState
      reads this
    {
      ProgressState(lastProcessedIndex, results, errors)
    }

    /** `__init__` with `load_progress`: a missing or unreadable file keeps the defaults. */
    constructor (c: Checkpoint)
      ensures State() == Load(c)
    {
      lastProcessedIndex := SkipRows;
      results := [];
      errors := [];
      match c
      case Parsed(i, r, e) =>
        lastProcessedIndex := i.GetOr(SkipRows);
        results := r.GetOr([]);
        errors := e.GetOr([]);
      case _ =>
    }

    /** Route one processed row and advance the index to `current + 1`. */
    method Record(e: ProgressEntry, current: int)
      modifies this
      ensures State() == Route(old(State()), e, current)
    {
      if e.geocoded {
        results := results + [e];
      } else {
        errors := errors + [e];
      }
      lastProcessedIndex := current + 1;
    }
  }

  /** Each row lands in exactly one list: results when geocoded, errors otherwise. */
  function Route(s: ProgressState, e: ProgressEntry, current: int): (t: ProgressState)
    ensures t.lastProcessedIndex == current + 1
    ensures |t.results| + |t.errors| == |s.results| + |s.errors| + 1
    ensures e.geocoded ==> t.results == s.results + [e] && t.errors == s.errors
    ensures !e.geocoded ==> t.errors == s.errors + [e] && t.results == s.results
  {
    if e.geocoded then ProgressState(current + 1, s.results + [e], s.errors)
    else ProgressState(current + 1, s.results, s.errors + [e])
  }

  // ----- The run loop -------------------------------------------------------------

  /** What the run does with a row, given its index and its position in the run (for the clock). */
  type Processor = (Row, int, nat) -> ProgressEntry

  /** `process_school`, stamped with the clock reading for the row's position in the run. */
  function RowProcessor(svc: Oracle, m: Matcher, tables: Tables, clock: nat -> string): (f: Processor)
    ensures forall row, index, k :: f(row, index, k) == ProcessSpec(row, index, clock(k), svc, m, tables)
  {
    (row: Row, index: int, k: nat) => ProcessSpec(row, index, clock(k), svc, m, tables)
  }

  /** 0 + 1 + … + k. */
  function Tri(k: nat): nat
  {
    if k == 0 then 0 else Tri(k - 1) + k
  }

  lemma {:induction false} TriClosedForm(k: nat)
    ensures 2 * Tri(k) == k * (k + 1)
  {
    if k > 0 {
      TriClosedForm(k - 1);
    }
  }

  /**
   * The index the as-written loop gives the row at run position i: the
   * loop adds i to a resume index that each earlier row has already moved
   * to its own index plus one, so by then it has grown by 1 + 2 + … + i.
   */
  function AsWrittenIndex(s0: ProgressState, i: nat): int
  {
    s0.lastProcessedIndex + Tri(i) + i
  }

  /**
   * The index the loop gives the row at run position i: as written, the
   * current resume index plus i; corrected, the run's start plus i.
   */
  function RowIndex(s0: ProgressState, i: nat, corrected: bool): int
  {
    if corrected then s0.lastProcessedIndex + i else AsWrittenIndex(s0, i)
  }

  /** The state after the first j rows of a run, each routed under its index. */
  function StateAfter(s0: ProgressState, schools: seq<Row>, j: nat, process: Processor, corrected: bool): ProgressState
    requires j <= |schools|
  {
    if j == 0 then s0
    else
      var current := RowIndex(s0, j - 1, corrected);
      Route(StateAfter(s0, schools, j - 1, process, corrected), process(schools[j - 1], current, j - 1), current)
  }

  /**
   * After k rows the resume index has moved by k when corrected, and as
   * written by 0 + 1 + … + k.
   */
  lemma {:induction false} StateAfterIndex(s0: ProgressState, schools: seq<Row>, k: nat, process: Processor, corrected: bool)
    requires k <= |schools|
    ensures corrected ==> StateAfter(s0, schools, k, process, corrected).lastProcessedIndex == s0.lastProcessedIndex + k
    ensures !corrected ==> StateAfter(s0, schools, k, process, corrected).lastProcessedIndex == s0.lastProcessedIndex + Tri(k)
  {
    if k > 0 {
      StateAfterIndex(s0, schools, k - 1, process, corrected);
    }
  }

  /**
   * After k rows of either loop each row has been appended to exactly one
   * of the two lists: results only ever gain geocoded rows, errors only
   * rows that were not.  As written the resume index has then moved by
   * k(k+1)/2 rather than by k.
   */
  lemma {:induction false} StateAfterShape(s0: ProgressState, schools: seq<Row>, k: nat, process: Processor, corrected: bool)
    requires k <= |schools|
    ensures var s := StateAfter(s0, schools, k, process, corrected);
      && (corrected ==> s.lastProcessedIndex - s0.lastProcessedIndex == k)
      && (!corrected ==> 2 * (s.lastProcessedIndex - s0.lastProcessedIndex) == k * (k + 1))
      && |s.results| + |s.errors| == |s0.results| + |s0.errors| + k
      && |s0.results| <= |s.results| && |s0.errors| <= |s.errors|
      && s.results[..|s0.results|] == s0.results && s.errors[..|s0.errors|] == s0.errors
      && (forall i :: |s0.results| <= i < |s.results| ==> s.results[i].geocoded)
      && (forall i :: |s0.errors| <= i < |s.errors| ==> !s.errors[i].geocoded)
  {
    StateAfterIndex(s0, schools, k, process, corrected);
    TriClosedForm(k);
    if k > 0 {
      StateAfterShape(s0, schools, k - 1, process, corrected);
      var s := StateAfter(s0, schools, k - 1, process, corrected);
      var t := StateAfter(s0, schools, k, process, corrected);
      assert t.results[..|s.results|] == s.results && t.errors[..|s.errors|] == s.errors;
      assert t.results[..|s0.results|] == t.results[..|s.results|][..|s0.results|];
      assert t.errors[..|s0.errors|] == t.errors[..|s.errors|][..|s0.errors|];
    }
  }

  /**
   * Corrected, a checkpoint taken after k rows resumes at the first row not
   * yet processed: the rows still to load are exactly the unprocessed rest
   * of the run.
   */
  lemma CorrectedResumes(csv: seq<Row>, s0: ProgressState, k: nat, process: Processor)
    requires 0 <= s0.lastProcessedIndex && k <= |LoadCsvData(csv, s0.lastProcessedIndex)|
    ensures var s := StateAfter(s0, LoadCsvData(csv, s0.lastProcessedIndex), k, process, true);
      && s.lastProcessedIndex == s0.lastProcessedIndex + k
      && LoadCsvData(csv, s.lastProcessedIndex) == LoadCsvData(csv, s0.lastProcessedIndex)[k..]
  {
    var start := s0.lastProcessedIndex;
    StateAfterIndex(s0, LoadCsvData(csv, start), k, process, true);
    if k > 0 {
      assert start < |csv|;
      assert LoadCsvData(csv, start)[k..] == csv[start + k..];
    }
  }

  /**
   * As written, a checkpoint taken after the first two rows of a run (the
   * signal handler's save) resumes three rows on: the run's third row is
   * never processed.
   */
  lemma AsWrittenSkipsRow(csv: seq<Row>, s0: ProgressState, process: Processor)
    requires 0 <= s0.lastProcessedIndex && |LoadCsvData(csv, s0.lastProcessedIndex)| >= 3
    ensures var s := StateAfter(s0, LoadCsvData(csv, s0.lastProcessedIndex), 2, process, false);
      && s.lastProcessedIndex == s0.lastProcessedIndex + 3
      && LoadCsvData(csv, s.lastProcessedIndex) == LoadCsvData(csv, s0.lastProcessedIndex)[3..]
  {
    StateAfterIndex(s0, LoadCsvData(csv, s0.lastProcessedIndex), 2, process, false);
  }

  /** The checkpoints written every BatchSize rows, the first c of them. */
  function Periodic(s0: ProgressState, schools: seq<Row>, c: nat, process: Processor, corrected: bool)
    : (saves: seq<ProgressState>)
    requires BatchSize * c <= |schools|
    ensures |saves| == c
  {
    if c == 0 then [] else Periodic(s0, schools, c - 1, process, corrected) + [StateAfter(s0, schools, BatchSize * c, process, corrected)]
  }

  /** The next periodic checkpoint is the state after the next full batch. */
  lemma PeriodicNext(s0: ProgressState, schools: seq<Row>, c: nat, process: Processor, corrected: bool)
    requires BatchSize * (c + 1) <= |schools|
    ensures Periodic(s0, schools, c + 1, process, corrected)
      == Periodic(s0, schools, c, process, corrected) + [StateAfter(s0, schools, BatchSize * (c + 1), process, corrected)]
  {
  }

  /** The checkpoints a run of n rows writes: one every BatchSize rows, then one at the end. */
  function Saves(s0: ProgressState, schools: seq<Row>, n: nat, process: Processor, corrected: bool)
    : (saves: seq<ProgressState>)
    requires n <= |schools|
    ensures |saves| == n / BatchSize + 1
  {
    Periodic(s0, schools, n / BatchSize, process, corrected) + [StateAfter(s0, schools, n, process, corrected)]
  }

  /** A count within the c-th batch: c batches are complete, and the count is a multiple of BatchSize only at the batch's start. */
  lemma BatchOf(n: nat, c: nat)
    requires BatchSize * c <= n < BatchSize * (c + 1)
    ensures n / BatchSize == c
    ensures n % BatchSize == 0 <==> n == BatchSize * c
  {
  }

  /** How many rows a run gets through: all of them, unless a signal arrives after `interruptAt` rows. */
  function RowsDone(total: nat, interruptAt: Option<nat>): (n: nat)
    ensures n <= total
    ensures n < total <==> interruptAt.Some? && interruptAt.value < total
  {
    if interruptAt.Some? && interruptAt.value < total then interruptAt.value else total
  }

  class SchoolGeocoder {
    const progress: GeocodingProgress

    constructor (c: Checkpoint)
      ensures fresh(progress) && progress.State() == Load(c)
    {
      progress := new GeocodingProgress(c);
    }

    /**
     * One pass of the loop of `run`: the row at position `processed` is
     * handed to `process` with its index and recorded.  As written the index
     * is the current resume index plus the position; corrected it is the
     * run's start plus the position.
     */
    method ProcessRow(ghost s0: ProgressState, start: int, schools: seq<Row>, processed: nat, process: Processor, corrected: bool)
      requires start == s0.lastProcessedIndex && processed < |schools|
      requires progress.State() == StateAfter(s0, schools, processed, process, corrected)
      modifies progress
      ensures progress.State() == StateAfter(s0, schools, processed + 1, process, corrected)
    {
      StateAfterIndex(s0, schools, processed, process, corrected);
      var current := if corrected then start + processed else progress.lastProcessedIndex + processed;
      var e := process(schools[processed], current, processed);
      progress.Record(e, current);
    }

    /**
     * The loop of `run` over the first n rows to load.  Each row is handed
     * to `process` with its index and recorded; a checkpoint is taken every
     * BatchSize rows.  `corrected` chooses the index: as written it is the
     * current resume index plus the row's position, corrected it is the
     * run's start plus the row's position.
     */
    method ProcessRows(schools: seq<Row>, n: nat, process: Processor, corrected: bool)
      returns (saves: seq<ProgressState>)
      requires n <= |schools|
      modifies progress
      ensures progress.State() == StateAfter(old(progress.State()), schools, n, process, corrected)
      ensures saves == Periodic(old(progress.State()), schools, n / BatchSize, process, corrected)
    {
      ghost var s0 := progress.State();
      var start := progress.lastProcessedIndex;
      saves := [];
      var processed := 0;
      ghost var batches := 0;
      while processed < n
        invariant 0 <= processed <= n
        invariant BatchSize * batches <= processed < BatchSize * (batches + 1)
        invariant progress.State() == StateAfter(s0, schools, processed, process, corrected)
        invariant saves == Periodic(s0, schools, batches, process, corrected)
      {
        ProcessRow(s0, start, schools, processed, process, corrected);
        processed := processed + 1;
        BatchOf(processed, if processed == BatchSize * (batches + 1) then batches + 1 else batches);
        if processed % BatchSize == 0 {
          PeriodicNext(s0, schools, batches, process, corrected);
          batches := batches + 1;
          saves := saves + [progress.State()];
        }
      }
      BatchOf(n, batches);
    }

    /**
     * `run`: load the rows from the resume index on, process them, and take
     * a final checkpoint.  `process` is `process_school` with the service,
     * the name patterns, the tables and the clock fixed (RowProcessor gives
     * the one the program uses).  A signal after `interruptAt` rows makes
     * the handler save and exit; `saves` lists every checkpoint written, and
     * `finished` says whether the loop ran to the end and the final results
     * file was written.  No rows to load means nothing is written.
     * `corrected` false is the program as written, true the corrected index.
     */
    method Run(csv: seq<Row>, process: Processor, interruptAt: Option<nat>, corrected: bool)
      returns (saves: seq<ProgressState>, finished: bool)
      modifies progress
      ensures var s0 := old(progress.State());
        var schools := LoadCsvData(csv, s0.lastProcessedIndex);
        var n := RowsDone(|schools|, interruptAt);
        && progress.State() == StateAfter(s0, schools, n, process, corrected)
        && (schools == [] ==> saves == [] && !finished)
        && (schools != [] ==> saves == Saves(s0, schools, n, process, corrected) && (finished <==> n == |schools|))
    {
      var schools := LoadCsvData(csv, progress.lastProcessedIndex);
      saves, finished := [], false;
      if |schools| == 0 {
        return;
      }
      var n := RowsDone(|schools|, interruptAt);
      saves := ProcessRows(schools, n, process, corrected);
      saves := saves + [progress.State()];
      finished := n == |schools|;
    }
  }
}

=== FILE: check_and_merge.dfy ===
/** check_and_merge.py: a status report and merge preview; despite its name it writes nothing. */
module CheckAndMerge {
  import opened Wrappers
  import opened Records
  import opened Seqs
  import opened Reconcile

  /** The batch file: its successful entries and the two metadata totals, absent keys as None. */
  datatype BatchFile = BatchFile(successful: seq<ProgressEntry>, totalResults: Option<int>, totalErrors: Option<int>)

  datatype Status =
    | LoadError
    | MissingRecordId
    | Preview(totalProcessed: int, overlap: nat, newRecords: nat, totalAfter: nat)

  /**
   * `check_data_status`: a failed load returns None (LoadError here), a
   * current record without `recordId` raises, otherwise the preview, and
   * the function answers True.  "Total processed" adds the two metadata
   * totals, each 0 when absent.
   */
  function CheckDataStatus(current: Option<seq<DatasetRecord>>, batch: Option<BatchFile>): (s: Status)
    ensures s.LoadError? <==> current.None? || batch.None?
    ensures s.MissingRecordId? <==> current.Some? && batch.Some? && ExistingIds(current.value).None?
    ensures s.Preview? ==>
      var ids := ExistingIds(current.value).value;
      var all := BatchIds(batch.value.successful);
      && s.totalProcessed == batch.value.totalResults.GetOr(0) + batch.value.totalErrors.GetOr(0)
      && s.overlap + s.newRecords == |all|
      && s.newRecords == |all - ids|
      && s.totalAfter == |current.value| + s.newRecords
      && s.newRecords <= |NewEntries(batch.value.successful, ids)|
  {
    if current.None? || batch.None? then LoadError
    else
      var ids := ExistingIds(current.value);
      if ids.None? then MissingRecordId
      else
        var all := BatchIds(batch.value.successful);
        SetPreviewAgainstLoop(batch.value.successful, ids.value);
        var unseen := |all - ids.value|;
        Preview(batch.value.totalResults.GetOr(0) + batch.value.totalErrors.GetOr(0),
                |ids.value * all|, unseen, |current.value| + unseen)
  }
}

=== FILE: client_sheets.dfy ===
/**
 * The two client sheets read by geocode_all_customers.py, update_from_cache.py
 * and parse_excel_with_geocoding.py (charter and private schools, districts),
 * and the data.js they write.
 */
module ClientSheets {
  import opened Wrappers
  import opened Seqs
  import opened Text
  import opened Service
  import opened Sheet
  import opened GeoRetry
  import opened JsEmit

  datatype Kind = Charter | District

  /** The `type` written for a sheet's customers. */
  function KindName(k: Kind): string
  {
    match k
    case Charter => "charter"
    case District => "district"
  }

  /** The name written for a row without one, in both Excel readers. */
  function DefaultName(k: Kind): string
  {
    match k
    case Charter => "Unknown School"
    case District => "Unknown District"
  }

  /** What the loops read from a row: name, formatted website, the address query and the state. */
  datatype Client = Client(name: string, url: Option<string>, address: string, state: string)

  /** `f"{street}, {city}, {state} {zip_code}, USA"` over the stripped columns. */
  function FullAddress(row: Row): (a: string)
    ensures EndsWith(a, ", USA")
  {
    var a := Field(row, "Street Address", "") + ", " + Field(row, "City Address", "") + ", "
      + Field(row, "STATE", "") + " " + Field(row, "Zip Address", "") + ", USA";
    assert a[|a| - 5..] == ", USA";
    a
  }

  function ReadClient(row: Row, kind: Kind): (c: Client)
    ensures EndsWith(c.address, ", USA")
  {
    Client(Field(row, "School Name", DefaultName(kind)), FormatUrl(Lookup(row, "Website")), FullAddress(row), Field(row, "STATE", ""))
  }

  /** The rows of a sheet, read in order. */
  function ReadClients(rows: seq<Row>, kind: Kind): (cs: seq<Client>)
    ensures |cs| == |rows|
  {
    Mapped(rows, row => ReadClient(row, kind))
  }

  lemma {:induction false} ReadClientsAt(rows: seq<Row>, kind: Kind, i: nat)
    requires i < |rows|
    ensures ReadClients(rows, kind)[i] == ReadClient(rows[i], kind)
  {
    MappedAt(rows, row => ReadClient(row, kind), i);
  }

  /** One customer of data.js. */
  datatype Customer = Customer(name: string, lat: Coord, lng: Coord, url: string, kind: Kind, state: string)

  function ToCustomer(c: Client, kind: Kind, loc: Coords): Customer
    requires c.url.Some?
  {
    Customer(c.name, loc.lat, loc.lng, c.url.value, kind, c.state)
  }

  /**
   * The object literal of a customer; `escape` says whether quotes in the
   * name get a backslash, and `show` renders a coordinate.
   */
  function EntryText(c: Customer, escape: bool, show: Coord -> string): string
  {
    ObjectLiteral([("name", Quoted(if escape then EscapeQuotes(c.name) else c.name)), ("lat", show(c.lat)), ("lng", show(c.lng)),
                   ("url", Quoted(c.url)), ("type", Quoted(KindName(c.kind))), ("state", Quoted(c.state))])
  }

  function EntryTexts(cs: seq<Customer>, escape: bool, show: Coord -> string): (r: seq<string>)
    ensures |r| == |cs|
    ensures forall i :: 0 <= i < |cs| ==> r[i] == EntryText(cs[i], escape, show)
  {
    if cs == [] then [] else [EntryText(cs[0], escape, show)] + EntryTexts(cs[1..], escape, show)
  }
}

=== FILE: count_records.dfy ===
/** count_records.py: the set-based duplicate preview. */
module CountRecords {
  import opened Wrappers
  import opened Records
  import opened Seqs
  import opened Reconcile

  datatype DuplicateReport = DuplicateReport(duplicates: set<string>, uniqueBatch: set<string>, expectedTotal: nat)

  /**
   * The third section: None when a load failed earlier (the name is then
   * unbound) or a current record has no `recordId`; each failure is caught
   * and printed.  Counting distinct ids, the expected total falls short of
   * the merge's length exactly when a new id repeats in the batch.
   */
  function DuplicateCheck(current: Option<seq<DatasetRecord>>, batch: Option<seq<ProgressEntry>>)
    : (r: Option<DuplicateReport>)
    ensures r.Some? <==> current.Some? && batch.Some? && ExistingIds(current.value).Some?
    ensures r.Some? ==>
      var ids := ExistingIds(current.value).value;
      && r.value.duplicates == ids * BatchIds(batch.value)
      && r.value.uniqueBatch == BatchIds(batch.value) - ids
      && |r.value.duplicates| + |r.value.uniqueBatch| == |BatchIds(batch.value)|
      && r.value.expectedTotal == |current.value| + |r.value.uniqueBatch|
      && r.value.expectedTotal <= |current.value| + |NewEntries(batch.value, ids)|
      && (r.value.expectedTotal == |current.value| + |NewEntries(batch.value, ids)|
          <==> Distinct(Ids(NewEntries(batch.value, ids))))
  {
    if current.None? || batch.None? then None
    else
      var ids := ExistingIds(current.value);
      if ids.None? then None
      else
        var all := BatchIds(batch.value);
        SetPreviewAgainstLoop(batch.value, ids.value);
        Some(DuplicateReport(ids.value * all, all - ids.value, |current.value| + |all - ids.value|))
  }
}

=== FILE: dataset_file.dfy ===
/**
 * The canonical dataset file and its timestamped backup, as a map from file
 * name to content, and the backup-then-write sequence the merge scripts run.
 * Whether the operating system refuses a rename or a write fails is an input.
 */
module DatasetFile {
  import opened Wrappers
  import opened Records
  import opened Reconcile

  /** A file holds a JSON list of dataset records, or is left torn by a failed write. */
  datatype Content = Dataset(records: seq<DatasetRecord>) | Torn

  type Store = map<string, Content>

  /** The environment's answers: does the backup rename fail, the write, the restoring rename. */
  datatype Faults = Faults(backupRefused: bool, writeFails: bool, restoreRefused: bool)

  /** What a merge script ends with. */
  datatype MergeRun =
    | LoadFailed
    | MissingRecordId
    | BackupFailed
    | WriteFailed(restored: bool)
    | Committed(added: nat, skipped: nat, total: nat)

  /** os.rename(src, dst): moves the content, replacing any file called dst. */
  function Rename(fs: Store, src: string, dst: string, refused: bool): (r: Option<Store>)
    ensures r.None? <==> refused || src !in fs
    ensures r.Some? ==> dst in r.value && r.value[dst] == fs[src]
    ensures r.Some? && src != dst ==> src !in r.value
    ensures r.Some? ==> forall n :: n != src && n != dst ==> (n in r.value <==> n in fs) && (n in fs ==> r.value[n] == fs[n])
  {
    if refused || src !in fs then None else Some((fs - {src})[dst := fs[src]])
  }

  /** open(name, 'w') + json.dump: a failure leaves a torn file behind. */
  function Write(fs: Store, name: string, records: seq<DatasetRecord>, fails: bool): Store
  {
    fs[name := if fails then Torn else Dataset(records)]
  }

  /**
   * Backup rename, then write; on a failed write, with `restore`, the backup
   * is renamed back over the dataset name.
   */
  function Commit(fs: Store, dataset: string, backup: string, records: seq<DatasetRecord>,
                  faults: Faults, restore: bool): (Store, MergeRun)
  {
    var moved := Rename(fs, dataset, backup, faults.backupRefused);
    if moved.None? then (fs, BackupFailed)
    else
      var written := Write(moved.value, dataset, records, faults.writeFails);
      if !faults.writeFails then (written, Committed(0, 0, |records|))
      else if !restore then (written, WriteFailed(false))
      else
        var back := Rename(written, backup, dataset, faults.restoreRefused);
        if back.None? then (written, WriteFailed(false)) else (back.value, WriteFailed(true))
  }

  /**
   * What the backup sequence guarantees about the dataset's previous
   * content: a commit leaves the new records under the dataset name and the
   * old content under the backup name; a refused backup changes nothing; a
   * failed write either is fully undone by the restore or leaves the old
   * content under the backup name and a torn dataset file.
   */
  lemma {:induction false} CommitSafety(fs: Store, dataset: string, backup: string, records: seq<DatasetRecord>,
                                        faults: Faults, restore: bool)
    requires dataset in fs && backup !in fs && dataset != backup
    ensures var (after, run) := Commit(fs, dataset, backup, records, faults, restore);
      && (run.Committed? ==> after[dataset] == Dataset(records) && after[backup] == fs[dataset])
      && (run.BackupFailed? <==> faults.backupRefused)
      && (run.BackupFailed? ==> after == fs)
      && (run.WriteFailed? <==> !faults.backupRefused && faults.writeFails)
      && (run.WriteFailed? && run.restored ==> after == fs)
      && (run.WriteFailed? && !run.restored ==> after[dataset] == Torn && after[backup] == fs[dataset])
      && (run.WriteFailed? ==> (run.restored <==> restore && !faults.restoreRefused))
  {
    var moved := Rename(fs, dataset, backup, faults.backupRefused);
    if moved.Some? && faults.writeFails && restore {
      var written := Write(moved.value, dataset, records, true);
      var back := Rename(written, backup, dataset, faults.restoreRefused);
      if back.Some? {
        assert back.value == fs;
      }
    }
  }

  /** The re-read after a commit finds exactly the records that were written. */
  function Reread(fs: Store, dataset: string): (count: Option<nat>)
    ensures count.Some? <==> dataset in fs && fs[dataset].Dataset?
    ensures count.Some? ==> count.value == |fs[dataset].records|
  {
    if dataset in fs && fs[dataset].Dataset? then Some(|fs[dataset].records|) else None
  }

  /** Both files loaded and every current record carries `recordId`. */
  predicate Loaded(fs: Store, dataset: string, batch: Option<seq<ProgressEntry>>)
  {
    dataset in fs && fs[dataset].Dataset? && batch.Some? && ExistingIds(fs[dataset].records).Some?
  }

  /** The list a converting merge writes: the current records, then the converted new entries. */
  function MergedList(fs: Store, dataset: string, batch: Option<seq<ProgressEntry>>,
                  convert: ProgressEntry -> DatasetRecord): (merged: seq<DatasetRecord>)
    requires Loaded(fs, dataset, batch)
    ensures |merged| == |fs[dataset].records| + |NewEntries(batch.value, ExistingIds(fs[dataset].records).value)|
  {
    var current := fs[dataset].records;
    current + ConvertAll(NewEntries(batch.value, ExistingIds(current).value), convert)
  }

  /**
   * Load both files, build the id set once, run the merge loop and commit.
   * The shape shared by every converting merge script; `restore` says
   * whether the script renames the backup back after a failed write.
   */
  method MergeAndCommit(fs: Store, dataset: string, backup: string, batch: Option<seq<ProgressEntry>>,
                        convert: ProgressEntry -> DatasetRecord, faults: Faults, restore: bool)
    returns (after: Store, run: MergeRun)
    ensures run.LoadFailed? <==> !(dataset in fs && fs[dataset].Dataset?) || batch.None?
    ensures run.MissingRecordId? <==> !run.LoadFailed? && ExistingIds(fs[dataset].records).None?
    ensures run.LoadFailed? || run.MissingRecordId? ==> after == fs
    ensures Loaded(fs, dataset, batch) ==>
      var (committed, outcome) := Commit(fs, dataset, backup, MergedList(fs, dataset, batch, convert), faults, restore);
      && after == committed
      && (run.Committed? <==> outcome.Committed?)
      && (!run.Committed? ==> run == outcome)
    ensures run.Committed? ==>
      && Loaded(fs, dataset, batch)
      && dataset in after && after[dataset] == Dataset(MergedList(fs, dataset, batch, convert))
      && run.added == |NewEntries(batch.value, ExistingIds(fs[dataset].records).value)|
      && run.added + run.skipped == |batch.value|
      && run.total == |fs[dataset].records| + run.added
  {
    if !(dataset in fs && fs[dataset].Dataset?) || batch.None? {
      return fs, LoadFailed;
    }
    var current := fs[dataset].records;
    var ids := ExistingIds(current);
    if ids.None? {
      return fs, MissingRecordId;
    }
    var merged, added, skipped := MergeBatch(current, batch.value, ids.value, convert);
    var committed := Commit(fs, dataset, backup, merged, faults, restore);
    after := committed.0;
    run := committed.1;
    if run.Committed? {
      run := Committed(added, skipped, |merged|);
    }
  }
}

=== FILE: direct_merge.dfy ===
/** direct_merge_execution.py: convert, merge, back up, write, restore on failure, re-read. */
module DirectMergeExecution {
  import opened Wrappers
  import opened Records
  import opened Reconcile
  import opened DatasetFile

  const CurrentFile := "apptegy-geocoded-current.json"

  /**
   * `main`: a failed load returns before anything is written; the KeyError of
   * a record without `recordId` ends the script before the backup; a refused
   * backup returns; a failed write renames the backup back.  After a commit
   * the states are tallied (missing state as "Unknown", empty states
   * skipped) and the file is re-read, which reports only its length.
   */
  method Run(fs: Store, batch: Option<seq<ProgressEntry>>, backup: string, faults: Faults)
    returns (after: Store, run: MergeRun, stateCounts: map<string, nat>, verified: Option<nat>)
    ensures !Loaded(fs, CurrentFile, batch) ==> after == fs && (run.LoadFailed? || run.MissingRecordId?)
    ensures Loaded(fs, CurrentFile, batch) ==>
      var (committed, outcome) := Commit(fs, CurrentFile, backup, MergedList(fs, CurrentFile, batch, ConvertBatchRecord), faults, true);
      after == committed && (run.Committed? <==> outcome.Committed?) && (!run.Committed? ==> run == outcome)
    ensures !run.Committed? ==> stateCounts == map[] && verified.None?
    ensures run.Committed? ==>
      && Loaded(fs, CurrentFile, batch)
      && run.added + run.skipped == |batch.value| && run.total == |fs[CurrentFile].records| + run.added
      && verified == Some(run.total)
      && (forall k :: k in stateCounts <==>
            k != "" && CountState(MergedList(fs, CurrentFile, batch, ConvertBatchRecord), StateOf, "Unknown", k) > 0)
      && (forall k :: k in stateCounts ==>
            stateCounts[k] == CountState(MergedList(fs, CurrentFile, batch, ConvertBatchRecord), StateOf, "Unknown", k))
  {
    after, run := MergeAndCommit(fs, CurrentFile, backup, batch, ConvertBatchRecord, faults, true);
    stateCounts, verified := map[], None;
    if run.Committed? {
      stateCounts := TallyStates(after[CurrentFile].records, StateOf, "Unknown", true);
      verified := Reread(after, CurrentFile);
    }
  }
}

=== FILE: enhanced_table.dfy ===
/**
 * The data table of the customer map: rows are plain objects, a search
 * term filters them, a column sorts them in either direction, and the
 * filtered rows are shown a page at a time and exported as CSV.
 * JavaScript's `<` and a number's toString are inputs (`less`, `numText`).
 */
module EnhancedTable {
  import opened Wrappers
  import opened Seqs
  import opened Text
  import opened JsValues

  /** A column: the dot path of its value in a row, and its title. */
  datatype Column = Column(key: string, title: string)

  datatype Direction = Asc | Desc

  /** `o[k]` on a truthy value: an object's property; a primitive's properties are not modelled. */
  function Member(o: JsValue, k: string): JsValue
  {
    if o.Obj? then Field(o.fields, k) else Undefined
  }

  /** `path.reduce((o, k) => o && o[k], v)`. */
  function NestedValue(v: JsValue, path: seq<string>): JsValue
    decreases |path|
  {
    if path == [] then v
    else NestedValue(if Truthy(v) then Member(v, path[0]) else v, path[1..])
  }

  /** getNestedValue: the value at the dot path `key` of a row. */
  function GetNestedValue(row: Object, key: string): JsValue
  {
    NestedValue(Obj(row), SplitChar(key, '.'))
  }

  /** A falsy value stays what it is along any path. */
  lemma {:induction false} FalsyStays(v: JsValue, path: seq<string>)
    requires !Truthy(v)
    ensures NestedValue(v, path) == v
  {
    if path != [] {
      FalsyStays(v, path[1..]);
    }
  }

  /** Following p then q is following p + q. */
  lemma {:induction false} NestedConcat(v: JsValue, p: seq<string>, q: seq<string>)
    ensures NestedValue(v, p + q) == NestedValue(NestedValue(v, p), q)
    decreases |p|
  {
    if p == [] {
      assert p + q == q;
    } else {
      assert (p + q)[0] == p[0] && (p + q)[1..] == p[1..] + q;
      NestedConcat(if Truthy(v) then Member(v, p[0]) else v, p[1..], q);
    }
  }

  /** The path stops at the first falsy value: whatever follows it, that value is the result. */
  lemma ShortCircuit(v: JsValue, p: seq<string>, q: seq<string>)
    requires !Truthy(NestedValue(v, p))
    ensures NestedValue(v, p + q) == NestedValue(v, p)
  {
    NestedConcat(v, p, q);
    FalsyStays(NestedValue(v, p), q);
  }

  /** A key without a dot is a plain property; "a.b" reads b of a, unless a is falsy. */
  lemma NestedKeys(row: Object, a: string, b: string)
    requires '.' !in a && '.' !in b
    ensures GetNestedValue(row, a) == Field(row, a)
    ensures GetNestedValue(row, a + "." + b) == if Truthy(Field(row, a)) then Member(Field(row, a), b) else Field(row, a)
  {
    SplitOfEntry(a, '.', b);
    SplitOfEntry(b, '.', []);
    SplitOfEntry(a, '.', []);
    assert Truthy(Obj(row));
    assert NestedValue(Obj(row), [a]) == NestedValue(Field(row, a), []);
    assert a + "." + b == a + ['.'] + b;
    assert [a] + [b] == [a, b];
    assert [a, b][1..] == [b];
    assert NestedValue(Obj(row), [a, b]) == NestedValue(Field(row, a), [b]);
  }

  /** `(value || '').toString()`: falsy values print as ''; arrays are not modelled. */
  function CellText(v: JsValue, numText: real -> string): (s: string)
    ensures !Truthy(v) ==> s == ""
  {
    match v
    case Str(s) => s
    case Bool(b) => if b then "true" else ""
    case Num(x) => if x != 0.0 then numText(x) else ""
    case Obj(_) => "[object Object]"
    case _ => ""
  }

  /** The search test: no term keeps a row; otherwise some column's value is truthy and its lower-cased text holds the term. */
  predicate Matches(row: Object, columns: seq<Column>, term: string, numText: real -> string)
  {
    term == "" ||
    exists i :: 0 <= i < |columns| && Truthy(GetNestedValue(row, columns[i].key)) &&
      Contains(Lower(CellText(GetNestedValue(row, columns[i].key), numText)), term)
  }

  /** `Array.prototype.filter`: the elements `keep` accepts, in their order. */
  function Kept<T>(s: seq<T>, keep: T -> bool): (r: seq<T>)
    ensures |r| <= |s|
  {
    if s == [] then []
    else if keep(s[0]) then [s[0]] + Kept(s[1..], keep) else Kept(s[1..], keep)
  }

  lemma {:induction false} KeptMembers<T>(s: seq<T>, keep: T -> bool)
    ensures forall x :: x in Kept(s, keep) <==> x in s && keep(x)
  {
    if s != [] {
      KeptMembers(s[1..], keep);
      assert forall x :: x in s <==> x == s[0] || x in s[1..];
    }
  }

  lemma {:induction false} KeptCount<T>(s: seq<T>, keep: T -> bool)
    ensures multiset(Kept(s, keep)) <= multiset(s)
  {
    if s != [] {
      KeptCount(s[1..], keep);
      assert s == [s[0]] + s[1..];
    }
  }

  lemma {:induction false} KeptAll<T>(s: seq<T>, keep: T -> bool)
    requires forall x :: x in s ==> keep(x)
    ensures Kept(s, keep) == s
  {
    if s != [] {
      KeptAll(s[1..], keep);
      assert s == [s[0]] + s[1..];
    }
  }

  lemma {:induction false} KeptConcat<T>(a: seq<T>, b: seq<T>, keep: T -> bool)
    ensures Kept(a + b, keep) == Kept(a, keep) + Kept(b, keep)
  {
    if a == [] {
      assert a + b == b;
    } else {
      assert (a + b)[0] == a[0] && (a + b)[1..] == a[1..] + b;
      KeptConcat(a[1..], b, keep);
      AppendAssoc([a[0]], Kept(a[1..], keep), Kept(b, keep));
    }
  }

  function MatchFn(columns: seq<Column>, term: string, numText: real -> string): Object -> bool
  {
    row => Matches(row, columns, term, numText)
  }

  /** `data.filter(row => …)` with the search test. */
  function Filtered(rows: seq<Object>, columns: seq<Column>, term: string, numText: real -> string): (r: seq<Object>)
    ensures |r| <= |rows|
  {
    Kept(rows, MatchFn(columns, term, numText))
  }

  /** A row is kept exactly when it matches, and no more often than it occurs; every row is kept when there is no term. */
  lemma FilteredMembers(rows: seq<Object>, columns: seq<Column>, term: string, numText: real -> string)
    ensures forall x :: x in Filtered(rows, columns, term, numText) <==> x in rows && Matches(x, columns, term, numText)
    ensures term == "" ==> Filtered(rows, columns, term, numText) == rows
    ensures multiset(Filtered(rows, columns, term, numText)) <= multiset(rows)
  {
    var keep := MatchFn(columns, term, numText);
    KeptMembers(rows, keep);
    KeptCount(rows, keep);
    if term == "" {
      KeptAll(rows, keep);
    }
  }

  /** Filtering keeps the order: the rows kept from a front part come before those kept from a back part. */
  lemma FilteredConcat(a: seq<Object>, b: seq<Object>, columns: seq<Column>, term: string, numText: real -> string)
    ensures Filtered(a + b, columns, term, numText) == Filtered(a, columns, term, numText) + Filtered(b, columns, term, numText)
  {
    KeptConcat(a, b, MatchFn(columns, term, numText));
  }

  /** The sort comparator's sign: negative puts a first. */
  function Compare(va: JsValue, vb: JsValue, dir: Direction, less: (JsValue, JsValue) -> bool): int
  {
    if less(va, vb) then (if dir == Asc then -1 else 1)
    else if less(vb, va) then (if dir == Asc then 1 else -1)
    else 0
  }

  /** Row a sorts before row b on column `col`. */
  function BeforeFn(col: string, dir: Direction, less: (JsValue, JsValue) -> bool): (Object, Object) -> bool
  {
    (a: Object, b: Object) => Compare(GetNestedValue(a, col), GetNestedValue(b, col), dir, less) < 0
  }

  ghost predicate Asymmetric<T(!new)>(rel: (T, T) -> bool)
  {
    forall a, b :: rel(a, b) ==> !rel(b, a)
  }

  /** Each element is not to go before the one ahead of it. */
  predicate SortedBy<T>(s: seq<T>, before: (T, T) -> bool)
  {
    forall i :: 0 <= i < |s| - 1 ==> !before(s[i + 1], s[i])
  }

  /** x placed into a sorted list after every element it does not go before. */
  function InsertSorted<T>(x: T, t: seq<T>, before: (T, T) -> bool): (r: seq<T>)
    ensures |r| == |t| + 1
    ensures r[|r| - 1] == x || (t != [] && r[|r| - 1] == t[|t| - 1])
  {
    if t == [] then [x]
    else if before(x, t[|t| - 1]) then InsertSorted(x, t[..|t| - 1], before) + [t[|t| - 1]]
    else t + [x]
  }

  /** `Array.prototype.sort` with a comparator: a stable sort, each element inserted after its equals. */
  function StableSort<T>(s: seq<T>, before: (T, T) -> bool): (r: seq<T>)
    ensures |r| == |s|
  {
    if s == [] then [] else InsertSorted(s[|s| - 1], StableSort(s[..|s| - 1], before), before)
  }

  lemma {:induction false} InsertCount<T>(x: T, t: seq<T>, before: (T, T) -> bool)
    ensures multiset(InsertSorted(x, t, before)) == multiset(t) + multiset{x}
  {
    if t != [] && before(x, t[|t| - 1]) {
      var front := t[..|t| - 1];
      InsertCount(x, front, before);
      assert t == front + [t[|t| - 1]];
    }
  }

  lemma {:induction false} InsertKeepsSorted<T(!new)>(x: T, t: seq<T>, before: (T, T) -> bool)
    requires Asymmetric(before) && SortedBy(t, before)
    ensures SortedBy(InsertSorted(x, t, before), before)
  {
    if t != [] && before(x, t[|t| - 1]) {
      var n := |t| - 1;
      var front := t[..n];
      assert SortedBy(front, before) by {
        forall i | 0 <= i < |front| - 1
          ensures !before(front[i + 1], front[i])
        {
          assert front[i] == t[i] && front[i + 1] == t[i + 1];
        }
      }
      InsertKeepsSorted(x, front, before);
      var u := InsertSorted(x, front, before);
      assert !before(t[n], u[|u| - 1]) by {
        if n > 0 && u[|u| - 1] == front[n - 1] {
          assert front[n - 1] == t[n - 1];
        }
      }
    }
  }

  /** The sort rearranges the rows: the same rows, as often as before. */
  lemma {:induction false} SortIsPermutation<T>(s: seq<T>, before: (T, T) -> bool)
    ensures multiset(StableSort(s, before)) == multiset(s)
  {
    if s != [] {
      var front := s[..|s| - 1];
      SortIsPermutation(front, before);
      InsertCount(s[|s| - 1], StableSort(front, before), before);
      assert s == front + [s[|s| - 1]];
    }
  }

  /** With an asymmetric comparison no row ends up right behind one it should go before. */
  lemma {:induction false} SortIsSorted<T(!new)>(s: seq<T>, before: (T, T) -> bool)
    requires Asymmetric(before)
    ensures SortedBy(StableSort(s, before), before)
  {
    if s != [] {
      SortIsSorted(s[..|s| - 1], before);
      InsertKeepsSorted(s[|s| - 1], StableSort(s[..|s| - 1], before), before);
    }
  }

  /** Rows no comparison orders keep their order: the sort is stable. */
  lemma {:induction false} SortKeepsTies<T>(s: seq<T>, before: (T, T) -> bool)
    requires forall i, j :: 0 <= i < |s| && 0 <= j < |s| ==> !before(s[i], s[j])
    ensures StableSort(s, before) == s
  {
    if s != [] {
      var front := s[..|s| - 1];
      SortKeepsTies(front, before);
      assert s == front + [s[|s| - 1]];
    }
  }

  /** The comparator never puts two rows each before the other when `<` is asymmetric, as JavaScript's is. */
  lemma BeforeIsAsymmetric(col: string, dir: Direction, less: (JsValue, JsValue) -> bool)
    requires Asymmetric(less)
    ensures Asymmetric(BeforeFn(col, dir, less))
  {
    forall a: Object, b: Object | BeforeFn(col, dir, less)(a, b)
      ensures !BeforeFn(col, dir, less)(b, a)
    {
      var va := GetNestedValue(a, col);
      var vb := GetNestedValue(b, col);
      if dir == Asc {
        assert less(va, vb);
      }
    }
  }

  /** `if (sortColumn)`: a column is set and is not ''. */
  predicate Sorting(sortColumn: Option<string>)
  {
    sortColumn.Some? && sortColumn.value != ""
  }

  /** The rows filterAndSort leaves in filteredData. */
  function View(data: seq<Object>, columns: seq<Column>, term: string, sortColumn: Option<string>, dir: Direction,
                less: (JsValue, JsValue) -> bool, numText: real -> string): seq<Object>
  {
    var f := Filtered(data, columns, term, numText);
    if Sorting(sortColumn) then StableSort(f, BeforeFn(sortColumn.value, dir, less)) else f
  }

  /**
   * The view holds the matching rows, each as often as in the data; when
   * sorting, ascending order never has a value right after a greater one
   * and descending order never has one right after a smaller one.
   */
  lemma ViewContents(data: seq<Object>, columns: seq<Column>, term: string, sortColumn: Option<string>, dir: Direction,
                     less: (JsValue, JsValue) -> bool, numText: real -> string)
    requires Asymmetric(less)
    ensures var v := View(data, columns, term, sortColumn, dir, less, numText);
      && multiset(v) == multiset(Filtered(data, columns, term, numText))
      && (forall x :: x in v <==> x in data && Matches(x, columns, term, numText))
      && (Sorting(sortColumn) ==> forall i :: 0 <= i < |v| - 1 ==>
            var a := GetNestedValue(v[i], sortColumn.value); var b := GetNestedValue(v[i + 1], sortColumn.value);
            if dir == Asc then !less(b, a) else !less(a, b))
  {
    var f := Filtered(data, columns, term, numText);
    FilteredMembers(data, columns, term, numText);
    if Sorting(sortColumn) {
      var before := BeforeFn(sortColumn.value, dir, less);
      SortIsPermutation(f, before);
      BeforeIsAsymmetric(sortColumn.value, dir, less);
      SortIsSorted(f, before);
      var v := StableSort(f, before);
      forall x
        ensures x in v <==> x in f
      {
        assert x in v <==> x in multiset(v);
      }
      forall i | 0 <= i < |v| - 1
        ensures var a := GetNestedValue(v[i], sortColumn.value); var b := GetNestedValue(v[i + 1], sortColumn.value);
          if dir == Asc then !less(b, a) else !less(a, b)
      {
        assert !before(v[i + 1], v[i]);
      }
    }
  }

  /** `Math.ceil(n / k)`: a count of pages, or Infinity or NaN where k is 0. */
  datatype PageCount = Pages(count: int) | Infinite | NaN

  function TotalPages(n: nat, k: int): (p: PageCount)
    ensures k > 0 ==> p.Pages? && (p.count - 1) * k < n + (if n == 0 then k else 0) && n <= p.count * k
  {
    if k > 0 then Pages((n + k - 1) / k)
    else if k == 0 then (if n == 0 then NaN else Infinite)
    else Pages(-(n / -k))
  }

  /** `page < totalPages`: Infinity is above every page, NaN below none. */
  predicate BelowPages(page: int, p: PageCount)
  {
    match p
    case Pages(c) => page < c
    case Infinite => true
    case NaN => false
  }

  /** `Array.prototype.slice(start, end)`: negative bounds count from the end, all are clamped. */
  function JsSlice<T>(s: seq<T>, start: int, end: int): (r: seq<T>)
    ensures var a := if start < 0 then (if |s| + start < 0 then 0 else |s| + start) else (if start > |s| then |s| else start);
      |r| <= |s| && forall i :: 0 <= i < |r| ==> a + i < |s| && r[i] == s[a + i]
  {
    var a := if start < 0 then (if |s| + start < 0 then 0 else |s| + start) else (if start > |s| then |s| else start);
    var b := if end < 0 then (if |s| + end < 0 then 0 else |s| + end) else (if end > |s| then |s| else end);
    if a < b then s[a..b] else []
  }

  /** The rows on page p with k rows a page. */
  function PageRows(rows: seq<Object>, p: int, k: int): seq<Object>
  {
    JsSlice(rows, (p - 1) * k, (p - 1) * k + k)
  }

  /** With k > 0 rows a page, row i is shown on page i / k + 1, at place i % k, and no page holds more than k rows. */
  lemma RowOnItsPage(rows: seq<Object>, k: int, i: nat)
    requires k > 0 && i < |rows|
    ensures var page := PageRows(rows, i / k + 1, k);
      |page| <= k && i % k < |page| && page[i % k] == rows[i]
  {
    var q := i / k;
    var start := q * k;
    assert start + i % k == i && 0 <= i % k < k;
    assert (q + 1 - 1) * k == start;
    SliceAt(rows, start, k, i);
  }

  /** The k-row slice from `start` holds row i at place i - start. */
  lemma SliceAt(rows: seq<Object>, start: int, k: int, i: int)
    requires 0 <= start <= i < start + k && i < |rows|
    ensures var s := JsSlice(rows, start, start + k); |s| <= k && i - start < |s| && s[i - start] == rows[i]
  {
  }

  /** Every page up to the page count shows a row; past it a page is empty. */
  lemma PagesHoldRows(rows: seq<Object>, k: int, p: int)
    requires k > 0 && p >= 1
    ensures TotalPages(|rows|, k).Pages?
    ensures p <= TotalPages(|rows|, k).count ==> PageRows(rows, p, k) != []
    ensures p > TotalPages(|rows|, k).count ==> PageRows(rows, p, k) == []
  {
    var c := TotalPages(|rows|, k).count;
    if p <= c {
      MulMonotone(p - 1, c - 1, k);
      SliceFrom(rows, (p - 1) * k, k);
    } else {
      MulMonotone(c, p - 1, k);
      SliceFrom(rows, (p - 1) * k, k);
    }
  }

  lemma MulMonotone(a: int, b: int, k: int)
    requires a <= b && k >= 0
    ensures a * k <= b * k
  {
  }

  /** A k-row slice from a start before the end is not empty; from the end on it is. */
  lemma SliceFrom(rows: seq<Object>, start: int, k: int)
    requires start >= 0 && k > 0
    ensures start < |rows| <==> JsSlice(rows, start, start + k) != []
  {
  }

  /** A page-size choice: a number of rows, or "Show all". */
  datatype PageChoice = Size(n: int) | ShowAll

  /** A cell as exported: quoted, with each inner quote doubled (section 2, rule 7 of RFC 4180). */
  function Quote(s: string): (q: string)
    ensures |q| >= 2 && q[0] == '"' && q[|q| - 1] == '"'
  {
    "\"" + ReplaceAll(s, "\"", "\"\"") + "\""
  }

  /** A row as exported: its cells quoted and joined by ','. */
  function RowLine(columns: seq<Column>, numText: real -> string): Object -> string
  {
    row => Join(Mapped(columns, (c: Column) => Quote(CellText(GetNestedValue(row, c.key), numText))), ",")
  }

  function TitleOf(c: Column): string
  {
    c.title
  }

  /** convertToCSV: '' for no rows, else the titles joined by ',' and then one line a row, joined by '\n'. */
  function ConvertToCsv(rows: seq<Object>, columns: seq<Column>, numText: real -> string): (csv: string)
    ensures rows == [] <==> csv == ""
  {
    if rows == [] then ""
    else
      var lines := [Join(Mapped(columns, TitleOf), ",")] + Mapped(rows, RowLine(columns, numText));
      assert |lines| > 1 ==> |Join(lines, "\n")| > 0;
      Join(lines, "\n")
  }

  /** Replacing every '"' works one character at a time. */
  lemma QuoteStep(s: string)
    requires s != []
    ensures ReplaceAll(s, "\"", "\"\"") == (if s[0] == '"' then "\"\"" else [s[0]]) + ReplaceAll(s[1..], "\"", "\"\"")
  {
    assert s[..1] == [s[0]];
  }

  /**
   * RFC 4180's reading of a quoted field after its opening quote: a
   * doubled quote is one quote, a single quote closes the field. The
   * result is the field and the text after the closing quote.
   */
  function ReadQuoted(t: string): (r: Option<(string, string)>)
    ensures r.Some? ==> |r.value.1| < |t|
  {
    if t == [] then None
    else if t[0] == '"' then
      if |t| > 1 && t[1] == '"' then
        match ReadQuoted(t[2..])
        case Some(p) => Some(("\"" + p.0, p.1))
        case None => None
      else Some(("", t[1..]))
    else
      match ReadQuoted(t[1..])
      case Some(p) => Some(([t[0]] + p.0, p.1))
      case None => None
  }

  /** A line of quoted fields separated by ',', read back into its fields. */
  function ParseCells(t: string): Option<seq<string>>
    decreases |t|
  {
    if t == [] || t[0] != '"' then None
    else
      match ReadQuoted(t[1..])
      case None => None
      case Some(p) =>
        if p.1 == [] then Some([p.0])
        else if p.1[0] == ',' then
          match ParseCells(p.1[1..])
          case Some(cs) => Some([p.0] + cs)
          case None => None
        else None
  }

  /** A single quote closes the field. */
  lemma ReadClose(rest: string)
    requires rest == [] || rest[0] != '"'
    ensures ReadQuoted("\"" + rest) == Some(("", rest))
  {
    assert ("\"" + rest)[1..] == rest;
  }

  /** A doubled quote reads as one quote of the field. */
  lemma ReadPair(u: string, field: string, rest: string)
    requires ReadQuoted(u) == Some((field, rest))
    ensures ReadQuoted("\"\"" + u) == Some(("\"" + field, rest))
  {
    assert ("\"\"" + u)[2..] == u;
  }

  /** Any other character is a character of the field. */
  lemma ReadOther(c: char, u: string, field: string, rest: string)
    requires c != '"' && ReadQuoted(u) == Some((field, rest))
    ensures ReadQuoted([c] + u) == Some(([c] + field, rest))
  {
    assert ([c] + u)[1..] == u;
  }

  /** An escaped text followed by the closing quote reads back as the text. */
  lemma {:induction false} ReadEscaped(s: string, rest: string)
    requires rest == [] || rest[0] != '"'
    ensures ReadQuoted(ReplaceAll(s, "\"", "\"\"") + "\"" + rest) == Some((s, rest))
  {
    if s == [] {
      ReadClose(rest);
    } else {
      ReadEscaped(s[1..], rest);
      ReadEscapedStep(s, rest);
    }
  }

  /** Reading the escape of s's first character, then the rest of s as the tail. */
  lemma ReadEscapedStep(s: string, rest: string)
    requires s != []
    requires ReadQuoted(ReplaceAll(s[1..], "\"", "\"\"") + "\"" + rest) == Some((s[1..], rest))
    ensures ReadQuoted(ReplaceAll(s, "\"", "\"\"") + "\"" + rest) == Some((s, rest))
  {
    QuoteStep(s);
    var e := ReplaceAll(s[1..], "\"", "\"\"");
    var u := e + "\"" + rest;
    if s[0] == '"' {
      ReadPair(u, s[1..], rest);
      JoinAhead("\"\"", e, rest);
      assert "\"" + s[1..] == s;
    } else {
      ReadOther(s[0], u, s[1..], rest);
      JoinAhead([s[0]], e, rest);
      assert [s[0]] + s[1..] == s;
    }
  }

  lemma JoinAhead(h: string, e: string, rest: string)
    ensures h + e + "\"" + rest == h + (e + "\"" + rest)
  {
  }

  /** A quoted cell alone is read as that one cell. */
  lemma ParseLast(c: string)
    ensures ParseCells(Quote(c)) == Some([c])
  {
    var e := ReplaceAll(c, "\"", "\"\"");
    ReadEscaped(c, []);
    assert Quote(c)[1..] == e + "\"" + [];
  }

  /** A quoted cell and a ',' are read as that cell ahead of the cells after them. */
  lemma ParseFirst(c: string, j: string, cs: seq<string>)
    requires ParseCells(j) == Some(cs)
    ensures ParseCells(Quote(c) + "," + j) == Some([c] + cs)
  {
    var e := ReplaceAll(c, "\"", "\"\"");
    var t := Quote(c) + "," + j;
    ReadEscaped(c, "," + j);
    assert t[1..] == e + "\"" + ("," + j);
    assert ("," + j)[1..] == j;
  }

  /** An exported line reads back, under RFC 4180, as exactly the cells it was made from. */
  lemma {:induction false} QuotedLineRoundTrip(cells: seq<string>)
    requires cells != []
    ensures ParseCells(Join(Mapped(cells, Quote), ",")) == Some(cells)
  {
    var q := Mapped(cells, Quote);
    assert q[0] == Quote(cells[0]);
    if |cells| == 1 {
      ParseLast(cells[0]);
      assert cells == [cells[0]];
    } else {
      assert q[1..] == Mapped(cells[1..], Quote);
      QuotedLineRoundTrip(cells[1..]);
      ParseFirst(cells[0], Join(q[1..], ","), cells[1..]);
      assert [cells[0]] + cells[1..] == cells;
    }
  }

  /** Each exported row line reads back as the texts of its cells, in column order. */
  lemma RowLineRoundTrip(columns: seq<Column>, numText: real -> string, row: Object)
    requires columns != []
    ensures ParseCells(RowLine(columns, numText)(row)) ==
      Some(Mapped(columns, (c: Column) => CellText(GetNestedValue(row, c.key), numText)))
  {
    var cell := (c: Column) => CellText(GetNestedValue(row, c.key), numText);
    var quoted := (c: Column) => Quote(CellText(GetNestedValue(row, c.key), numText));
    MappedMapped(columns, cell, Quote, quoted);
    QuotedLineRoundTrip(Mapped(columns, cell));
  }

  class Table {
    var data: seq<Object>
    var filteredData: seq<Object>
    var sortColumn: Option<string>
    var sortDirection: Direction
    var searchTerm: string
    var currentPage: int
    var itemsPerPage: int
    var columns: seq<Column>

    /** The page number never drops below 1. */
    predicate Valid()
      reads this
    {
      currentPage >= 1
    }

    /** `options.itemsPerPage || 50`: 0 stands for no option. */
    constructor(cols: seq<Column>, perPage: int)
      ensures Valid()
      ensures data == [] && filteredData == [] && sortColumn == None && sortDirection == Asc
      ensures searchTerm == "" && currentPage == 1 && columns == cols
      ensures itemsPerPage == if perPage != 0 then perPage else 50
    {
      data := [];
      filteredData := [];
      sortColumn := None;
      sortDirection := Asc;
      searchTerm := "";
      currentPage := 1;
      itemsPerPage := if perPage != 0 then perPage else 50;
      columns := cols;
    }

    /** filterAndSort: the matching rows, sorted when a column is set, from page 1. */
    method FilterAndSort(less: (JsValue, JsValue) -> bool, numText: real -> string)
      modifies this
      ensures filteredData == View(data, columns, searchTerm, sortColumn, sortDirection, less, numText)
      ensures currentPage == 1 && Valid()
      ensures data == old(data) && columns == old(columns) && searchTerm == old(searchTerm)
      ensures sortColumn == old(sortColumn) && sortDirection == old(sortDirection) && itemsPerPage == old(itemsPerPage)
    {
      filteredData := Filtered(data, columns, searchTerm, numText);
      if Sorting(sortColumn) {
        filteredData := StableSort(filteredData, BeforeFn(sortColumn.value, sortDirection, less));
      }
      currentPage := 1;
    }

    /** The search box: the term is kept lower-cased and the view rebuilt. */
    method Search(value: string, less: (JsValue, JsValue) -> bool, numText: real -> string)
      modifies this
      ensures searchTerm == Lower(value)
      ensures filteredData == View(data, columns, Lower(value), sortColumn, sortDirection, less, numText)
      ensures currentPage == 1 && Valid()
      ensures data == old(data) && columns == old(columns)
      ensures sortColumn == old(sortColumn) && sortDirection == old(sortDirection) && itemsPerPage == old(itemsPerPage)
    {
      searchTerm := Lower(value);
      FilterAndSort(less, numText);
    }

    /** sortBy: the same column flips the direction, another column sorts ascending. */
    method SortBy(key: string, less: (JsValue, JsValue) -> bool, numText: real -> string)
      modifies this
      ensures sortColumn == Some(key)
      ensures sortDirection == if old(sortColumn) == Some(key) then (if old(sortDirection) == Asc then Desc else Asc) else Asc
      ensures filteredData == View(data, columns, searchTerm, sortColumn, sortDirection, less, numText)
      ensures currentPage == 1 && Valid()
      ensures data == old(data) && columns == old(columns) && searchTerm == old(searchTerm) && itemsPerPage == old(itemsPerPage)
    {
      if sortColumn == Some(key) {
        sortDirection := if sortDirection == Asc then Desc else Asc;
      } else {
        sortColumn := Some(key);
        sortDirection := Asc;
      }
      FilterAndSort(less, numText);
    }

    /** setData: the rows are replaced and the view rebuilt from page 1. */
    method SetData(rows: seq<Object>, less: (JsValue, JsValue) -> bool, numText: real -> string)
      modifies this
      ensures data == rows
      ensures filteredData == View(rows, columns, searchTerm, sortColumn, sortDirection, less, numText)
      ensures currentPage == 1 && Valid()
      ensures columns == old(columns) && searchTerm == old(searchTerm)
      ensures sortColumn == old(sortColumn) && sortDirection == old(sortDirection) && itemsPerPage == old(itemsPerPage)
    {
      data := rows;
      filteredData := rows;
      FilterAndSort(less, numText);
    }

    /** setColumns: the columns are replaced; the rows shown are not recomputed until the next filterAndSort. */
    method SetColumns(cols: seq<Column>)
      modifies this
      ensures columns == cols
      ensures data == old(data) && filteredData == old(filteredData) && currentPage == old(currentPage)
      ensures sortColumn == old(sortColumn) && sortDirection == old(sortDirection) && searchTerm == old(searchTerm)
      ensures itemsPerPage == old(itemsPerPage)
    {
      columns := cols;
    }

    /** The page-size menu: a size, or "Show all" as the number of rows shown now; back to page 1. */
    method ChangePageSize(choice: PageChoice)
      modifies this
      ensures itemsPerPage == if choice.ShowAll? then |filteredData| else choice.n
      ensures currentPage == 1 && Valid()
      ensures data == old(data) && filteredData == old(filteredData) && sortColumn == old(sortColumn)
      ensures sortDirection == old(sortDirection) && searchTerm == old(searchTerm) && columns == old(columns)
    {
      itemsPerPage := if choice.ShowAll? then |filteredData| else choice.n;
      currentPage := 1;
    }

    /** The previous-page button: back one page, never below 1. */
    method PrevPage()
      requires Valid()
      modifies this
      ensures Valid()
      ensures currentPage == if old(currentPage) > 1 then old(currentPage) - 1 else old(currentPage)
      ensures data == old(data) && filteredData == old(filteredData) && itemsPerPage == old(itemsPerPage)
      ensures sortColumn == old(sortColumn) && sortDirection == old(sortDirection) && searchTerm == old(searchTerm)
      ensures columns == old(columns)
    {
      if currentPage > 1 {
        currentPage := currentPage - 1;
      }
    }

    /** The next-page button: on one page, while below the page count. */
    method NextPage()
      requires Valid()
      modifies this
      ensures Valid()
      ensures currentPage == if BelowPages(old(currentPage), TotalPages(|filteredData|, itemsPerPage)) then old(currentPage) + 1 else old(currentPage)
      ensures itemsPerPage > 0 ==> currentPage <= old(currentPage) || currentPage <= TotalPages(|filteredData|, itemsPerPage).count
      ensures data == old(data) && filteredData == old(filteredData) && itemsPerPage == old(itemsPerPage)
      ensures sortColumn == old(sortColumn) && sortDirection == old(sortDirection) && searchTerm == old(searchTerm)
      ensures columns == old(columns)
    {
      if BelowPages(currentPage, TotalPages(|filteredData|, itemsPerPage)) {
        currentPage := currentPage + 1;
      }
    }

    /** The rows renderBody shows: the current page's slice of the filtered rows. */
    function PageData(): (r: seq<Object>)
      reads this
      ensures |r| <= |filteredData|
    {
      PageRows(filteredData, currentPage, itemsPerPage)
    }
  }
}

=== FILE: exec_merge.dfy ===
/** exec_merge.py: the exec'd text, i.e. convert, merge, backup then write, state tally. */
module ExecMerge {
  import opened Wrappers
  import opened Records
  import opened Reconcile
  import opened DatasetFile

  const CurrentFile := "apptegy-geocoded-current.json"

  /**
   * The exec'd script: no handler, no restore; after a commit the states
   * are tallied with "Unknown" for a missing state and empty states skipped.
   */
  method Run(fs: Store, batch: Option<seq<ProgressEntry>>, backup: string, faults: Faults)
    returns (after: Store, run: MergeRun, stateCounts: map<string, nat>)
    ensures !Loaded(fs, CurrentFile, batch) ==> after == fs && (run.LoadFailed? || run.MissingRecordId?)
    ensures Loaded(fs, CurrentFile, batch) ==>
      var (committed, outcome) := Commit(fs, CurrentFile, backup, MergedList(fs, CurrentFile, batch, ConvertBatchRecord), faults, false);
      after == committed && (run.Committed? <==> outcome.Committed?) && (!run.Committed? ==> run == outcome)
    ensures !run.Committed? ==> stateCounts == map[]
    ensures run.Committed? ==>
      && Loaded(fs, CurrentFile, batch)
      && run.total == |fs[CurrentFile].records| + run.added
      && (forall k :: k in stateCounts <==>
            k != "" && CountState(MergedList(fs, CurrentFile, batch, ConvertBatchRecord), StateOf, "Unknown", k) > 0)
      && (forall k :: k in stateCounts ==>
            stateCounts[k] == CountState(MergedList(fs, CurrentFile, batch, ConvertBatchRecord), StateOf, "Unknown", k))
  {
    after, run := MergeAndCommit(fs, CurrentFile, backup, batch, ConvertBatchRecord, faults, false);
    stateCounts := map[];
    if run.Committed? {
      stateCounts := TallyStates(after[CurrentFile].records, StateOf, "Unknown", true);
    }
  }
}

=== FILE: execute_merge.dfy ===
/** execute_merge.py: run the external merge, or fall back to a key-presence merge. */
module ExecuteMerge {
  import opened Wrappers
  import opened Records
  import opened Reconcile
  import opened DatasetFile

  const CurrentFile := "apptegy-geocoded-current.json"

  /**
   * The fallback's conversion: `address.get('town', address.get('city', ''))`
   * tests key presence, never looks at neighbourhood or the existing city,
   * and the owner is "Geocoded".
   */
  function ConvertTownThenCity(e: ProgressEntry): (r: DatasetRecord)
    ensures r.Merged? && r.m.owner == "Geocoded" && r.RecordIdKey() == Some(e.recordId)
    ensures "town" in AddressOf(e) ==> r.m.city == AddressOf(e)["town"]
    ensures "town" !in AddressOf(e) && "city" in AddressOf(e) ==> r.m.city == AddressOf(e)["city"]
    ensures "town" !in AddressOf(e) && "city" !in AddressOf(e) ==> r.m.city == ""
  {
    var keys := ["town", "city"];
    assert keys[0] == "town" && keys[1] == "city";
    Merged(BuildRecord(e, FirstPresent(AddressOf(e), keys, ""), "Geocoded"))
  }

  /**
   * `execute_merge`: `primary` is what the external merge module returned
   * (None when it raised), and `external` the files as it left them,
   * whatever it wrote before returning or raising.  On success that is the
   * outcome; on failure the fallback merges over those files and answers
   * true only when its backup and write both succeed.
   */
  method Run(external: Store, primary: Option<nat>, batch: Option<seq<ProgressEntry>>, backup: string, faults: Faults)
    returns (after: Store, ok: bool)
    ensures primary.Some? ==> ok && after == external
    ensures primary.None? && !Loaded(external, CurrentFile, batch) ==> !ok && after == external
    ensures primary.None? && Loaded(external, CurrentFile, batch) ==>
      var (committed, outcome) := Commit(external, CurrentFile, backup, MergedList(external, CurrentFile, batch, ConvertTownThenCity), faults, false);
      after == committed && (ok <==> outcome.Committed?)
  {
    if primary.Some? {
      return external, true;
    }
    var run;
    after, run := MergeAndCommit(external, CurrentFile, backup, batch, ConvertTownThenCity, faults, false);
    ok := run.Committed?;
  }
}

=== FILE: execute_merge_manually.dfy ===
/** execute_merge_manually.py: merge with a nested key-presence city rule, backup then write. */
module ExecuteMergeManually {
  import opened Wrappers
  import opened Records
  import opened Reconcile
  import opened DatasetFile

  const CurrentFile := "apptegy-geocoded-current.json"

  /**
   * `address.get('town', address.get('city', address.get('neighbourhood', '')))`:
   * the first key present among town, city and neighbourhood, however
   * empty its value; the owner is "Geocoded".
   */
  function ConvertPresenceChain(e: ProgressEntry): (r: DatasetRecord)
    ensures r.Merged? && r.m.owner == "Geocoded" && r.RecordIdKey() == Some(e.recordId)
    ensures "town" in AddressOf(e) ==> r.m.city == AddressOf(e)["town"]
    ensures "town" !in AddressOf(e) && "city" in AddressOf(e) ==> r.m.city == AddressOf(e)["city"]
    ensures "town" !in AddressOf(e) && "city" !in AddressOf(e) ==> r.m.city == Get(AddressOf(e), "neighbourhood")
  {
    var keys := ["town", "city", "neighbourhood"];
    assert keys[0] == "town" && keys[1] == "city" && keys[2] == "neighbourhood";
    Merged(BuildRecord(e, FirstPresent(AddressOf(e), keys, ""), "Geocoded"))
  }

  /** The script body: no handler, no restore, tally of non-empty states with '' for a missing one. */
  method Run(fs: Store, batch: Option<seq<ProgressEntry>>, backup: string, faults: Faults)
    returns (after: Store, run: MergeRun, stateCounts: map<string, nat>)
    ensures !Loaded(fs, CurrentFile, batch) ==> after == fs && (run.LoadFailed? || run.MissingRecordId?)
    ensures Loaded(fs, CurrentFile, batch) ==>
      var (committed, outcome) := Commit(fs, CurrentFile, backup, MergedList(fs, CurrentFile, batch, ConvertPresenceChain), faults, false);
      after == committed && (run.Committed? <==> outcome.Committed?) && (!run.Committed? ==> run == outcome)
    ensures !run.Committed? ==> stateCounts == map[]
    ensures run.Committed? ==>
      && Loaded(fs, CurrentFile, batch)
      && run.added == |NewEntries(batch.value, ExistingIds(fs[CurrentFile].records).value)|
      && run.total == |fs[CurrentFile].records| + run.added
      && (forall k :: k in stateCounts <==>
            k != "" && CountState(MergedList(fs, CurrentFile, batch, ConvertPresenceChain), StateOf, "", k) > 0)
      && (forall k :: k in stateCounts ==>
            stateCounts[k] == CountState(MergedList(fs, CurrentFile, batch, ConvertPresenceChain), StateOf, "", k))
  {
    after, run := MergeAndCommit(fs, CurrentFile, backup, batch, ConvertPresenceChain, faults, false);
    stateCounts := map[];
    if run.Committed? {
      stateCounts := TallyStates(after[CurrentFile].records, StateOf, "", true);
    }
  }
}

=== FILE: extract_progress.dfy ===
/** extract_geocoded_progress.py: rebuild the dataset from the checkpoint's successful results. */
module ExtractGeocodedProgress {
  import opened Wrappers
  import opened Records
  import opened Reconcile
  import opened DatasetFile
  import Seqs

  const OutputFile := "apptegy-geocoded-current.json"

  /** A result is kept when `geocoded` and `location` are both truthy. */
  predicate Successful(e: ProgressEntry)
  {
    e.geocoded && e.location.Some?
  }

  /**
   * The per-result conversion: city by truthiness city > town > village,
   * state '' when absent or empty, domain and owner left empty.
   */
  function ToCompetitor(e: ProgressEntry): (r: CompetitorRecord)
    requires Successful(e)
    ensures r.recordId == e.recordId && r.name == e.companyName && r.createDate == e.processedAt
    ensures r.competitor == "Apptegy" && r.kind == "competitor" && r.domain == "" && r.owner == ""
    ensures r.lat == Some(e.location.value.latitude) && r.lng == Some(e.location.value.longitude)
    ensures r.displayName == e.location.value.displayName
    ensures r.state == Get(AddressOf(e), "state")
    ensures var a := AddressOf(e);
      r.city == if Get(a, "city") != "" then a["city"]
                else if Get(a, "town") != "" then a["town"]
                else if Get(a, "village") != "" then a["village"]
                else ""
  {
    var hit := e.location.value;
    FirstTruthyOfThree(hit.address, "city", "town", "village", "");
    CompetitorRecord(
      recordId := e.recordId,
      name := e.companyName,
      competitor := "Apptegy",
      domain := "",
      city := FirstTruthy(hit.address, ["city", "town", "village"], ""),
      state := Get(hit.address, "state"),
      owner := "",
      createDate := e.processedAt,
      lat := Some(hit.latitude),
      lng := Some(hit.longitude),
      displayName := hit.displayName,
      kind := "competitor")
  }

  /** The converted successful results, in order. */
  function Extracted(results: seq<ProgressEntry>): (r: seq<DatasetRecord>)
    ensures |r| <= |results|
    ensures forall x :: x in r ==> exists e :: e in results && Successful(e) && x == Competitor(ToCompetitor(e))
  {
    if results == [] then []
    else
      var front := Extracted(results[..|results| - 1]);
      var last := results[|results| - 1];
      if Successful(last) then front + [Competitor(ToCompetitor(last))] else front
  }

  /** The extraction loop. */
  method ExtractSuccessful(results: seq<ProgressEntry>) returns (found: seq<DatasetRecord>)
    ensures found == Extracted(results)
  {
    found := [];
    for i := 0 to |results|
      invariant found == Extracted(results[..i])
    {
      assert results[..i + 1][..i] == results[..i];
      if Successful(results[i]) {
        found := found + [Competitor(ToCompetitor(results[i]))];
      }
    }
    assert results[..|results|] == results;
  }

  /**
   * Every result that is not successful is dropped and every successful one
   * yields exactly one record.
   */
  lemma {:induction false} ExtractedCount(results: seq<ProgressEntry>)
    ensures |Extracted(results)| == |Seqs.Indices(results, Successful)|
  {
    if results != [] {
      ExtractedCount(results[..|results| - 1]);
      Seqs.IndicesSnoc(results, Successful);
    }
  }

  /** `record.get('city', 'Unknown')` and `state` as the summary's "city, state" key. */
  function CityStateLabel(r: DatasetRecord): Option<string>
  {
    var city := match r
      case Competitor(c) => c.city
      case Merged(m) => m.city
      case Raw(_) => "Unknown";
    Some(city + ", " + StateOf(r).GetOr("Unknown"))
  }

  /**
   * `extract_geocoded_schools`: without a progress file nothing happens;
   * otherwise the demo records (when that file exists) followed by the
   * extracted ones overwrite the dataset file with no backup and no dedup,
   * and every state and "city, state" pair is tallied, empty ones included.
   */
  method Run(fs: Store, progress: Option<seq<ProgressEntry>>, demo: Option<seq<DatasetRecord>>)
    returns (after: Store, states: map<string, nat>, cities: map<string, nat>)
    ensures progress.None? ==> after == fs && states == map[] && cities == map[]
    ensures progress.Some? ==>
      var all := (if demo.Some? then demo.value else []) + Extracted(progress.value);
      && after == fs[OutputFile := Dataset(all)]
      && (forall k :: k in states <==> CountState(all, StateOf, "Unknown", k) > 0)
      && (forall k :: k in states ==> states[k] == CountState(all, StateOf, "Unknown", k))
      && (forall k :: k in cities <==> CountState(all, CityStateLabel, "", k) > 0)
      && (forall k :: k in cities ==> cities[k] == CountState(all, CityStateLabel, "", k))
  {
    if progress.None? {
      return fs, map[], map[];
    }
    var found := ExtractSuccessful(progress.value);
    var all := (if demo.Some? then demo.value else []) + found;
    after := Write(fs, OutputFile, all, false);
    states := TallyStates(all, StateOf, "Unknown", false);
    cities := TallyStates(all, CityStateLabel, "", false);
  }
}

=== FILE: final_merge.dfy ===
/** final_merge_attempt.py: id-set analysis, inline conversion, merge, backup then write, no restore. */
module FinalMergeAttempt {
  import opened Wrappers
  import opened Records
  import opened Seqs
  import opened Reconcile
  import opened DatasetFile

  const CurrentFile := "apptegy-geocoded-current.json"

  /**
   * The duplicate analysis of `main`: the batch ids already in the dataset
   * and those that are not.  The unique ids never outnumber the entries the
   * merge loop appends, and match them exactly when those entries carry
   * pairwise different ids.
   */
  method AnalyseIds(current: seq<DatasetRecord>, batch: seq<ProgressEntry>)
    returns (duplicates: set<string>, uniqueBatch: set<string>)
    requires ExistingIds(current).Some?
    ensures var ids := ExistingIds(current).value;
      && duplicates == ids * BatchIds(batch) && uniqueBatch == BatchIds(batch) - ids
      && |uniqueBatch| <= |NewEntries(batch, ids)|
      && (|uniqueBatch| == |NewEntries(batch, ids)| <==> Distinct(Ids(NewEntries(batch, ids))))
  {
    var ids := ExistingIds(current).value;
    duplicates := ids * BatchIds(batch);
    uniqueBatch := BatchIds(batch) - ids;
    SetPreviewAgainstLoop(batch, ids);
  }

  /**
   * The merge, backup, write and post-write report of `main`: every failure
   * is caught by the one outer handler, so a failed write leaves the backup
   * where it is.  After a commit the states are tallied with '' for a
   * missing state and empty states skipped, and the re-read reports the
   * length.
   */
  method MergeAndReport(fs: Store, batch: Option<seq<ProgressEntry>>, backup: string, faults: Faults)
    returns (after: Store, run: MergeRun, stateCounts: map<string, nat>, verified: Option<nat>)
    ensures !Loaded(fs, CurrentFile, batch) ==> after == fs && (run.LoadFailed? || run.MissingRecordId?)
    ensures Loaded(fs, CurrentFile, batch) ==>
      var (committed, outcome) := Commit(fs, CurrentFile, backup, MergedList(fs, CurrentFile, batch, ConvertBatchRecord), faults, false);
      after == committed && (run.Committed? <==> outcome.Committed?) && (!run.Committed? ==> run == outcome)
    ensures !run.Committed? ==> stateCounts == map[] && verified.None?
    ensures run.Committed? ==>
      && Loaded(fs, CurrentFile, batch)
      && run.added == |NewEntries(batch.value, ExistingIds(fs[CurrentFile].records).value)|
      && run.total == |fs[CurrentFile].records| + run.added
      && verified == Some(run.total)
      && (forall k :: k in stateCounts <==>
            k != "" && CountState(MergedList(fs, CurrentFile, batch, ConvertBatchRecord), StateOf, "", k) > 0)
      && (forall k :: k in stateCounts ==>
            stateCounts[k] == CountState(MergedList(fs, CurrentFile, batch, ConvertBatchRecord), StateOf, "", k))
  {
    stateCounts, verified := map[], None;
    after, run := MergeAndCommit(fs, CurrentFile, backup, batch, ConvertBatchRecord, faults, false);
    if run.Committed? {
      stateCounts := TallyStates(after[CurrentFile].records, StateOf, "", true);
      verified := Reread(after, CurrentFile);
    }
  }

  /**
   * `main`: the duplicate analysis (`existing ∩ batch`, `batch − existing`)
   * runs before the merge; the unique ids it reports never outnumber the
   * records the merge appends, and match them exactly when the appended
   * entries carry pairwise different ids.  The files, the run's outcome,
   * the state tally and the re-read are those of the merge and report.
   */
  method Run(fs: Store, batch: Option<seq<ProgressEntry>>, backup: string, faults: Faults)
    returns (after: Store, run: MergeRun, duplicates: set<string>, uniqueBatch: set<string>,
             stateCounts: map<string, nat>, verified: Option<nat>)
    ensures Loaded(fs, CurrentFile, batch) ==>
      var ids := ExistingIds(fs[CurrentFile].records).value;
      duplicates == ids * BatchIds(batch.value) && uniqueBatch == BatchIds(batch.value) - ids
    ensures run.Committed? ==>
      && Loaded(fs, CurrentFile, batch)
      && |uniqueBatch| <= run.added
      && (|uniqueBatch| == run.added <==>
            Distinct(Ids(NewEntries(batch.value, ExistingIds(fs[CurrentFile].records).value))))
    ensures !Loaded(fs, CurrentFile, batch) ==> after == fs && (run.LoadFailed? || run.MissingRecordId?)
    ensures Loaded(fs, CurrentFile, batch) ==>
      var (committed, outcome) := Commit(fs, CurrentFile, backup, MergedList(fs, CurrentFile, batch, ConvertBatchRecord), faults, false);
      after == committed && (run.Committed? <==> outcome.Committed?) && (!run.Committed? ==> run == outcome)
    ensures !run.Committed? ==> stateCounts == map[] && verified.None?
    ensures run.Committed? ==>
      && run.added == |NewEntries(batch.value, ExistingIds(fs[CurrentFile].records).value)|
      && run.total == |fs[CurrentFile].records| + run.added
      && verified == Some(run.total)
      && (forall k :: k in stateCounts <==>
            k != "" && CountState(MergedList(fs, CurrentFile, batch, ConvertBatchRecord), StateOf, "", k) > 0)
      && (forall k :: k in stateCounts ==>
            stateCounts[k] == CountState(MergedList(fs, CurrentFile, batch, ConvertBatchRecord), StateOf, "", k))
  {
    duplicates, uniqueBatch := {}, {};
    if !Loaded(fs, CurrentFile, batch) {
      after, run, stateCounts, verified := MergeAndReport(fs, batch, backup, faults);
      return;
    }
    duplicates, uniqueBatch := AnalyseIds(fs[CurrentFile].records, batch.value);
    ghost var appended := |NewEntries(batch.value, ExistingIds(fs[CurrentFile].records).value)|;
    assert |uniqueBatch| <= appended;
    after, run, stateCounts, verified := MergeAndReport(fs, batch, backup, faults);
  }
}

=== FILE: geo_retry.dfy ===
/**
 * The simple retry geocoders of intelligent_geocoder.py, geocode_with_dedup.py,
 * geocode_all_customers.py and the single-attempt ones of
 * parse_excel_with_geocoding.py: a found place answers, an empty answer gives
 * up at once, and a failure is retried while attempts remain.
 */
module GeoRetry {
  import opened Wrappers
  import opened Service

  /** The `{'lat': ..., 'lng': ...}` dict a lookup returns and the address caches hold. */
  datatype Coords = Coords(lat: Coord, lng: Coord)

  /** Python truthiness of both coordinates (`if lat and lng`). */
  predicate TruthyCoords(c: Coords)
  {
    c.lat != 0.0 && c.lng != 0.0
  }

  /** An attempt that raised: the loop goes on to the next attempt. */
  predicate Failed(r: Response)
  {
    r.RequestFailure? || r.UnexpectedFailure?
  }

  function ToCoords(p: Place): Coords
  {
    Coords(p.lat, p.lon)
  }

  /** What the lookup returns when attempts `attempt`, `attempt + 1`, ... below `retries` remain. */
  function Outcome(svc: Oracle, address: string, retries: nat, attempt: nat): Option<Coords>
    decreases retries - attempt
  {
    if attempt >= retries then None
    else
      match svc(address, attempt)
      case Found(p) => Some(ToCoords(p))
      case NoResults => None
      case _ => Outcome(svc, address, retries, attempt + 1)
  }

  /** How many requests the lookup sends from attempt `attempt` on. */
  function Requests(svc: Oracle, address: string, retries: nat, attempt: nat): (n: nat)
    ensures attempt <= retries ==> n <= retries - attempt
    ensures attempt < retries ==> n >= 1
    decreases retries - attempt
  {
    if attempt >= retries then 0
    else if Failed(svc(address, attempt)) then 1 + Requests(svc, address, retries, attempt + 1)
    else 1
  }

  /**
   * The lookup finds a place exactly when some attempt below the budget
   * answers with one and every earlier attempt failed; the place is that
   * attempt's.
   */
  lemma {:induction false} OutcomeFinds(svc: Oracle, address: string, retries: nat, attempt: nat)
    ensures Outcome(svc, address, retries, attempt).Some? <==>
      exists a :: attempt <= a < retries && svc(address, a).Found? && forall b :: attempt <= b < a ==> Failed(svc(address, b))
    ensures forall a :: attempt <= a < retries && svc(address, a).Found? && (forall b :: attempt <= b < a ==> Failed(svc(address, b))) ==>
      Outcome(svc, address, retries, attempt) == Some(ToCoords(svc(address, a).place))
    decreases retries - attempt
  {
    if attempt < retries {
      OutcomeFinds(svc, address, retries, attempt + 1);
      if Failed(svc(address, attempt)) {
        forall a | attempt + 1 <= a < retries && svc(address, a).Found?
          ensures (forall b :: attempt <= b < a ==> Failed(svc(address, b))) <==>
            (forall b :: attempt + 1 <= b < a ==> Failed(svc(address, b)))
        {
        }
      }
    }
  }

  /**
   * `geocode_address`: one request per attempt; a found place is returned,
   * an empty answer returns None at once, a failure moves on to the next
   * attempt, and None follows the last failed attempt.
   */
  method Geocode(address: string, svc: Oracle, retries: nat) returns (loc: Option<Coords>, requests: nat)
    ensures loc == Outcome(svc, address, retries, 0)
    ensures requests == Requests(svc, address, retries, 0)
  {
    requests := 0;
    var attempt := 0;
    while attempt < retries
      invariant attempt <= retries
      invariant requests == attempt
      invariant Outcome(svc, address, retries, 0) == Outcome(svc, address, retries, attempt)
      invariant Requests(svc, address, retries, 0) == attempt + Requests(svc, address, retries, attempt)
    {
      var response := svc(address, attempt);
      requests := requests + 1;
      match response {
        case Found(p) =>
          return Some(ToCoords(p)), requests;
        case NoResults =>
          return None, requests;
        case _ =>
      }
      attempt := attempt + 1;
    }
    return None, requests;
  }
}

=== FILE: geocode_all_customers.dfy ===
/**
 * geocode_all_customers.py: the charter sheet and then the district sheet,
 * every row with a website geocoded (cache first, three attempts), the
 * cache saved every 50 processed rows across both sheets, and data.js
 * written with escaped names.
 */
module GeocodeAllCustomers {
  import opened Wrappers
  import opened Service
  import opened Sheet
  import opened GeoRetry
  import opened ClientSheets
  import opened JsEmit

  const SaveEvery: nat := 50
  const Retries: nat := 3

  /** A row of either sheet, read, with the sheet it came from. */
  datatype Job = Job(client: Client, kind: Kind)

  function Tag(cs: seq<Client>, kind: Kind): (js: seq<Job>)
    ensures |js| == |cs|
  {
    if cs == [] then [] else [Job(cs[0], kind)] + Tag(cs[1..], kind)
  }

  /** The charter rows, then the district rows: the order the two loops visit them. */
  function Jobs(charters: seq<Row>, districts: seq<Row>): (js: seq<Job>)
  {
    Tag(ReadClients(charters, Charter), Charter) + Tag(ReadClients(districts, District), District)
  }

  datatype RunState = RunState(customers: seq<Customer>, cache: map<string, Coords>, processed: nat,
                               geocoded: nat, failed: nat, requests: nat, saves: seq<map<string, Coords>>)

  /** The coordinates a row gets: the cached ones, or the lookup's answer. */
  function Location(cache: map<string, Coords>, address: string, svc: Oracle): Option<Coords>
  {
    if address in cache then Some(cache[address]) else Outcome(svc, address, Retries, 0)
  }

  /** `lat and lng` after the lookup: None and a zero coordinate are both falsy. */
  predicate Usable(loc: Option<Coords>)
  {
    loc.Some? && TruthyCoords(loc.value)
  }

  /**
   * One row: without a website nothing happens; otherwise a cache miss sends
   * the lookup, caching and counting a truthy answer and counting anything
   * else as a failure; a truthy location appends the customer; the row is
   * counted and every 50th counted row saves the cache.
   */
  function Step(s: RunState, j: Job, svc: Oracle): (r: RunState)
    ensures j.client.url.None? ==> r == s
    ensures j.client.url.Some? ==> r.processed == s.processed + 1
    ensures |s.customers| <= |r.customers| <= |s.customers| + 1
  {
    if j.client.url.None? then s
    else
      var a := j.client.address;
      var loc := Location(s.cache, a, svc);
      var looked :=
        if a in s.cache then s
        else
          var requests := s.requests + Requests(svc, a, Retries, 0);
          if Usable(loc) then s.(cache := s.cache[a := loc.value], geocoded := s.geocoded + 1, requests := requests)
          else s.(failed := s.failed + 1, requests := requests);
      var customers := if Usable(loc) then looked.customers + [ToCustomer(j.client, j.kind, loc.value)] else looked.customers;
      var processed := s.processed + 1;
      looked.(customers := customers, processed := processed,
              saves := if processed % SaveEvery == 0 then looked.saves + [looked.cache] else looked.saves)
  }

  /** The state after the first k rows. */
  function StateAt(jobs: seq<Job>, cache: map<string, Coords>, k: nat, svc: Oracle): (s: RunState)
    requires k <= |jobs|
    ensures s.processed <= k
  {
    if k == 0 then RunState([], cache, 0, 0, 0, 0, [])
    else Step(StateAt(jobs, cache, k - 1, svc), jobs[k - 1], svc)
  }

  /**
   * The counters: every new lookup is a success or a failure, every success
   * is a customer, and a customer or a failure is a processed row.
   */
  lemma {:induction false} Counters(jobs: seq<Job>, cache: map<string, Coords>, k: nat, svc: Oracle)
    requires k <= |jobs|
    ensures var s := StateAt(jobs, cache, k, svc);
      && s.geocoded <= |s.customers|
      && |s.customers| + s.failed <= s.processed
      && s.requests <= Retries * (s.geocoded + s.failed)
  {
    if k > 0 {
      Counters(jobs, cache, k - 1, svc);
      var s := StateAt(jobs, cache, k - 1, svc);
      if jobs[k - 1].client.url.Some? && jobs[k - 1].client.address !in s.cache {
        assert Requests(svc, jobs[k - 1].client.address, Retries, 0) <= Retries;
      }
    }
  }

  /** The cache is saved once per 50 processed rows, the count running across both sheets. */
  lemma {:induction false} SavesPerFifty(jobs: seq<Job>, cache: map<string, Coords>, k: nat, svc: Oracle)
    requires k <= |jobs|
    ensures |StateAt(jobs, cache, k, svc).saves| == StateAt(jobs, cache, k, svc).processed / SaveEvery
  {
    if k > 0 {
      SavesPerFifty(jobs, cache, k - 1, svc);
    }
  }

  /** Rows with a website are exactly the processed ones. */
  function WithWebsite(jobs: seq<Job>): (n: nat)
    ensures n <= |jobs|
  {
    if jobs == [] then 0 else WithWebsite(jobs[..|jobs| - 1]) + (if jobs[|jobs| - 1].client.url.Some? then 1 else 0)
  }

  lemma {:induction false} ProcessedIsWithWebsite(jobs: seq<Job>, cache: map<string, Coords>, k: nat, svc: Oracle)
    requires k <= |jobs|
    ensures StateAt(jobs, cache, k, svc).processed == WithWebsite(jobs[..k])
  {
    if k > 0 {
      ProcessedIsWithWebsite(jobs, cache, k - 1, svc);
      assert jobs[..k][..k - 1] == jobs[..k - 1];
    }
  }

  /** The cache only grows: an address once cached keeps its coordinates. */
  lemma {:induction false} CacheKept(jobs: seq<Job>, cache: map<string, Coords>, k: nat, m: nat, svc: Oracle)
    requires k <= m <= |jobs|
    ensures forall a :: a in StateAt(jobs, cache, k, svc).cache ==>
      a in StateAt(jobs, cache, m, svc).cache && StateAt(jobs, cache, m, svc).cache[a] == StateAt(jobs, cache, k, svc).cache[a]
    decreases m - k
  {
    if k < m {
      CacheKept(jobs, cache, k + 1, m, svc);
    }
  }

  predicate TruthyCache(cache: map<string, Coords>)
  {
    forall a :: a in cache ==> TruthyCoords(cache[a])
  }

  /** A row changes the cache only by adding a truthy answer for an uncached address. */
  lemma StepCache(s: RunState, j: Job, svc: Oracle)
    ensures var a := j.client.address; var loc := Location(s.cache, a, svc);
      Step(s, j, svc).cache == if j.client.url.Some? && a !in s.cache && Usable(loc) then s.cache[a := loc.value] else s.cache
  {
  }

  /** Everything the run caches is truthy, so a truthy cache stays truthy. */
  lemma {:induction false} CacheStaysTruthy(jobs: seq<Job>, cache: map<string, Coords>, k: nat, svc: Oracle)
    requires k <= |jobs|
    requires TruthyCache(cache)
    ensures TruthyCache(StateAt(jobs, cache, k, svc).cache)
  {
    if k > 0 {
      CacheStaysTruthy(jobs, cache, k - 1, svc);
      var s := StateAt(jobs, cache, k - 1, svc);
      StepCache(s, jobs[k - 1], svc);
      var c := StateAt(jobs, cache, k, svc).cache;
      forall a | a in c
        ensures TruthyCoords(c[a])
      {
        if a !in s.cache {
          assert Usable(Location(s.cache, a, svc));
        }
      }
    }
  }

  /**
   * The customer a row appends: only rows with a website and a truthy
   * location, carrying the name, website, sheet and state read from the row.
   */
  lemma RowCustomer(s: RunState, j: Job, svc: Oracle)
    requires |Step(s, j, svc).customers| == |s.customers| + 1
    ensures var r := Step(s, j, svc);
      && j.client.url.Some? && j.client.address in r.cache
      && TruthyCoords(r.cache[j.client.address])
      && r.customers == s.customers + [ToCustomer(j.client, j.kind, r.cache[j.client.address])]
  {
  }

  /** The customer row k - 1 appends, if any. */
  function Appended(jobs: seq<Job>, cache: map<string, Coords>, k: nat, svc: Oracle): Option<Customer>
    requires 0 < k <= |jobs|
  {
    var before := StateAt(jobs, cache, k - 1, svc);
    var after := StateAt(jobs, cache, k, svc);
    if |after.customers| == |before.customers| + 1 then Some(after.customers[|before.customers|]) else None
  }

  /**
   * A customer appended by row k - 1 has the coordinates the final cache
   * holds for that row's address.
   */
  lemma AppendedIsFinallyCached(jobs: seq<Job>, cache: map<string, Coords>, k: nat, svc: Oracle)
    requires 0 < k <= |jobs|
    requires Appended(jobs, cache, k, svc).Some?
    ensures var c := Appended(jobs, cache, k, svc).value; var fin := StateAt(jobs, cache, |jobs|, svc).cache;
      && jobs[k - 1].client.address in fin
      && c == ToCustomer(jobs[k - 1].client, jobs[k - 1].kind, fin[jobs[k - 1].client.address])
  {
    RowCustomer(StateAt(jobs, cache, k - 1, svc), jobs[k - 1], svc);
    CacheKept(jobs, cache, k, |jobs|, svc);
  }

  /**
   * The body of both sheet loops: the website check, the cache or the
   * lookup, the append and the periodic save.
   */
  method ProcessRow(s0: RunState, j: Job, svc: Oracle) returns (s: RunState)
    ensures s == Step(s0, j, svc)
  {
    s := s0;
    if j.client.url.None? {
      return;
    }
    var a := j.client.address;
    var loc: Option<Coords>;
    if a in s.cache {
      loc := Some(s.cache[a]);
    } else {
      var used;
      loc, used := Geocode(a, svc, Retries);
      s := s.(requests := s.requests + used);
      if loc.Some? && TruthyCoords(loc.value) {
        s := s.(cache := s.cache[a := loc.value], geocoded := s.geocoded + 1);
      } else {
        s := s.(failed := s.failed + 1);
      }
    }
    if loc.Some? && TruthyCoords(loc.value) {
      s := s.(customers := s.customers + [ToCustomer(j.client, j.kind, loc.value)]);
    }
    s := s.(processed := s.processed + 1);
    if s.processed % SaveEvery == 0 {
      s := s.(saves := s.saves + [s.cache]);
    }
  }

  /** data.js: the separated layout, names with escaped quotes. */
  function DataJs(header: string, customers: seq<Customer>, show: Coord -> string): string
  {
    SeparatedFile(header, EntryTexts(customers, true, show))
  }

  /**
   * The script after loading the cache: the charter loop, the district loop
   * (the counters run on), the final save of the cache and data.js.
   */
  method Run(charters: seq<Row>, districts: seq<Row>, cache0: map<string, Coords>, svc: Oracle, header: string, show: Coord -> string)
    returns (final: RunState, js: string)
    ensures final == StateAt(Jobs(charters, districts), cache0, |Jobs(charters, districts)|, svc)
    ensures js == DataJs(header, final.customers, show)
  {
    var jobs := Jobs(charters, districts);
    var s := RunState([], cache0, 0, 0, 0, 0, []);
    assert |jobs| == |charters| + |districts|;
    for i := 0 to |charters|
      invariant s == StateAt(jobs, cache0, i, svc)
    {
      s := ProcessRow(s, jobs[i], svc);
    }
    for i := |charters| to |jobs|
      invariant s == StateAt(jobs, cache0, i, svc)
    {
      s := ProcessRow(s, jobs[i], svc);
    }
    final := s;
    js := EmitSeparated(header, EntryTexts(final.customers, true, show));
  }
}

=== FILE: geocode_with_dedup.dfy ===
/**
 * geocode_with_dedup.py: every sheet row with an address is geocoded,
 * cache first, and written out; progress is saved every 50 rows.
 */
module GeocodeWithDedup {
  import opened Wrappers
  import opened Text
  import opened Service
  import opened Sheet
  import opened AddressClean
  import opened SchoolType
  import opened GeoRetry
  import opened JsEmit

  const SaveEvery: nat := 50
  const Retries: nat := 3
  const NameColumn := "School or District Name"

  /** `pd.notna(part) and str(part).strip()`: a missing column reads as '' and is dropped too. */
  function KeptParts(cells: seq<Option<Cell>>): (parts: seq<string>)
    ensures |parts| <= |cells|
    ensures forall k :: 0 <= k < |parts| ==> parts[k] != ""
  {
    if cells == [] then []
    else
      var rest := KeptParts(cells[1..]);
      var c := cells[0];
      if c.Some? && !c.value.NaN? && Strip(CellStr(c.value)) != "" then [Strip(CellStr(c.value))] + rest else rest
  }

  /** `clean_address` over the street, city, state and zip cells. */
  function Address(row: Row): (a: string)
    ensures a == [] || (!CommaOrSpace(a[0]) && !CommaOrSpace(a[|a| - 1]))
  {
    CleanJoined(KeptParts([Lookup(row, "Street Address"), Lookup(row, "City"), Lookup(row, "State"), Lookup(row, "Zip")]))
  }

  /** The name when it is text; slicing it for the progress line raises for a missing column or a non-text cell. */
  function Name(row: Row): (name: Option<string>)
    ensures name.Some? <==> NameColumn in row && row[NameColumn].Str?
  {
    match Lookup(row, NameColumn)
    case Some(Str(s)) => Some(s)
    case _ => None
  }

  /**
   * The url: '' for a missing column; text gets "https://" unless empty or
   * starting with "http"; a zero number is kept as its text; NaN and other
   * numbers are truthy non-strings, and `startswith` raises (None).
   */
  function Url(row: Row): (url: Option<string>)
    ensures NotNa(Lookup(row, "Website")) && Lookup(row, "Website").value.Str? ==> url.Some?
    ensures url.Some? && url.value != "" && NotNa(Lookup(row, "Website")) && Lookup(row, "Website").value.Str? ==> StartsWith(url.value, "http")
  {
    match Lookup(row, "Website")
    case None => Some("")
    case Some(NaN) => None
    case Some(Number(x, shown)) => if x != 0.0 then None else Some(shown)
    case Some(Str(s)) =>
      if s != "" && !StartsWith(s, "http") then
        assert StartsWith("https://" + s, "http");
        Some("https://" + s)
      else Some(s)
  }

  /** What the loop reads from a row. */
  datatype RowView = RowView(address: string, name: Option<string>, url: Option<string>, kind: string, state: string)

  function View(row: Row): (v: RowView)
    ensures v.name.Some? ==> v.kind == KeywordType(Lower(v.name.value))
  {
    var name := Name(row);
    RowView(Address(row), name, Url(row), if name.Some? then KeywordType(Lower(name.value)) else "district",
            GetStr(row, "State", ""))
  }

  function Views(rows: seq<Row>): (vs: seq<RowView>)
    ensures |vs| == |rows|
  {
    if rows == [] then [] else [View(rows[0])] + Views(rows[1..])
  }

  lemma {:induction false} ViewsAt(rows: seq<Row>, i: nat)
    requires i < |rows|
    ensures Views(rows)[i] == View(rows[i])
  {
    if i > 0 {
      ViewsAt(rows[1..], i - 1);
    }
  }

  /** One entry of data.js. */
  datatype Entry = Entry(name: string, lat: Coord, lng: Coord, url: string, kind: string, state: string)

  /** `geocoded_data.json` and the entries written so far. */
  datatype Snapshot = Snapshot(cache: map<string, Coords>, entries: seq<Entry>)

  datatype Tally = Tally(cacheHits: nat, newGeocodes: nat, failed: nat)

  datatype RunState = RunState(entries: seq<Entry>, cache: map<string, Coords>, tally: Tally, requests: nat, saves: seq<Snapshot>)

  /** The rest of a row once it has coordinates: the entry (unless the url raises), then a save every 50 rows. */
  function Finish(s: RunState, index: nat, v: RowView, loc: Coords): RunState
    requires v.name.Some?
  {
    if v.url.None? then s
    else
      var entries := s.entries + [Entry(v.name.value, loc.lat, loc.lng, v.url.value, v.kind, v.state)];
      var saves := if (index + 1) % SaveEvery == 0 then s.saves + [Snapshot(s.cache, entries)] else s.saves;
      s.(entries := entries, saves := saves)
  }

  /**
   * Row `index`: no address skips it; a cached address counts a hit and
   * uses the cached coordinates; otherwise the lookup runs, a success is
   * cached and counted, a failure is counted and skips the rest.  Reading
   * the name raises after the hit is counted but before any request.
   */
  function Step(s: RunState, index: nat, v: RowView, svc: Oracle): (r: RunState)
    ensures |s.entries| <= |r.entries| <= |s.entries| + 1
    ensures v.address == "" ==> r == s
    ensures v.address in s.cache ==> r.requests == s.requests && r.cache == s.cache
    ensures r.tally.cacheHits + r.tally.newGeocodes + r.tally.failed
      == s.tally.cacheHits + s.tally.newGeocodes + s.tally.failed + (if v.address == "" || (v.address !in s.cache && v.name.None?) then 0 else 1)
  {
    if v.address == "" then s
    else if v.address in s.cache then
      var counted := s.(tally := s.tally.(cacheHits := s.tally.cacheHits + 1));
      if v.name.None? then counted else Finish(counted, index, v, s.cache[v.address])
    else if v.name.None? then s
    else
      var requests := s.requests + Requests(svc, v.address, Retries, 0);
      match Outcome(svc, v.address, Retries, 0)
      case None => s.(tally := s.tally.(failed := s.tally.failed + 1), requests := requests)
      case Some(loc) =>
        Finish(s.(cache := s.cache[v.address := loc], tally := s.tally.(newGeocodes := s.tally.newGeocodes + 1), requests := requests),
               index, v, loc)
  }

  /** The state after rows 0 .. k - 1. */
  function StateAt(vs: seq<RowView>, cache: map<string, Coords>, k: nat, svc: Oracle): (s: RunState)
    requires k <= |vs|
    ensures |s.entries| <= k
    ensures s.tally.cacheHits + s.tally.newGeocodes + s.tally.failed <= k
  {
    if k == 0 then RunState([], cache, Tally(0, 0, 0), 0, [])
    else Step(StateAt(vs, cache, k - 1, svc), k - 1, vs[k - 1], svc)
  }

  /** A save happens only after a row at a multiple of 50 that ends with an entry. */
  lemma SavesOnlyAtMultiples(s: RunState, index: nat, v: RowView, svc: Oracle)
    ensures var r := Step(s, index, v, svc);
      r.saves != s.saves ==>
        (index + 1) % SaveEvery == 0 && |r.entries| == |s.entries| + 1 && r.saves == s.saves + [Snapshot(r.cache, r.entries)]
  {
  }

  /** An entry's coordinates are the ones cached for its row's address. */
  lemma EntryFromCache(s: RunState, index: nat, v: RowView, svc: Oracle)
    requires |Step(s, index, v, svc).entries| == |s.entries| + 1
    ensures var r := Step(s, index, v, svc);
      && v.address in r.cache
      && r.entries[|s.entries|].lat == r.cache[v.address].lat
      && r.entries[|s.entries|].lng == r.cache[v.address].lng
      && v.name.Some? && r.entries[|s.entries|].name == v.name.value
  {
  }

  /** The cache only grows, and an entry once cached keeps its coordinates. */
  lemma {:induction false} CacheOnlyGrows(vs: seq<RowView>, cache: map<string, Coords>, k: nat, svc: Oracle)
    requires k <= |vs|
    ensures forall a :: a in cache ==> a in StateAt(vs, cache, k, svc).cache && StateAt(vs, cache, k, svc).cache[a] == cache[a]
  {
    if k > 0 {
      CacheOnlyGrows(vs, cache, k - 1, svc);
    }
  }

  /** `main` after loading the cache and the sheet: the rows in order, then the final save. */
  method Run(rows: seq<Row>, cache0: map<string, Coords>, svc: Oracle) returns (final: RunState, lastSave: Snapshot)
    ensures final == StateAt(Views(rows), cache0, |rows|, svc)
    ensures lastSave == Snapshot(final.cache, final.entries)
  {
    var vs := Views(rows);
    var s := RunState([], cache0, Tally(0, 0, 0), 0, []);
    for index := 0 to |rows|
      invariant s == StateAt(vs, cache0, index, svc)
    {
      s := ProcessRow(s, index, vs[index], svc);
    }
    final := s;
    lastSave := Snapshot(final.cache, final.entries);
  }

  /** The body of the row loop; every early `continue` and every exception ends the row. */
  method ProcessRow(s0: RunState, index: nat, v: RowView, svc: Oracle) returns (s: RunState)
    ensures s == Step(s0, index, v, svc)
  {
    s := s0;
    if v.address == "" {
      return;
    }
    var location: Coords;
    if v.address in s.cache {
      s := s.(tally := s.tally.(cacheHits := s.tally.cacheHits + 1));
      if v.name.None? {
        return;
      }
      location := s.cache[v.address];
    } else {
      if v.name.None? {
        return;
      }
      var found, used := Geocode(v.address, svc, Retries);
      s := s.(requests := s.requests + used);
      if found.None? {
        s := s.(tally := s.tally.(failed := s.tally.failed + 1));
        return;
      }
      location := found.value;
      s := s.(cache := s.cache[v.address := location], tally := s.tally.(newGeocodes := s.tally.newGeocodes + 1));
    }
    if v.url.None? {
      return;
    }
    s := s.(entries := s.entries + [Entry(v.name.value, location.lat, location.lng, v.url.value, v.kind, v.state)]);
    if (index + 1) % SaveEvery == 0 {
      s := s.(saves := s.saves + [Snapshot(s.cache, s.entries)]);
    }
  }

  /** One line of data.js: the object literal; `show` renders a coordinate. */
  function EntryText(e: Entry, show: Coord -> string): string
  {
    ObjectLiteral([("name", Quoted(e.name)), ("lat", show(e.lat)), ("lng", show(e.lng)),
                   ("url", Quoted(e.url)), ("type", Quoted(e.kind)), ("state", Quoted(e.state))])
  }

  function EntryTexts(es: seq<Entry>, show: Coord -> string): (r: seq<string>)
    ensures |r| == |es|
  {
    if es == [] then [] else [EntryText(es[0], show)] + EntryTexts(es[1..], show)
  }

  /** `save_progress`'s data.js: every entry followed by a comma, the last included. */
  function SaveProgressFile(header: string, snap: Snapshot, show: Coord -> string): string
  {
    TerminatedFile(header, EntryTexts(snap.entries, show))
  }
}

=== FILE: hubspot_api.dfy ===
/**
 * The HubSpot API wrapper of the browser map: companies are converted to
 * school records, and the converted list is cached for an hour under the
 * key 'schools'. Fetching is an input: the companies the API returned, or
 * None where the request failed.
 */
module HubSpotApi {
  import opened Wrappers
  import opened Seqs
  import opened Text
  import opened HubSpotFields

  /** The product flags of a school. */
  datatype ProductFlags = ProductFlags(cms: bool, mobileApp: bool, massCommunications: bool, payments: bool)

  /** A school in the map's format. */
  datatype School = School(
    id: string, name: string, address: string, city: string, state: string, zip: string,
    website: string, phone: string, kind: string, products: ProductFlags, source: string,
    lastUpdated: string)

  /** `company.properties`; a company without one makes the conversion throw, which Synced reports as a failed sync. */
  function PropsOf(c: Company): Props
  {
    if c.properties.Some? then c.properties.value else map[]
  }

  /** determineSchoolType: the name keywords, else 'district'. */
  function DetermineSchoolType(p: Props): (t: string)
    ensures t in ["charter", "district", "private"]
  {
    NameKind(Prop(p, "name")).GetOr("district")
  }

  /**
   * The keywords are tried in a fixed order on the lower-cased name: a
   * name with "charter" is a charter school whatever else it holds, then
   * "district", then "private"; "academy" alone makes a charter school and
   * a name with none of them a district.
   */
  lemma SchoolTypeOrder(p: Props)
    ensures var n := Lower(Prop(p, "name"));
      && (Contains(n, "charter") ==> DetermineSchoolType(p) == "charter")
      && (!Contains(n, "charter") && Contains(n, "district") ==> DetermineSchoolType(p) == "district")
      && (!Contains(n, "charter") && !Contains(n, "district") && Contains(n, "private") ==> DetermineSchoolType(p) == "private")
      && (!Contains(n, "charter") && !Contains(n, "district") && !Contains(n, "private") ==>
            DetermineSchoolType(p) == (if Contains(n, "academy") then "charter" else "district"))
  {
  }

  /** The type does not depend on the case of the name. */
  lemma SchoolTypeIgnoresCase(p: Props, name: string)
    requires Prop(p, "name") == Upper(name)
    ensures DetermineSchoolType(p) == DetermineSchoolType(p["name" := name])
  {
    NameKindIgnoresCase(name);
  }

  /** extractProducts: each flag is set exactly when its property is the string 'true'. */
  function ExtractProducts(p: Props): (f: ProductFlags)
    ensures f.cms <==> Prop(p, "has_cms") == "true"
    ensures f.mobileApp <==> Prop(p, "has_mobile_app") == "true"
    ensures f.massCommunications <==> Prop(p, "has_mass_comm") == "true"
    ensures f.payments <==> Prop(p, "has_payments") == "true"
  {
    ProductFlags(
      Prop(p, "has_cms") == "true", Prop(p, "has_mobile_app") == "true",
      Prop(p, "has_mass_comm") == "true", Prop(p, "has_payments") == "true")
  }

  /** The comparison is exact: "True" or "yes" sets no flag. */
  lemma ProductsAreCaseSensitive(p: Props)
    requires Prop(p, "has_cms") == "True"
    ensures !ExtractProducts(p).cms
  {
  }

  /** convertToSchoolFormat, given the ISO time stamp of the conversion. */
  function ConvertToSchoolFormat(c: Company, stamp: string): School
  {
    var p := PropsOf(c);
    School(
      RecordId(c.id), PropOr(p, "name", "Unknown School"), BuildAddress(p),
      Prop(p, "city"), Prop(p, "state"), Prop(p, "zip"), Prop(p, "website"), Prop(p, "phone"),
      DetermineSchoolType(p), ExtractProducts(p), "hubspot", stamp)
  }

  /**
   * A school carries the "hs_" id and the 'hubspot' source, a name that is
   * never empty, HubSpot's own name when it has one, and the address built
   * from the non-blank address parts.
   */
  lemma ConvertedFields(c: Company, stamp: string)
    ensures var s := ConvertToSchoolFormat(c, stamp); var p := PropsOf(c);
      && StartsWith(s.id, "hs_") && s.source == "hubspot" && s.lastUpdated == stamp
      && s.name != "" && (Prop(p, "name") != "" ==> s.name == Prop(p, "name"))
      && s.address == Join(NonBlank(AddressFields(p)), ", ")
      && s.kind in ["charter", "district", "private"]
  {
  }

  /** With all four address parts present the address lists them in order; with none it is empty. */
  lemma ConvertedAddress(c: Company, stamp: string)
    ensures var p := PropsOf(c); var a := ConvertToSchoolFormat(c, stamp).address;
      && ((forall i :: 0 <= i < 4 ==> !Blank(AddressFields(p)[i])) ==>
            a == Prop(p, "address") + ", " + Prop(p, "city") + ", " + Prop(p, "state") + ", " + Prop(p, "zip"))
      && ((forall i :: 0 <= i < 4 ==> Blank(AddressFields(p)[i])) ==> a == "")
  {
    BuildAddressParts(PropsOf(c));
  }

  function ConvertFn(stamp: string): Company -> School
  {
    c => ConvertToSchoolFormat(c, stamp)
  }

  /** The schools a sync produces: None where the fetch failed or a company has no properties. */
  function Synced(fetched: Option<seq<Company>>, stamp: string): (r: Option<seq<School>>)
    ensures r.Some? ==> fetched.Some? && |r.value| == |fetched.value|
    ensures r.Some? ==> forall i :: 0 <= i < |r.value| ==> r.value[i] == ConvertToSchoolFormat(fetched.value[i], stamp)
  {
    if fetched.None? then None
    else if exists i :: 0 <= i < |fetched.value| && fetched.value[i].properties.None? then None
    else
      var schools := Mapped(fetched.value, ConvertFn(stamp));
      assert forall i :: 0 <= i < |schools| ==> schools[i] == ConvertToSchoolFormat(fetched.value[i], stamp) by {
        forall i | 0 <= i < |schools|
          ensures schools[i] == ConvertToSchoolFormat(fetched.value[i], stamp)
        {
          MappedAt(fetched.value, ConvertFn(stamp), i);
        }
      }
      Some(schools)
  }

  /** A sync of companies that all have properties succeeds. */
  lemma SyncSucceeds(companies: seq<Company>, stamp: string)
    requires forall i :: 0 <= i < |companies| ==> companies[i].properties.Some?
    ensures Synced(Some(companies), stamp).Some?
  {
  }

  /** One hour, in milliseconds. */
  const OneHour: int := 60 * 60 * 1000

  /** isStale: never synced, or more than an hour ago. */
  predicate Stale(lastSync: Option<int>, now: int)
  {
    lastSync.None? || now - lastSync.value > OneHour
  }

  /**
   * A sync keeps the cache fresh for exactly one hour, inclusive, and once
   * stale it stays stale until the next sync.
   */
  lemma FreshForAnHour(t: int, d: int, later: int)
    ensures Stale(Some(t), t + d) <==> d > 3600000
    ensures Stale(Some(t), t + d) && d <= later ==> Stale(Some(t), t + later)
  {
  }

  class HubSpotClient {
    var cache: map<string, seq<School>>
    var lastSync: Option<int>

    constructor()
      ensures cache == map[] && lastSync == None
    {
      cache := map[];
      lastSync := None;
    }

    /** syncData: on success the schools are cached and the sync time recorded; on failure nothing changes. */
    method SyncData(fetched: Option<seq<Company>>, now: int, stamp: string) returns (r: Option<seq<School>>)
      modifies this
      ensures r == Synced(fetched, stamp)
      ensures r.Some? ==> cache == old(cache)["schools" := r.value] && lastSync == Some(now)
      ensures r.None? ==> cache == old(cache) && lastSync == old(lastSync)
    {
      r := Synced(fetched, stamp);
      if r.Some? {
        cache := cache["schools" := r.value];
        lastSync := Some(now);
      }
    }

    /** getData: the cached list unless forced, uncached or stale, else a sync. */
    method GetData(forceSync: bool, fetched: Option<seq<Company>>, now: int, stamp: string) returns (r: Option<seq<School>>)
      modifies this
      ensures var refresh := forceSync || "schools" !in old(cache) || Stale(old(lastSync), now);
        && (!refresh ==> r == Some(old(cache)["schools"]) && cache == old(cache) && lastSync == old(lastSync))
        && (refresh ==> r == Synced(fetched, stamp))
        && (refresh && r.Some? ==> cache == old(cache)["schools" := r.value] && lastSync == Some(now))
        && (refresh && r.None? ==> cache == old(cache) && lastSync == old(lastSync))
      ensures r.Some? ==> "schools" in cache && cache["schools"] == r.value
    {
      if forceSync || "schools" !in cache || Stale(lastSync, now) {
        r := SyncData(fetched, now, stamp);
      } else {
        r := Some(cache["schools"]);
      }
    }
  }
}

=== FILE: hubspot_fields.dfy ===
/**
 * HubSpot company records as the browser modules read them, and the
 * property helpers the three HubSpot modules repeat: the address built
 * from the non-blank parts, the name keywords of determineSchoolType and
 * the comma-separated product list of extractProducts.
 */
module HubSpotFields {
  import opened Wrappers
  import opened Seqs
  import opened Text
  import opened JsValues

  /** A company's properties; HubSpot's string values, a null or missing one being absent. */
  type Props = map<string, string>

  /** A company as the HubSpot API returns it. */
  datatype Company = Company(id: Option<string>, properties: Option<Props>)

  /** `properties.k`, with an absent property read as ''. */
  function Prop(p: Props, k: string): string
  {
    if k in p then p[k] else ""
  }

  /** `properties.k || d`. */
  function PropOr(p: Props, k: string, d: string): (s: string)
    ensures Prop(p, k) != "" ==> s == Prop(p, k)
    ensures Prop(p, k) == "" ==> s == d
  {
    if Prop(p, k) != "" then Prop(p, k) else d
  }

  /** `${company.id}`: a missing id prints as "undefined". */
  function IdText(id: Option<string>): string
  {
    if id.Some? then id.value else "undefined"
  }

  /** `"hs_" + id`. */
  function RecordId(id: Option<string>): (s: string)
    ensures StartsWith(s, "hs_")
  {
    "hs_" + IdText(id)
  }

  /** `!(part && part.trim())`. */
  predicate Blank(s: string)
  {
    Trim(s) == ""
  }

  /** A part is blank exactly when every character of it is JavaScript whitespace. */
  lemma BlankIffSpaces(s: string)
    ensures Blank(s) <==> forall i :: 0 <= i < |s| ==> IsJsSpace(s[i])
  {
    LStripBySuffix(s, IsJsSpace);
  }

  /** `parts.filter(part => part && part.trim())`. */
  function NonBlank(parts: seq<string>): seq<string>
  {
    if parts == [] then []
    else if Blank(parts[0]) then NonBlank(parts[1..])
    else [parts[0]] + NonBlank(parts[1..])
  }

  /** The filter keeps every non-blank part and nothing else. */
  lemma {:induction false} NonBlankParts(parts: seq<string>)
    ensures var r := NonBlank(parts);
      && |r| <= |parts|
      && (forall i :: 0 <= i < |r| ==> !Blank(r[i]) && r[i] in parts)
      && (forall i :: 0 <= i < |parts| && !Blank(parts[i]) ==> parts[i] in NonBlank(parts))
  {
    if parts != [] {
      NonBlankParts(parts[1..]);
      assert forall i :: 1 <= i < |parts| ==> parts[i] == parts[1..][i - 1];
    }
  }

  /** The four address properties, in this order. */
  function AddressFields(p: Props): seq<string>
  {
    [Prop(p, "address"), Prop(p, "city"), Prop(p, "state"), Prop(p, "zip")]
  }

  /** `buildAddress`: the non-blank address parts joined by ", ". */
  function BuildAddress(p: Props): string
  {
    Join(NonBlank(AddressFields(p)), ", ")
  }

  /** With all four parts present, the address lists them in order; with none, it is empty. */
  lemma BuildAddressParts(p: Props)
    ensures (forall i :: 0 <= i < 4 ==> !Blank(AddressFields(p)[i])) ==>
      BuildAddress(p) == Prop(p, "address") + ", " + Prop(p, "city") + ", " + Prop(p, "state") + ", " + Prop(p, "zip")
    ensures (forall i :: 0 <= i < 4 ==> Blank(AddressFields(p)[i])) ==> BuildAddress(p) == ""
  {
    var f := AddressFields(p);
    NonBlankKeepsOrDrops(f);
    JoinFour(f[0], f[1], f[2], f[3], ", ");
    assert f == [f[0], f[1], f[2], f[3]];
  }

  /** A list with no blank part is kept whole; one with only blank parts is emptied. */
  lemma {:induction false} NonBlankKeepsOrDrops(parts: seq<string>)
    ensures (forall i :: 0 <= i < |parts| ==> !Blank(parts[i])) ==> NonBlank(parts) == parts
    ensures (forall i :: 0 <= i < |parts| ==> Blank(parts[i])) ==> NonBlank(parts) == []
  {
    if parts != [] {
      NonBlankKeepsOrDrops(parts[1..]);
    }
  }

  lemma JoinFour(a: string, b: string, c: string, d: string, sep: string)
    ensures Join([a, b, c, d], sep) == a + sep + b + sep + c + sep + d
  {
    assert [c, d][1..] == [d];
    assert Join([c, d], sep) == c + sep + d;
    assert [b, c, d][1..] == [c, d];
    assert Join([b, c, d], sep) == b + sep + (c + sep + d);
    assert [a, b, c, d][1..] == [b, c, d];
    assert Join([a, b, c, d], sep) == a + sep + (b + sep + (c + sep + d));
  }

  /**
   * The name keywords of determineSchoolType, tried in order on the
   * lower-cased name: charter, district, private, then academy (a charter).
   */
  function NameKind(name: string): (k: Option<string>)
    ensures k.Some? ==> k.value in ["charter", "district", "private"]
  {
    var n := Lower(name);
    if Contains(n, "charter") then Some("charter")
    else if Contains(n, "district") then Some("district")
    else if Contains(n, "private") then Some("private")
    else if Contains(n, "academy") then Some("charter")
    else None
  }

  /** Upper-casing and lower-casing first lower-case to the same text. */
  lemma LowerOfUpper(s: string)
    ensures Lower(Upper(s)) == Lower(s)
  {
  }

  /** Lower-casing and upper-casing first upper-case to the same text. */
  lemma UpperOfLower(s: string)
    ensures Upper(Lower(s)) == Upper(s)
  {
  }

  /** The keywords ignore the case of the name. */
  lemma NameKindIgnoresCase(name: string)
    ensures NameKind(Upper(name)) == NameKind(name)
  {
    LowerOfUpper(name);
  }

  /** A products object: `{cms, mobile, masscomm, payments}`. */
  function Flags(cms: bool, mobile: bool, masscomm: bool, payments: bool): (o: Object)
    ensures o.Keys == {"cms", "mobile", "masscomm", "payments"}
    ensures o["cms"] == Bool(cms) && o["mobile"] == Bool(mobile)
    ensures o["masscomm"] == Bool(masscomm) && o["payments"] == Bool(payments)
  {
    map["cms" := Bool(cms), "mobile" := Bool(mobile), "masscomm" := Bool(masscomm), "payments" := Bool(payments)]
  }

  /** The products object every module falls back on: CMS only. */
  function CmsOnly(): Object
  {
    Flags(true, false, false, false)
  }

  /** The entries of a comma-separated product list, lower-cased and split, untrimmed. */
  function ProductTokens(value: string): seq<string>
  {
    SplitChar(Lower(value), ',')
  }

  /** A product list's flags: each flag is set by one of its spellings being an entry of the list. */
  function ProductList(value: string): Object
  {
    var ts := ProductTokens(value);
    Flags("cms" in ts, "mobile" in ts || "access" in ts, "masscomm" in ts || "sia" in ts, "payments" in ts)
  }

  /** Lower-casing distributes over concatenation. */
  lemma LowerConcat(a: string, b: string)
    ensures Lower(a + b) == Lower(a) + Lower(b)
  {
  }

  /** Lower-casing a joined list lower-cases each entry. */
  lemma {:induction false} LowerJoin(ts: seq<string>)
    ensures Lower(Join(ts, ",")) == Join(Lowered(ts), ",")
  {
    if |ts| > 1 {
      LowerJoin(ts[1..]);
      LowerConcat(ts[0] + ",", Join(ts[1..], ","));
      LowerConcat(ts[0], ",");
      assert Lowered(ts)[1..] == Lowered(ts[1..]);
    }
  }

  /** Each entry lower-cased. */
  function Lowered(ts: seq<string>): (r: seq<string>)
    ensures |r| == |ts|
    ensures forall i :: 0 <= i < |ts| ==> r[i] == Lower(ts[i])
  {
    if ts == [] then [] else [Lower(ts[0])] + Lowered(ts[1..])
  }

  /** Lower-casing never makes a comma. */
  lemma LowerKeepsCommaFree(t: string)
    requires ',' !in t
    ensures ',' !in Lower(t)
  {
  }

  /**
   * For a list written as entries joined by commas, a flag is set exactly
   * when one of its spellings is an entry, in any order and any case; an
   * entry with a space beside the comma is a different entry.
   */
  lemma ProductListOfEntries(ts: seq<string>)
    requires ts != [] && forall i :: 0 <= i < |ts| ==> ',' !in ts[i]
    ensures var o := ProductList(Join(ts, ",")); var ls := Lowered(ts);
      && o["cms"] == Bool("cms" in ls)
      && o["mobile"] == Bool("mobile" in ls || "access" in ls)
      && o["masscomm"] == Bool("masscomm" in ls || "sia" in ls)
      && o["payments"] == Bool("payments" in ls)
  {
    TokensOfEntries(ts);
  }

  /** The tokens of a comma-joined list are its entries, lower-cased. */
  lemma TokensOfEntries(ts: seq<string>)
    requires ts != [] && forall i :: 0 <= i < |ts| ==> ',' !in ts[i]
    ensures ProductTokens(Join(ts, ",")) == Lowered(ts)
  {
    LowerJoin(ts);
    forall i | 0 <= i < |ts|
      ensures ',' !in Lowered(ts)[i]
    {
      LowerKeepsCommaFree(ts[i]);
    }
    SplitOfJoin(Lowered(ts), ',');
  }

  /** "cms, mobile" flags CMS but not mobile: the second entry is " mobile". */
  lemma SpacedEntryNotCounted()
    ensures ProductList("cms" + "," + " mobile")["cms"] == Bool(true)
    ensures ProductList("cms" + "," + " mobile")["mobile"] == Bool(false)
  {
    var ts := ["cms", " mobile"];
    var ls := Lowered(ts);
    assert |ls| == 2 && |ls[0]| == 3 && |ls[1]| == 7;
    assert ls[0] == "cms" by {
      assert Lower("cms") == "cms";
    }
    assert "mobile" !in ls && "access" !in ls;
    assert Join(ts, ",") == "cms" + "," + " mobile" by {
      assert ts[1..] == [" mobile"];
    }
    ProductListOfEntries(ts);
  }
}

=== FILE: hubspot_geocode_integration.dfy ===
/**
 * hubspot-geocode-integration.js: HubSpot companies geocoded through a
 * cache of Nominatim answers, turned into map records, and merged with the
 * customers already on the map by a domain or name key.
 */
module HubSpotGeocodeIntegration {
  import opened Wrappers
  import opened Seqs
  import opened Text
  import Service
  import opened JsValues
  import opened HubSpotFields
  import opened OrderedMaps

  /** geocodeAddress's result, `{lat, lng, display_name}`. */
  datatype Geocode = Geocode(lat: Service.Coord, lng: Service.Coord, displayName: string)

  /** The geocode cache: an address's result, None (null) when the service found nothing. */
  type Cache = map<string, Option<Geocode>>

  /** The service's answer to each query. */
  type Answers = string -> Service.Response

  /** What a request leads to: the value returned, and whether it is cached (a failure is not). */
  function Fetched(answer: Service.Response): (r: (Option<Geocode>, bool))
    ensures r.0.Some? <==> answer.Found?
    ensures r.1 <==> answer.Found? || answer.NoResults?
  {
    match answer
    case Found(p) => (Some(Geocode(p.lat, p.lon, p.displayName)), true)
    case NoResults => (None, true)
    case _ => (None, false)
  }

  /** One call of geocodeAddress: its result, the cache after it, and whether it sent a request. */
  datatype Lookup = Lookup(result: Option<Geocode>, cache: Cache, requested: bool)

  /**
   * geocodeAddress: an empty address gives null; a cached address gives its
   * cached value, null included, without a request; any other address is
   * requested, and a place or an empty answer is cached.
   */
  function GeocodeStep(cache: Cache, address: string, answer: Service.Response): (r: Lookup)
    ensures r.requested <==> address != "" && address !in cache
    ensures address == "" ==> r.result.None?
    ensures address != "" && address in cache ==> r.result == cache[address]
    ensures r.requested ==> r.result == Fetched(answer).0
    ensures r.cache == if r.requested && Fetched(answer).1 then cache[address := r.result] else cache
  {
    if address == "" then Lookup(None, cache, false)
    else if address in cache then Lookup(cache[address], cache, false)
    else
      var f := Fetched(answer);
      Lookup(f.0, if f.1 then cache[address := f.0] else cache, true)
  }

  /**
   * Asking again for an address whose first call did not fail sends no
   * request and returns the same value, whatever the service would answer.
   */
  lemma RepeatNeedsNoRequest(cache: Cache, address: string, first: Service.Response, second: Service.Response)
    requires var r := GeocodeStep(cache, address, first); !(r.requested && !Fetched(first).1)
    ensures var r := GeocodeStep(cache, address, first);
      GeocodeStep(r.cache, address, second) == Lookup(r.result, r.cache, false)
  {
  }

  /** A failed request leaves no trace, so the next call asks again. */
  lemma FailureIsRetried(cache: Cache, address: string, first: Service.Response, second: Service.Response)
    requires address != "" && address !in cache && !Fetched(first).1
    ensures GeocodeStep(GeocodeStep(cache, address, first).cache, address, second).requested
  {
  }

  /** Every cached value is what the service answers for that address, and no failure is cached. */
  predicate Consistent(cache: Cache, answers: Answers)
  {
    forall a :: a in cache ==> Fetched(answers(a)).1 && cache[a] == Fetched(answers(a)).0
  }

  /**
   * A cache that agrees with the service stays so, and never changes what
   * a call returns: the result is the service's answer for the address.
   */
  lemma CacheIsTransparent(cache: Cache, address: string, answers: Answers)
    requires Consistent(cache, answers)
    ensures var r := GeocodeStep(cache, address, answers(address));
      && Consistent(r.cache, answers)
      && r.result == if address == "" then None else Fetched(answers(address)).0
  {
  }

  /** `company.properties || {}`. */
  function PropsOf(c: Company): Props
  {
    if c.properties.Some? then c.properties.value else map[]
  }

  /** The address a company is geocoded by: its non-blank address parts joined. */
  function FullAddress(c: Company): string
  {
    BuildAddress(PropsOf(c))
  }

  /** `fullAddress.length > 5`. */
  predicate Geocodable(c: Company)
  {
    |FullAddress(c)| > 5
  }

  /** determineSchoolType: school_type lower-cased when set, else the name keywords, else 'district'. */
  function SchoolType(p: Props): string
  {
    if Prop(p, "school_type") != "" then Lower(Prop(p, "school_type"))
    else NameKind(Prop(p, "name")).GetOr("district")
  }

  /** A set school_type wins, lower-cased; without one the type is one of the three keyword kinds. */
  lemma SchoolTypeCases(p: Props)
    ensures Prop(p, "school_type") != "" ==> SchoolType(p) == Lower(Prop(p, "school_type"))
    ensures Prop(p, "school_type") == "" ==> SchoolType(p) in ["charter", "district", "private"]
  {
  }

  /**
   * extractProducts: a value starting with '{' is JSON.parse'd (`parse`,
   * None where it throws), any other value is a comma-separated list, and
   * no value, or JSON that does not parse, gives CMS only.
   */
  function Products(p: Props, parse: string -> Option<JsValue>): JsValue
  {
    var value := Prop(p, "edlio_products");
    if value == "" then Obj(CmsOnly())
    else if value[0] == '{' then parse(value).GetOr(Obj(CmsOnly()))
    else Obj(ProductList(value))
  }

  /** The three sources of the products: none, JSON, or a list. */
  lemma ProductsCases(p: Props, parse: string -> Option<JsValue>)
    ensures var value := Prop(p, "edlio_products");
      && (value == "" ==> Products(p, parse) == Obj(CmsOnly()))
      && (StartsWith(value, "{") ==> Products(p, parse) == parse(value).GetOr(Obj(CmsOnly())))
      && (value != "" && !StartsWith(value, "{") ==> Products(p, parse) == Obj(ProductList(value)))
  {
    var value := Prop(p, "edlio_products");
    if value != "" {
      assert StartsWith(value, "{") <==> value[0] == '{' by {
        assert |value[..1]| == 1 && value[..1][0] == value[0];
      }
    }
  }

  /** `geocodeResult?.f || null`. */
  function CoordOrNull(g: Option<Geocode>, lat: bool): (v: JsValue)
    ensures g.None? ==> v == Null
  {
    if g.None? then Null else Or(Num(if lat then g.value.lat else g.value.lng), Null)
  }

  /** A record processHubSpotData builds for the map. */
  datatype MapRecord = MapRecord(
    id: string, name: string, address: string, city: string, state: string, zip: string,
    website: string, phone: string, kind: string, products: JsValue, source: string,
    lastUpdated: string, lat: JsValue, lng: JsValue, geocoded: bool, geocodeDisplay: JsValue)

  /** The map record of a company, given what its geocoding returned and the time stamp. */
  function HubSpotRecord(c: Company, geo: Option<Geocode>, parse: string -> Option<JsValue>, stamp: string): MapRecord
  {
    var p := PropsOf(c);
    MapRecord(
      RecordId(c.id), PropOr(p, "name", "Unknown School"), FullAddress(c),
      Prop(p, "city"), Prop(p, "state"), Prop(p, "zip"), Prop(p, "website"), Prop(p, "phone"),
      SchoolType(p), Products(p, parse), "hubspot", stamp,
      CoordOrNull(geo, true), CoordOrNull(geo, false), geo.Some?,
      if geo.None? then Null else Or(Str(geo.value.displayName), Null))
  }

  /**
   * A record carries the "hs_" id, the built address and the 'hubspot'
   * source, a name and a type that are never empty, and is marked
   * geocoded exactly when geocoding found a place; without one, its
   * coordinates and display name are null.
   */
  lemma HubSpotRecordFields(c: Company, geo: Option<Geocode>, parse: string -> Option<JsValue>, stamp: string)
    ensures var r := HubSpotRecord(c, geo, parse, stamp);
      && StartsWith(r.id, "hs_") && r.address == FullAddress(c) && r.source == "hubspot"
      && r.name != "" && r.kind != ""
      && (r.geocoded <==> geo.Some?)
      && (geo.None? ==> r.lat == Null && r.lng == Null && r.geocodeDisplay == Null)
  {
    var p := PropsOf(c);
    SchoolTypeCases(p);
    if Prop(p, "school_type") != "" {
      assert |Lower(Prop(p, "school_type"))| > 0;
    }
  }

  /** The record as the JavaScript object mergeWithExistingData receives. */
  function ToObject(r: MapRecord): Object
  {
    map["id" := Str(r.id), "name" := Str(r.name), "address" := Str(r.address),
        "city" := Str(r.city), "state" := Str(r.state), "zip" := Str(r.zip),
        "website" := Str(r.website), "phone" := Str(r.phone), "type" := Str(r.kind),
        "products" := r.products, "source" := Str(r.source), "lastUpdated" := Str(r.lastUpdated),
        "lat" := r.lat, "lng" := r.lng, "geocoded" := Bool(r.geocoded), "geocodeDisplay" := r.geocodeDisplay]
  }

  /**
   * What a company of a batch is geocoded to. The calls of a batch are
   * started together and each checks the cache before any request of the
   * batch has come back, so all of them see the cache as the batch began.
   */
  function Resolved(start: Cache, c: Company, answers: Answers): (g: Option<Geocode>)
    ensures !Geocodable(c) ==> g.None?
  {
    if Geocodable(c) then GeocodeStep(start, FullAddress(c), answers(FullAddress(c))).result else None
  }

  /** The cache once a company's request, if it sent one, has come back. */
  function Stored(start: Cache, cur: Cache, c: Company, answers: Answers): Cache
  {
    var a := FullAddress(c);
    if Geocodable(c) && a !in start && Fetched(answers(a)).1 then cur[a := Fetched(answers(a)).0] else cur
  }

  /** The cache once all requests of a batch have come back. */
  function AfterBatch(start: Cache, batch: seq<Company>, answers: Answers): Cache
  {
    if batch == [] then start
    else Stored(start, AfterBatch(start, batch[..|batch| - 1], answers), batch[|batch| - 1], answers)
  }

  /** The records of a batch, in the batch's order (Promise.all keeps it). */
  function BatchRecords(start: Cache, batch: seq<Company>, answers: Answers, parse: string -> Option<JsValue>, stamp: string): (rs: seq<MapRecord>)
  {
    Mapped(batch, BatchRecord(start, answers, parse, stamp))
  }

  /** What a company of a batch becomes: its record with what its call resolved to. */
  function BatchRecord(start: Cache, answers: Answers, parse: string -> Option<JsValue>, stamp: string): Company -> MapRecord
  {
    c => HubSpotRecord(c, Resolved(start, c, answers), parse, stamp)
  }

  /** One more company of a batch adds its record at the end. */
  lemma BatchRecordsSnoc(start: Cache, batch: seq<Company>, j: nat, answers: Answers, parse: string -> Option<JsValue>, stamp: string)
    requires j < |batch|
    ensures BatchRecords(start, batch[..j + 1], answers, parse, stamp)
      == BatchRecords(start, batch[..j], answers, parse, stamp) + [HubSpotRecord(batch[j], Resolved(start, batch[j], answers), parse, stamp)]
  {
    PrefixSnoc(batch, j);
    MappedSnoc(batch[..j + 1], BatchRecord(start, answers, parse, stamp));
  }

  /** One more company of a batch adds its answer to the cache. */
  lemma AfterBatchSnoc(start: Cache, batch: seq<Company>, j: nat, answers: Answers)
    requires j < |batch|
    ensures AfterBatch(start, batch[..j + 1], answers) == Stored(start, AfterBatch(start, batch[..j], answers), batch[j], answers)
  {
    PrefixSnoc(batch, j);
  }

  /** The end of the batch starting at `from`. */
  function BatchEnd(n: nat, from: nat, size: nat): (end: nat)
    requires from < n && size > 0
    ensures from < end <= n && end - from <= size
  {
    if from + size < n then from + size else n
  }

  /** processHubSpotData from company `from` on: the records of the batches in turn, and the cache afterwards. */
  function Processed(companies: seq<Company>, from: nat, size: nat, cache: Cache, answers: Answers, parse: string -> Option<JsValue>, stamp: string): (r: (seq<MapRecord>, Cache))
    requires size > 0 && from <= |companies|
    decreases |companies| - from
  {
    if from == |companies| then ([], cache)
    else
      var end := BatchEnd(|companies|, from, size);
      var batch := companies[from..end];
      var rest := Processed(companies, end, size, AfterBatch(cache, batch, answers), answers, parse, stamp);
      (BatchRecords(cache, batch, answers, parse, stamp) + rest.0, rest.1)
  }

  /** What every company would be geocoded to if the service were asked for it directly. */
  function Direct(c: Company, answers: Answers): (g: Option<Geocode>)
    ensures !Geocodable(c) ==> g.None?
  {
    if Geocodable(c) then Fetched(answers(FullAddress(c))).0 else None
  }

  /** A company's record with its direct geocoding. */
  function DirectRecord(answers: Answers, parse: string -> Option<JsValue>, stamp: string): Company -> MapRecord
  {
    c => HubSpotRecord(c, Direct(c, answers), parse, stamp)
  }

  /** A batch's requests keep a cache that agrees with the service in agreement. */
  lemma {:induction false} AfterBatchConsistent(start: Cache, batch: seq<Company>, answers: Answers)
    requires Consistent(start, answers)
    ensures Consistent(AfterBatch(start, batch, answers), answers)
  {
    if batch != [] {
      AfterBatchConsistent(start, batch[..|batch| - 1], answers);
    }
  }

  /** With a cache that agrees with the service, a call resolves to the direct answer. */
  lemma ResolvedIsDirect(start: Cache, c: Company, answers: Answers)
    requires Consistent(start, answers)
    ensures Resolved(start, c, answers) == Direct(c, answers)
  {
    CacheIsTransparent(start, FullAddress(c), answers);
  }

  /** With a cache that agrees with the service, a batch's records are the direct ones. */
  lemma BatchIsDirect(start: Cache, batch: seq<Company>, answers: Answers, parse: string -> Option<JsValue>, stamp: string)
    requires Consistent(start, answers)
    ensures BatchRecords(start, batch, answers, parse, stamp) == Mapped(batch, DirectRecord(answers, parse, stamp))
  {
    forall i | 0 <= i < |batch|
      ensures BatchRecord(start, answers, parse, stamp)(batch[i]) == DirectRecord(answers, parse, stamp)(batch[i])
    {
      ResolvedIsDirect(start, batch[i], answers);
    }
    MappedAgree(batch, BatchRecord(start, answers, parse, stamp), DirectRecord(answers, parse, stamp));
  }

  /** processHubSpotData's batch at `from` and the batches after it. */
  lemma ProcessedStep(companies: seq<Company>, from: nat, size: nat, cache: Cache, answers: Answers, parse: string -> Option<JsValue>, stamp: string)
    requires size > 0 && from < |companies|
    ensures var end := BatchEnd(|companies|, from, size); var batch := companies[from..end];
      var rest := Processed(companies, end, size, AfterBatch(cache, batch, answers), answers, parse, stamp);
      && Processed(companies, from, size, cache, answers, parse, stamp).0 == BatchRecords(cache, batch, answers, parse, stamp) + rest.0
      && Processed(companies, from, size, cache, answers, parse, stamp).1 == rest.1
  {
  }

  /**
   * With a cache that agrees with the service, processHubSpotData gives
   * one record per company, in order, each geocoded exactly as a direct
   * request would be: neither the batch size nor the cache changes a
   * record, and only an address longer than five characters is looked up.
   */
  lemma {:induction false} ProcessedIsDirect(companies: seq<Company>, from: nat, size: nat, cache: Cache, answers: Answers, parse: string -> Option<JsValue>, stamp: string)
    requires size > 0 && from <= |companies| && Consistent(cache, answers)
    ensures var r := Processed(companies, from, size, cache, answers, parse, stamp);
      r.0 == Mapped(companies[from..], DirectRecord(answers, parse, stamp)) && Consistent(r.1, answers)
    decreases |companies| - from
  {
    if from < |companies| {
      var end := BatchEnd(|companies|, from, size);
      var batch := companies[from..end];
      assert batch + companies[end..] == companies[from..];
      AfterBatchConsistent(cache, batch, answers);
      ProcessedIsDirect(companies, end, size, AfterBatch(cache, batch, answers), answers, parse, stamp);
      BatchIsDirect(cache, batch, answers, parse, stamp);
      MappedConcat(batch, companies[end..], DirectRecord(answers, parse, stamp));
    } else {
      assert companies[from..] == [];
    }
  }

  /** The geocoder: its cache (loadCache's restored Map, or an empty one). */
  class GeocodeIntegration {
    var cache: Cache

    constructor(loaded: Cache)
      ensures cache == loaded
    {
      cache := loaded;
    }

    /** geocodeAddress, with `answer` what its request would get back. */
    method GeocodeAddress(address: string, answer: Service.Response) returns (result: Option<Geocode>, requested: bool)
      modifies this
      ensures Lookup(result, cache, requested) == GeocodeStep(old(cache), address, answer)
    {
      if address == "" {
        return None, false;
      }
      if address in cache {
        return cache[address], false;
      }
      requested := true;
      match answer
      case Found(p) =>
        result := Some(Geocode(p.lat, p.lon, p.displayName));
        cache := cache[address := result];
      case NoResults =>
        result := None;
        cache := cache[address := None];
      case _ =>
        result := None;
    }

    /** One batch: every call checks the cache as it stood when the batch began, then the answers are stored. */
    method RunBatch(batch: seq<Company>, answers: Answers, parse: string -> Option<JsValue>, stamp: string) returns (records: seq<MapRecord>)
      modifies this
      ensures records == BatchRecords(old(cache), batch, answers, parse, stamp)
      ensures cache == AfterBatch(old(cache), batch, answers)
    {
      var start := cache;
      var cur := cache;
      records := [];
      for j := 0 to |batch|
        invariant records == BatchRecords(start, batch[..j], answers, parse, stamp)
        invariant cur == AfterBatch(start, batch[..j], answers)
      {
        BatchRecordsSnoc(start, batch, j, answers, parse, stamp);
        AfterBatchSnoc(start, batch, j, answers);
        var geo := ResolveOne(start, batch[j], answers);
        cur := Stored(start, cur, batch[j], answers);
        var record := HubSpotRecord(batch[j], geo, parse, stamp);
        records := records + [record];
      }
      cache := cur;
      assert batch[..|batch|] == batch;
    }

    /** One call of a batch: the cached answer as the batch began, or the request's. */
    static method ResolveOne(start: Cache, c: Company, answers: Answers) returns (geo: Option<Geocode>)
      ensures geo == Resolved(start, c, answers)
    {
      var address := FullAddress(c);
      geo := None;
      if |address| > 5 {
        if address in start {
          geo := start[address];
        } else {
          geo := Fetched(answers(address)).0;
        }
      }
    }

    /** processHubSpotData, in batches of `batchSize`. */
    method ProcessHubSpotData(companies: seq<Company>, batchSize: nat, answers: Answers, parse: string -> Option<JsValue>, stamp: string)
      returns (results: seq<MapRecord>)
      requires batchSize > 0
      modifies this
      ensures (results, cache) == Processed(companies, 0, batchSize, old(cache), answers, parse, stamp)
    {
      ghost var total := Processed(companies, 0, batchSize, cache, answers, parse, stamp);
      results := [];
      var i := 0;
      while i < |companies|
        invariant 0 <= i <= |companies|
        invariant total.0 == results + Processed(companies, i, batchSize, cache, answers, parse, stamp).0
        invariant total.1 == Processed(companies, i, batchSize, cache, answers, parse, stamp).1
        decreases |companies| - i
      {
        var end := BatchEnd(|companies|, i, batchSize);
        ProcessedStep(companies, i, batchSize, cache, answers, parse, stamp);
        var records := RunBatch(companies[i..end], answers, parse, stamp);
        AppendAssoc(results, records, Processed(companies, end, batchSize, cache, answers, parse, stamp).0);
        results := results + records;
        i := end;
      }
      assert results + [] == results;
    }
  }

  // ---------------------------------------------------------------------
  // Customer keys
  // ---------------------------------------------------------------------

  /** `url.replace(/^https?:\/\//, '')`. */
  function StripScheme(url: string): (r: string)
    ensures !StartsWith(url, "http://") && !StartsWith(url, "https://") ==> r == url
  {
    if StartsWith(url, "https://") then url[8..]
    else if StartsWith(url, "http://") then url[7..]
    else url
  }

  /** `.replace(/^www\./, '')`. */
  function StripWww(s: string): (r: string)
    ensures !StartsWith(s, "www.") ==> r == s
  {
    if StartsWith(s, "www.") then s[4..] else s
  }

  /** The domain of getCustomerKey: scheme and leading "www." removed, then everything from the first '/'. */
  function DomainOf(url: string): (d: string)
    ensures '/' !in d
  {
    SplitChar(StripWww(StripScheme(url)), '/')[0]
  }

  predicate IsKeyChar(c: char)
  {
    'a' <= c <= 'z' || '0' <= c <= '9'
  }

  /** `.replace(/[^a-z0-9]/g, '')`. */
  function KeyChars(s: string): (r: string)
    ensures forall i :: 0 <= i < |r| ==> IsKeyChar(r[i])
    ensures |r| <= |s|
  {
    if s == [] then []
    else if IsKeyChar(s[0]) then [s[0]] + KeyChars(s[1..])
    else KeyChars(s[1..])
  }

  /** The key of a customer without a website: its name reduced to lower-case letters and digits, and its state upper-cased. */
  function NameKey(name: string, state: string): (k: string)
    ensures StartsWith(k, "name:")
  {
    "name:" + KeyChars(Lower(name)) + ":" + Upper(state)
  }

  /** What getCustomerKey reads without throwing: the site it picks is a string, and without one, name and state are. */
  predicate KeyReadable(c: Object)
  {
    var site := Or(Field(c, "website"), Field(c, "url"));
    Textual(site) && (!Truthy(site) ==> Textual(Field(c, "name")) && Textual(Field(c, "state")))
  }

  /** getCustomerKey: "domain:" and the site's domain when there is a website or url, else the name key. */
  function CustomerKey(c: Object): (k: string)
    requires KeyReadable(c)
    ensures Truthy(Or(Field(c, "website"), Field(c, "url"))) <==> StartsWith(k, "domain:")
  {
    var site := Or(Field(c, "website"), Field(c, "url"));
    if Truthy(site) then "domain:" + DomainOf(TextOf(site))
    else
      var k := NameKey(TextOf(Field(c, "name")), TextOf(Field(c, "state")));
      assert k[0] == 'n';
      k
  }

  /** A bare host with no '/' and no ':' is its own domain. */
  lemma HostIsOwnDomain(h: string)
    requires '/' !in h && ':' !in h && !StartsWith(h, "www.")
    ensures DomainOf(h) == h && SplitChar(h, '/') == [h]
  {
    NoScheme(h);
    DomainVia(h, h);
    SplitOfEntry(h, '/', []);
  }

  /** Text with no ':' starts with neither scheme. */
  lemma NoScheme(h: string)
    requires ':' !in h
    ensures !StartsWith(h, "http://") && !StartsWith(h, "https://")
  {
    if |h| > 5 {
      assert h[4] in h && h[5] in h;
    } else if |h| > 4 {
      assert h[4] in h;
    }
    NotStartsWithAt(h, "http://", 4);
    NotStartsWithAt(h, "https://", 5);
  }

  /** The same site with a scheme, "www." and a path has the domain of the bare host. */
  lemma FullUrlSameDomain(h: string, path: string)
    requires '/' !in h && ':' !in h && !StartsWith(h, "www.")
    ensures DomainOf("https://www." + h + "/" + path) == DomainOf(h)
  {
    HostIsOwnDomain(h);
    var u := "https://www." + h + "/" + path;
    var a := "www." + (h + "/" + path);
    assert u == "https://" + a;
    SchemeDropped("https://", a);
    WwwDropped(h + "/" + path);
    DomainVia(u, h + "/" + path);
    assert h + "/" + path == h + ['/'] + path;
    SplitOfEntry(h, '/', path);
  }

  /** A plain http scheme is dropped too. */
  lemma HttpSameDomain(h: string)
    requires '/' !in h && ':' !in h && !StartsWith(h, "www.")
    ensures DomainOf("http://" + h) == DomainOf(h)
  {
    HostIsOwnDomain(h);
    SchemeDropped("http://", h);
    DomainVia("http://" + h, h);
  }

  /** So is a leading "www.". */
  lemma WwwSameDomain(h: string)
    requires '/' !in h && ':' !in h && !StartsWith(h, "www.")
    ensures DomainOf("www." + h) == DomainOf(h)
  {
    HostIsOwnDomain(h);
    WwwDropped(h);
    NotStartsWithAt("www." + h, "http://", 0);
    NotStartsWithAt("www." + h, "https://", 0);
    DomainVia("www." + h, h);
  }

  /** The domain is the part before the first '/' of what is left once scheme and "www." are gone. */
  lemma DomainVia(url: string, rest: string)
    requires StripWww(StripScheme(url)) == rest
    ensures DomainOf(url) == SplitChar(rest, '/')[0]
  {
  }

  /** The scheme of `scheme + rest` is removed. */
  lemma SchemeDropped(scheme: string, rest: string)
    requires scheme == "http://" || scheme == "https://"
    ensures StripScheme(scheme + rest) == rest
  {
    var u := scheme + rest;
    assert u[..|scheme|] == scheme;
    if scheme == "http://" {
      NotStartsWithAt(u, "https://", 4);
    }
  }

  /** The "www." of `"www." + rest` is removed. */
  lemma WwwDropped(rest: string)
    ensures StripWww("www." + rest) == rest
  {
    var w := "www." + rest;
    assert w[..4] == "www.";
  }

  /** Lower-case letters and digits pass, everything else is dropped. */
  lemma KeyCharsConcat(a: string, b: string)
    ensures KeyChars(a + b) == KeyChars(a) + KeyChars(b)
    decreases |a|
  {
    if a != [] {
      assert (a + b)[0] == a[0];
      assert (a + b)[1..] == a[1..] + b;
      KeyCharsConcat(a[1..], b);
    } else {
      assert a + b == b;
    }
  }

  /** Name keys ignore the case of the name and of the state. */
  lemma NameKeyIgnoresCase(name: string, state: string)
    ensures NameKey(Upper(name), Lower(state)) == NameKey(name, state)
  {
    LowerOfUpper(name);
    UpperOfLower(state);
  }

  /** Name keys ignore a character that is not a letter or digit, such as a space or a period. */
  lemma NameKeyIgnoresPunctuation(a: string, c: char, b: string, state: string)
    requires !IsKeyChar(c) && !('A' <= c <= 'Z')
    ensures NameKey(a + [c] + b, state) == NameKey(a + b, state)
  {
    LowerConcat(a + [c], b);
    LowerConcat(a, [c]);
    LowerConcat(a, b);
    KeyCharsConcat(Lower(a) + Lower([c]), Lower(b));
    KeyCharsConcat(Lower(a), Lower([c]));
    KeyCharsConcat(Lower(a), Lower(b));
    assert Lower([c]) == [c];
    assert KeyChars([c]) == [];
  }

  // ---------------------------------------------------------------------
  // mergeWithExistingData
  // ---------------------------------------------------------------------

  /** An existing customer as stored: its source, or 'static'. */
  function WithSource(c: Object): (o: Object)
    ensures "source" in o && o["source"] == Or(Field(c, "source"), Str("static"))
    ensures forall f :: f in c && f != "source" ==> f in o && o[f] == c[f]
  {
    c["source" := Or(Field(c, "source"), Str("static"))]
  }

  /** A HubSpot customer over the stored one under its key: HubSpot's fields win, the old record is kept. */
  function Updated(existing: Object, h: Object): (o: Object)
    ensures forall f :: f in h && f != "source" && f != "originalData" ==> f in o && o[f] == h[f]
    ensures "source" in o && o["source"] == Str("hubspot_updated")
    ensures "originalData" in o && o["originalData"] == Obj(existing)
  {
    (existing + h)["source" := Str("hubspot_updated")]["originalData" := Obj(existing)]
  }

  /** What a HubSpot customer is stored as, given what its key held before. */
  function Overlay(prior: Option<Object>, h: Object): Object
  {
    if prior.Some? then Updated(prior.value, h) else h
  }

  predicate AllReadable(cs: seq<Object>)
  {
    forall i :: 0 <= i < |cs| ==> KeyReadable(cs[i])
  }

  /** The Map after the existing customers are set in order. */
  function Staged(existing: seq<Object>): Dict<string, Object>
    requires AllReadable(existing)
  {
    if existing == [] then []
    else
      var c := existing[|existing| - 1];
      Put(Staged(existing[..|existing| - 1]), CustomerKey(c), WithSource(c))
  }

  /** The Map after the HubSpot customers are laid over t in order. */
  function Overlaid(t: Dict<string, Object>, hubspot: seq<Object>): Dict<string, Object>
    requires AllReadable(hubspot)
  {
    if hubspot == [] then t
    else
      var h := hubspot[|hubspot| - 1];
      var u := Overlaid(t, hubspot[..|hubspot| - 1]);
      Put(u, CustomerKey(h), Overlay(Get(u, CustomerKey(h)), h))
  }

  /** mergeWithExistingData: the Map's values in its order. */
  function MergeWithExisting(hubspot: seq<Object>, existing: seq<Object>): seq<Object>
    requires AllReadable(hubspot) && AllReadable(existing)
  {
    Values(Overlaid(Staged(existing), hubspot))
  }

  /** The keys of a list of customers. */
  function KeysOf(cs: seq<Object>): (ks: seq<string>)
    requires AllReadable(cs)
    ensures |ks| == |cs| && forall i :: 0 <= i < |cs| ==> ks[i] == CustomerKey(cs[i])
  {
    if cs == [] then [] else [CustomerKey(cs[0])] + KeysOf(cs[1..])
  }

  /** The staged Map holds one entry per key of the existing customers, the last such customer's. */
  lemma {:induction false} StagedEntries(existing: seq<Object>, k: string)
    requires AllReadable(existing)
    ensures DistinctKeys(Staged(existing))
    ensures Get(Staged(existing), k) ==
      if LastWith(Pairs(existing), k).Some? then Some(WithSource(existing[LastWith(Pairs(existing), k).value])) else None
  {
    if existing != [] {
      var front := existing[..|existing| - 1];
      var c := existing[|existing| - 1];
      StagedEntries(front, k);
      GetPut(Staged(front), CustomerKey(c), WithSource(c), k);
      PutEntries(Staged(front), CustomerKey(c), WithSource(c));
      assert Pairs(existing) == Pairs(front) + [(CustomerKey(c), WithSource(c))];
      assert Pairs(existing)[..|existing| - 1] == Pairs(front);
    }
  }

  /** The existing customers as (key, stored record) pairs. */
  function Pairs(cs: seq<Object>): (ps: Dict<string, Object>)
    requires AllReadable(cs)
    ensures |ps| == |cs| && forall i :: 0 <= i < |cs| ==> ps[i] == (CustomerKey(cs[i]), WithSource(cs[i]))
  {
    if cs == [] then [] else Pairs(cs[..|cs| - 1]) + [(CustomerKey(cs[|cs| - 1]), WithSource(cs[|cs| - 1]))]
  }

  /** Laying HubSpot customers over a Map keeps one entry per key, and leaves keys no HubSpot customer has alone. */
  lemma {:induction false} OverlaidUntouched(t: Dict<string, Object>, hubspot: seq<Object>, k: string)
    requires AllReadable(hubspot) && DistinctKeys(t)
    ensures DistinctKeys(Overlaid(t, hubspot))
    ensures k !in KeysOf(hubspot) ==> Get(Overlaid(t, hubspot), k) == Get(t, k)
  {
    if hubspot != [] {
      var front := hubspot[..|hubspot| - 1];
      var h := hubspot[|hubspot| - 1];
      OverlaidUntouched(t, front, k);
      var u := Overlaid(t, front);
      PutEntries(u, CustomerKey(h), Overlay(Get(u, CustomerKey(h)), h));
      GetPut(u, CustomerKey(h), Overlay(Get(u, CustomerKey(h)), h), k);
      if k !in KeysOf(hubspot) {
        PrefixOfPrefix(hubspot, |front|, |front|);
        forall i | 0 <= i < |front|
          ensures KeysOf(front)[i] != k
        {
          assert KeysOf(hubspot)[i] == CustomerKey(hubspot[i]);
        }
        assert KeysOf(hubspot)[|hubspot| - 1] == CustomerKey(h);
      }
    }
  }

  /**
   * Under the key of a HubSpot customer, the merged Map holds the last
   * HubSpot customer with that key, laid over whatever the Map held for
   * the key just before it.
   */
  lemma {:induction false} OverlaidLast(t: Dict<string, Object>, hubspot: seq<Object>, j: nat)
    requires AllReadable(hubspot) && DistinctKeys(t)
    requires j < |hubspot| && forall i :: j < i < |hubspot| ==> CustomerKey(hubspot[i]) != CustomerKey(hubspot[j])
    ensures var k := CustomerKey(hubspot[j]);
      Get(Overlaid(t, hubspot), k) == Some(Overlay(Get(Overlaid(t, hubspot[..j]), k), hubspot[j]))
    decreases |hubspot|
  {
    var k := CustomerKey(hubspot[j]);
    var n := |hubspot| - 1;
    var front := hubspot[..n];
    var h := hubspot[n];
    OverlaidUntouched(t, front, k);
    var u := Overlaid(t, front);
    var v := Overlay(Get(u, CustomerKey(h)), h);
    assert Overlaid(t, hubspot) == Put(u, CustomerKey(h), v);
    GetPut(u, CustomerKey(h), v, k);
    PrefixOfPrefix(hubspot, n, j);
    if j < n {
      assert CustomerKey(h) != k;
      OverlaidLast(t, front, j);
    }
  }

  /**
   * mergeWithExistingData keeps exactly one record per distinct key of the
   * two lists. A key no HubSpot customer has holds the last existing
   * customer with it (its source defaulted to 'static'); the key of a
   * HubSpot customer holds the last HubSpot customer with it, laid over
   * what the key held before: its fields win, and when the key was taken
   * the source is 'hubspot_updated' and the prior record is kept as
   * originalData.
   */
  lemma MergedEntries(hubspot: seq<Object>, existing: seq<Object>, k: string)
    requires AllReadable(hubspot) && AllReadable(existing)
    ensures var t := Overlaid(Staged(existing), hubspot);
      && DistinctKeys(t)
      && |MergeWithExisting(hubspot, existing)| == |Elems(Keys(t))|
      && (KeyIndex(t, k).Some? <==> k in KeysOf(existing) || k in KeysOf(hubspot))
      && (k !in KeysOf(hubspot) ==> Get(t, k) == Get(Staged(existing), k))
  {
    var s := Staged(existing);
    StagedEntries(existing, k);
    OverlaidUntouched(s, hubspot, k);
    var t := Overlaid(s, hubspot);
    DistinctKeysCount(t);
    if k in KeysOf(hubspot) {
      var j := LastKey(KeysOf(hubspot), k);
      OverlaidLast(s, hubspot, j);
    } else {
      if k in KeysOf(existing) {
        var i :| 0 <= i < |existing| && KeysOf(existing)[i] == k;
        assert Pairs(existing)[i].0 == k;
      }
      if LastWith(Pairs(existing), k).Some? {
        assert KeysOf(existing)[LastWith(Pairs(existing), k).value] == k;
      }
    }
  }

  /** The last position of a key in a list that has it. */
  function LastKey(ks: seq<string>, k: string): (j: nat)
    requires k in ks
    ensures j < |ks| && ks[j] == k && forall i :: j < i < |ks| ==> ks[i] != k
  {
    if ks[|ks| - 1] == k then |ks| - 1 else LastKey(ks[..|ks| - 1], k)
  }

  /** A list whose customers up to i are readable stays so one customer further when that one is. */
  lemma ReadablePrefix(cs: seq<Object>, i: nat)
    requires i < |cs| && AllReadable(cs[..i]) && KeyReadable(cs[i])
    ensures AllReadable(cs[..i + 1])
  {
    assert cs[..i + 1] == cs[..i] + [cs[i]];
  }

  /** One customer getCustomerKey cannot read makes the whole list unreadable. */
  lemma Unreadable(cs: seq<Object>, i: nat)
    requires i < |cs| && !KeyReadable(cs[i])
    ensures !AllReadable(cs)
  {
  }

  /** The first loop of mergeWithExistingData: each existing customer set under its key, or None at the first one getCustomerKey throws on. */
  method StageExisting(existingData: seq<Object>) returns (r: Option<Dict<string, Object>>)
    ensures r.None? <==> !AllReadable(existingData)
    ensures r.Some? ==> r.value == Staged(existingData)
  {
    var merged: Dict<string, Object> := [];
    for i := 0 to |existingData|
      invariant AllReadable(existingData[..i])
      invariant merged == Staged(existingData[..i])
    {
      var customer := existingData[i];
      if !KeyReadable(customer) {
        Unreadable(existingData, i);
        return None;
      }
      ReadablePrefix(existingData, i);
      assert existingData[..i + 1][..i] == existingData[..i];
      merged := Put(merged, CustomerKey(customer), WithSource(customer));
    }
    assert existingData[..|existingData|] == existingData;
    r := Some(merged);
  }

  /** The second loop of mergeWithExistingData: each HubSpot customer laid over the Map, or None at the first one getCustomerKey throws on. */
  method OverlayHubSpot(staged: Dict<string, Object>, hubspotData: seq<Object>) returns (r: Option<Dict<string, Object>>)
    ensures r.None? <==> !AllReadable(hubspotData)
    ensures r.Some? ==> r.value == Overlaid(staged, hubspotData)
  {
    var merged := staged;
    for j := 0 to |hubspotData|
      invariant AllReadable(hubspotData[..j])
      invariant merged == Overlaid(staged, hubspotData[..j])
    {
      var hs := hubspotData[j];
      if !KeyReadable(hs) {
        Unreadable(hubspotData, j);
        return None;
      }
      ReadablePrefix(hubspotData, j);
      assert hubspotData[..j + 1][..j] == hubspotData[..j];
      var key := CustomerKey(hs);
      match Get(merged, key)
      case Some(existing) =>
        merged := Put(merged, key, Updated(existing, hs));
      case None =>
        merged := Put(merged, key, hs);
    }
    assert hubspotData[..|hubspotData|] == hubspotData;
    r := Some(merged);
  }

  /**
   * mergeWithExistingData: the existing customers set into a Map, the
   * HubSpot customers laid over them. None is the TypeError getCustomerKey
   * throws on a customer whose website or url, or without a site whose
   * name or state, is truthy but not a string.
   */
  method MergeWithExistingData(hubspotData: seq<Object>, existingData: seq<Object>) returns (r: Option<seq<Object>>)
    ensures r.None? <==> !(AllReadable(hubspotData) && AllReadable(existingData))
    ensures r.Some? ==> r.value == MergeWithExisting(hubspotData, existingData)
  {
    var staged := StageExisting(existingData);
    if staged.None? {
      return None;
    }
    var merged := OverlayHubSpot(staged.value, hubspotData);
    if merged.None? {
      return None;
    }
    r := Some(Values(merged.value));
  }
}

=== FILE: inline_merge.dfy ===
/** inline_merge_now.py: the top-level merge with a skip counter, exiting 1 on every failure. */
module InlineMergeNow {
  import opened Wrappers
  import opened Records
  import opened Reconcile
  import opened DatasetFile

  const CurrentFile := "apptegy-geocoded-current.json"

  /**
   * The script body: failed loads, a refused backup and a failed write all
   * exit with status 1 (the last after trying to rename the backup back),
   * and so does the uncaught KeyError of a record without `recordId`.
   * A commit exits 0 after tallying the non-empty states.
   */
  method Run(fs: Store, batch: Option<seq<ProgressEntry>>, backup: string, faults: Faults)
    returns (after: Store, run: MergeRun, exitCode: int, stateCounts: map<string, nat>)
    ensures exitCode == (if run.Committed? then 0 else 1)
    ensures !Loaded(fs, CurrentFile, batch) ==> after == fs && (run.LoadFailed? || run.MissingRecordId?)
    ensures Loaded(fs, CurrentFile, batch) ==>
      var (committed, outcome) := Commit(fs, CurrentFile, backup, MergedList(fs, CurrentFile, batch, ConvertBatchRecord), faults, true);
      after == committed && (run.Committed? <==> outcome.Committed?) && (!run.Committed? ==> run == outcome)
    ensures !run.Committed? ==> stateCounts == map[]
    ensures run.Committed? ==>
      && Loaded(fs, CurrentFile, batch)
      && run.added + run.skipped == |batch.value|
      && run.total == |fs[CurrentFile].records| + run.added
      && (forall k :: k in stateCounts <==>
            k != "" && CountState(MergedList(fs, CurrentFile, batch, ConvertBatchRecord), StateOf, "Unknown", k) > 0)
      && (forall k :: k in stateCounts ==>
            stateCounts[k] == CountState(MergedList(fs, CurrentFile, batch, ConvertBatchRecord), StateOf, "Unknown", k))
  {
    after, run := MergeAndCommit(fs, CurrentFile, backup, batch, ConvertBatchRecord, faults, true);
    stateCounts := map[];
    if !run.Committed? {
      return after, run, 1, stateCounts;
    }
    stateCounts := TallyStates(after[CurrentFile].records, StateOf, "Unknown", true);
    exitCode := 0;
  }
}

=== FILE: intelligent_geocoder.dfy ===
/**
 * intelligent_geocoder.py: combine the client sheet into unique customers,
 * then geocode them in batches of 20, cache first, until done or stopped.
 */
module IntelligentGeocoder {
  import opened Wrappers
  import opened Text
  import opened Service
  import opened Sheet
  import opened AddressClean
  import opened SchoolType
  import opened GeoRetry
  import opened JsEmit

  const BatchSize: nat := 20
  const MaxRetries: nat := 3

  /** The columns the street, city, state and zip are read from, in that order (the sheet's columns are shifted). */
  const AddressColumns: seq<string> := ["STATE", "Street Address", "City Address", "Zip Address"]

  datatype Products = Products(cms: bool, mobile: bool, masscomm: bool, payments: bool)

  datatype Customer = Customer(
    name: string,
    address: string,
    website: string,
    state: string,
    kind: string,
    products: Products,
    lat: Option<Coord>,
    lng: Option<Coord>)

  /** A part survives unless it is empty or reads 'nan' or 'None'. */
  predicate KeptPart(p: string)
  {
    p != "" && p != "nan" && p != "None"
  }

  /** The stripped text of each address column that survives, in column order. */
  function AddressParts(row: Row, cols: seq<string>): (parts: seq<string>)
    ensures |parts| <= |cols|
    ensures forall k :: 0 <= k < |parts| ==> KeptPart(parts[k])
    ensures forall k :: 0 <= k < |cols| && KeptPart(Field(row, cols[k], "")) ==> Field(row, cols[k], "") in parts
  {
    if cols == [] then []
    else
      var p := Field(row, cols[0], "");
      var rest := AddressParts(row, cols[1..]);
      assert forall k :: 1 <= k < |cols| ==> cols[k] == cols[1..][k - 1];
      if KeptPart(p) then [p] + rest else rest
  }

  /** `clean_address`: the surviving parts joined and cleaned. */
  function CleanAddress(row: Row): (a: string)
    ensures a == [] || (!CommaOrSpace(a[0]) && !CommaOrSpace(a[|a| - 1]))
    ensures forall i :: 0 <= i < |a| && IsSpace(a[i]) ==> a[i] == ' '
  {
    CleanJoined(AddressParts(row, AddressColumns))
  }

  /**
   * When every surviving column is already clean, the address is exactly
   * the surviving parts joined with ", ".
   */
  lemma CleanAddressOfCleanColumns(row: Row)
    requires forall k :: 0 <= k < |AddressParts(row, AddressColumns)| ==> CleanPart(AddressParts(row, AddressColumns)[k])
    ensures CleanAddress(row) == Join(AddressParts(row, AddressColumns), ", ")
  {
    CleanJoinedOfCleanParts(AddressParts(row, AddressColumns));
  }

  /** `bool(row.get(col, False))`. */
  predicate Flag(row: Row, col: string)
  {
    col in row && CellTruthy(row[col])
  }

  /** A non-empty website not starting with "http" gets "https://" in front. */
  function Website(row: Row): (w: string)
    ensures var raw := Field(row, "Website", "");
      (raw != "" && !StartsWith(raw, "http") ==> w == "https://" + raw)
      && (raw == "" || StartsWith(raw, "http") ==> w == raw)
  {
    var raw := Field(row, "Website", "");
    if raw != "" && !StartsWith(raw, "http") then "https://" + raw else raw
  }

  /** `str(row['School Name']).strip()`. */
  function Name(row: Row): string
    requires "School Name" in row
  {
    Strip(CellStr(row["School Name"]))
  }

  function ToCustomer(row: Row): Customer
    requires "School Name" in row
  {
    Customer(
      name := Name(row),
      address := CleanAddress(row),
      website := Website(row),
      state := Field(row, "City Address", ""),
      kind := DetermineSchoolType(Name(row), Lookup(row, "Agile Institution Type"), Lookup(row, "Agile Building Charter")),
      products := Products(Flag(row, "CMS"), Flag(row, "Access"), Flag(row, "SIA"), Flag(row, "Pay")),
      lat := None,
      lng := None)
  }

  /** What a row contributes: nothing when reading its name raises, otherwise its dedupe key (the lower-cased name) and its customer. */
  datatype RowView = NoName | Named(key: string, customer: Customer)

  function View(row: Row): (v: RowView)
    ensures v.Named? <==> "School Name" in row
    ensures v.Named? ==> v.key == Lower(v.customer.name) && v.customer.lat.None? && v.customer.lng.None?
  {
    if "School Name" in row then Named(Lower(Name(row)), ToCustomer(row)) else NoName
  }

  function Views(rows: seq<Row>): (vs: seq<RowView>)
    ensures |vs| == |rows|
  {
    if rows == [] then [] else [View(rows[0])] + Views(rows[1..])
  }

  /**
   * `load_and_combine_data` over the first n rows: the customers so far and
   * the names seen.  A row whose name was seen is skipped; otherwise the
   * name is marked seen and the customer is kept only when its address is
   * not empty.
   */
  function Combined(vs: seq<RowView>, n: nat): (r: (seq<Customer>, set<string>))
    requires n <= |vs|
  {
    if n == 0 then ([], {})
    else
      var (customers, seen) := Combined(vs, n - 1);
      match vs[n - 1]
      case NoName => (customers, seen)
      case Named(key, c) =>
        if key in seen then (customers, seen)
        else if c.address != "" then (customers + [c], seen + {key})
        else (customers, seen + {key})
  }

  /** The loading loop; a row whose name cannot be read is skipped. */
  method LoadAndCombine(rows: seq<Row>) returns (customers: seq<Customer>)
    ensures customers == Combined(Views(rows), |rows|).0
  {
    var views := Views(rows);
    customers := [];
    var seen: set<string> := {};
    for i := 0 to |rows|
      invariant (customers, seen) == Combined(views, i)
    {
      var view := views[i];
      if view.NoName? {
        continue;
      }
      if view.key in seen {
        continue;
      }
      seen := seen + {view.key};
      if view.customer.address != "" {
        customers := customers + [view.customer];
      }
    }
  }

  /** Row i is the first row carrying its name (compared lower-cased). */
  predicate FirstOfName(vs: seq<RowView>, i: nat)
    requires i < |vs|
  {
    vs[i].Named? && forall j :: 0 <= j < i && vs[j].Named? ==> vs[j].key != vs[i].key
  }

  /** Reference selection: the first row of each name, kept when it has an address. */
  function FirstRowsWithAddress(vs: seq<RowView>, n: nat): seq<Customer>
    requires n <= |vs|
  {
    if n == 0 then []
    else
      var i := n - 1;
      FirstRowsWithAddress(vs, i) + (if FirstOfName(vs, i) && vs[i].customer.address != "" then [vs[i].customer] else [])
  }

  /**
   * The loop keeps exactly the first row of every name that has an address:
   * the name is marked seen before the address check, so a later row of the
   * same name is dropped even when the first one had no address.
   */
  lemma {:induction false} CombinedIsFirstRows(vs: seq<RowView>, n: nat)
    requires n <= |vs|
    ensures Combined(vs, n).1 == set j | 0 <= j < n && vs[j].Named? :: vs[j].key
    ensures Combined(vs, n).0 == FirstRowsWithAddress(vs, n)
  {
    if n > 0 {
      CombinedIsFirstRows(vs, n - 1);
      var i := n - 1;
      var seen := Combined(vs, i).1;
      if vs[i].Named? {
        assert vs[i].key in seen <==> !FirstOfName(vs, i);
      }
    }
  }

  predicate DistinctNames(cs: seq<Customer>)
  {
    forall a, b :: 0 <= a < b < |cs| ==> Lower(cs[a].name) != Lower(cs[b].name)
  }

  predicate NamesSeen(cs: seq<Customer>, seen: set<string>)
  {
    forall a :: 0 <= a < |cs| ==> Lower(cs[a].name) in seen
  }

  /** No two combined customers share a lower-cased name, and every kept name is marked seen. */
  lemma {:induction false} CombinedNamesDistinct(vs: seq<RowView>, n: nat)
    requires n <= |vs|
    requires forall i :: 0 <= i < |vs| && vs[i].Named? ==> vs[i].key == Lower(vs[i].customer.name)
    ensures DistinctNames(Combined(vs, n).0)
    ensures NamesSeen(Combined(vs, n).0, Combined(vs, n).1)
  {
    if n > 0 {
      CombinedNamesDistinct(vs, n - 1);
      var cs := Combined(vs, n - 1).0;
      var seen := Combined(vs, n - 1).1;
      if vs[n - 1].Named? && vs[n - 1].key !in seen && vs[n - 1].customer.address != "" {
        var c := vs[n - 1].customer;
        var cs' := cs + [c];
        assert Combined(vs, n) == (cs', seen + {vs[n - 1].key});
        forall a, b | 0 <= a < b < |cs'|
          ensures Lower(cs'[a].name) != Lower(cs'[b].name)
        {
          assert cs'[a] == cs[a];
          if b < |cs| {
            assert cs'[b] == cs[b];
          }
        }
        forall a | 0 <= a < |cs'|
          ensures Lower(cs'[a].name) in seen + {vs[n - 1].key}
        {
          if a < |cs| {
            assert cs'[a] == cs[a];
          }
        }
      } else {
        var seen' := Combined(vs, n).1;
        assert Combined(vs, n).0 == cs;
        assert seen <= seen';
        forall a | 0 <= a < |cs|
          ensures Lower(cs[a].name) in seen'
        {
          assert Lower(cs[a].name) in seen;
        }
      }
    }
  }

  lemma {:induction false} ViewsAt(rows: seq<Row>, i: nat)
    requires i < |rows|
    ensures Views(rows)[i] == View(rows[i])
  {
    if i > 0 {
      ViewsAt(rows[1..], i - 1);
    }
  }

  /** The loaded customers have pairwise different lower-cased names. */
  lemma LoadedNamesDistinct(rows: seq<Row>)
    ensures DistinctNames(Combined(Views(rows), |rows|).0)
  {
    var vs := Views(rows);
    forall i | 0 <= i < |vs| && vs[i].Named?
      ensures vs[i].key == Lower(vs[i].customer.name)
    {
      ViewsAt(rows, i);
    }
    CombinedNamesDistinct(vs, |rows|);
  }

  /** The run's counters. */
  datatype Tally = Tally(geocoded: nat, cacheHits: nat, failed: nat)

  /** What the run holds after some customers: the customer list (updated in place), the cache, the counters, the requests sent. */
  datatype RunState = RunState(customers: seq<Customer>, cache: map<string, Coords>, tally: Tally, requests: nat)

  function WithCoords(c: Customer, loc: Coords): Customer
  {
    c.(lat := Some(loc.lat), lng := Some(loc.lng))
  }

  /** A cache hit: the cached coordinates are copied into the customer, with no request. */
  function Hit(s: RunState, j: nat): (r: RunState)
    requires j < |s.customers| && s.customers[j].address in s.cache
  {
    var c := s.customers[j];
    RunState(s.customers[j := WithCoords(c, s.cache[c.address])], s.cache,
             s.tally.(geocoded := s.tally.geocoded + 1, cacheHits := s.tally.cacheHits + 1), s.requests)
  }

  /** A lookup that sent `used` requests: a success is copied into the customer and cached, a failure only counted. */
  function Looked(s: RunState, j: nat, found: Option<Coords>, used: nat): (r: RunState)
    requires j < |s.customers|
  {
    var c := s.customers[j];
    match found
    case Some(loc) =>
      RunState(s.customers[j := WithCoords(c, loc)], s.cache[c.address := loc],
               s.tally.(geocoded := s.tally.geocoded + 1), s.requests + used)
    case None =>
      RunState(s.customers, s.cache, s.tally.(failed := s.tally.failed + 1), s.requests + used)
  }

  /**
   * One customer, cache first: a cached address copies its coordinates and
   * sends no request; otherwise the lookup runs, a success is cached, and a
   * failure is only counted.
   */
  function Step(s: RunState, j: nat, svc: Oracle): (r: RunState)
    requires j < |s.customers|
    ensures |r.customers| == |s.customers|
    ensures s.customers[j].address in s.cache <==> r.requests == s.requests
    ensures r.tally.geocoded + r.tally.failed == s.tally.geocoded + s.tally.failed + 1
    ensures r.tally.cacheHits - s.tally.cacheHits <= r.tally.geocoded - s.tally.geocoded
  {
    var a := s.customers[j].address;
    if a in s.cache then Hit(s, j)
    else Looked(s, j, Outcome(svc, a, MaxRetries, 0), Requests(svc, a, MaxRetries, 0))
  }

  /** The state after the first k customers. */
  function StateAt(customers: seq<Customer>, cache: map<string, Coords>, k: nat, svc: Oracle): (s: RunState)
    requires k <= |customers|
    ensures |s.customers| == |customers|
    ensures s.tally.geocoded + s.tally.failed == k
    ensures s.tally.cacheHits <= s.tally.geocoded
  {
    if k == 0 then RunState(customers, cache, Tally(0, 0, 0), 0)
    else Step(StateAt(customers, cache, k - 1, svc), k - 1, svc)
  }

  /**
   * Customers at k and after are untouched, and the cache only grows: an
   * entry, once in it, keeps its coordinates.
   */
  lemma {:induction false} StateAtFrame(customers: seq<Customer>, cache: map<string, Coords>, k: nat, svc: Oracle)
    requires k <= |customers|
    ensures StateAt(customers, cache, k, svc).customers[k..] == customers[k..]
    ensures forall a :: a in cache ==> a in StateAt(customers, cache, k, svc).cache && StateAt(customers, cache, k, svc).cache[a] == cache[a]
  {
    if k > 0 {
      StateAtFrame(customers, cache, k - 1, svc);
      var prev := StateAt(customers, cache, k - 1, svc);
      assert prev.customers[k - 1..] == customers[k - 1..];
      assert prev.customers[k..] == prev.customers[k - 1..][1..];
    }
  }

  /** Only lookups send requests, at most three each: the cache hits cost nothing. */
  lemma {:induction false} RequestsBound(customers: seq<Customer>, cache: map<string, Coords>, k: nat, svc: Oracle)
    requires k <= |customers|
    ensures var s := StateAt(customers, cache, k, svc); s.requests <= MaxRetries * (k - s.tally.cacheHits)
  {
    if k > 0 {
      RequestsBound(customers, cache, k - 1, svc);
      var prev := StateAt(customers, cache, k - 1, svc);
      var a := prev.customers[k - 1].address;
      if a !in prev.cache {
        assert Requests(svc, a, MaxRetries, 0) <= MaxRetries;
      }
    }
  }

  /** One step adds at most the processed customer's address, with the coordinates its lookup found. */
  lemma StepCaches(s: RunState, j: nat, svc: Oracle, a: string)
    requires j < |s.customers|
    requires a in Step(s, j, svc).cache && a !in s.cache
    ensures a == s.customers[j].address && Outcome(svc, a, MaxRetries, 0) == Some(Step(s, j, svc).cache[a])
  {
  }

  /**
   * An address the run added to the cache belongs to a processed customer
   * whose lookup succeeded with the cached coordinates.
   */
  lemma {:induction false} CacheGrowsOnlyBySuccesses(customers: seq<Customer>, cache: map<string, Coords>, k: nat, svc: Oracle, a: string)
    returns (j: nat)
    requires k <= |customers|
    requires a in StateAt(customers, cache, k, svc).cache && a !in cache
    ensures j < k && customers[j].address == a
    ensures Outcome(svc, a, MaxRetries, 0) == Some(StateAt(customers, cache, k, svc).cache[a])
  {
    var prev := StateAt(customers, cache, k - 1, svc);
    assert StateAt(customers, cache, k, svc) == Step(prev, k - 1, svc);
    if a in prev.cache {
      j := CacheGrowsOnlyBySuccesses(customers, cache, k - 1, svc, a);
      assert prev.cache[a] == StateAt(customers, cache, k, svc).cache[a];
    } else {
      StepCaches(prev, k - 1, svc, a);
      StateAtFrame(customers, cache, k - 1, svc);
      assert prev.customers[k - 1] == customers[k - 1] by {
        assert prev.customers[k - 1..][0] == customers[k - 1..][0];
      }
      j := k - 1;
    }
  }

  /** How many customers the run gets through: all, unless the stop flag is raised after `interruptAt` of them. */
  function Reached(total: nat, interruptAt: Option<nat>): (n: nat)
    ensures n <= total
  {
    if interruptAt.Some? && interruptAt.value < total then interruptAt.value else total
  }

  /** What `save_progress` writes: the customers with truthy coordinates, and the cache. */
  datatype Snapshot = Snapshot(emitted: seq<Customer>, cache: map<string, Coords>)

  /** The customers `save_progress` writes out: those whose lat and lng are both truthy, in order. */
  function Emitted(customers: seq<Customer>): (r: seq<Customer>)
    ensures |r| <= |customers|
    ensures forall i :: 0 <= i < |r| ==> Truthy(r[i].lat) && Truthy(r[i].lng)
  {
    if customers == [] then []
    else
      var last := customers[|customers| - 1];
      var front := Emitted(customers[..|customers| - 1]);
      if Truthy(last.lat) && Truthy(last.lng) then front + [last] else front
  }

  /** A customer is written out exactly when it is in the list with truthy coordinates. */
  lemma {:induction false} EmittedExactly(customers: seq<Customer>, c: Customer)
    ensures c in Emitted(customers) <==> c in customers && Truthy(c.lat) && Truthy(c.lng)
  {
    if customers != [] {
      var front := customers[..|customers| - 1];
      EmittedExactly(front, c);
      assert customers == front + [customers[|customers| - 1]];
    }
  }

  function SnapshotOf(s: RunState): Snapshot
  {
    Snapshot(Emitted(s.customers), s.cache)
  }

  /** Where batch b stops when the run gets through n customers: after 20 customers, or at n. */
  function BatchEnd(b: nat, n: nat): (end: nat)
    ensures end <= n
  {
    if BatchSize * (b + 1) < n then BatchSize * (b + 1) else n
  }

  /** The saves after the batches: save b is the snapshot of the state at the end of batch b. */
  predicate BatchSaves(saves: seq<Snapshot>, n: nat, customers: seq<Customer>, cache: map<string, Coords>, svc: Oracle)
    requires n <= |customers|
  {
    saves != [] ==>
      && BatchSaves(saves[..|saves| - 1], n, customers, cache, svc)
      && saves[|saves| - 1] == SnapshotOf(StateAt(customers, cache, BatchEnd(|saves| - 1, n), svc))
  }

  /** Each save is the snapshot of the state at the end of its batch. */
  lemma {:induction false} BatchSavesAt(saves: seq<Snapshot>, n: nat, customers: seq<Customer>, cache: map<string, Coords>, svc: Oracle, b: nat)
    requires n <= |customers|
    requires BatchSaves(saves, n, customers, cache, svc)
    requires b < |saves|
    ensures saves[b] == SnapshotOf(StateAt(customers, cache, BatchEnd(b, n), svc))
    decreases |saves|
  {
    if b < |saves| - 1 {
      BatchSavesAt(saves[..|saves| - 1], n, customers, cache, svc, b);
    }
  }

  /** One batch: customers i .. up to 20 further, stopping early when the flag is up. */
  method RunBatch(customers0: seq<Customer>, cache0: map<string, Coords>, svc: Oracle, i: nat, n: nat,
                  s: RunState) returns (r: RunState)
    requires i < n <= |customers0|
    requires s == StateAt(customers0, cache0, i, svc)
    ensures r == StateAt(customers0, cache0, if i + BatchSize < n then i + BatchSize else n, svc)
  {
    var end := if i + BatchSize < n then i + BatchSize else n;
    r := s;
    var j := i;
    while j < end
      invariant i <= j <= end
      invariant r == StateAt(customers0, cache0, j, svc)
    {
      var address := r.customers[j].address;
      if address in r.cache {
        r := Hit(r, j);
      } else {
        var location, used := Geocode(address, svc, MaxRetries);
        r := Looked(r, j, location, used);
      }
      j := j + 1;
    }
  }

  /**
   * `run_intelligent_geocoding` after loading: batches of 20; the stop flag
   * is checked before every batch and every customer; progress is saved
   * after every batch that started and once more at the end.
   */
  method RunGeocoding(customers0: seq<Customer>, cache0: map<string, Coords>, svc: Oracle, interruptAt: Option<nat>)
    returns (final: RunState, saves: seq<Snapshot>)
    ensures final == StateAt(customers0, cache0, Reached(|customers0|, interruptAt), svc)
    ensures |saves| > 0 && saves[|saves| - 1] == SnapshotOf(final)
    ensures var n := Reached(|customers0|, interruptAt); var batches := |saves| - 1;
      && BatchSaves(saves[..batches], n, customers0, cache0, svc)
      && n <= BatchSize * batches
      && (batches > 0 ==> BatchSize * (batches - 1) < n)
  {
    var n := Reached(|customers0|, interruptAt);
    final, saves := RunBatches(customers0, cache0, svc, n);
    ghost var batchSaves := saves;
    saves := saves + [SnapshotOf(final)];
    assert saves[..|saves| - 1] == batchSaves;
  }

  /** The batch loop over the first n customers, saving after each batch. */
  method RunBatches(customers0: seq<Customer>, cache0: map<string, Coords>, svc: Oracle, n: nat)
    returns (final: RunState, saves: seq<Snapshot>)
    requires n <= |customers0|
    ensures final == StateAt(customers0, cache0, n, svc)
    ensures BatchSaves(saves, n, customers0, cache0, svc)
    ensures n <= BatchSize * |saves| && (|saves| > 0 ==> BatchSize * (|saves| - 1) < n)
  {
    final := RunState(customers0, cache0, Tally(0, 0, 0), 0);
    saves := [];
    var i := 0;
    while i < n
      invariant i == BatchSize * |saves|
      invariant saves != [] ==> i - BatchSize < n
      invariant final == StateAt(customers0, cache0, if i < n then i else n, svc)
      invariant BatchSaves(saves, n, customers0, cache0, svc)
      decreases n - i
    {
      final, saves := SaveBatch(customers0, cache0, svc, n, i, final, saves);
      i := i + BatchSize;
    }
    if saves != [] {
      BatchStep(|saves| - 1);
    }
  }

  /** One pass of the batch loop: the batch from i on, then its save. */
  method SaveBatch(customers0: seq<Customer>, cache0: map<string, Coords>, svc: Oracle, n: nat, i: nat,
                   final0: RunState, saves0: seq<Snapshot>) returns (final: RunState, saves: seq<Snapshot>)
    requires i < n <= |customers0|
    requires i == BatchSize * |saves0|
    requires final0 == StateAt(customers0, cache0, i, svc)
    requires BatchSaves(saves0, n, customers0, cache0, svc)
    ensures i + BatchSize == BatchSize * |saves|
    ensures final == StateAt(customers0, cache0, if i + BatchSize < n then i + BatchSize else n, svc)
    ensures BatchSaves(saves, n, customers0, cache0, svc)
  {
    BatchEndFrom(|saves0|, i, n);
    final := RunBatch(customers0, cache0, svc, i, n, final0);
    BatchSavesSnoc(saves0, n, customers0, cache0, svc, SnapshotOf(final));
    saves := saves0 + [SnapshotOf(final)];
  }

  lemma BatchStep(b: nat)
    ensures BatchSize * (b + 1) == BatchSize * b + BatchSize
  {
  }

  /** The batch that starts at i = 20 * b ends 20 customers later, or at n. */
  lemma BatchEndFrom(b: nat, i: nat, n: nat)
    requires i == BatchSize * b
    ensures BatchSize * (b + 1) == i + BatchSize
    ensures BatchEnd(b, n) == if i + BatchSize < n then i + BatchSize else n
  {
    BatchStep(b);
  }

  /** Saving the state at the end of the next batch extends the saves. */
  lemma BatchSavesSnoc(saves: seq<Snapshot>, n: nat, customers: seq<Customer>, cache: map<string, Coords>, svc: Oracle, snap: Snapshot)
    requires n <= |customers|
    requires BatchSaves(saves, n, customers, cache, svc)
    requires snap == SnapshotOf(StateAt(customers, cache, BatchEnd(|saves|, n), svc))
    ensures BatchSaves(saves + [snap], n, customers, cache, svc)
  {
    assert (saves + [snap])[..|saves|] == saves;
  }

  /** The entry `save_progress` writes for a customer; `show` renders a coordinate. */
  function EntryText(c: Customer, show: Coord -> string, products: Products -> string): string
    requires c.lat.Some? && c.lng.Some?
  {
    ObjectLiteral([("name", Quoted(c.name)), ("lat", show(c.lat.value)), ("lng", show(c.lng.value)),
                   ("url", Quoted(c.website)), ("type", Quoted(c.kind)), ("state", Quoted(c.state)),
                   ("products", products(c.products))])
  }

  function EntryTexts(cs: seq<Customer>, show: Coord -> string, products: Products -> string): (r: seq<string>)
    requires forall c :: c in cs ==> c.lat.Some? && c.lng.Some?
    ensures |r| == |cs|
  {
    if cs == [] then [] else [EntryText(cs[0], show, products)] + EntryTexts(cs[1..], show, products)
  }

  /**
   * The data.js `save_progress` writes: every emitted customer followed by a
   * comma, the last included.
   */
  function SaveProgressFile(header: string, customers: seq<Customer>, show: Coord -> string, products: Products -> string): string
  {
    TerminatedFile(header, EntryTexts(Emitted(customers), show, products))
  }
}

=== FILE: js_emit.dfy ===
/**
 * The JavaScript source the scripts write into data.js: a `customers` array
 * literal of object literals, built by string accumulation.
 */
module JsEmit {
  import opened Text

  /** `s.replace('"', '\\"')`: every double quote gets a backslash in front. */
  function EscapeQuotes(s: string): (r: string)
    ensures |r| >= |s|
    ensures r == [] || r[0] != '"'
    ensures forall i :: 0 <= i < |r| && r[i] == '"' ==> 0 < i && r[i - 1] == '\\'
  {
    if s == [] then []
    else
      var rest := EscapeQuotes(s[1..]);
      var head := if s[0] == '"' then ['\\', '"'] else [s[0]];
      assert forall i :: |head| <= i < |head + rest| ==> (head + rest)[i] == rest[i - |head|];
      head + rest
  }

  /** Reading a `\"` pair back as a quote, as a JavaScript string literal does. */
  function UnescapeQuotes(t: string): string
  {
    if t == [] then []
    else if |t| >= 2 && t[0] == '\\' && t[1] == '"' then ['"'] + UnescapeQuotes(t[2..])
    else [t[0]] + UnescapeQuotes(t[1..])
  }

  /** Escaping loses nothing: the quotes read back are the quotes of the name. */
  lemma {:induction false} EscapeRoundTrip(s: string)
    ensures UnescapeQuotes(EscapeQuotes(s)) == s
  {
    if s != [] {
      var rest := EscapeQuotes(s[1..]);
      EscapeRoundTrip(s[1..]);
      if s[0] == '"' {
        assert EscapeQuotes(s) == ['\\', '"'] + rest;
        assert (['\\', '"'] + rest)[2..] == rest;
      } else {
        assert EscapeQuotes(s) == [s[0]] + rest;
        assert ([s[0]] + rest)[1..] == rest;
      }
    }
  }

  /** `"` + s + `"`. */
  function Quoted(s: string): string
  {
    "\"" + s + "\""
  }

  /** `key: value` pairs inside braces, as the f-strings lay them out. */
  function ObjectLiteral(fields: seq<(string, string)>): string
  {
    "{ " + Join(Pairs(fields), ", ") + " }"
  }

  function Pairs(fields: seq<(string, string)>): (r: seq<string>)
    ensures |r| == |fields|
  {
    if fields == [] then [] else [fields[0].0 + ": " + fields[0].1] + Pairs(fields[1..])
  }

  /** Each entry on its own line, four spaces in. */
  function Indent(entries: seq<string>): (r: seq<string>)
    ensures |r| == |entries|
    ensures forall i :: 0 <= i < |entries| ==> r[i] == "    " + entries[i]
  {
    if entries == [] then [] else Indent(entries[..|entries| - 1]) + ["    " + entries[|entries| - 1]]
  }

  /** The lines of the array when entries are separated by commas: none after the last. */
  function Separated(lines: seq<string>): string
  {
    if lines == [] then "" else Join(lines, ",\n") + "\n"
  }

  /** The lines of the array when every entry, the last included, is followed by a comma. */
  function Terminated(lines: seq<string>): string
  {
    if lines == [] then "" else Terminated(lines[..|lines| - 1]) + lines[|lines| - 1] + ",\n"
  }

  /** The array's declaration, up to its opening bracket. */
  const Declaration := "const customers = "

  /** The separated file: header comments, the array, and `];` with no newline after it. */
  function SeparatedFile(header: string, entries: seq<string>): string
  {
    header + Declaration + "[\n" + Separated(Indent(entries)) + "];"
  }

  /** The terminated file of the `save_progress` writers, closed by `];` and a newline. */
  function TerminatedFile(header: string, entries: seq<string>): string
  {
    header + Declaration + "[\n" + Terminated(Indent(entries)) + "];\n"
  }

  lemma {:induction false} JoinSnoc(xs: seq<string>, x: string, sep: string)
    requires xs != []
    ensures Join(xs + [x], sep) == Join(xs, sep) + sep + x
  {
    if |xs| == 1 {
      assert (xs + [x])[1..] == [x];
    } else {
      assert (xs + [x])[1..] == xs[1..] + [x];
      JoinSnoc(xs[1..], x, sep);
    }
  }

  /**
   * The two layouts hold the same entries in the same order; they differ
   * only in the comma after the last one.
   */
  lemma {:induction false} TerminatedIsSeparatedPlusComma(lines: seq<string>)
    requires lines != []
    ensures Terminated(lines) == Join(lines, ",\n") + ",\n"
    ensures Separated(lines) == Join(lines, ",\n") + "\n"
  {
    var n := |lines|;
    if n > 1 {
      TerminatedIsSeparatedPlusComma(lines[..n - 1]);
      JoinSnoc(lines[..n - 1], lines[n - 1], ",\n");
      assert lines[..n - 1] + [lines[n - 1]] == lines;
    }
  }

  /**
   * The accumulation loop of the separated writers: a comma after entry i
   * only when i < len - 1, a newline after every entry, `];` at the end.
   */
  method EmitSeparated(header: string, entries: seq<string>) returns (js: string)
    ensures js == SeparatedFile(header, entries)
  {
    var lines := Indent(entries);
    js := header + Declaration + "[\n";
    ghost var start := js;
    for i := 0 to |entries|
      invariant js == EmittedUpTo(start, lines, i)
    {
      EmitStep(start, lines, i);
      js := js + lines[i];
      if i < |entries| - 1 {
        js := js + ",";
      }
      js := js + "\n";
    }
    EmitDone(start, lines);
    js := js + "];";
  }

  /** What the separated writers have written after i entries. */
  ghost function EmittedUpTo(start: string, lines: seq<string>, i: nat): string
    requires i <= |lines|
  {
    if i == 0 then start else start + Join(lines[..i], ",\n") + (if i < |lines| then ",\n" else "\n")
  }

  lemma EmitStep(start: string, lines: seq<string>, i: nat)
    requires i < |lines|
    ensures EmittedUpTo(start, lines, i) + lines[i] + (if i < |lines| - 1 then "," else "") + "\n" == EmittedUpTo(start, lines, i + 1)
  {
    if i > 0 {
      JoinSnoc(lines[..i], lines[i], ",\n");
      assert lines[..i + 1] == lines[..i] + [lines[i]];
    } else {
      assert lines[..1] == [lines[0]];
    }
  }

  lemma EmitDone(start: string, lines: seq<string>)
    ensures EmittedUpTo(start, lines, |lines|) + "];" == start + Separated(lines) + "];"
  {
    if lines == [] {
      assert start + Separated(lines) == start;
    } else {
      assert lines[..|lines|] == lines;
      assert start + Join(lines, ",\n") + "\n" == start + (Join(lines, ",\n") + "\n");
    }
  }

  /** A non-empty separated file ends with its last entry and `];`, no comma between. */
  lemma LastEntryUnterminated(header: string, entries: seq<string>)
    requires entries != []
    ensures EndsWith(SeparatedFile(header, entries), "    " + entries[|entries| - 1] + "\n];")
  {
    var lines := Indent(entries);
    JoinEndsWithLast(lines, ",\n");
    var j := Join(lines, ",\n");
    var last := lines[|lines| - 1];
    var f := SeparatedFile(header, entries);
    assert f == (header + Declaration + "[\n") + j + "\n];";
    assert j[|j| - |last|..] == last;
    assert f[|f| - |last + "\n];"|..] == j[|j| - |last|..] + "\n];";
  }
}

=== FILE: js_values.dfy ===
/**
 * JavaScript values as the browser modules handle them: plain objects are
 * maps from property names to values, a missing property reads as
 * `undefined`, and `||` picks its left operand when that is truthy.
 */
module JsValues {

  datatype JsValue =
    | Undefined
    | Null
    | Bool(b: bool)
    | Num(x: real)
    | Str(s: string)
    | Obj(fields: map<string, JsValue>)

  /** A plain object: `{...a, ...b}` is `a + b`, the right operand winning. */
  type Object = map<string, JsValue>

  /** ToBoolean: undefined, null, false, 0 and '' are falsy (NaN is not modelled). */
  predicate Truthy(v: JsValue)
  {
    match v
    case Undefined => false
    case Null => false
    case Bool(b) => b
    case Num(x) => x != 0.0
    case Str(s) => s != ""
    case Obj(_) => true
  }

  /** `o.k`. */
  function Field(o: Object, k: string): (v: JsValue)
    ensures k !in o ==> v == Undefined
  {
    if k in o then o[k] else Undefined
  }

  /** `a || b`. */
  function Or(a: JsValue, b: JsValue): (r: JsValue)
    ensures Truthy(a) ==> r == a
    ensures !Truthy(a) ==> r == b
  {
    if Truthy(a) then a else b
  }

  /** A value a string method can be called on after `|| ''`: a string, or falsy. */
  predicate Textual(v: JsValue)
  {
    v.Str? || !Truthy(v)
  }

  /** `(v || '')` for a textual value. */
  function TextOf(v: JsValue): (s: string)
    requires Textual(v)
    ensures Truthy(v) <==> s != ""
  {
    if v.Str? then v.s else ""
  }
}

=== FILE: live_data_integration.dfy ===
/**
 * The browser module that merges live HubSpot companies with the static
 * customer list: static customers are indexed by the domain of their URL,
 * each company becomes a record enriched from the static customer with its
 * domain, the static customers no company covers follow, and with nothing
 * at all merged the static list is used, labelled.
 */
module LiveDataIntegration {
  import opened Wrappers
  import opened Seqs
  import opened Text
  import opened JsValues
  import opened HubSpotFields
  import opened OrderedMaps

  /** The URL library: the hostname of a URL string, None where `new URL` throws. */
  type Hostname = string -> Option<string>

  /** extractDomain: '' for no URL, else the hostname, or the raw text where it does not parse, without its first "www.". */
  function ExtractDomain(url: string, hostname: Hostname): (d: string)
    ensures url == "" ==> d == ""
  {
    if url == "" then ""
    else match hostname(if StartsWith(url, "http") then url else "https://" + url)
      case Some(h) => ReplaceFirst(h, "www.", "")
      case None => ReplaceFirst(url, "www.", "")
  }

  /** The three outcomes: no URL, a parsed hostname, or the raw text; a URL not starting with "http" is parsed with "https://" in front. */
  lemma ExtractDomainCases(url: string, hostname: Hostname)
    ensures url == "" ==> ExtractDomain(url, hostname) == ""
    ensures var q := if StartsWith(url, "http") then url else "https://" + url;
      && (url != "" && hostname(q).Some? ==>
            ExtractDomain(url, hostname) == ReplaceFirst(hostname(q).value, "www.", ""))
      && (url != "" && hostname(q).None? ==> ExtractDomain(url, hostname) == ReplaceFirst(url, "www.", ""))
      && (StartsWith(url, "http") ==> q == url)
  {
  }

  /** A host with no "www." that the URL library reads back unchanged is its own domain. */
  lemma BareHostIsItsDomain(h: string, hostname: Hostname)
    requires h != "" && !StartsWith(h, "http") && !Contains(h, "www.")
    requires hostname("https://" + h) == Some(h)
    ensures ExtractDomain(h, hostname) == h
  {
  }

  /** A text that does not parse keeps everything but its first "www.": "www.www.a.org" becomes "www.a.org". */
  lemma OnlyFirstWwwDropped(rest: string, hostname: Hostname)
    requires hostname("https://www." + rest).None?
    ensures ExtractDomain("www." + rest, hostname) == rest
  {
    var url := "www." + rest;
    NotStartsWithAt(url, "http", 0);
    assert "https://" + url == "https://www." + rest;
    OccursAtStarts(url, "www.", 0);
    assert url[..0] == [] && url[4..] == rest;
  }

  /** A static customer's `url` as text; absent, null or '' read as ''. */
  function UrlText(o: Object): string
  {
    match Field(o, "url")
    case Str(s) => s
    case _ => ""
  }

  /** A truthy `url` that is not a string: extractDomain throws on it. */
  predicate UrlThrows(o: Object)
  {
    Truthy(Field(o, "url")) && !Field(o, "url").Str?
  }

  /** `extractDomain(o.url)`. */
  function Domain(o: Object, hostname: Hostname): string
  {
    ExtractDomain(UrlText(o), hostname)
  }

  /** The domain of each record of a list, as `extractDomain(c.url)` reads it. */
  function DomainFn(hostname: Hostname): Object -> string
  {
    o => Domain(o, hostname)
  }

  function Domains(rs: seq<Object>, hostname: Hostname): seq<string>
  {
    Mapped(rs, DomainFn(hostname))
  }

  /** `{...customer, source: 'static', lastUpdated: 'static'}`. */
  function Labelled(c: Object): (o: Object)
    ensures o.Keys == c.Keys + {"source", "lastUpdated"}
    ensures o["source"] == Str("static") && o["lastUpdated"] == Str("static")
    ensures forall f :: f in c && f != "source" && f != "lastUpdated" ==> o[f] == c[f]
  {
    c["source" := Str("static")]["lastUpdated" := Str("static")]
  }

  /** Labelling keeps the URL, and so the domain. */
  lemma LabelledKeepsDomain(c: Object, hostname: Hostname)
    ensures UrlText(Labelled(c)) == UrlText(c) && Domain(Labelled(c), hostname) == Domain(c, hostname)
  {
    assert Field(Labelled(c), "url") == Field(c, "url");
  }

  lemma LabellingKeepsDomains(hostname: Hostname)
    ensures forall c :: DomainFn(hostname)(Labelled(c)) == DomainFn(hostname)(c)
  {
    forall c {
      LabelledKeepsDomain(c, hostname);
    }
  }

  /** The static-data Map: `set(extractDomain(url), customer)` for each customer with a URL, in order. */
  function StaticMap(statics: seq<Object>, key: Object -> string): Dict<string, Object>
  {
    if statics == [] then []
    else
      var m := StaticMap(statics[..|statics| - 1], key);
      var c := statics[|statics| - 1];
      if UrlText(c) != "" then Put(m, key(c), c) else m
  }

  /** The Map one customer further into the list. */
  lemma StaticMapSnoc(statics: seq<Object>, i: nat, key: Object -> string)
    requires i < |statics|
    ensures StaticMap(statics[..i + 1], key) ==
      if UrlText(statics[i]) != "" then Put(StaticMap(statics[..i], key), key(statics[i]), statics[i])
      else StaticMap(statics[..i], key)
  {
    PrefixSnoc(statics, i);
  }

  /** Every entry is a customer with a URL, keyed by that URL's domain. */
  predicate KeyedByDomain(m: Dict<string, Object>, key: Object -> string)
  {
    forall i :: 0 <= i < |m| ==> UrlText(m[i].1) != "" && m[i].0 == key(m[i].1)
  }

  /** The last static customer with a URL of domain d: an independent reading of what the Map holds. */
  function LastStatic(statics: seq<Object>, d: string, key: Object -> string): (r: Option<Object>)
    ensures r.Some? ==> r.value in statics && UrlText(r.value) != "" && key(r.value) == d
  {
    if statics == [] then None
    else
      var c := statics[|statics| - 1];
      if UrlText(c) != "" && key(c) == d then Some(c)
      else LastStatic(statics[..|statics| - 1], d, key)
  }

  /** The Map keeps one entry per domain, each a customer with a URL of that domain. */
  lemma {:induction false} StaticMapEntries(statics: seq<Object>, key: Object -> string)
    ensures DistinctKeys(StaticMap(statics, key)) && KeyedByDomain(StaticMap(statics, key), key)
  {
    if statics != [] {
      var n := |statics| - 1;
      var m := StaticMap(statics[..n], key);
      var c := statics[n];
      StaticMapEntries(statics[..n], key);
      if UrlText(c) != "" {
        var d := key(c);
        PutEntries(m, d, c);
        PutFrom(m, d, c);
        var m' := Put(m, d, c);
        forall i | 0 <= i < |m'|
          ensures UrlText(m'[i].1) != "" && m'[i].0 == key(m'[i].1)
        {
          if m'[i] != (d, c) {
            assert m'[i] == m[i];
          }
        }
      }
    }
  }

  /** The Map is empty exactly when no static customer has a URL. */
  lemma {:induction false} StaticMapEmpty(statics: seq<Object>, key: Object -> string)
    ensures StaticMap(statics, key) == [] <==> forall i :: 0 <= i < |statics| ==> UrlText(statics[i]) == ""
  {
    if statics != [] {
      var n := |statics| - 1;
      var c := statics[n];
      StaticMapEmpty(statics[..n], key);
      PrefixOfPrefix(statics, n, 0);
      if UrlText(c) != "" {
        PutFrom(StaticMap(statics[..n], key), key(c), c);
      }
    }
  }

  /** Looking a domain up finds the last static customer of that domain: later ones overwrite earlier ones. */
  lemma {:induction false} StaticLookup(statics: seq<Object>, d: string, key: Object -> string)
    ensures Get(StaticMap(statics, key), d) == LastStatic(statics, d, key)
  {
    if statics != [] {
      var n := |statics| - 1;
      var c := statics[n];
      StaticLookup(statics[..n], d, key);
      if UrlText(c) != "" {
        StaticMapEntries(statics[..n], key);
        GetPut(StaticMap(statics[..n], key), key(c), c, d);
      }
    }
  }

  /** `staticCustomer?.k`. */
  function StaticField(found: Option<Object>, k: string): (v: JsValue)
    ensures found.None? ==> v == Undefined
  {
    if found.Some? then Field(found.value, k) else Undefined
  }

  /** `properties.k || fallback`. */
  function FromProps(p: Props, k: string, fallback: JsValue): (v: JsValue)
    ensures Prop(p, k) != "" ==> v == Str(Prop(p, k))
    ensures Prop(p, k) == "" ==> v == fallback
  {
    if Prop(p, k) != "" then Str(Prop(p, k)) else fallback
  }

  /** `properties.website || properties.domain || ''`. */
  function Website(p: Props): string
  {
    if Prop(p, "website") != "" then Prop(p, "website") else Prop(p, "domain")
  }

  /** `company.properties`; a company without one makes the merge throw, see Throws. */
  function PropsOf(c: Company): Props
  {
    if c.properties.Some? then c.properties.value else map[]
  }

  /** The domain a company's static customer is looked up by. */
  function LookupDomain(c: Company, hostname: Hostname): string
  {
    ExtractDomain(Website(PropsOf(c)), hostname)
  }

  function CompanyDomains(companies: seq<Company>, hostname: Hostname): seq<string>
  {
    Mapped(companies, (c: Company) => LookupDomain(c, hostname))
  }

  /** determineSchoolType: school_type lower-cased, else the name keywords, else the static type, else 'district'. */
  function DetermineSchoolType(p: Props, found: Option<Object>): (t: JsValue)
    ensures Truthy(t)
  {
    if Prop(p, "school_type") != "" then Str(Lower(Prop(p, "school_type")))
    else match NameKind(Prop(p, "name"))
      case Some(k) => Str(k)
      case None => Or(StaticField(found, "type"), Str("district"))
  }

  /** A set school_type or a name keyword decides; only without both does the static customer's type count. */
  lemma DetermineSchoolTypeCases(p: Props, found: Option<Object>)
    ensures Prop(p, "school_type") != "" ==> DetermineSchoolType(p, found) == Str(Lower(Prop(p, "school_type")))
    ensures Prop(p, "school_type") == "" && NameKind(Prop(p, "name")).Some? ==>
      DetermineSchoolType(p, found) == Str(NameKind(Prop(p, "name")).value)
    ensures Prop(p, "school_type") == "" && NameKind(Prop(p, "name")).None? ==>
      DetermineSchoolType(p, found) == (if found.Some? && Truthy(Field(found.value, "type")) then Field(found.value, "type") else Str("district"))
  {
  }

  /** `staticCustomer?.products || {cms: true, …}`. */
  function ProductsFallback(found: Option<Object>): (v: JsValue)
    ensures Truthy(v)
    ensures found.None? ==> v == Obj(CmsOnly())
  {
    Or(StaticField(found, "products"), Obj(CmsOnly()))
  }

  /**
   * extractProducts: a value starting with '{' is JSON.parse'd (`parse`,
   * None where it throws, which is caught), any other value is a
   * comma-separated list; no value or a failed parse falls back.
   */
  function ExtractProducts(p: Props, found: Option<Object>, parse: string -> Option<JsValue>): JsValue
  {
    var value := Prop(p, "edlio_products");
    if value == "" then ProductsFallback(found)
    else if value[0] == '{' then parse(value).GetOr(ProductsFallback(found))
    else Obj(ProductList(value))
  }

  /** The sources of the products: the list, the parsed JSON, or the static customer's or the CMS-only default. */
  lemma ExtractProductsCases(p: Props, found: Option<Object>, parse: string -> Option<JsValue>)
    ensures var value := Prop(p, "edlio_products");
      && (value == "" ==> ExtractProducts(p, found, parse) == ProductsFallback(found))
      && (StartsWith(value, "{") && parse(value).Some? ==> ExtractProducts(p, found, parse) == parse(value).value)
      && (StartsWith(value, "{") && parse(value).None? ==> ExtractProducts(p, found, parse) == ProductsFallback(found))
      && (value != "" && !StartsWith(value, "{") ==> ExtractProducts(p, found, parse) == Obj(ProductList(value)))
  {
    var value := Prop(p, "edlio_products");
    if value != "" {
      assert StartsWith(value, "{") <==> value[0] == '{' by {
        assert |value[..1]| == 1 && value[..1][0] == value[0];
      }
    }
  }

  /** The fields mergeHubSpotData computes for a company. */
  datatype LiveRecord = LiveRecord(
    lat: JsValue, lng: JsValue, id: string, name: JsValue, kind: JsValue, state: JsValue,
    city: JsValue, products: JsValue, contractValue: JsValue, renewalDate: JsValue,
    lastUpdated: string, source: string, url: JsValue)

  /** The computed record of a company, given the static customer found by its domain and the time stamp. */
  function Computed(c: Company, found: Option<Object>, parse: string -> Option<JsValue>, stamp: string): LiveRecord
  {
    var p := PropsOf(c);
    LiveRecord(
      Or(StaticField(found, "lat"), Null), Or(StaticField(found, "lng"), Null),
      RecordId(c.id),
      FromProps(p, "name", Or(StaticField(found, "name"), Str("Unknown School"))),
      DetermineSchoolType(p, found),
      FromProps(p, "state", Or(StaticField(found, "state"), Str(""))),
      FromProps(p, "city", Or(StaticField(found, "city"), Str(""))),
      ExtractProducts(p, found, parse),
      FromProps(p, "contract_value", Null), FromProps(p, "renewal_date", Null),
      stamp, "hubspot",
      if Website(p) != "" then Str(Website(p)) else Or(StaticField(found, "url"), Str("")))
  }

  /**
   * HubSpot's values win over the static customer's, which win over the
   * defaults; coordinates come only from the static customer, null
   * without one; the id carries "hs_", and name and type are never falsy.
   */
  lemma ComputedFields(c: Company, found: Option<Object>, parse: string -> Option<JsValue>, stamp: string)
    ensures var r := Computed(c, found, parse, stamp); var p := PropsOf(c);
      && StartsWith(r.id, "hs_") && r.source == "hubspot" && r.lastUpdated == stamp
      && Truthy(r.name) && Truthy(r.kind)
      && (found.None? ==> r.lat == Null && r.lng == Null)
      && (found.Some? && Truthy(Field(found.value, "lat")) ==> r.lat == Field(found.value, "lat"))
      && (found.Some? && Truthy(Field(found.value, "lng")) ==> r.lng == Field(found.value, "lng"))
      && (Prop(p, "name") != "" ==> r.name == Str(Prop(p, "name")))
      && (Prop(p, "state") != "" ==> r.state == Str(Prop(p, "state")))
      && (Prop(p, "city") != "" ==> r.city == Str(Prop(p, "city")))
      && (Website(p) != "" ==> r.url == Str(Website(p)))
      && (found.None? && Prop(p, "name") == "" ==> r.name == Str("Unknown School"))
      && (found.None? && Website(p) == "" ==> r.url == Str(""))
  {
  }

  /** The record as an object, before any spread. */
  function ToObject(r: LiveRecord): Object
  {
    map["lat" := r.lat, "lng" := r.lng, "id" := Str(r.id), "name" := r.name, "type" := r.kind,
        "state" := r.state, "city" := r.city, "products" := r.products,
        "contractValue" := r.contractValue, "renewalDate" := r.renewalDate,
        "lastUpdated" := Str(r.lastUpdated), "source" := Str(r.source), "url" := r.url]
  }

  /** `!company.id && staticCustomer`: the static record is spread over the computed one. */
  predicate Spread(c: Company, found: Option<Object>)
  {
    found.Some? && (c.id.None? || c.id.value == "")
  }

  /** The merged object of a company. */
  function Enrich(c: Company, found: Option<Object>, parse: string -> Option<JsValue>, stamp: string): Object
  {
    var o := ToObject(Computed(c, found, parse, stamp));
    if Spread(c, found) then o + found.value else o
  }

  /** A company without an id takes every field its static customer has over the computed ones; any other keeps the computed record. */
  lemma EnrichSpread(c: Company, found: Option<Object>, parse: string -> Option<JsValue>, stamp: string)
    ensures var o := Enrich(c, found, parse, stamp); var r := ToObject(Computed(c, found, parse, stamp));
      && (Spread(c, found) ==> forall f :: f in found.value ==> f in o && o[f] == found.value[f])
      && (Spread(c, found) ==> forall f :: f in r && f !in found.value ==> f in o && o[f] == r[f])
      && (!Spread(c, found) ==> o == r)
  {
  }

  /** Each company's record as the merge maps it, with the static customer its domain finds in m. */
  function EnrichFn(m: Dict<string, Object>, hostname: Hostname, parse: string -> Option<JsValue>, stamp: string): Company -> Object
  {
    c => Enrich(c, Get(m, LookupDomain(c, hostname)), parse, stamp)
  }

  /** A found static customer has a URL of the domain it was found by. */
  lemma FoundByDomain(m: Dict<string, Object>, d: string, hostname: Hostname)
    requires KeyedByDomain(m, DomainFn(hostname))
    ensures Get(m, d).Some? ==> UrlText(Get(m, d).value) != "" && Domain(Get(m, d).value, hostname) == d
  {
    if KeyIndex(m, d).Some? {
      assert Get(m, d).value == m[KeyIndex(m, d).value].1;
    }
  }

  /** A company's record has the domain the company was looked up by, whether its URL is HubSpot's or the static customer's. */
  lemma RecordDomain(c: Company, m: Dict<string, Object>, hostname: Hostname, parse: string -> Option<JsValue>, stamp: string)
    requires KeyedByDomain(m, DomainFn(hostname))
    ensures Domain(EnrichFn(m, hostname, parse, stamp)(c), hostname) == LookupDomain(c, hostname)
  {
    var d := LookupDomain(c, hostname);
    var found := Get(m, d);
    FoundByDomain(m, d, hostname);
    var r := Computed(c, found, parse, stamp);
    var o := Enrich(c, found, parse, stamp);
    assert ToObject(r)["url"] == r.url;
    if Spread(c, found) {
      assert "url" in found.value;
      assert Field(o, "url") == Field(found.value, "url");
    } else {
      assert Field(o, "url") == r.url;
    }
  }

  /** The records' domains are the companies' lookup domains, in order. */
  lemma RecordDomains(companies: seq<Company>, m: Dict<string, Object>, hostname: Hostname, parse: string -> Option<JsValue>, stamp: string)
    requires KeyedByDomain(m, DomainFn(hostname))
    ensures Domains(Mapped(companies, EnrichFn(m, hostname, parse, stamp)), hostname) == CompanyDomains(companies, hostname)
  {
    forall i | 0 <= i < |companies|
      ensures DomainFn(hostname)(EnrichFn(m, hostname, parse, stamp)(companies[i])) == LookupDomain(companies[i], hostname)
    {
      RecordDomain(companies[i], m, hostname, parse, stamp);
    }
    MappedMapped(companies, EnrichFn(m, hostname, parse, stamp), DomainFn(hostname), (c: Company) => LookupDomain(c, hostname));
  }

  /** The forEach over the Map: each customer whose domain no record so far has is pushed, labelled. */
  function WithStatics(records: seq<Object>, es: Dict<string, Object>, key: Object -> string): seq<Object>
  {
    if es == [] then records
    else
      var r := WithStatics(records, es[..|es| - 1], key);
      var e := es[|es| - 1];
      if e.0 in Mapped(r, key) then r else r + [Labelled(e.1)]
  }

  /** The customers of es whose domain is not among ds, labelled, in order. */
  function Unmatched(ds: seq<string>, es: Dict<string, Object>): (u: seq<Object>)
    ensures |u| <= |es|
  {
    if es == [] then []
    else
      var u := Unmatched(ds, es[..|es| - 1]);
      var e := es[|es| - 1];
      if e.0 in ds then u else u + [Labelled(e.1)]
  }

  /** Every customer left unmatched has the domain of an entry of es. */
  lemma {:induction false} UnmatchedKeys(ds: seq<string>, es: Dict<string, Object>, key: Object -> string)
    requires KeyedByDomain(es, key)
    requires forall c :: key(Labelled(c)) == key(c)
    ensures forall x :: x in Unmatched(ds, es) ==> key(x) in Keys(es)
  {
    if es != [] {
      var n := |es| - 1;
      var front := es[..n];
      PrefixOfPrefix(es, n, 0);
      UnmatchedKeys(ds, front, key);
      assert forall y :: y in Keys(front) ==> y in Keys(es) by {
        forall y | y in Keys(front)
          ensures y in Keys(es)
        {
          var i :| 0 <= i < n && Keys(front)[i] == y;
          assert Keys(es)[i] == y;
        }
      }
      assert Keys(es)[n] == es[n].0;
    }
  }

  /** With one entry per domain, a pushed customer never covers a later one: the pushes depend on the records alone. */
  lemma {:induction false} WithStaticsSplit(records: seq<Object>, es: Dict<string, Object>, key: Object -> string)
    requires DistinctKeys(es) && KeyedByDomain(es, key)
    requires forall c :: key(Labelled(c)) == key(c)
    ensures WithStatics(records, es, key) == records + Unmatched(Mapped(records, key), es)
  {
    var ds := Mapped(records, key);
    if es == [] {
      assert records + [] == records;
    } else {
      var n := |es| - 1;
      var front := es[..n];
      var e := es[n];
      PrefixOfPrefix(es, n, 0);
      WithStaticsSplit(records, front, key);
      var u := Unmatched(ds, front);
      var r := WithStatics(records, front, key);
      assert r == records + u;
      UnmatchedKeys(ds, front, key);
      assert e.0 !in Keys(front) by {
        forall i | 0 <= i < n
          ensures Keys(front)[i] != e.0
        {
          assert Keys(front)[i] == es[i].0;
        }
      }
      assert e.0 !in Mapped(u, key) by {
        forall i | 0 <= i < |u|
          ensures Mapped(u, key)[i] != e.0
        {
          MappedAt(u, key, i);
          assert u[i] in u;
        }
      }
      MappedConcat(records, u, key);
      assert (e.0 in Mapped(r, key)) <==> (e.0 in ds);
      if e.0 !in ds {
        assert WithStatics(records, es, key) == r + [Labelled(e.1)];
        assert Unmatched(ds, es) == u + [Labelled(e.1)];
        AppendAssoc(records, u, [Labelled(e.1)]);
      }
    }
  }

  /** Nothing is left unmatched only if every domain of es is among ds. */
  lemma {:induction false} UnmatchedEmpty(ds: seq<string>, es: Dict<string, Object>)
    ensures Unmatched(ds, es) == [] <==> forall i :: 0 <= i < |es| ==> es[i].0 in ds
  {
    if es != [] {
      var n := |es| - 1;
      UnmatchedEmpty(ds, es[..n]);
      PrefixOfPrefix(es, n, 0);
    }
  }

  /** A company without properties or a static customer whose truthy url is not text makes mergeHubSpotData throw. */
  predicate Throws(companies: seq<Company>, statics: seq<Object>)
  {
    || (exists i :: 0 <= i < |statics| && UrlThrows(statics[i]))
    || (exists i :: 0 <= i < |companies| && companies[i].properties.None?)
  }

  /** mergedData after mergeHubSpotData returns normally. */
  function Merged(companies: seq<Company>, statics: seq<Object>, hostname: Hostname, parse: string -> Option<JsValue>, stamp: string): seq<Object>
  {
    var m := StaticMap(statics, DomainFn(hostname));
    var all := WithStatics(Mapped(companies, EnrichFn(m, hostname, parse, stamp)), m, DomainFn(hostname));
    if all == [] && statics != [] then Mapped(statics, Labelled) else all
  }

  /**
   * The merge is one record per company, in order, followed by the
   * static customers, one per domain, whose domain no company has; only
   * when that is empty does the labelled static list replace it.
   */
  lemma MergedContents(companies: seq<Company>, statics: seq<Object>, hostname: Hostname, parse: string -> Option<JsValue>, stamp: string)
    ensures var m := StaticMap(statics, DomainFn(hostname));
      var all := Mapped(companies, EnrichFn(m, hostname, parse, stamp)) + Unmatched(CompanyDomains(companies, hostname), m);
      Merged(companies, statics, hostname, parse, stamp) == if all == [] && statics != [] then Mapped(statics, Labelled) else all
  {
    var m := StaticMap(statics, DomainFn(hostname));
    StaticMapEntries(statics, DomainFn(hostname));
    RecordDomains(companies, m, hostname, parse, stamp);
    LabellingKeepsDomains(hostname);
    WithStaticsSplit(Mapped(companies, EnrichFn(m, hostname, parse, stamp)), m, DomainFn(hostname));
  }

  /** The labelled fallback is taken exactly when there are static customers but no company and no static customer with a URL. */
  lemma FallbackIff(companies: seq<Company>, statics: seq<Object>, hostname: Hostname, parse: string -> Option<JsValue>, stamp: string)
    ensures var m := StaticMap(statics, DomainFn(hostname));
      var all := Mapped(companies, EnrichFn(m, hostname, parse, stamp)) + Unmatched(CompanyDomains(companies, hostname), m);
      (all == [] && statics != []) <==> (companies == [] && statics != [] && forall i :: 0 <= i < |statics| ==> UrlText(statics[i]) == "")
  {
    var m := StaticMap(statics, DomainFn(hostname));
    StaticMapEmpty(statics, DomainFn(hostname));
    UnmatchedEmpty(CompanyDomains(companies, hostname), m);
    if companies == [] && m != [] {
      assert m[0].0 !in CompanyDomains(companies, hostname);
    }
  }

  /** The merge is empty only when there is neither a company nor a static customer. */
  lemma MergedEmptyIff(companies: seq<Company>, statics: seq<Object>, hostname: Hostname, parse: string -> Option<JsValue>, stamp: string)
    ensures Merged(companies, statics, hostname, parse, stamp) == [] <==> companies == [] && statics == []
  {
    MergedContents(companies, statics, hostname, parse, stamp);
    var m := StaticMap(statics, DomainFn(hostname));
    var recs := Mapped(companies, EnrichFn(m, hostname, parse, stamp));
    if companies != [] {
      assert |recs| > 0;
    }
  }

  class LiveData {
    var staticData: seq<Object>
    var mergedData: seq<Object>

    /** The static list as loaded from the page; nothing merged yet. */
    constructor(customers: seq<Object>)
      ensures staticData == customers && mergedData == []
    {
      staticData := customers;
      mergedData := [];
    }

    /** mergeHubSpotData: on a throw mergedData is left as it was. */
    method MergeHubSpotData(companies: seq<Company>, hostname: Hostname, parse: string -> Option<JsValue>, stamp: string)
      returns (thrown: bool)
      modifies this
      ensures staticData == old(staticData)
      ensures thrown <==> Throws(companies, staticData)
      ensures mergedData == if thrown then old(mergedData) else Merged(companies, staticData, hostname, parse, stamp)
    {
      var statics := staticData;
      var staticMap;
      staticMap, thrown := IndexStatics(statics, DomainFn(hostname));
      if thrown {
        return;
      }
      if exists j :: 0 <= j < |companies| && companies[j].properties.None? {
        thrown := true;
        return;
      }
      var enriched := Mapped(companies, EnrichFn(staticMap, hostname, parse, stamp));
      enriched := PushUnmatched(enriched, staticMap, DomainFn(hostname));
      if |enriched| == 0 && |statics| > 0 {
        enriched := Mapped(statics, Labelled);
      }
      mergedData := enriched;
    }

    /** The forEach over the static list that fills the Map, `key` being extractDomain of the url; a url extractDomain throws on stops it. */
    static method IndexStatics(statics: seq<Object>, key: Object -> string) returns (staticMap: Dict<string, Object>, thrown: bool)
      ensures thrown <==> exists i :: 0 <= i < |statics| && UrlThrows(statics[i])
      ensures !thrown ==> staticMap == StaticMap(statics, key)
    {
      staticMap := [];
      for i := 0 to |statics|
        invariant staticMap == StaticMap(statics[..i], key)
        invariant forall k :: 0 <= k < i ==> !UrlThrows(statics[k])
      {
        StaticMapSnoc(statics, i, key);
        var customer := statics[i];
        if UrlThrows(customer) {
          thrown := true;
          return;
        }
        if UrlText(customer) != "" {
          staticMap := Put(staticMap, key(customer), customer);
        }
      }
      assert statics[..|statics|] == statics;
      thrown := false;
    }

    /** The forEach over the Map that pushes each customer no record so far has the domain of. */
    static method PushUnmatched(records: seq<Object>, staticMap: Dict<string, Object>, key: Object -> string) returns (enriched: seq<Object>)
      ensures enriched == WithStatics(records, staticMap, key)
    {
      enriched := records;
      for k := 0 to |staticMap|
        invariant enriched == WithStatics(records, staticMap[..k], key)
      {
        PrefixSnoc(staticMap, k);
        var domain := staticMap[k].0;
        if domain !in Mapped(enriched, key) {
          enriched := enriched + [Labelled(staticMap[k].1)];
        }
      }
      assert staticMap[..|staticMap|] == staticMap;
    }

    /** getMergedData, as last defined: the merge when non-empty, else the static list. */
    function GetMergedData(): (r: seq<Object>)
      reads this
      ensures r == [] ==> mergedData == [] && staticData == []
      ensures mergedData != [] ==> r == mergedData
    {
      if |mergedData| > 0 then mergedData else staticData
    }
  }

  /** After a merge that did not throw, getMergedData returns the merge itself: its static-list branch only serves before any merge. */
  lemma MergedNeedsNoFallback(companies: seq<Company>, statics: seq<Object>, hostname: Hostname, parse: string -> Option<JsValue>, stamp: string)
    ensures var r := Merged(companies, statics, hostname, parse, stamp);
      (if |r| > 0 then r else statics) == r
  {
    MergedEmptyIff(companies, statics, hostname, parse, stamp);
  }
}

=== FILE: merge_analysis.dfy ===
/** merge_analysis.py: what the merge would do, computed without writing anything. */
module MergeAnalysis {
  import opened Wrappers
  import opened Records
  import opened Reconcile
  import opened MergePreview

  datatype Analysis = Analysis(
    currentCount: nat,
    newRecords: nat,
    predictedTotal: nat,
    duplicateRecords: nat,
    statesToAdd: map<string, nat>,
    sampleCity: Option<string>)

  /** The printed sample city: `neighbourhood or town or address.get('city', 'N/A')`. */
  function SampleCity(e: ProgressEntry): (city: string)
    ensures Get(AddressOf(e), "neighbourhood") != "" ==> city == AddressOf(e)["neighbourhood"]
    ensures Get(AddressOf(e), "neighbourhood") == "" && Get(AddressOf(e), "town") != "" ==> city == AddressOf(e)["town"]
    ensures Get(AddressOf(e), "neighbourhood") == "" && Get(AddressOf(e), "town") == "" ==>
      city == (if "city" in AddressOf(e) then AddressOf(e)["city"] else "N/A")
  {
    var a := AddressOf(e);
    if Get(a, "neighbourhood") != "" then a["neighbourhood"]
    else if Get(a, "town") != "" then a["town"]
    else if "city" in a then a["city"] else "N/A"
  }

  /**
   * `analyze_merge`: None is the KeyError of a current record without
   * `recordId`.  The counts use the merge loops' own membership test, so the
   * predicted total is the length a merge of the same files produces.
   */
  method AnalyzeMerge(current: seq<DatasetRecord>, batch: seq<ProgressEntry>) returns (r: Option<Analysis>)
    ensures r.None? <==> ExistingIds(current).None?
    ensures r.Some? ==>
      var ids := ExistingIds(current).value;
      && r.value.currentCount == |current|
      && r.value.newRecords == |NewEntries(batch, ids)|
      && r.value.newRecords + r.value.duplicateRecords == |batch|
      && r.value.predictedTotal == |current| + r.value.newRecords
      && (forall convert :: r.value.predictedTotal == |current + ConvertAll(NewEntries(batch, ids), convert)|)
      && (forall k :: k in r.value.statesToAdd <==> k != "" && CountState(NewEntries(batch, ids), AddressState, "Unknown", k) > 0)
      && (forall k :: k in r.value.statesToAdd ==> r.value.statesToAdd[k] == CountState(NewEntries(batch, ids), AddressState, "Unknown", k))
      && r.value.sampleCity == (if batch == [] then None else Some(SampleCity(batch[0])))
  {
    var ids := ExistingIds(current);
    if ids.None? {
      return None;
    }
    var newRecords, duplicates := CountNew(batch, ids.value);
    var states := TallyNewStates(batch, ids.value);
    var sample := if batch == [] then None else Some(SampleCity(batch[0]));
    r := Some(Analysis(|current|, newRecords, |current| + newRecords, duplicates, states, sample));
  }
}

=== FILE: merge_geocoded.dfy ===
/** merge_geocoded_data.py: verbatim append keyed on each batch element's own `recordId`. */
module MergeGeocodedData {
  import opened Wrappers
  import opened Records
  import opened Reconcile
  import opened DatasetFile

  const CurrentFile := "apptegy-geocoded-current.json"

  /**
   * The batch elements the loop appends, unconverted: None when some
   * element has no `recordId` key (the loop reaches it and raises).
   */
  function VerbatimNew(batch: seq<DatasetRecord>, ids: set<string>): (r: Option<seq<DatasetRecord>>)
    ensures r.Some? <==> forall i :: 0 <= i < |batch| ==> batch[i].RecordIdKey().Some?
    ensures r.Some? ==> |r.value| <= |batch|
    ensures r.Some? ==> forall x :: x in r.value ==> x in batch && x.RecordIdKey().value !in ids
  {
    if batch == [] then Some([])
    else
      var prev := VerbatimNew(batch[..|batch| - 1], ids);
      var last := batch[|batch| - 1];
      if prev.None? then
        None
      else if last.RecordIdKey().None? then
        None
      else if last.RecordIdKey().value in ids then prev
      else Some(prev.value + [last])
  }

  /** The append loop; None is the KeyError of the first element without `recordId`. */
  method AppendVerbatim(current: seq<DatasetRecord>, batch: seq<DatasetRecord>, ids: set<string>)
    returns (merged: Option<seq<DatasetRecord>>, added: nat)
    ensures merged.None? <==> VerbatimNew(batch, ids).None?
    ensures merged.Some? ==> merged.value == current + VerbatimNew(batch, ids).value
    ensures merged.Some? ==> added == |VerbatimNew(batch, ids).value|
  {
    var acc := current;
    added := 0;
    for i := 0 to |batch|
      invariant VerbatimNew(batch[..i], ids).Some?
      invariant acc == current + VerbatimNew(batch[..i], ids).value
      invariant added == |VerbatimNew(batch[..i], ids).value|
    {
      assert batch[..i + 1][..i] == batch[..i];
      var key := batch[i].RecordIdKey();
      if key.None? {
        NoneStaysNone(batch, i + 1, ids);
        return None, added;
      }
      if key.value !in ids {
        acc := acc + [batch[i]];
        added := added + 1;
      }
    }
    assert batch[..|batch|] == batch;
    merged := Some(acc);
  }

  /** Once a prefix has failed, every longer prefix fails too. */
  lemma {:induction false} NoneStaysNone(batch: seq<DatasetRecord>, n: nat, ids: set<string>)
    requires n <= |batch| && VerbatimNew(batch[..n], ids).None?
    ensures VerbatimNew(batch, ids).None?
    decreases |batch| - n
  {
    if n < |batch| {
      assert batch[..n + 1][..n] == batch[..n];
      NoneStaysNone(batch, n + 1, ids);
    } else {
      assert batch[..n] == batch;
    }
  }

  /**
   * `merge_geocoded_data`: both loads and both KeyErrors end it before the
   * backup; otherwise backup then write with no restore, and the tally
   * counts every state, empty ones included, with "Unknown" for a missing
   * key.
   */
  method Run(fs: Store, batch: Option<seq<DatasetRecord>>, backup: string, faults: Faults)
    returns (after: Store, run: MergeRun, stateCounts: map<string, nat>)
    ensures run.LoadFailed? <==> !(CurrentFile in fs && fs[CurrentFile].Dataset?) || batch.None?
    ensures run.LoadFailed? || run.MissingRecordId? ==> after == fs && stateCounts == map[]
    ensures !run.LoadFailed? ==>
      (run.MissingRecordId? <==>
        ExistingIds(fs[CurrentFile].records).None?
        || VerbatimNew(batch.value, ExistingIds(fs[CurrentFile].records).value).None?)
    ensures !run.LoadFailed? && !run.MissingRecordId? ==>
      var current := fs[CurrentFile].records;
      var merged := current + VerbatimNew(batch.value, ExistingIds(current).value).value;
      var (committed, outcome) := Commit(fs, CurrentFile, backup, merged, faults, false);
      && after == committed && (run.Committed? <==> outcome.Committed?) && (!run.Committed? ==> run == outcome)
      && (run.Committed? ==> run.total == |merged|)
      && (run.Committed? ==> forall k :: k in stateCounts <==> CountState(merged, StateOf, "Unknown", k) > 0)
      && (run.Committed? ==> forall k :: k in stateCounts ==> stateCounts[k] == CountState(merged, StateOf, "Unknown", k))
  {
    stateCounts := map[];
    if !(CurrentFile in fs && fs[CurrentFile].Dataset?) || batch.None? {
      return fs, LoadFailed, stateCounts;
    }
    var current := fs[CurrentFile].records;
    var ids := ExistingIds(current);
    if ids.None? {
      return fs, MissingRecordId, stateCounts;
    }
    var merged, added := AppendVerbatim(current, batch.value, ids.value);
    if merged.None? {
      return fs, MissingRecordId, stateCounts;
    }
    var committed := Commit(fs, CurrentFile, backup, merged.value, faults, false);
    after, run := committed.0, committed.1;
    if run.Committed? {
      run := Committed(added, |batch.value| - added, |merged.value|);
      stateCounts := TallyStates(merged.value, StateOf, "Unknown", false);
    }
  }

  /**
   * The batch file holds progress entries, whose identifier key is
   * `record_id`: any non-empty batch of them raises before the backup and
   * leaves the dataset file untouched.
   */
  lemma {:induction false} ProgressBatchNeverMerges(es: seq<ProgressEntry>, ids: set<string>)
    requires es != []
    ensures VerbatimNew(seq(|es|, i requires 0 <= i < |es| => Raw(es[i])), ids).None?
  {
    var batch := seq(|es|, i requires 0 <= i < |es| => Raw(es[i]));
    assert batch[0].RecordIdKey().None?;
  }
}

=== FILE: merge_preview.dfy ===
/**
 * The counting loops the read-only merge previews share: the number of
 * batch entries the merge loop would append and the state distribution of
 * those entries.
 */
module MergePreview {
  import opened Wrappers
  import opened Records
  import opened Reconcile

  /** `location.get('address', {}).get('state')` of a batch entry: None when the key is absent. */
  function AddressState(e: ProgressEntry): Option<string>
  {
    if "state" in AddressOf(e) then Some(AddressOf(e)["state"]) else None
  }

  /** The counting loop: the same membership test as the merge loops, with nothing appended. */
  method CountNew(batch: seq<ProgressEntry>, ids: set<string>) returns (newRecords: nat, duplicates: nat)
    ensures newRecords == |NewEntries(batch, ids)|
    ensures newRecords + duplicates == |batch|
  {
    newRecords, duplicates := 0, 0;
    for i := 0 to |batch|
      invariant newRecords == |NewEntries(batch[..i], ids)|
      invariant newRecords + duplicates == i
    {
      NewEntriesStep(batch, i, ids);
      if batch[i].recordId !in ids {
        newRecords := newRecords + 1;
      } else {
        duplicates := duplicates + 1;
      }
    }
    assert batch[..|batch|] == batch;
  }

  /**
   * `states_to_add`: over the entries the merge would append, the address
   * state with "Unknown" for a missing key, empty states skipped.
   */
  method TallyNewStates(batch: seq<ProgressEntry>, ids: set<string>) returns (counts: map<string, nat>)
    ensures forall k :: k in counts <==> k != "" && CountState(NewEntries(batch, ids), AddressState, "Unknown", k) > 0
    ensures forall k :: k in counts ==> counts[k] == CountState(NewEntries(batch, ids), AddressState, "Unknown", k)
  {
    counts := map[];
    for i := 0 to |batch|
      invariant forall k :: k in counts <==> k != "" && CountState(NewEntries(batch[..i], ids), AddressState, "Unknown", k) > 0
      invariant forall k :: k in counts ==> counts[k] == CountState(NewEntries(batch[..i], ids), AddressState, "Unknown", k)
    {
      NewEntriesStep(batch, i, ids);
      if batch[i].recordId !in ids {
        var prev := NewEntries(batch[..i], ids);
        var state := AddressState(batch[i]).GetOr("Unknown");
        forall k ensures CountState(prev + [batch[i]], AddressState, "Unknown", k)
                         == CountState(prev, AddressState, "Unknown", k) + (if state == k then 1 else 0) {
          CountStateSnoc(prev, batch[i], AddressState, "Unknown", k);
        }
        if state != "" {
          counts := counts[state := (if state in counts then counts[state] else 0) + 1];
        }
      } else {
        assert NewEntries(batch[..i + 1], ids) == NewEntries(batch[..i], ids);
      }
    }
    assert batch[..|batch|] == batch;
  }

  /** The preview's predicted total is the length every converting merge produces. */
  lemma PredictionIsMergedLength(current: seq<DatasetRecord>, batch: seq<ProgressEntry>, ids: set<string>,
                                 convert: ProgressEntry -> DatasetRecord)
    ensures |current + ConvertAll(NewEntries(batch, ids), convert)| == |current| + |NewEntries(batch, ids)|
  {
  }
}

=== FILE: ordered_maps.dfy ===
/**
 * Insertion-ordered dictionaries, as Python's dict and JavaScript's Map
 * behave: assigning an existing key keeps its place and replaces its value,
 * a new key goes last, and iteration follows that order.
 */
module OrderedMaps {
  import opened Wrappers
  import opened Seqs

  /** The entries in iteration order. */
  type Dict<K, V> = seq<(K, V)>

  /** The position of key k, if present. */
  function KeyIndex<K(==), V>(t: Dict<K, V>, k: K): (r: Option<nat>)
    ensures r.Some? ==> r.value < |t| && t[r.value].0 == k && forall i :: 0 <= i < r.value ==> t[i].0 != k
    ensures r.None? ==> forall i :: 0 <= i < |t| ==> t[i].0 != k
  {
    if t == [] then None
    else if t[|t| - 1].0 == k && KeyIndex(t[..|t| - 1], k).None? then Some(|t| - 1)
    else KeyIndex(t[..|t| - 1], k)
  }

  /** `d[k] = v`: an existing key keeps its place and takes the new value; a new key goes last. */
  function Put<K(==), V>(t: Dict<K, V>, k: K, v: V): (r: Dict<K, V>)
    ensures |r| == |t| || r == t + [(k, v)]
  {
    match KeyIndex(t, k)
    case Some(i) => t[i := (k, v)]
    case None => t + [(k, v)]
  }

  predicate DistinctKeys<K(==), V>(t: Dict<K, V>)
  {
    forall i, j :: 0 <= i < j < |t| ==> t[i].0 != t[j].0
  }

  /** The dictionary after assigning the entries in order: `d[k] = v` for each, from empty. */
  function Assigned<K(==), V>(es: Dict<K, V>): Dict<K, V>
  {
    if es == [] then [] else Put(Assigned(es[..|es| - 1]), es[|es| - 1].0, es[|es| - 1].1)
  }

  /** Put keeps keys distinct, stores the value under the key and leaves every other key's entry alone. */
  lemma PutEntries<K, V>(t: Dict<K, V>, k: K, v: V)
    requires DistinctKeys(t)
    ensures DistinctKeys(Put(t, k, v))
    ensures KeyIndex(Put(t, k, v), k).Some? && Put(t, k, v)[KeyIndex(Put(t, k, v), k).value].1 == v
    ensures forall k' :: k' != k ==> KeyIndex(Put(t, k, v), k') == KeyIndex(t, k')
    ensures forall k' :: k' != k && KeyIndex(t, k').Some? ==> Put(t, k, v)[KeyIndex(t, k').value] == t[KeyIndex(t, k').value]
  {
    var r := Put(t, k, v);
    forall k' | k' != k
      ensures KeyIndex(r, k') == KeyIndex(t, k')
    {
      KeyIndexSameKeys(t, r, k');
    }
    if KeyIndex(t, k).Some? {
      KeyIndexSameKeys(t, r, k);
    } else {
      KeyIndexLast(t, k, v);
    }
  }

  /** Two tables with the same keys where a key is looked up find it at the same place. */
  lemma {:induction false} KeyIndexSameKeys<K, V>(t: Dict<K, V>, r: Dict<K, V>, k: K)
    requires DistinctKeys(t)
    requires forall i :: 0 <= i < |t| && i < |r| ==> t[i].0 == r[i].0 || (t[i].0 != k && r[i].0 != k)
    requires |r| == |t| || (|r| == |t| + 1 && r[..|t|] == t && r[|t|].0 != k)
    ensures KeyIndex(r, k) == KeyIndex(t, k)
  {
    var a := KeyIndex(t, k);
    var b := KeyIndex(r, k);
    if a.Some? {
      assert r[a.value].0 == k;
    }
    if b.Some? && b.value < |t| {
      assert t[b.value].0 == k;
    }
  }

  lemma KeyIndexLast<K, V>(t: Dict<K, V>, k: K, v: V)
    requires KeyIndex(t, k).None?
    ensures KeyIndex(t + [(k, v)], k) == Some(|t|)
  {
    assert (t + [(k, v)])[..|t|] == t;
  }

  /** Every entry after `d[k] = v` is the new one or the entry that was at its place. */
  lemma PutFrom<K, V>(t: Dict<K, V>, k: K, v: V)
    ensures |Put(t, k, v)| >= |t| && Put(t, k, v) != []
    ensures forall i :: 0 <= i < |Put(t, k, v)| ==> Put(t, k, v)[i] == (k, v) || (i < |t| && Put(t, k, v)[i] == t[i])
  {
  }

  /** `d.get(k)`, `map.get(k)`. */
  function Get<K(==), V>(t: Dict<K, V>, k: K): (r: Option<V>)
    ensures r.Some? <==> KeyIndex(t, k).Some?
  {
    match KeyIndex(t, k)
    case Some(i) => Some(t[i].1)
    case None => None
  }

  /** The last entry with key k, if any. */
  function LastWith<K(==), V>(es: Dict<K, V>, k: K): (r: Option<nat>)
    ensures r.Some? ==> r.value < |es| && es[r.value].0 == k
    ensures r.Some? ==> forall j :: r.value < j < |es| ==> es[j].0 != k
    ensures r.None? ==> forall j :: 0 <= j < |es| ==> es[j].0 != k
  {
    if es == [] then None
    else if es[|es| - 1].0 == k then Some(|es| - 1)
    else LastWith(es[..|es| - 1], k)
  }

  /** The dictionary keeps one entry per key. */
  lemma {:induction false} AssignedKeysDistinct<K, V>(es: Dict<K, V>)
    ensures DistinctKeys(Assigned(es))
  {
    if es != [] {
      AssignedKeysDistinct(es[..|es| - 1]);
      PutEntries(Assigned(es[..|es| - 1]), es[|es| - 1].0, es[|es| - 1].1);
    }
  }

  /**
   * A key is in the dictionary exactly when some entry has it, and its value
   * is that of the last such entry: later assignments overwrite earlier ones.
   */
  lemma {:induction false} AssignedIsLast<K, V>(es: Dict<K, V>, k: K)
    ensures Get(Assigned(es), k) == if LastWith(es, k).Some? then Some(es[LastWith(es, k).value].1) else None
  {
    if es != [] {
      var front := es[..|es| - 1];
      AssignedIsLast(front, k);
      AssignedKeysDistinct(front);
      PutEntries(Assigned(front), es[|es| - 1].0, es[|es| - 1].1);
    }
  }

  /** A lookup after `d[k] = v`: v under k, every other key as before. */
  lemma GetPut<K, V>(t: Dict<K, V>, k: K, v: V, k': K)
    requires DistinctKeys(t)
    ensures Get(Put(t, k, v), k') == if k' == k then Some(v) else Get(t, k')
  {
    PutEntries(t, k, v);
  }

  /** The keys in iteration order. */
  function Keys<K, V>(t: Dict<K, V>): (ks: seq<K>)
    ensures |ks| == |t| && forall i :: 0 <= i < |t| ==> ks[i] == t[i].0
  {
    if t == [] then [] else [t[0].0] + Keys(t[1..])
  }

  /** `Array.from(map.values())`: the values in iteration order. */
  function Values<K, V>(t: Dict<K, V>): (vs: seq<V>)
    ensures |vs| == |t| && forall i :: 0 <= i < |t| ==> vs[i] == t[i].1
  {
    if t == [] then [] else [t[0].1] + Values(t[1..])
  }

  /** A dictionary with one entry per key has as many entries as distinct keys. */
  lemma DistinctKeysCount<K, V>(t: Dict<K, V>)
    requires DistinctKeys(t)
    ensures |t| == |Elems(Keys(t))|
  {
    DistinctCount(Keys(t));
  }

  /** A key is found exactly when it is one of the keys. */
  lemma KeyIndexIffKey<K, V>(t: Dict<K, V>, k: K)
    ensures KeyIndex(t, k).Some? <==> k in Elems(Keys(t))
  {
    if k in Elems(Keys(t)) {
      var i :| 0 <= i < |t| && Keys(t)[i] == k;
    }
  }
}

=== FILE: parse_excel.dfy ===
/**
 * parse_excel.py: data.js from sheets that already carry coordinates; a
 * row is listed when both coordinates are present and it has a website.
 */
module ParseExcel {
  import opened Wrappers
  import opened Seqs
  import opened Service
  import opened Sheet
  import opened ClientSheets
  import opened JsEmit

  /** One entry of this script's data.js (it has no state). */
  datatype Entry = Entry(name: string, lat: Coord, lng: Coord, url: string, kind: Kind)

  /** What a row leads to: skipped, listed, or a `float()` that raises and ends the script. */
  datatype RowOutcome = Skipped | Listed(entry: Entry) | Raised

  /**
   * `float(cell)`: a number is itself; text goes through `parse` (Python's
   * float syntax, not modelled here), None meaning it raises.
   */
  function Coordinate(c: Cell, parse: string -> Option<real>): Option<real>
  {
    match c
    case Number(x, _) => Some(x)
    case Str(s) => parse(s)
    case NaN => None
  }

  predicate Located(row: Row)
  {
    NotNa(Lookup(row, "Latitude")) && NotNa(Lookup(row, "Longitude"))
  }

  /** The rows the script lists: both coordinates present and a website. */
  predicate Listable(row: Row)
  {
    Located(row) && FormatUrl(Lookup(row, "URL")).Some?
  }

  function ReadRow(row: Row, kind: Kind, parse: string -> Option<real>): (r: RowOutcome)
    ensures r.Skipped? <==> !Listable(row)
    ensures r.Listed? ==> HasScheme(r.entry.url) && r.entry.kind == kind
    ensures r.Raised? ==> Listable(row) && (Coordinate(row["Latitude"], parse).None? || Coordinate(row["Longitude"], parse).None?)
  {
    if !Listable(row) then Skipped
    else
      var lat := Coordinate(row["Latitude"], parse);
      var lng := Coordinate(row["Longitude"], parse);
      if lat.None? || lng.None? then Raised
      else Listed(Entry(Field(row, "Name", DefaultName(kind)), lat.value, lng.value, FormatUrl(Lookup(row, "URL")).value, kind))
  }

  /** What each row of a sheet leads to, in order. */
  function Outcomes(rows: seq<Row>, kind: Kind, parse: string -> Option<real>): (outs: seq<RowOutcome>)
    ensures |outs| == |rows|
  {
    Mapped(rows, row => ReadRow(row, kind, parse))
  }

  /** The loop over the outcomes: the listed entries in order, or None once one raises. */
  function Collect(outs: seq<RowOutcome>): (r: Option<seq<Entry>>)
    ensures r.Some? ==> |r.value| <= |outs|
  {
    if outs == [] then Some([])
    else
      match Collect(outs[..|outs| - 1])
      case None => None
      case Some(xs) =>
        match outs[|outs| - 1]
        case Skipped => Some(xs)
        case Listed(e) => Some(xs + [e])
        case Raised => None
  }

  /** A sheet's loop. */
  function Listings(rows: seq<Row>, kind: Kind, parse: string -> Option<real>): Option<seq<Entry>>
  {
    Collect(Outcomes(rows, kind, parse))
  }

  /** How many outcomes list an entry. */
  function ListedCount(outs: seq<RowOutcome>): (n: nat)
    ensures n <= |outs|
  {
    if outs == [] then 0 else ListedCount(outs[..|outs| - 1]) + (if outs[|outs| - 1].Listed? then 1 else 0)
  }

  /** The loop finishes exactly when no row raises. */
  lemma {:induction false} CollectFinishes(outs: seq<RowOutcome>)
    ensures Collect(outs).Some? <==> forall i :: 0 <= i < |outs| ==> !outs[i].Raised?
  {
    if outs != [] {
      var front := outs[..|outs| - 1];
      CollectFinishes(front);
      assert forall i :: 0 <= i < |front| ==> front[i] == outs[i];
    }
  }

  /** A finished loop holds exactly the listed entries, one per listing outcome. */
  lemma {:induction false} CollectListed(outs: seq<RowOutcome>)
    requires Collect(outs).Some?
    ensures |Collect(outs).value| == ListedCount(outs)
    ensures forall e :: e in Collect(outs).value <==> Listed(e) in outs
  {
    if outs != [] {
      var front := outs[..|outs| - 1];
      CollectListed(front);
      assert outs == front + [outs[|outs| - 1]];
    }
  }

  /**
   * For the rows: the script finishes a sheet exactly when no listable row
   * has a coordinate `float()` rejects, and every entry it lists has a
   * website with a scheme and the sheet's type.
   */
  lemma ListingsOfRows(rows: seq<Row>, kind: Kind, parse: string -> Option<real>)
    ensures Listings(rows, kind, parse).Some? <==> forall i :: 0 <= i < |rows| ==> !ReadRow(rows[i], kind, parse).Raised?
    ensures Listings(rows, kind, parse).Some? ==> forall e :: e in Listings(rows, kind, parse).value ==> HasScheme(e.url) && e.kind == kind
  {
    var outs := Outcomes(rows, kind, parse);
    CollectFinishes(outs);
    forall i | 0 <= i < |rows|
      ensures outs[i] == ReadRow(rows[i], kind, parse)
    {
      MappedAt(rows, row => ReadRow(row, kind, parse), i);
    }
    if Collect(outs).Some? {
      CollectListed(outs);
    }
  }

  /** Cells that are numbers never raise. */
  lemma NumbersNeverRaise(row: Row, kind: Kind, parse: string -> Option<real>)
    requires Listable(row) && row["Latitude"].Number? && row["Longitude"].Number?
    ensures ReadRow(row, kind, parse).Listed?
  {
  }

  /** One sheet's loop; a row that raises ends the script. */
  method ProcessSheet(rows: seq<Row>, kind: Kind, parse: string -> Option<real>) returns (r: Option<seq<Entry>>)
    ensures r == Listings(rows, kind, parse)
  {
    var outs := Outcomes(rows, kind, parse);
    var xs: seq<Entry> := [];
    for i := 0 to |rows|
      invariant Collect(outs[..i]) == Some(xs)
    {
      assert outs[..i + 1][..i] == outs[..i];
      match outs[i]
      case Skipped =>
      case Listed(e) =>
        xs := xs + [e];
      case Raised =>
        RaisedStays(outs, i + 1);
        return None;
    }
    assert outs[..|rows|] == outs;
    return Some(xs);
  }

  /** Once an outcome raises, every longer prefix fails too. */
  lemma {:induction false} RaisedStays(outs: seq<RowOutcome>, k: nat)
    requires k <= |outs|
    requires Collect(outs[..k]).None?
    ensures Collect(outs).None?
    decreases |outs| - k
  {
    if k < |outs| {
      assert outs[..k + 1][..k] == outs[..k];
      RaisedStays(outs, k + 1);
    } else {
      assert outs[..k] == outs;
    }
  }

  function EntryText(e: Entry, show: Coord -> string): string
  {
    ObjectLiteral([("name", Quoted(e.name)), ("lat", show(e.lat)), ("lng", show(e.lng)),
                   ("url", Quoted(e.url)), ("type", Quoted(KindName(e.kind)))])
  }

  function EntryTexts(es: seq<Entry>, show: Coord -> string): (r: seq<string>)
    ensures |r| == |es|
  {
    if es == [] then [] else [EntryText(es[0], show)] + EntryTexts(es[1..], show)
  }

  /** data.js, or None when a sheet's loop raised before it was written. */
  function DataJs(charters: seq<Row>, districts: seq<Row>, parse: string -> Option<real>, header: string, show: Coord -> string): Option<string>
  {
    match (Listings(charters, Charter, parse), Listings(districts, District, parse))
    case (Some(a), Some(b)) => Some(SeparatedFile(header, EntryTexts(a + b, show)))
    case _ => None
  }

  /** The script: the charter loop, the district loop, their concatenation, data.js. */
  method Run(charters: seq<Row>, districts: seq<Row>, parse: string -> Option<real>, header: string, show: Coord -> string)
    returns (js: Option<string>)
    ensures js == DataJs(charters, districts, parse, header, show)
  {
    var charterData := ProcessSheet(charters, Charter, parse);
    if charterData.None? {
      return None;
    }
    var districtData := ProcessSheet(districts, District, parse);
    if districtData.None? {
      return None;
    }
    var text := EmitSeparated(header, EntryTexts(charterData.value + districtData.value, show));
    js := Some(text);
  }
}

=== FILE: parse_excel_with_geocoding.dfy ===
/**
 * parse_excel_with_geocoding.py: a trial run over both client sheets, one
 * lookup attempt per row with a website, no cache, each sheet's loop
 * stopping after the first row with a website at position 19 or later.
 */
module ParseExcelWithGeocoding {
  import opened Wrappers
  import opened Service
  import opened Sheet
  import opened GeoRetry
  import opened ClientSheets
  import opened JsEmit

  /** The position whose row with a website ends a sheet's loop (`if idx >= 19: break`). */
  const LastIndex: nat := 19

  /** A single attempt: a found place, or None for an empty answer and for a raised error. */
  function LookupOnce(svc: Oracle, address: string): (loc: Option<Coords>)
    ensures loc.Some? <==> svc(address, 0).Found?
    ensures loc.Some? ==> loc.value == ToCoords(svc(address, 0).place)
  {
    Outcome(svc, address, 1, 0)
  }

  /** What a sheet's loop produces from position idx on. */
  datatype Scanned = Scanned(customers: seq<Customer>, requests: nat)

  /**
   * Rows idx, idx + 1, ...: a row without a website is skipped; a row with
   * one is looked up once, appended when both coordinates are truthy, and
   * ends the loop when idx >= 19.
   */
  function Scan(clients: seq<Client>, kind: Kind, svc: Oracle, idx: nat): (r: Scanned)
    ensures |r.customers| <= r.requests
    decreases |clients| - idx
  {
    if idx >= |clients| then Scanned([], 0)
    else
      var c := clients[idx];
      if c.url.None? then Scan(clients, kind, svc, idx + 1)
      else
        var loc := LookupOnce(svc, c.address);
        var here := if loc.Some? && TruthyCoords(loc.value) then [ToCustomer(c, kind, loc.value)] else [];
        var rest := if idx >= LastIndex then Scanned([], 0) else Scan(clients, kind, svc, idx + 1);
        Scanned(here + rest.customers, 1 + rest.requests)
  }

  /** At most 20 lookups per sheet: at most one per position below 19, and one more at most. */
  lemma {:induction false} ScanRequestBound(clients: seq<Client>, kind: Kind, svc: Oracle, idx: nat)
    ensures Scan(clients, kind, svc, idx).requests <= if idx <= LastIndex then LastIndex + 1 - idx else 1
    decreases |clients| - idx
  {
    if idx < |clients| {
      ScanRequestBound(clients, kind, svc, idx + 1);
    }
  }

  /** Rows past the first 20 positions are never looked at when the 20th row has a website. */
  lemma {:induction false} StopsAtLastIndex(clients: seq<Client>, more: seq<Client>, kind: Kind, svc: Oracle, idx: nat)
    requires idx <= LastIndex < |clients|
    requires clients[LastIndex].url.Some?
    ensures Scan(clients + more, kind, svc, idx) == Scan(clients[..LastIndex + 1], kind, svc, idx)
    decreases LastIndex - idx
  {
    var xs := clients + more;
    var ys := clients[..LastIndex + 1];
    assert xs[idx] == ys[idx];
    if idx < LastIndex {
      StopsAtLastIndex(clients, more, kind, svc, idx + 1);
    }
  }

  /** Every customer has truthy coordinates and its sheet's type. */
  lemma {:induction false} ScanCustomers(clients: seq<Client>, kind: Kind, svc: Oracle, idx: nat)
    ensures forall c :: c in Scan(clients, kind, svc, idx).customers ==> c.lat != 0.0 && c.lng != 0.0 && c.kind == kind
    decreases |clients| - idx
  {
    if idx < |clients| {
      ScanCustomers(clients, kind, svc, idx + 1);
    }
  }

  /** One sheet's loop, with its `break`. */
  method ProcessSheet(clients: seq<Client>, kind: Kind, svc: Oracle) returns (customers: seq<Customer>, requests: nat)
    ensures Scanned(customers, requests) == Scan(clients, kind, svc, 0)
  {
    customers, requests := [], 0;
    for idx := 0 to |clients|
      invariant customers + Scan(clients, kind, svc, idx).customers == Scan(clients, kind, svc, 0).customers
      invariant requests + Scan(clients, kind, svc, idx).requests == Scan(clients, kind, svc, 0).requests
    {
      var c := clients[idx];
      if c.url.Some? {
        var loc := LookupOnce(svc, c.address);
        var here := if loc.Some? && TruthyCoords(loc.value) then [ToCustomer(c, kind, loc.value)] else [];
        var rest := if idx >= LastIndex then Scanned([], 0) else Scan(clients, kind, svc, idx + 1);
        assert Scan(clients, kind, svc, idx) == Scanned(here + rest.customers, 1 + rest.requests);
        assert customers + (here + rest.customers) == (customers + here) + rest.customers;
        requests := requests + 1;
        customers := customers + here;
        if idx >= LastIndex {
          assert rest.customers == [];
          return;
        }
      }
    }
  }

  /** data.js of this script: the separated layout, names written as they are. */
  function DataJs(header: string, customers: seq<Customer>, show: Coord -> string): string
  {
    SeparatedFile(header, EntryTexts(customers, false, show))
  }

  /** The script: the charter sheet's loop, the district sheet's loop, then data.js. */
  method Run(charters: seq<Row>, districts: seq<Row>, svc: Oracle, header: string, show: Coord -> string)
    returns (customers: seq<Customer>, requests: nat, js: string)
    ensures var a := Scan(ReadClients(charters, Charter), Charter, svc, 0); var b := Scan(ReadClients(districts, District), District, svc, 0);
      customers == a.customers + b.customers && requests == a.requests + b.requests
    ensures requests <= 2 * (LastIndex + 1)
    ensures js == DataJs(header, customers, show)
  {
    var charterCustomers, charterRequests := ProcessSheet(ReadClients(charters, Charter), Charter, svc);
    var districtCustomers, districtRequests := ProcessSheet(ReadClients(districts, District), District, svc);
    ScanRequestBound(ReadClients(charters, Charter), Charter, svc, 0);
    ScanRequestBound(ReadClients(districts, District), District, svc, 0);
    customers := charterCustomers + districtCustomers;
    requests := charterRequests + districtRequests;
    js := EmitSeparated(header, EntryTexts(customers, false, show));
  }
}

=== FILE: process_apptegy_data.dfy ===
/**
 * process_apptegy_data.py: the first 100 rows of the Apptegy CSV export,
 * each named school located from its city columns and a state guessed from
 * its domain or name, geocoded once, and kept when the lookup answers.
 */
module ProcessApptegyData {
  import opened Wrappers
  import opened Text
  import opened Service
  import opened Records
  import opened SchoolType
  import opened Seqs

  /** A CSV row as csv.DictReader gives it. */
  type Row = map<string, string>

  const RowLimit: nat := 100

  /** `state_patterns`, in insertion order. */
  function StatePatterns(): seq<(string, string)>
  {
    [
      ("TX", "Texas"), ("CA", "California"), ("FL", "Florida"), ("NY", "New York"), ("IL", "Illinois"),
      ("PA", "Pennsylvania"), ("OH", "Ohio"), ("MI", "Michigan"), ("GA", "Georgia"), ("NC", "North Carolina"),
      ("VA", "Virginia"), ("WA", "Washington"), ("AZ", "Arizona"), ("MA", "Massachusetts"), ("IN", "Indiana"),
      ("TN", "Tennessee"), ("MO", "Missouri"), ("MD", "Maryland"), ("WI", "Wisconsin"), ("CO", "Colorado"),
      ("MN", "Minnesota"), ("SC", "South Carolina"), ("AL", "Alabama"), ("LA", "Louisiana"), ("KY", "Kentucky"),
      ("OR", "Oregon"), ("OK", "Oklahoma"), ("CT", "Connecticut"), ("IA", "Iowa"), ("MS", "Mississippi"),
      ("AR", "Arkansas"), ("KS", "Kansas"), ("UT", "Utah"), ("NV", "Nevada"), ("NM", "New Mexico"),
      ("NE", "Nebraska"), ("WV", "West Virginia"), ("ID", "Idaho"), ("HI", "Hawaii"), ("NH", "New Hampshire"),
      ("ME", "Maine"), ("RI", "Rhode Island"), ("MT", "Montana"), ("DE", "Delaware"), ("SD", "South Dakota"),
      ("ND", "North Dakota"), ("AK", "Alaska"), ("VT", "Vermont"), ("WY", "Wyoming")
    ]
  }

  /** Which of the two scans: the lower-cased domain, or the lower-cased company name. */
  datatype Test = InDomain | InName

  /**
   * Whether an abbreviation fires on the text: ".xx." or ".k12.xx." in the
   * domain; " xx " inside the name or " xx" at its end.
   */
  predicate Hit(test: Test, text: string, abbr: string)
  {
    var a := Lower(abbr);
    match test
    case InDomain => Contains(text, "." + a + ".") || Contains(text, ".k12." + a + ".")
    case InName => Contains(text, " " + a + " ") || EndsWith(text, " " + a)
  }

  /** The first table position from i on whose abbreviation fires. */
  function FirstHit(table: seq<(string, string)>, test: Test, text: string, i: nat): (r: Option<nat>)
    ensures r.Some? ==> i <= r.value < |table| && Hit(test, text, table[r.value].0)
    ensures r.Some? ==> forall k :: i <= k < r.value ==> !Hit(test, text, table[k].0)
    ensures r.None? ==> forall k :: i <= k < |table| ==> !Hit(test, text, table[k].0)
    decreases |table| - i
  {
    if i >= |table| then None
    else if Hit(test, text, table[i].0) then Some(i)
    else FirstHit(table, test, text, i + 1)
  }

  /** The state of the first firing abbreviation, '' when none fires. */
  function StateBy(table: seq<(string, string)>, test: Test, text: string): string
  {
    match FirstHit(table, test, text, 0)
    case Some(k) => table[k].1
    case None => ""
  }

  /** 'City', else 'Agile Location City', both stripped. */
  function City(row: Row): (city: string)
    ensures Strip(Get(row, "City")) != "" ==> city == Strip(Get(row, "City"))
    ensures Strip(Get(row, "City")) == "" ==> city == Strip(Get(row, "Agile Location City"))
  {
    var city := Strip(Get(row, "City"));
    if city != "" then city else Strip(Get(row, "Agile Location City"))
  }

  /**
   * `clean_location_data`: the city, and the state from the domain when it
   * is non-empty and some abbreviation fires on it, else from the name.
   */
  function Location(row: Row): (r: (string, string))
    ensures r.0 == City(row)
    ensures Strip(Get(row, "Company Domain Name")) != "" && StateBy(StatePatterns(), InDomain, Lower(Strip(Get(row, "Company Domain Name")))) != "" ==>
      r.1 == StateBy(StatePatterns(), InDomain, Lower(Strip(Get(row, "Company Domain Name"))))
    ensures (Strip(Get(row, "Company Domain Name")) == "" || StateBy(StatePatterns(), InDomain, Lower(Strip(Get(row, "Company Domain Name")))) == "") ==>
      r.1 == StateBy(StatePatterns(), InName, Lower(Strip(Get(row, "Company name"))))
  {
    var domain := Strip(Get(row, "Company Domain Name"));
    var fromDomain := if domain != "" then StateBy(StatePatterns(), InDomain, Lower(domain)) else "";
    (City(row), if fromDomain != "" then fromDomain else StateBy(StatePatterns(), InName, Lower(Strip(Get(row, "Company name")))))
  }

  /** One of the two `for abbr, full_name in state_patterns.items()` loops with its `break`. */
  method ScanTable(table: seq<(string, string)>, test: Test, text: string) returns (state: string)
    ensures state == StateBy(table, test, text)
  {
    state := "";
    for i := 0 to |table|
      invariant FirstHit(table, test, text, 0) == FirstHit(table, test, text, i)
    {
      var (abbr, fullName) := table[i];
      if Hit(test, text, abbr) {
        state := fullName;
        return;
      }
    }
  }

  method CleanLocationData(row: Row) returns (city: string, state: string)
    ensures (city, state) == Location(row)
  {
    city := Strip(Get(row, "City"));
    if city == "" {
      city := Strip(Get(row, "Agile Location City"));
    }
    var companyName := Strip(Get(row, "Company name"));
    var domain := Strip(Get(row, "Company Domain Name"));
    state := "";
    if domain != "" {
      state := ScanTable(StatePatterns(), InDomain, Lower(domain));
    }
    if state == "" {
      state := ScanTable(StatePatterns(), InName, Lower(companyName));
    }
  }

  /** The ".k12.xx." test never decides: a domain that contains it contains ".xx." too. */
  lemma K12TestSubsumed(domain: string, abbr: string)
    ensures Hit(InDomain, domain, abbr) <==> Contains(domain, "." + Lower(abbr) + ".")
  {
    var a := Lower(abbr);
    if Contains(domain, ".k12." + a + ".") {
      assert ".k12." + a + "." == ".k12" + ("." + a + ".");
      ContainsSuffixOf(domain, ".k12", "." + a + ".");
    }
  }

  /**
   * The first table position that fires wins: whenever the abbreviation at
   * position k fires (a name ending in " in" fires "IN", for one), the scan
   * settles on a state no later than position k.
   */
  lemma FirstHitNoLater(table: seq<(string, string)>, test: Test, text: string, k: nat)
    requires k < |table| && Hit(test, text, table[k].0)
    ensures FirstHit(table, test, text, 0).Some? && FirstHit(table, test, text, 0).value <= k
  {
  }

  /** The non-empty ones among the name, the city and the state, in that order; the domain is not used. */
  function QueryParts(name: string, city: string, state: string): (parts: seq<string>)
    ensures forall k :: 0 <= k < |parts| ==> parts[k] != ""
    ensures parts == [] <==> name == "" && city == "" && state == ""
    ensures state != "" ==> parts[|parts| - 1] == state
  {
    (if name != "" then [name] else []) + (if city != "" then [city] else []) + (if state != "" then [state] else [])
  }

  /** The search text: the parts joined with ", ". */
  function Query(name: string, city: string, state: string): (q: string)
    ensures q == "" <==> name == "" && city == "" && state == ""
    ensures state != "" ==> EndsWith(q, state)
  {
    var parts := QueryParts(name, city, state);
    if parts == [] then ""
    else
      JoinEndsWithLast(parts, ", ");
      Join(parts, ", ")
  }

  /**
   * `geocode_school`: one request; the first place of a non-empty answer,
   * None for an empty answer, a failed status and a raised error alike.
   */
  function GeocodeSchool(svc: Oracle, q: string): (loc: Option<Place>)
    ensures loc.Some? <==> svc(q, 0).Found?
    ensures loc.Some? ==> loc.value == svc(q, 0).place
  {
    match svc(q, 0)
    case Found(p) => Some(p)
    case _ => None
  }

  function Name(row: Row): string
  {
    Strip(Get(row, "Company name"))
  }

  /** The record a row yields: None for a blank name or a failed lookup. */
  function SchoolData(row: Row, svc: Oracle): (r: Option<CompetitorRecord>)
    ensures r.Some? <==> Name(row) != "" && svc(Query(Name(row), Location(row).0, Location(row).1), 0).Found?
    ensures r.Some? ==> && r.value.name == Name(row)
                        && r.value.competitor == "Apptegy" && r.value.kind == "competitor"
                        && r.value.city == Location(row).0 && r.value.state == Location(row).1
                        && r.value.lat.Some? && r.value.lng.Some?
  {
    if Name(row) == "" then None
    else
      var (city, state) := Location(row);
      match GeocodeSchool(svc, Query(Name(row), city, state))
      case None => None
      case Some(p) =>
        Some(CompetitorRecord(Get(row, "Record ID"), Name(row), "Apptegy", Strip(Get(row, "Company Domain Name")),
                              city, state, Strip(Get(row, "Company owner")), Strip(Get(row, "Create Date")),
                              Some(p.lat), Some(p.lon), p.displayName, "competitor"))
  }

  /** What each row yields, in order. */
  function Outcomes(rows: seq<Row>, svc: Oracle): (outs: seq<Option<CompetitorRecord>>)
    ensures |outs| == |rows|
  {
    Mapped(rows, row => SchoolData(row, svc))
  }

  /** The records among the outcomes, in order. */
  function Kept(outs: seq<Option<CompetitorRecord>>): (rs: seq<CompetitorRecord>)
    ensures |rs| <= |outs|
  {
    if outs == [] then []
    else
      var rest := Kept(outs[..|outs| - 1]);
      match outs[|outs| - 1]
      case Some(r) => rest + [r]
      case None => rest
  }

  /** The records of rows in order. */
  function Processed(rows: seq<Row>, svc: Oracle): seq<CompetitorRecord>
  {
    Kept(Outcomes(rows, svc))
  }

  lemma {:induction false} KeptExactly(outs: seq<Option<CompetitorRecord>>)
    ensures forall r :: r in Kept(outs) <==> Some(r) in outs
  {
    if outs != [] {
      var front := outs[..|outs| - 1];
      KeptExactly(front);
      assert outs == front + [outs[|outs| - 1]];
    }
  }

  /** How many rows have a name, hence send a request. */
  function Named(rows: seq<Row>): (n: nat)
    ensures n <= |rows|
  {
    if rows == [] then 0 else Named(rows[..|rows| - 1]) + (if Name(rows[|rows| - 1]) != "" then 1 else 0)
  }

  /** Row i adds its record, if any, to the records of the rows before it. */
  lemma ProcessedStep(rows: seq<Row>, i: nat, svc: Oracle)
    requires i < |rows|
    ensures var o := SchoolData(rows[i], svc);
      Processed(rows[..i + 1], svc) == if o.Some? then Processed(rows[..i], svc) + [o.value] else Processed(rows[..i], svc)
  {
    var prefix := rows[..i + 1];
    assert prefix[..i] == rows[..i];
    MappedSnoc(prefix, row => SchoolData(row, svc));
    KeptSnoc(Outcomes(rows[..i], svc), SchoolData(rows[i], svc));
  }

  lemma NamedStep(rows: seq<Row>, i: nat)
    requires i < |rows|
    ensures Named(rows[..i + 1]) == Named(rows[..i]) + if Name(rows[i]) != "" then 1 else 0
  {
    assert rows[..i + 1][..i] == rows[..i];
  }

  lemma KeptSnoc(outs: seq<Option<CompetitorRecord>>, o: Option<CompetitorRecord>)
    ensures Kept(outs + [o]) == if o.Some? then Kept(outs) + [o.value] else Kept(outs)
  {
    assert (outs + [o])[..|outs|] == outs;
  }

  /** The rows the script reads: the first 100. */
  function Considered(rows: seq<Row>): (r: seq<Row>)
    ensures |r| <= |rows| && |r| <= RowLimit && r == rows[..|r|]
    ensures |rows| >= RowLimit ==> |r| == RowLimit
  {
    if |rows| <= RowLimit then rows else rows[..RowLimit]
  }

  /** The records are exactly the answers of the rows that have a name and whose lookup answered. */
  lemma ProcessedRecords(rows: seq<Row>, svc: Oracle)
    ensures forall r :: r in Processed(rows, svc) ==> exists i :: 0 <= i < |rows| && SchoolData(rows[i], svc) == Some(r)
    ensures forall i :: 0 <= i < |rows| && SchoolData(rows[i], svc).Some? ==> SchoolData(rows[i], svc).value in Processed(rows, svc)
  {
    var outs := Outcomes(rows, svc);
    KeptExactly(outs);
    forall i | 0 <= i < |rows|
      ensures outs[i] == SchoolData(rows[i], svc)
    {
      MappedAt(rows, row => SchoolData(row, svc), i);
    }
  }

  /** Rows past the first 100 change nothing. */
  lemma RowsPastLimitIgnored(rows: seq<Row>, more: seq<Row>, svc: Oracle)
    requires |rows| >= RowLimit
    ensures Processed(Considered(rows + more), svc) == Processed(Considered(rows), svc)
  {
    assert (rows + more)[..RowLimit] == rows[..RowLimit];
  }

  /** The run: the records in row order, the requests sent, and the pauses (one after each success). */
  datatype Report = Report(records: seq<CompetitorRecord>, requests: nat, pauses: nat)

  /**
   * The loop body for one row: the blank-name test, then the location, the
   * request and the record on success; `asked` says whether a request went out.
   */
  method ProcessRow(row: Row, svc: Oracle) returns (r: Option<CompetitorRecord>, asked: bool)
    ensures r == SchoolData(row, svc)
    ensures asked == (Name(row) != "")
  {
    var companyName := Strip(Get(row, "Company name"));
    var domain := Strip(Get(row, "Company Domain Name"));
    var owner := Strip(Get(row, "Company owner"));
    var createDate := Strip(Get(row, "Create Date"));
    if companyName == "" {
      return None, false;
    }
    var city, state := CleanLocationData(row);
    var location := GeocodeSchool(svc, Query(companyName, city, state));
    asked := true;
    if location.Some? {
      var p := location.value;
      return Some(CompetitorRecord(Get(row, "Record ID"), companyName, "Apptegy", domain, city, state,
                                   owner, createDate, Some(p.lat), Some(p.lon), p.displayName, "competitor")), asked;
    }
    return None, asked;
  }

  /** One pass of the loop over row i of the considered rows. */
  method Visit(report0: Report, considered: seq<Row>, i: nat, svc: Oracle) returns (report: Report)
    requires i < |considered|
    requires report0.records == Processed(considered[..i], svc) && report0.requests == Named(considered[..i])
    requires report0.pauses == |report0.records| <= report0.requests
    ensures report.records == Processed(considered[..i + 1], svc) && report.requests == Named(considered[..i + 1])
    ensures report.pauses == |report.records| <= report.requests
  {
    ProcessedStep(considered, i, svc);
    NamedStep(considered, i);
    var r, asked := ProcessRow(considered[i], svc);
    report := report0.(requests := report0.requests + if asked then 1 else 0);
    if r.Some? {
      report := report.(records := report.records + [r.value], pauses := report.pauses + 1);
    }
  }

  /** `process_apptegy_data` without the JSON file and the printed lines. */
  method ProcessApptegy(rows: seq<Row>, svc: Oracle) returns (report: Report)
    ensures report.records == Processed(Considered(rows), svc)
    ensures report.requests == Named(Considered(rows))
    ensures report.pauses == |report.records| <= report.requests
  {
    var considered := Considered(rows);
    var n := |considered|;
    assert n == if |rows| <= RowLimit then |rows| else RowLimit;
    report := Report([], 0, 0);
    var i := 0;
    while i < |rows|
      invariant i <= n
      invariant report.records == Processed(considered[..i], svc) && report.requests == Named(considered[..i])
      invariant report.pauses == |report.records| <= report.requests
      decreases |rows| - i
    {
      if i >= RowLimit {
        break;
      }
      report := Visit(report, considered, i, svc);
      i := i + 1;
    }
    assert i == n;
    assert considered[..n] == considered;
  }
}

=== FILE: reconcile.dfy ===
/**
 * The reconciliation merge shared by the merge scripts: the identifiers of
 * the loaded dataset are computed once, and every batch entry whose
 * `record_id` is not among them is converted and appended, in batch order.
 * Also the batch-to-dataset conversion, the city rules the scripts choose
 * between, and the per-state tally they print.
 */
module Reconcile {
  import opened Wrappers
  import opened Service
  import opened Records
  import opened Seqs

  // ----- City rules -------------------------------------------------------

  /** `keys[j]` is the first key whose value is truthy (a non-empty string). */
  predicate FirstTruthyAt(address: map<string, string>, keys: seq<string>, j: int)
  {
    0 <= j < |keys| && Get(address, keys[j]) != ""
    && forall i :: 0 <= i < j ==> Get(address, keys[i]) == ""
  }

  /** `address.get(k1) or address.get(k2) or … or fallback`. */
  function FirstTruthy(address: map<string, string>, keys: seq<string>, fallback: string): (city: string)
    ensures (exists j :: FirstTruthyAt(address, keys, j) && city == Get(address, keys[j]))
      || ((forall j :: 0 <= j < |keys| ==> Get(address, keys[j]) == "") && city == fallback)
  {
    if keys == [] then fallback
    else if Get(address, keys[0]) != "" then
      assert FirstTruthyAt(address, keys, 0);
      Get(address, keys[0])
    else
      var city := FirstTruthy(address, keys[1..], fallback);
      assert forall j :: FirstTruthyAt(address, keys[1..], j) ==> FirstTruthyAt(address, keys, j + 1);
      city
  }

  /** A chain of three keys, written out: `a.get(k1) or a.get(k2) or a.get(k3) or fallback`. */
  lemma FirstTruthyOfThree(address: map<string, string>, k1: string, k2: string, k3: string, fallback: string)
    ensures FirstTruthy(address, [k1, k2, k3], fallback)
      == if Get(address, k1) != "" then Get(address, k1)
         else if Get(address, k2) != "" then Get(address, k2)
         else if Get(address, k3) != "" then Get(address, k3)
         else fallback
  {
    assert [k1, k2, k3][1..] == [k2, k3];
    assert [k2, k3][1..] == [k3];
    assert [k3][1..] == [];
    assert FirstTruthy(address, [k3], fallback) == if Get(address, k3) != "" then Get(address, k3) else fallback;
    assert FirstTruthy(address, [k2, k3], fallback)
      == if Get(address, k2) != "" then Get(address, k2) else FirstTruthy(address, [k3], fallback);
    assert FirstTruthy(address, [k1, k2, k3], fallback)
      == if Get(address, k1) != "" then Get(address, k1) else FirstTruthy(address, [k2, k3], fallback);
  }

  /** `keys[j]` is the first key present in the dict, whatever its value. */
  predicate FirstPresentAt(address: map<string, string>, keys: seq<string>, j: int)
  {
    0 <= j < |keys| && keys[j] in address
    && forall i :: 0 <= i < j ==> keys[i] !in address
  }

  /** `address.get(k1, address.get(k2, … fallback))`: tests key presence, not truthiness. */
  function FirstPresent(address: map<string, string>, keys: seq<string>, fallback: string): (city: string)
    ensures (exists j :: FirstPresentAt(address, keys, j) && city == address[keys[j]])
      || ((forall j :: 0 <= j < |keys| ==> keys[j] !in address) && city == fallback)
  {
    if keys == [] then fallback
    else if keys[0] in address then
      assert FirstPresentAt(address, keys, 0);
      address[keys[0]]
    else
      var city := FirstPresent(address, keys[1..], fallback);
      assert forall j :: FirstPresentAt(address, keys[1..], j) ==> FirstPresentAt(address, keys, j + 1);
      city
  }

  /** The city priority most merge scripts use: neighbourhood, town, city, then the CSV's own city. */
  function TruthyChainCity(e: ProgressEntry): string
  {
    FirstTruthy(AddressOf(e), ["neighbourhood", "town", "city"], e.existingCity)
  }

  /** A present-but-empty `town` wins under key presence and loses under truthiness. */
  lemma PresenceAndTruthinessDisagree()
    ensures FirstPresent(map["town" := "", "city" := "Austin"], ["town", "city"], "") == ""
    ensures FirstTruthy(map["town" := "", "city" := "Austin"], ["neighbourhood", "town", "city"], "") == "Austin"
  {
  }

  // ----- Conversion -------------------------------------------------------

  /** The canonical record built from a batch entry, given the city and owner the script chose. */
  function BuildRecord(e: ProgressEntry, city: string, owner: string): (r: MergedRecord)
    ensures r.recordId == e.recordId && r.name == e.companyName && r.domain == e.domain
    ensures r.city == city && r.owner == owner
    ensures r.state == Get(AddressOf(e), "state")
    ensures r.createDate == e.processedAt && r.lastContact == e.processedAt
    ensures e.location.Some? ==> r.lat == Some(e.location.value.latitude) && r.lng == Some(e.location.value.longitude)
    ensures e.location.None? ==> r.lat == None && r.lng == None
    ensures r.competitor == "Apptegy" && r.kind == "competitor" && r.products == ["CMS"]
    ensures r.customerType == "District" && r.arr == 0 && r.employees == 0
    ensures r.salesStage == "Competitor" && r.priority == "Medium"
  {
    var loc := e.location;
    MergedRecord(
      recordId := e.recordId,
      name := e.companyName,
      competitor := "Apptegy",
      domain := e.domain,
      city := city,
      state := Get(AddressOf(e), "state"),
      owner := owner,
      createDate := e.processedAt,
      lat := if loc.Some? then Some(loc.value.latitude) else None,
      lng := if loc.Some? then Some(loc.value.longitude) else None,
      kind := "competitor",
      products := ["CMS"],
      customerType := "District",
      arr := 0,
      employees := 0,
      lastContact := e.processedAt,
      salesStage := "Competitor",
      priority := "Medium")
  }

  /** `convert_batch_record`: truthiness city chain, owner "Unknown". */
  function ConvertBatchRecord(e: ProgressEntry): (r: DatasetRecord)
    ensures r.Merged? && r.m.owner == "Unknown" && r.RecordIdKey() == Some(e.recordId)
    ensures var a := AddressOf(e);
      r.m.city == if Get(a, "neighbourhood") != "" then a["neighbourhood"]
                  else if Get(a, "town") != "" then a["town"]
                  else if Get(a, "city") != "" then a["city"]
                  else e.existingCity
    ensures r.m.state == Get(AddressOf(e), "state") && r.m.createDate == e.processedAt
  {
    FirstTruthyOfThree(AddressOf(e), "neighbourhood", "town", "city", e.existingCity);
    Merged(BuildRecord(e, TruthyChainCity(e), "Unknown"))
  }

  /** A conversion keeps the batch entry's identifier as the record's `recordId`. */
  ghost predicate KeepsId(convert: ProgressEntry -> DatasetRecord)
  {
    forall e :: convert(e).RecordIdKey() == Some(e.recordId)
  }

  // ----- Identifiers ------------------------------------------------------

  /** `record['recordId']` of every dataset record, None where the key is missing. */
  function Keys(rs: seq<DatasetRecord>): seq<Option<string>>
  {
    seq(|rs|, i requires 0 <= i < |rs| => rs[i].RecordIdKey())
  }

  function Ids(es: seq<ProgressEntry>): seq<string>
  {
    seq(|es|, i requires 0 <= i < |es| => es[i].recordId)
  }

  /** `{record['recordId'] for record in current_data}`; None is the KeyError of a record without the key. */
  function ExistingIds(current: seq<DatasetRecord>): (ids: Option<set<string>>)
    ensures ids.Some? <==> forall i :: 0 <= i < |current| ==> current[i].RecordIdKey().Some?
    ensures ids.Some? ==> forall id :: id in ids.value <==> Some(id) in Keys(current)
  {
    if current == [] then Some({})
    else
      var rest := ExistingIds(current[1..]);
      assert forall i :: 1 <= i < |current| ==> current[i] == current[1..][i - 1];
      assert Keys(current) == [current[0].RecordIdKey()] + Keys(current[1..]);
      match current[0].RecordIdKey()
      case None => None
      case Some(id) => if rest.None? then None else Some({id} + rest.value)
  }

  /** `{record['record_id'] for record in batch_data}`. */
  function BatchIds(batch: seq<ProgressEntry>): set<string>
  {
    set e | e in batch :: e.recordId
  }

  // ----- The merge ----------------------------------------------------------

  /** The batch entries the merge appends: those whose id is not in the once-computed set, in order. */
  function NewEntries(batch: seq<ProgressEntry>, ids: set<string>): (r: seq<ProgressEntry>)
    ensures |r| <= |batch|
  {
    if batch == [] then []
    else
      var last := batch[|batch| - 1];
      var front := NewEntries(batch[..|batch| - 1], ids);
      assert batch == batch[..|batch| - 1] + [last];
      if last.recordId in ids then front else front + [last]
  }

  function ConvertAll(es: seq<ProgressEntry>, convert: ProgressEntry -> DatasetRecord): (r: seq<DatasetRecord>)
    ensures |r| == |es|
  {
    if es == [] then [] else ConvertAll(es[..|es| - 1], convert) + [convert(es[|es| - 1])]
  }

  /** The k-th converted record is the conversion of the k-th entry. */
  lemma {:induction false} ConvertAllAt(es: seq<ProgressEntry>, convert: ProgressEntry -> DatasetRecord, k: nat)
    requires k < |es|
    ensures ConvertAll(es, convert)[k] == convert(es[k])
  {
    if k < |es| - 1 {
      ConvertAllAt(es[..|es| - 1], convert, k);
    }
  }

  lemma {:induction false} NewEntriesMembers(batch: seq<ProgressEntry>, ids: set<string>)
    ensures forall e :: e in NewEntries(batch, ids) <==> e in batch && e.recordId !in ids
  {
    if batch != [] {
      NewEntriesMembers(batch[..|batch| - 1], ids);
      assert batch == batch[..|batch| - 1] + [batch[|batch| - 1]];
    }
  }

  /**
   * The merge loop: appends the converted new entries after the untouched
   * dataset and counts appended and skipped entries.
   */
  method MergeBatch(current: seq<DatasetRecord>, batch: seq<ProgressEntry>, ids: set<string>,
                    convert: ProgressEntry -> DatasetRecord)
    returns (merged: seq<DatasetRecord>, added: nat, skipped: nat)
    ensures merged == current + ConvertAll(NewEntries(batch, ids), convert)
    ensures added == |NewEntries(batch, ids)| && added + skipped == |batch|
    ensures |merged| == |current| + added && merged[..|current|] == current
  {
    merged, added, skipped := current, 0, 0;
    ghost var incoming: seq<ProgressEntry> := [];
    for i := 0 to |batch|
      invariant incoming == NewEntries(batch[..i], ids)
      invariant merged == current + ConvertAll(incoming, convert)
      invariant added == |incoming| && added + skipped == i
    {
      NewEntriesStep(batch, i, ids);
      var e := batch[i];
      if e.recordId !in ids {
        ConvertAllSnoc(incoming, e, convert);
        incoming := incoming + [e];
        merged := merged + [convert(e)];
        added := added + 1;
      } else {
        skipped := skipped + 1;
      }
    }
    assert batch[..|batch|] == batch;
    assert merged[..|current|] == current;
  }

  lemma NewEntriesStep(batch: seq<ProgressEntry>, i: nat, ids: set<string>)
    requires i < |batch|
    ensures NewEntries(batch[..i + 1], ids)
      == NewEntries(batch[..i], ids) + (if batch[i].recordId in ids then [] else [batch[i]])
  {
    assert batch[..i + 1][..i] == batch[..i];
  }

  lemma ConvertAllSnoc(es: seq<ProgressEntry>, e: ProgressEntry, convert: ProgressEntry -> DatasetRecord)
    ensures ConvertAll(es + [e], convert) == ConvertAll(es, convert) + [convert(e)]
  {
    assert (es + [e])[..|es|] == es;
  }

  /** No entry is new when every batch id is already known. */
  lemma {:induction false} NoNewEntries(batch: seq<ProgressEntry>, ids: set<string>)
    requires forall e :: e in batch ==> e.recordId in ids
    ensures NewEntries(batch, ids) == []
  {
    if batch != [] {
      NoNewEntries(batch[..|batch| - 1], ids);
    }
  }

  lemma KeysAppend(a: seq<DatasetRecord>, b: seq<DatasetRecord>)
    ensures Keys(a + b) == Keys(a) + Keys(b)
  {
    var lhs, rhs := Keys(a + b), Keys(a) + Keys(b);
    forall i | 0 <= i < |lhs| ensures lhs[i] == rhs[i] {
      if i < |a| {
        assert (a + b)[i] == a[i];
      } else {
        assert (a + b)[i] == b[i - |a|];
      }
    }
  }

  lemma KeysConvertAll(es: seq<ProgressEntry>, convert: ProgressEntry -> DatasetRecord)
    requires KeepsId(convert)
    ensures Keys(ConvertAll(es, convert)) == seq(|es|, i requires 0 <= i < |es| => Some(es[i].recordId))
  {
    var tail := ConvertAll(es, convert);
    forall k | 0 <= k < |es| ensures Keys(tail)[k] == Some(es[k].recordId) {
      ConvertAllAt(es, convert, k);
    }
  }

  /** The identifiers after a merge are the old ones followed by the appended entries' ids. */
  lemma MergedKeys(current: seq<DatasetRecord>, es: seq<ProgressEntry>, convert: ProgressEntry -> DatasetRecord)
    requires KeepsId(convert)
    ensures Keys(current + ConvertAll(es, convert)) == Keys(current) + seq(|es|, i requires 0 <= i < |es| => Some(es[i].recordId))
  {
    KeysAppend(current, ConvertAll(es, convert));
    KeysConvertAll(es, convert);
  }

  /**
   * The merged dataset is free of repeated identifiers exactly when the
   * dataset was and the appended entries carry pairwise different ids: the
   * id set is never updated inside the loop.
   */
  lemma {:induction false} MergedDistinctIff(current: seq<DatasetRecord>, batch: seq<ProgressEntry>,
                                             convert: ProgressEntry -> DatasetRecord)
    requires ExistingIds(current).Some? && KeepsId(convert)
    ensures var incoming := NewEntries(batch, ExistingIds(current).value);
      Distinct(Keys(current + ConvertAll(incoming, convert)))
      <==> Distinct(Keys(current)) && Distinct(Ids(incoming))
  {
    var ids := ExistingIds(current).value;
    var incoming := NewEntries(batch, ids);
    var tail := seq(|incoming|, i requires 0 <= i < |incoming| => Some(incoming[i].recordId));
    MergedKeys(current, incoming, convert);
    DistinctConcat(Keys(current), tail);
    NewEntriesMembers(batch, ids);
    forall x | x in Elems(Keys(current)) ensures x !in Elems(tail) {
      forall i | 0 <= i < |tail| ensures tail[i] != x {
        assert incoming[i] in incoming;
        assert incoming[i].recordId !in ids;
      }
    }
    var idl := Ids(incoming);
    assert forall i :: 0 <= i < |tail| ==> tail[i] == Some(idl[i]);
    if Distinct(tail) {
      forall i, j | 0 <= i < j < |idl| ensures idl[i] != idl[j] {
        assert tail[i] != tail[j];
      }
    }
    if Distinct(idl) {
      forall i, j | 0 <= i < j < |tail| ensures tail[i] != tail[j] {
        assert idl[i] != idl[j];
      }
    }
  }

  /** Two batch entries sharing an id that is new to the dataset are both appended. */
  lemma RepeatedNewIdAppendedTwice(current: seq<DatasetRecord>, e: ProgressEntry,
                                   convert: ProgressEntry -> DatasetRecord)
    requires ExistingIds(current).Some? && e.recordId !in ExistingIds(current).value && KeepsId(convert)
    ensures var merged := current + ConvertAll(NewEntries([e, e], ExistingIds(current).value), convert);
      |merged| == |current| + 2 && !Distinct(Keys(merged))
  {
    var ids := ExistingIds(current).value;
    assert [e, e][..1] == [e];
    assert NewEntries([e], ids) == [e];
    var incoming := NewEntries([e, e], ids);
    assert incoming == [e, e];
    MergedKeys(current, incoming, convert);
    var merged := current + ConvertAll(incoming, convert);
    assert Keys(merged)[|current|] == Some(e.recordId) == Keys(merged)[|current| + 1];
  }

  /** Running the same merge again on its own output appends nothing. */
  lemma {:induction false} SecondMergeAddsNothing(current: seq<DatasetRecord>, batch: seq<ProgressEntry>,
                                                  convert: ProgressEntry -> DatasetRecord)
    requires ExistingIds(current).Some? && KeepsId(convert)
    ensures var merged := current + ConvertAll(NewEntries(batch, ExistingIds(current).value), convert);
      ExistingIds(merged).Some? && NewEntries(batch, ExistingIds(merged).value) == []
  {
    var ids := ExistingIds(current).value;
    var incoming := NewEntries(batch, ids);
    var merged := current + ConvertAll(incoming, convert);
    var tail := seq(|incoming|, i requires 0 <= i < |incoming| => Some(incoming[i].recordId));
    MergedKeys(current, incoming, convert);
    MergedIdsDefined(current, incoming, convert);
    var again := ExistingIds(merged).value;
    NewEntriesMembers(batch, ids);
    forall e | e in batch ensures e.recordId in again {
      if e.recordId in ids {
        assert Some(e.recordId) in Keys(current);
      } else {
        var k :| 0 <= k < |incoming| && incoming[k] == e;
        assert tail[k] == Some(e.recordId);
      }
      assert Some(e.recordId) in Keys(merged);
    }
    NoNewEntries(batch, again);
  }

  /** Appending converted entries to a dataset whose records all carry an id keeps every id readable. */
  lemma MergedIdsDefined(current: seq<DatasetRecord>, es: seq<ProgressEntry>, convert: ProgressEntry -> DatasetRecord)
    requires ExistingIds(current).Some? && KeepsId(convert)
    ensures ExistingIds(current + ConvertAll(es, convert)).Some?
  {
    var merged := current + ConvertAll(es, convert);
    forall i | 0 <= i < |merged| ensures merged[i].RecordIdKey().Some? {
      if i >= |current| {
        ConvertAllAt(es, convert, i - |current|);
      }
    }
  }

  /**
   * The set-based previews: overlap and unique ids partition the batch ids,
   * and the unique count never exceeds the loop's append count; they are
   * equal exactly when the appended ids are pairwise different.
   */
  lemma {:induction false} SetPreviewAgainstLoop(batch: seq<ProgressEntry>, ids: set<string>)
    ensures |BatchIds(batch) * ids| + |BatchIds(batch) - ids| == |BatchIds(batch)|
    ensures |BatchIds(batch) - ids| <= |NewEntries(batch, ids)|
    ensures |BatchIds(batch) - ids| == |NewEntries(batch, ids)| <==> Distinct(Ids(NewEntries(batch, ids)))
  {
    var all := BatchIds(batch);
    assert all == (all * ids) + (all - ids);
    assert (all * ids) * (all - ids) == {};
    var incoming := NewEntries(batch, ids);
    NewEntriesMembers(batch, ids);
    forall x ensures x in all - ids <==> x in Elems(Ids(incoming)) {
      if x in all - ids {
        var e :| e in batch && e.recordId == x;
        assert e in incoming;
        var k :| 0 <= k < |incoming| && incoming[k] == e;
        assert Ids(incoming)[k] == x;
      }
      if x in Elems(Ids(incoming)) {
        var k :| 0 <= k < |incoming| && Ids(incoming)[k] == x;
        assert incoming[k] in incoming;
      }
    }
    assert all - ids == Elems(Ids(incoming));
    DistinctCount(Ids(incoming));
  }

  // ----- State tally --------------------------------------------------------

  /** How many records have `k` as their `record.get('state', default)`. */
  function CountState<T>(records: seq<T>, stateOf: T -> Option<string>, default: string, k: string): nat
  {
    if records == [] then 0
    else
      CountState(records[..|records| - 1], stateOf, default, k)
        + (if stateOf(records[|records| - 1]).GetOr(default) == k then 1 else 0)
  }

  lemma CountStateSnoc<T>(records: seq<T>, x: T, stateOf: T -> Option<string>, default: string, k: string)
    ensures CountState(records + [x], stateOf, default, k)
      == CountState(records, stateOf, default, k) + (if stateOf(x).GetOr(default) == k then 1 else 0)
  {
    assert (records + [x])[..|records|] == records;
  }

  /**
   * The per-state tally loop: `state = record.get('state', default)`, and
   * with `skipEmpty` an empty state is not counted.
   */
  method TallyStates<T>(records: seq<T>, stateOf: T -> Option<string>, default: string, skipEmpty: bool)
    returns (counts: map<string, nat>)
    ensures forall k :: k in counts <==> (k != "" || !skipEmpty) && CountState(records, stateOf, default, k) > 0
    ensures forall k :: k in counts ==> counts[k] == CountState(records, stateOf, default, k)
  {
    counts := map[];
    for i := 0 to |records|
      invariant forall k :: k in counts <==> (k != "" || !skipEmpty) && CountState(records[..i], stateOf, default, k) > 0
      invariant forall k :: k in counts ==> counts[k] == CountState(records[..i], stateOf, default, k)
    {
      assert records[..i + 1][..i] == records[..i];
      var state := stateOf(records[i]).GetOr(default);
      if state != "" || !skipEmpty {
        counts := counts[state := (if state in counts then counts[state] else 0) + 1];
      }
    }
    assert records[..|records|] == records;
  }
}

=== FILE: records.dfy ===
/**
 * The record shapes that travel between the geocoding run, the batch file
 * and the canonical competitor dataset.
 */
module Records {
  import opened Wrappers
  import opened Service

  /** The location dict a successful lookup of the checkpointed geocoder stores. */
  datatype GeoHit = GeoHit(
    latitude: Coord,
    longitude: Coord,
    displayName: string,
    address: map<string, string>,
    importance: real,
    placeId: Option<int>,
    queryUsed: string)

  /** One processed CSV row as the checkpointed geocoder records it (results, errors, batch file). */
  datatype ProgressEntry = ProgressEntry(
    recordId: string,
    companyName: string,
    index: int,
    processedAt: string,
    geocoded: bool,
    error: Option<string>,
    location: Option<GeoHit>,
    domain: string,
    existingCity: string,
    existingZip: string)

  /** The competitor shape the merge scripts convert batch entries into. */
  datatype MergedRecord = MergedRecord(
    recordId: string,
    name: string,
    competitor: string,
    domain: string,
    city: string,
    state: string,
    owner: string,
    createDate: string,
    lat: Option<Coord>,
    lng: Option<Coord>,
    kind: string,
    products: seq<string>,
    customerType: string,
    arr: int,
    employees: int,
    lastContact: string,
    salesStage: string,
    priority: string)

  /** The competitor shape of the demo data and of the records extracted from a checkpoint. */
  datatype CompetitorRecord = CompetitorRecord(
    recordId: string,
    name: string,
    competitor: string,
    domain: string,
    city: string,
    state: string,
    owner: string,
    createDate: string,
    lat: Option<Coord>,
    lng: Option<Coord>,
    displayName: string,
    kind: string)

  /**
   * An element of the canonical dataset file.  The file is a JSON list whose
   * elements may have any of these shapes; `Raw` is a progress entry copied
   * verbatim, whose identifier key is spelt `record_id`.
   */
  datatype DatasetRecord =
    | Competitor(c: CompetitorRecord)
    | Merged(m: MergedRecord)
    | Raw(p: ProgressEntry)
  {
    /** `record['recordId']`: None stands for the KeyError a raw entry raises. */
    function RecordIdKey(): Option<string>
    {
      match this
      case Competitor(c) => Some(c.recordId)
      case Merged(m) => Some(m.recordId)
      case Raw(_) => None
    }

    /** `record.get('state')`: None when the key is absent. */
    function StateKey(): Option<string>
    {
      match this
      case Competitor(c) => Some(c.state)
      case Merged(m) => Some(m.state)
      case Raw(_) => None
    }
  }

  /** `record.get('state')` as a function value for the tally loops. */
  function StateOf(r: DatasetRecord): Option<string>
  {
    r.StateKey()
  }

  /**
   * The address dict of a batch entry's location, `{}` when there is none.
   * Python would raise on a `None` location instead; the merge scripts read
   * only successful results, which always carry one.
   */
  function AddressOf(e: ProgressEntry): map<string, string>
  {
    if e.location.Some? then e.location.value.address else map[]
  }

  /** `d.get(k)` on a str-valued dict, with Python truthiness folded in: "" for absent. */
  function Get(d: map<string, string>, k: string): string
  {
    if k in d then d[k] else ""
  }
}

=== FILE: run_geocoding_daemon.dfy ===
/**
 * The geocoding daemon: it runs the geocoder only in an off-hours window
 * of the day, watches the child process while the window lasts, waits
 * half an hour between checks, and stops once a shutdown signal has set
 * its stop flag. The clock, the child's output and the signals are
 * inputs: each loop step says what hour it is, whether the child has
 * exited, and whether a signal arrived.
 */
module RunGeocodingDaemon {
  import opened Wrappers

  /** The default window: from 10 PM to 6 AM. */
  const DefaultStart: int := 22
  const DefaultEnd: int := 6

  /** Seconds the daemon waits between checks: 30 minutes. */
  const WaitSeconds: nat := 1800

  /** is_off_hours: a window with start after end wraps past midnight; otherwise it is [start, end). */
  predicate IsOffHours(startHour: int, endHour: int, hour: int)
  {
    if startHour > endHour then hour >= startHour || hour < endHour
    else startHour <= hour < endHour
  }

  /** A window whose ends coincide holds no hour. */
  lemma EqualEndsNeverOff(h: int, hour: int)
    ensures !IsOffHours(h, h, hour)
  {
  }

  /** Swapping the ends of a window gives the rest of the day: a wrapping window is the complement of a same-day one. */
  lemma SwappedWindowIsComplement(startHour: int, endHour: int, hour: int)
    requires startHour != endHour
    ensures IsOffHours(startHour, endHour, hour) <==> !IsOffHours(endHour, startHour, hour)
  {
  }

  /** With the defaults the daemon works at 22:00 and 23:00 and from 0:00 to 5:00, and at no other hour of the day. */
  lemma DefaultWindow(hour: int)
    requires 0 <= hour < 24
    ensures IsOffHours(DefaultStart, DefaultEnd, hour) <==> hour in {22, 23, 0, 1, 2, 3, 4, 5}
  {
  }

  /**
   * One pass of the loop watching the child: a signal that arrived, the
   * child having closed its output and exited, and the hour of the check.
   */
  datatype Step = Step(signal: bool, exited: bool, hour: int)

  /** How watching the child ended: it exited, it was terminated, or the given steps ran out first. */
  datatype End = Exited(at: nat) | Terminated(at: nat) | Running

  datatype Monitored = Monitored(end: End, signalled: bool)

  /** The watch from step i on, with the stop flag and whether a signal has come so far. */
  function MonitorFrom(steps: seq<Step>, i: nat, stopped: bool, signalled: bool, startHour: int, endHour: int): (m: Monitored)
    ensures signalled ==> m.signalled
    ensures m.end.Exited? || m.end.Terminated? ==> i <= m.end.at < |steps|
    decreases |steps| - i
  {
    if i >= |steps| then Monitored(Running, signalled)
    else
      var stop := stopped || steps[i].signal;
      var sig := signalled || steps[i].signal;
      if steps[i].exited then Monitored(Exited(i), sig)
      else if stop || !IsOffHours(startHour, endHour, steps[i].hour) then Monitored(Terminated(i), sig)
      else MonitorFrom(steps, i + 1, stop, sig, startHour, endHour)
  }

  function Monitor(steps: seq<Step>, stopped: bool, startHour: int, endHour: int): Monitored
  {
    MonitorFrom(steps, 0, stopped, false, startHour, endHour)
  }

  /**
   * The watch never outlives a reason to stop: by the first step where a
   * signal comes, the stop flag is already set, or the hour is outside
   * the window, the child has exited or been terminated.
   */
  lemma {:induction false} MonitorStopsInTime(steps: seq<Step>, i: nat, stopped: bool, signalled: bool, startHour: int, endHour: int, j: nat)
    requires i <= j < |steps|
    requires stopped || steps[j].signal || !IsOffHours(startHour, endHour, steps[j].hour)
    ensures var m := MonitorFrom(steps, i, stopped, signalled, startHour, endHour);
      !m.end.Running? && m.end.at <= j
    decreases j - i
  {
    var stop := stopped || steps[i].signal;
    if i < j && !steps[i].exited && !stop && IsOffHours(startHour, endHour, steps[i].hour) {
      MonitorStopsInTime(steps, i + 1, stop, signalled || steps[i].signal, startHour, endHour, j);
    }
  }

  /**
   * The child is terminated only for a reason: at that step the stop flag
   * is set or the hour is outside the window; and the steps run out only
   * when no step had a signal, an exit, or an hour outside the window.
   */
  lemma {:induction false} MonitorReasons(steps: seq<Step>, i: nat, stopped: bool, signalled: bool, startHour: int, endHour: int)
    ensures var m := MonitorFrom(steps, i, stopped, signalled, startHour, endHour);
      && (m.end.Terminated? ==>
            stopped || m.signalled || !IsOffHours(startHour, endHour, steps[m.end.at].hour))
      && (m.end.Running? ==>
            && (!stopped || i >= |steps|) && m.signalled == signalled
            && (forall k :: i <= k < |steps| ==> !steps[k].signal && !steps[k].exited && IsOffHours(startHour, endHour, steps[k].hour)))
    decreases |steps| - i
  {
    if i < |steps| {
      var stop := stopped || steps[i].signal;
      var sig := signalled || steps[i].signal;
      MonitorReasons(steps, i + 1, stop, sig, startHour, endHour);
      if !steps[i].exited && !stop && IsOffHours(startHour, endHour, steps[i].hour) {
        assert MonitorFrom(steps, i, stopped, signalled, startHour, endHour) == MonitorFrom(steps, i + 1, stop, sig, startHour, endHour);
      } else {
        assert !MonitorFrom(steps, i, stopped, signalled, startHour, endHour).end.Running?;
      }
    }
  }

  /** One round of the daemon loop: the hour of the check, the watch steps, and the second of the wait at which a signal came, if one did. */
  datatype Round = Round(hour: int, steps: seq<Step>, waitSignal: Option<nat>)

  /** Whether the stop flag is set at the end of a round that started with it clear. */
  predicate RoundStops(r: Round, startHour: int, endHour: int)
  {
    (IsOffHours(startHour, endHour, r.hour) && Monitor(r.steps, false, startHour, endHour).signalled)
    || (r.waitSignal.Some? && r.waitSignal.value < WaitSeconds)
  }

  /** The rounds run from round i on: up to and including the first that ends with the stop flag set. */
  function RoundsFrom(rounds: seq<Round>, i: nat, startHour: int, endHour: int): (n: nat)
    requires i <= |rounds|
    ensures i <= n <= |rounds|
    decreases |rounds| - i
  {
    if i == |rounds| then i
    else if RoundStops(rounds[i], startHour, endHour) then i + 1
    else RoundsFrom(rounds, i + 1, startHour, endHour)
  }

  /**
   * The daemon leaves its loop only once a round has set the stop flag:
   * every round before the last one run kept it clear, and a stop before
   * the rounds run out comes from the last round run.
   */
  lemma {:induction false} StopsOnlyOnStop(rounds: seq<Round>, i: nat, startHour: int, endHour: int)
    requires i <= |rounds|
    ensures var n := RoundsFrom(rounds, i, startHour, endHour);
      && (forall k :: i <= k < n - 1 ==> !RoundStops(rounds[k], startHour, endHour))
      && (n < |rounds| ==> n > i && RoundStops(rounds[n - 1], startHour, endHour))
      && (n == |rounds| && n > i && !RoundStops(rounds[n - 1], startHour, endHour) ==>
            forall k :: i <= k < n ==> !RoundStops(rounds[k], startHour, endHour))
    decreases |rounds| - i
  {
    if i < |rounds| && !RoundStops(rounds[i], startHour, endHour) {
      StopsOnlyOnStop(rounds, i + 1, startHour, endHour);
    }
  }

  /** The child process, and whether it has been told to terminate. */
  datatype Child = Child(terminated: bool)

  class GeocodingDaemon {
    var shouldStop: bool
    var child: Option<Child>
    const startHour: int
    const endHour: int

    constructor()
      ensures !shouldStop && child == None
      ensures startHour == DefaultStart && endHour == DefaultEnd
    {
      shouldStop := false;
      child := None;
      startHour := DefaultStart;
      endHour := DefaultEnd;
    }

    /** signal_handler: set the stop flag and terminate a running child. */
    method SignalHandler()
      modifies this
      ensures shouldStop
      ensures child == if old(child).Some? then Some(Child(true)) else None
    {
      shouldStop := true;
      if child.Some? {
        child := Some(Child(true));
      }
    }

    /**
     * run_geocoding: start the child, then watch it until it exits or,
     * once the stop flag is set or the hour leaves the window, terminate
     * it. `terminated` tells whether it was told to terminate.
     */
    method RunGeocoding(steps: seq<Step>) returns (end: End, terminated: bool)
      modifies this
      ensures var m := Monitor(steps, old(shouldStop), startHour, endHour);
        && end == m.end
        && shouldStop == (old(shouldStop) || m.signalled)
        && terminated == (m.end.Terminated? || m.signalled)
      ensures child == None
    {
      child := Some(Child(false));
      end := Running;
      var i := 0;
      var signalled := false;
      while i < |steps| && end.Running?
        invariant 0 <= i <= |steps|
        invariant child.Some?
        invariant shouldStop == (old(shouldStop) || signalled)
        invariant end.Running? ==> (child.value.terminated == signalled &&
          Monitor(steps, old(shouldStop), startHour, endHour) == MonitorFrom(steps, i, shouldStop, signalled, startHour, endHour))
        invariant !end.Running? ==> (child.value.terminated == (end.Terminated? || signalled) &&
          Monitor(steps, old(shouldStop), startHour, endHour) == Monitored(end, signalled))
        decreases |steps| - i, if end.Running? then 1 else 0
      {
        if steps[i].signal {
          SignalHandler();
          signalled := true;
        }
        if steps[i].exited {
          end := Exited(i);
        } else if shouldStop || !IsOffHours(startHour, endHour, steps[i].hour) {
          child := Some(Child(true));
          end := Terminated(i);
        } else {
          i := i + 1;
        }
      }
      terminated := child.value.terminated;
      child := None;
    }

    /** The 30-minute wait: a second at a time, leaving early once the stop flag is set. */
    method Wait(signalAt: Option<nat>) returns (slept: nat)
      modifies this
      ensures var signalled := signalAt.Some? && signalAt.value < WaitSeconds;
        && shouldStop == (old(shouldStop) || signalled)
        && slept == (if old(shouldStop) then 0 else if signalled then signalAt.value else WaitSeconds)
      ensures old(child).None? ==> child.None?
    {
      slept := 0;
      var done := false;
      while slept < WaitSeconds && !done
        invariant slept <= WaitSeconds
        invariant old(shouldStop) ==> slept == 0 && shouldStop
        invariant !old(shouldStop) ==> signalAt.None? || signalAt.value >= slept
        invariant !old(shouldStop) ==> (shouldStop <==> done) && (done ==> signalAt == Some(slept))
        invariant done ==> slept < WaitSeconds
        invariant old(child).None? ==> child.None?
        decreases WaitSeconds - slept, if done then 0 else 1
      {
        if signalAt == Some(slept) {
          SignalHandler();
        }
        if shouldStop {
          done := true;
        } else {
          slept := slept + 1;
        }
      }
    }

    /** run_daemon: rounds of an off-hours run and a wait, for as long as the stop flag stays clear. */
    method RunDaemon(rounds: seq<Round>) returns (ran: nat)
      modifies this
      ensures old(shouldStop) ==> ran == 0 && shouldStop
      ensures !old(shouldStop) ==> (ran == RoundsFrom(rounds, 0, startHour, endHour) &&
        (shouldStop <==> ran > 0 && RoundStops(rounds[ran - 1], startHour, endHour)))
      ensures old(child).None? ==> child.None?
    {
      ran := 0;
      while !shouldStop && ran < |rounds|
        invariant ran <= |rounds|
        invariant old(shouldStop) ==> ran == 0 && shouldStop
        invariant !old(shouldStop) && !shouldStop ==> RoundsFrom(rounds, 0, startHour, endHour) == RoundsFrom(rounds, ran, startHour, endHour)
        invariant !old(shouldStop) && !shouldStop ==> ran == 0 || !RoundStops(rounds[ran - 1], startHour, endHour)
        invariant !old(shouldStop) && shouldStop ==> (ran > 0 && RoundStops(rounds[ran - 1], startHour, endHour) &&
          RoundsFrom(rounds, 0, startHour, endHour) == ran)
        invariant old(child).None? ==> child.None?
        decreases |rounds| - ran
      {
        var r := rounds[ran];
        if IsOffHours(startHour, endHour, r.hour) {
          var end, terminated := RunGeocoding(r.steps);
        }
        var slept := Wait(r.waitSignal);
        ran := ran + 1;
      }
    }
  }
}

=== FILE: school_type.dfy ===
/**
 * The keyword classifier of intelligent_geocoder.py and geocode_with_dedup.py
 * (`determine_school_type`): the first rule that fires decides the label.
 */
module SchoolType {
  import opened Wrappers
  import opened Text
  import opened Sheet

  const PrivateWords: seq<string> :=
    ["catholic", "christian", "episcopal", "methodist", "baptist", "lutheran", "parish", "academy", "preparatory", "prep"]
  const CharterWords: seq<string> := ["charter", "academy"]
  const DistrictWords: seq<string> := ["district", "unified", "school district", "public"]

  predicate Label(t: string)
  {
    t in {"charter", "private", "district", "cmo", "esc"}
  }

  /** `any(word in name for word in words)`. */
  predicate AnyIn(words: seq<string>, name: string)
  {
    exists k :: 0 <= k < |words| && Contains(name, words[k])
  }

  /**
   * The keyword rules on the lower-cased name, in order: private words
   * without "district", charter words without "district", district words,
   * "cmo", "esc", and finally "school" for charter, anything else district.
   */
  function KeywordType(name: string): (t: string)
    ensures Label(t)
    ensures t == "private" <==> AnyIn(PrivateWords, name) && !Contains(name, "district")
    ensures t == "cmo" ==> Contains(name, "cmo") || Contains(name, "charter management")
    ensures t == "esc" ==> Contains(name, "esc") || Contains(name, "educational service")
  {
    if AnyIn(PrivateWords, name) && !Contains(name, "district") then "private"
    else if AnyIn(CharterWords, name) && !Contains(name, "district") then "charter"
    else if AnyIn(DistrictWords, name) then "district"
    else if Contains(name, "cmo") || Contains(name, "charter management") then "cmo"
    else if Contains(name, "esc") || Contains(name, "educational service") then "esc"
    else if Contains(name, "school") then "charter"
    else "district"
  }

  /** A string containing `t` + `u` contains `t`. */
  lemma ContainsPrefixOf(s: string, t: string, u: string)
    requires Contains(s, t + u)
    ensures Contains(s, t)
  {
    var i :| OccursAt(s, t + u, i);
    assert s[i..i + |t|] == (t + u)[..|t|];
    assert OccursAt(s, t, i);
  }

  /** A string containing `t` + `u` contains `u`. */
  lemma ContainsSuffixOf(s: string, t: string, u: string)
    requires Contains(s, t + u)
    ensures Contains(s, u)
  {
    var i :| OccursAt(s, t + u, i);
    assert s[i + |t|..i + |t| + |u|] == (t + u)[|t|..];
    assert OccursAt(s, u, i + |t|);
  }

  /**
   * "academy" is both a private and a charter word; the private rule comes
   * first, so an academy without "district" is always private.
   */
  lemma AcademyIsPrivate(name: string)
    requires Contains(name, "academy") && !Contains(name, "district")
    ensures KeywordType(name) == "private"
  {
    assert Contains(name, PrivateWords[7]);
  }

  /**
   * The "charter management" test of the cmo rule never decides: such a name
   * contains "charter", so an earlier rule has already fired.
   */
  lemma CharterManagementNeverCmo(name: string)
    requires Contains(name, "charter management") && !Contains(name, "cmo")
    ensures KeywordType(name) != "cmo"
  {
    assert "charter" + " management" == "charter management";
    ContainsPrefixOf(name, "charter", " management");
    assert Contains(name, CharterWords[0]);
    assert AnyIn(CharterWords, name);
    if Contains(name, "district") {
      assert Contains(name, DistrictWords[0]);
    }
  }

  /** "school district" contains "district", so that district word never decides by itself. */
  lemma SchoolDistrictIsDistrictWord(name: string)
    requires Contains(name, "school district")
    ensures Contains(name, "district")
  {
    assert "school " + "district" == "school district";
    ContainsSuffixOf(name, "school ", "district");
  }

  /** A cell that is truthy and whose lower-cased text mentions "charter". */
  predicate MentionsCharter(v: Option<Cell>)
  {
    v.Some? && CellTruthy(v.value) && Contains(Lower(CellStr(v.value)), "charter")
  }

  /**
   * intelligent_geocoder.py `determine_school_type`: the institution type
   * field, then the building charter field (truthy and not NaN), then the
   * keyword rules on the lower-cased name.
   */
  function DetermineSchoolType(name: string, institutionType: Option<Cell>, buildingCharter: Option<Cell>): (t: string)
    ensures Label(t)
    ensures MentionsCharter(institutionType) ==> t == "charter"
    ensures NotNa(buildingCharter) && MentionsCharter(buildingCharter) ==> t == "charter"
  {
    if MentionsCharter(institutionType) then "charter"
    else if NotNa(buildingCharter) && MentionsCharter(buildingCharter) then "charter"
    else KeywordType(Lower(name))
  }

  /**
   * Without the two extra fields the classifier is the keyword rules alone,
   * which is geocode_with_dedup.py's `determine_school_type`.
   */
  lemma WithoutFieldsIsKeywordType(name: string)
    ensures DetermineSchoolType(name, None, None) == KeywordType(Lower(name))
  {
  }

  /** A NaN building-charter cell, although truthy, never makes a school charter. */
  lemma NaNBuildingCharterIgnored(name: string, institutionType: Option<Cell>)
    ensures DetermineSchoolType(name, institutionType, Some(NaN)) == DetermineSchoolType(name, institutionType, None)
  {
  }
}

=== FILE: seqs.dfy ===
/** Facts about sequences used by the merge, preview and sheet models. */
module Seqs {

  /** `[f(x) for x in xs]`. */
  function Mapped<S, T>(xs: seq<S>, f: S -> T): (ys: seq<T>)
    ensures |ys| == |xs|
  {
    if xs == [] then [] else [f(xs[0])] + Mapped(xs[1..], f)
  }

  lemma {:induction false} MappedAt<S, T>(xs: seq<S>, f: S -> T, i: nat)
    requires i < |xs|
    ensures Mapped(xs, f)[i] == f(xs[i])
  {
    if i > 0 {
      MappedAt(xs[1..], f, i - 1);
    }
  }

  /** Equal elements have equal images. */
  lemma MappedSame<S, T>(xs: seq<S>, f: S -> T, i: nat, k: nat)
    requires i < |xs| && k < |xs| && xs[i] == xs[k]
    ensures Mapped(xs, f)[i] == Mapped(xs, f)[k]
  {
    MappedAt(xs, f, i);
    MappedAt(xs, f, k);
  }

  /** Mapping a sequence with one more element at the end appends that element's image. */
  lemma {:induction false} MappedSnoc<S, T>(xs: seq<S>, f: S -> T)
    requires xs != []
    ensures Mapped(xs, f) == Mapped(xs[..|xs| - 1], f) + [f(xs[|xs| - 1])]
  {
    if |xs| > 1 {
      MappedSnoc(xs[1..], f);
      assert xs[1..][..|xs| - 2] == xs[..|xs| - 1][1..];
    }
  }

  /** Mapping a concatenation maps each part. */
  lemma {:induction false} MappedConcat<S, T>(xs: seq<S>, ys: seq<S>, f: S -> T)
    ensures Mapped(xs + ys, f) == Mapped(xs, f) + Mapped(ys, f)
  {
    if xs != [] {
      MappedConcat(xs[1..], ys, f);
      assert (xs + ys)[1..] == xs[1..] + ys;
    } else {
      assert xs + ys == ys;
    }
  }

  /** Two functions that agree on every element map a list alike. */
  lemma {:induction false} MappedAgree<S, T>(xs: seq<S>, f: S -> T, g: S -> T)
    requires forall i :: 0 <= i < |xs| ==> f(xs[i]) == g(xs[i])
    ensures Mapped(xs, f) == Mapped(xs, g)
  {
    if xs != [] {
      assert forall i :: 0 <= i < |xs| - 1 ==> xs[1..][i] == xs[i + 1];
      MappedAgree(xs[1..], f, g);
    }
  }

  /** Mapping twice is mapping once by the composition. */
  lemma {:induction false} MappedMapped<A, B, C>(xs: seq<A>, f: A -> B, g: B -> C, h: A -> C)
    requires forall i :: 0 <= i < |xs| ==> g(f(xs[i])) == h(xs[i])
    ensures Mapped(Mapped(xs, f), g) == Mapped(xs, h)
  {
    if xs != [] {
      assert forall i :: 0 <= i < |xs| - 1 ==> xs[1..][i] == xs[i + 1];
      MappedMapped(xs[1..], f, g, h);
    }
  }

  /** The positions of a list whose element satisfies p. */
  function Indices<T>(s: seq<T>, p: T -> bool): (r: set<int>)
    ensures forall i :: i in r <==> 0 <= i < |s| && p(s[i])
  {
    set i | 0 <= i < |s| && p(s[i])
  }

  /** Counting those positions one element more at a time. */
  lemma IndicesSnoc<T>(s: seq<T>, p: T -> bool)
    requires s != []
    ensures |Indices(s, p)| == |Indices(s[..|s| - 1], p)| + (if p(s[|s| - 1]) then 1 else 0)
  {
    var n := |s| - 1;
    var before := Indices(s[..n], p);
    var now := Indices(s, p);
    if p(s[n]) {
      assert now == before + {n};
    } else {
      assert now == before;
    }
  }

  /** The prefix one longer than `s[..j]` ends in `s[j]`. */
  lemma PrefixSnoc<T>(s: seq<T>, j: nat)
    requires j < |s|
    ensures s[..j + 1][..j] == s[..j] && s[..j + 1][j] == s[j] && |s[..j + 1]| == j + 1
  {
  }

  /** A prefix of a prefix is a prefix, with the same elements. */
  lemma PrefixOfPrefix<T>(s: seq<T>, n: nat, j: nat)
    requires j <= n <= |s|
    ensures s[..n][..j] == s[..j]
    ensures forall i :: 0 <= i < n ==> s[..n][i] == s[i]
  {
  }

  lemma AppendAssoc<T>(a: seq<T>, b: seq<T>, c: seq<T>)
    ensures a + (b + c) == (a + b) + c
  {
  }

  predicate Distinct<T(==)>(xs: seq<T>)
  {
    forall i, j :: 0 <= i < j < |xs| ==> xs[i] != xs[j]
  }

  function Elems<T(==)>(xs: seq<T>): set<T>
  {
    set x | x in xs
  }

  /** A list has at most as many distinct values as entries, and exactly as many iff it has no repeats. */
  lemma {:induction false} DistinctCount<T>(xs: seq<T>)
    ensures |Elems(xs)| <= |xs|
    ensures |Elems(xs)| == |xs| <==> Distinct(xs)
  {
    if xs != [] {
      var a, rest := xs[0], xs[1..];
      DistinctCount(rest);
      assert xs == [a] + rest;
      assert Elems(xs) == {a} + Elems(rest);
      if a in rest {
        assert Elems(xs) == Elems(rest);
        var k :| 0 <= k < |rest| && rest[k] == a;
        assert xs[0] == xs[k + 1];
      } else {
        assert a !in Elems(rest);
        assert |Elems(xs)| == |Elems(rest)| + 1;
        if Distinct(rest) {
          forall i, j | 0 <= i < j < |xs| ensures xs[i] != xs[j] {
            if i > 0 { assert xs[i] == rest[i - 1] && xs[j] == rest[j - 1]; }
            else { assert xs[j] == rest[j - 1]; }
          }
        }
        if Distinct(xs) {
          forall i, j | 0 <= i < j < |rest| ensures rest[i] != rest[j] {
            assert rest[i] == xs[i + 1] && rest[j] == xs[j + 1];
          }
        }
      }
    }
  }

  /** Two lists concatenate to a repeat-free list iff each is repeat-free and they share nothing. */
  lemma DistinctConcat<T>(xs: seq<T>, ys: seq<T>)
    ensures Distinct(xs + ys) <==> Distinct(xs) && Distinct(ys) && Elems(xs) !! Elems(ys)
  {
    var zs := xs + ys;
    if Distinct(zs) {
      forall i, j | 0 <= i < j < |xs| ensures xs[i] != xs[j] {
        assert xs[i] == zs[i] && xs[j] == zs[j];
      }
      forall i, j | 0 <= i < j < |ys| ensures ys[i] != ys[j] {
        assert ys[i] == zs[|xs| + i] && ys[j] == zs[|xs| + j];
      }
      forall x | x in Elems(xs) ensures x !in Elems(ys) {
        var i :| 0 <= i < |xs| && xs[i] == x;
        forall j | 0 <= j < |ys| ensures ys[j] != x {
          assert zs[i] == x && zs[|xs| + j] == ys[j];
        }
      }
    }
    if Distinct(xs) && Distinct(ys) && Elems(xs) !! Elems(ys) {
      forall i, j | 0 <= i < j < |zs| ensures zs[i] != zs[j] {
        if j < |xs| {
        } else if i >= |xs| {
          assert zs[i] == ys[i - |xs|] && zs[j] == ys[j - |xs|];
        } else {
          assert zs[i] in Elems(xs) && zs[j] == ys[j - |xs|] && zs[j] in Elems(ys);
        }
      }
    }
  }
}

=== FILE: service.dfy ===
/**
 * The geocoding service (Nominatim) as an oracle.  The model never performs
 * a request: a geocoder receives the answer the service gives to the
 * `attempt`-th request for a query, for every query and attempt.
 */
module Service {
  import opened Wrappers

  /** Latitude and longitude are passed through untouched; Python truthiness of a float is `!= 0`. */
  type Coord = real

  predicate Truthy(c: Option<Coord>)
  {
    c.Some? && c.value != 0.0
  }

  /** The first element of a non-empty Nominatim search answer. */
  datatype Place = Place(
    lat: Coord,
    lon: Coord,
    displayName: string,
    address: Option<map<string, string>>,
    importance: Option<real>,
    placeId: Option<int>)

  /**
   * What one request yields: a place, an empty answer, a transport-level
   * failure (requests.RequestException: connection, timeout, HTTP status,
   * undecodable JSON), or any other failure while reading the answer.
   */
  datatype Response = Found(place: Place) | NoResults | RequestFailure | UnexpectedFailure

  type Oracle = (string, nat) -> Response
}

=== FILE: sheet.dfy ===
/**
 * Spreadsheet rows as the pandas-based scripts see them.  A cell is a
 * missing value (NaN), a piece of text, or a number together with the text
 * `str()` renders it as; a row maps column names to cells.
 */
module Sheet {
  import opened Wrappers
  import opened Text
  import opened Service

  datatype Cell = NaN | Str(s: string) | Number(x: real, shown: string)

  type Row = map<string, Cell>

  /** `row.get(col)`: None when the column is absent. */
  function Lookup(row: Row, col: string): Option<Cell>
  {
    if col in row then Some(row[col]) else None
  }

  /** `str(cell)`: NaN renders as "nan". */
  function CellStr(c: Cell): string
  {
    match c
    case NaN => "nan"
    case Str(s) => s
    case Number(_, shown) => shown
  }

  /** `str(row.get(col, default))`. */
  function GetStr(row: Row, col: string, default: string): string
  {
    if col in row then CellStr(row[col]) else default
  }

  /** `str(row.get(col, default)).strip()`. */
  function Field(row: Row, col: string, default: string): string
  {
    Strip(GetStr(row, col, default))
  }

  /** `pd.notna(v)` for a value that may be None. */
  predicate NotNa(v: Option<Cell>)
  {
    v.Some? && !v.value.NaN?
  }

  /** Python truthiness of a cell value: NaN is a non-zero float and therefore true. */
  predicate CellTruthy(c: Cell)
  {
    match c
    case NaN => true
    case Str(s) => s != ""
    case Number(x, _) => x != 0.0
  }

  /** A string with no whitespace at either end is its own strip. */
  lemma StripStripped(s: string)
    requires s == [] || (!IsSpace(s[0]) && !IsSpace(s[|s| - 1]))
    ensures Strip(s) == s
  {
  }

  /** A stripped string has no whitespace at either end. */
  lemma {:induction false} StripEnds(s: string)
    ensures var t := Strip(s); t == [] || (!IsSpace(t[0]) && !IsSpace(t[|t| - 1]))
  {
    var l := LStripBy(s, IsSpace);
    RStripByPrefix(l, IsSpace);
  }

  predicate HasScheme(u: string)
  {
    StartsWith(u, "http://") || StartsWith(u, "https://")
  }

  /**
   * `format_url`: no URL for a missing value, NaN, '' or 'N/A'; otherwise the
   * stripped text, prefixed with "https://" unless it already names a scheme.
   */
  function FormatUrl(v: Option<Cell>): (r: Option<string>)
    ensures r.None? <==> v.None? || v.value in {NaN, Str(""), Str("N/A")}
    ensures r.Some? ==> HasScheme(r.value)
    ensures r.Some? && HasScheme(Strip(CellStr(v.value))) ==> r.value == Strip(CellStr(v.value))
    ensures r.Some? && !HasScheme(Strip(CellStr(v.value))) ==> r.value == "https://" + Strip(CellStr(v.value))
  {
    if v.None? || v.value.NaN? || v.value == Str("") || v.value == Str("N/A") then None
    else
      var u := Strip(CellStr(v.value));
      if HasScheme(u) then Some(u)
      else
        assert StartsWith("https://" + u, "https://");
        Some("https://" + u)
  }

  /** Formatting an already formatted URL changes nothing. */
  lemma FormatUrlIdempotent(v: Option<Cell>)
    requires FormatUrl(v).Some?
    ensures FormatUrl(Some(Str(FormatUrl(v).value))) == FormatUrl(v)
  {
    var u := Strip(CellStr(v.value));
    var r := FormatUrl(v).value;
    StripEnds(CellStr(v.value));
    if !HasScheme(u) {
      assert r == "https://" + u;
      assert r[0] == 'h';
      assert u != [] ==> r[|r| - 1] == u[|u| - 1];
    }
    StripStripped(r);
  }
}

=== FILE: simple_merge.dfy ===
/** simple_merge.py: merge, backup then write with no restore, state tally. */
module SimpleMerge {
  import opened Wrappers
  import opened Records
  import opened Reconcile
  import opened DatasetFile

  const CurrentFile := "apptegy-geocoded-current.json"

  /**
   * `main`: no handler anywhere, so any failure ends the script where it
   * happens; after a commit the non-empty states are tallied with '' for
   * a missing state.
   */
  method Run(fs: Store, batch: Option<seq<ProgressEntry>>, backup: string, faults: Faults)
    returns (after: Store, run: MergeRun, stateCounts: map<string, nat>)
    ensures !Loaded(fs, CurrentFile, batch) ==> after == fs && (run.LoadFailed? || run.MissingRecordId?)
    ensures Loaded(fs, CurrentFile, batch) ==>
      var (committed, outcome) := Commit(fs, CurrentFile, backup, MergedList(fs, CurrentFile, batch, ConvertBatchRecord), faults, false);
      after == committed && (run.Committed? <==> outcome.Committed?) && (!run.Committed? ==> run == outcome)
    ensures !run.Committed? ==> stateCounts == map[]
    ensures run.Committed? ==>
      && Loaded(fs, CurrentFile, batch)
      && run.total == |fs[CurrentFile].records| + run.added
      && (forall k :: k in stateCounts <==>
            k != "" && CountState(MergedList(fs, CurrentFile, batch, ConvertBatchRecord), StateOf, "", k) > 0)
      && (forall k :: k in stateCounts ==>
            stateCounts[k] == CountState(MergedList(fs, CurrentFile, batch, ConvertBatchRecord), StateOf, "", k))
  {
    after, run := MergeAndCommit(fs, CurrentFile, backup, batch, ConvertBatchRecord, faults, false);
    stateCounts := map[];
    if run.Committed? {
      stateCounts := TallyStates(after[CurrentFile].records, StateOf, "", true);
    }
  }
}

=== FILE: simulate_merge.dfy ===
/** simulate_merge.py: the new-record count and state distribution, with no file written. */
module SimulateMerge {
  import opened Wrappers
  import opened Records
  import opened Reconcile
  import opened MergePreview

  /**
   * The script body: None is the KeyError of a current record without
   * `recordId`; otherwise the count of batch entries the merge would append
   * (repeats within the batch included) and the predicted total, then the
   * states of those entries ("Unknown" for a missing key, empty ones
   * skipped).  `hasSuccessRate` says whether the batch metadata holds
   * `success_rate`: without it the 'N/A' default meets the `:.2f` format,
   * which raises a ValueError, and the script stops before the tally (None).
   */
  method Simulate(current: seq<DatasetRecord>, batch: seq<ProgressEntry>, hasSuccessRate: bool)
    returns (r: Option<(nat, nat, Option<map<string, nat>>)>)
    ensures r.None? <==> ExistingIds(current).None?
    ensures r.Some? ==>
      var ids := ExistingIds(current).value;
      var (newRecords, predictedTotal, tally) := r.value;
      && newRecords == |NewEntries(batch, ids)|
      && predictedTotal == |current| + newRecords
      && (tally.Some? <==> hasSuccessRate)
      && (tally.Some? ==> forall k :: k in tally.value <==> k != "" && CountState(NewEntries(batch, ids), AddressState, "Unknown", k) > 0)
      && (tally.Some? ==> forall k :: k in tally.value ==> tally.value[k] == CountState(NewEntries(batch, ids), AddressState, "Unknown", k))
  {
    var ids := ExistingIds(current);
    if ids.None? {
      return None;
    }
    var newRecords, _ := CountNew(batch, ids.value);
    if !hasSuccessRate {
      return Some((newRecords, |current| + newRecords, None));
    }
    var states := TallyNewStates(batch, ids.value);
    r := Some((newRecords, |current| + newRecords, Some(states)));
  }
}

=== FILE: text.dfy ===
/**
 * String helpers shared by the Python scripts and the JavaScript modules.
 * Strings are sequences of characters; case mapping and whitespace are
 * modelled on ASCII (see README, "Left out").
 */
module Text {

  /** Python's str.isspace() and the regex class \s, restricted to ASCII. */
  predicate IsSpace(c: char)
  {
    c == ' ' || ('\t' <= c <= '\r') || ('\U{1C}' <= c <= '\U{1F}')
  }

  /** JavaScript's String.prototype.trim() whitespace, restricted to ASCII and U+00A0. */
  predicate IsJsSpace(c: char)
  {
    c == ' ' || ('\t' <= c <= '\r') || c == '\U{A0}'
  }

  function LowerChar(c: char): char
  {
    if 'A' <= c <= 'Z' then (c as int + 32) as char else c
  }

  function UpperChar(c: char): char
  {
    if 'a' <= c <= 'z' then (c as int - 32) as char else c
  }

  /** str.lower() / String.prototype.toLowerCase(). */
  function Lower(s: string): (r: string)
    ensures |r| == |s|
    ensures forall i :: 0 <= i < |s| ==> r[i] == LowerChar(s[i])
  {
    if s == [] then [] else [LowerChar(s[0])] + Lower(s[1..])
  }

  /** str.upper() / String.prototype.toUpperCase(). */
  function Upper(s: string): (r: string)
    ensures |r| == |s|
    ensures forall i :: 0 <= i < |s| ==> r[i] == UpperChar(s[i])
  {
    if s == [] then [] else [UpperChar(s[0])] + Upper(s[1..])
  }

  /** str.lstrip(chars): drops the longest prefix made of characters satisfying `drop`. */
  function LStripBy(s: string, drop: char -> bool): (r: string)
    ensures |r| <= |s|
    ensures forall i :: 0 <= i < |s| - |r| ==> drop(s[i])
    ensures r == [] || !drop(r[0])
  {
    if s != [] && drop(s[0]) then
      var r := LStripBy(s[1..], drop);
      assert forall i :: 0 <= i < |s| - 1 ==> s[1..][i] == s[i + 1];
      r
    else
      s
  }

  /** str.rstrip(chars): drops the longest suffix made of characters satisfying `drop`. */
  function RStripBy(s: string, drop: char -> bool): (r: string)
    ensures |r| <= |s|
    ensures forall i :: |r| <= i < |s| ==> drop(s[i])
    ensures r == [] || !drop(r[|r| - 1])
  {
    if s != [] && drop(s[|s| - 1]) then
      var r := RStripBy(s[..|s| - 1], drop);
      assert forall i :: 0 <= i < |s| - 1 ==> s[..|s| - 1][i] == s[i];
      r
    else
      s
  }

  /** What lstrip keeps is a suffix of its input. */
  lemma {:induction false} LStripBySuffix(s: string, drop: char -> bool)
    ensures LStripBy(s, drop) == s[|s| - |LStripBy(s, drop)|..]
  {
    if s != [] && drop(s[0]) {
      LStripBySuffix(s[1..], drop);
      var k := |LStripBy(s, drop)|;
      assert s[1..][|s| - 1 - k..] == s[|s| - k..];
    }
  }

  /** What rstrip keeps is a prefix of its input. */
  lemma {:induction false} RStripByPrefix(s: string, drop: char -> bool)
    ensures RStripBy(s, drop) == s[..|RStripBy(s, drop)|]
  {
    if s != [] && drop(s[|s| - 1]) {
      RStripByPrefix(s[..|s| - 1], drop);
      var k := |RStripBy(s, drop)|;
      assert s[..|s| - 1][..k] == s[..k];
    }
  }

  function StripBy(s: string, drop: char -> bool): string
  {
    RStripBy(LStripBy(s, drop), drop)
  }

  /** Python's str.strip() with no argument. */
  function Strip(s: string): string
  {
    StripBy(s, IsSpace)
  }

  /** JavaScript's String.prototype.trim(). */
  function Trim(s: string): string
  {
    StripBy(s, IsJsSpace)
  }

  predicate StartsWith(s: string, prefix: string)
  {
    |prefix| <= |s| && s[..|prefix|] == prefix
  }

  /** A text that differs from a prefix at one of its positions does not start with it. */
  lemma NotStartsWithAt(s: string, prefix: string, i: int)
    requires 0 <= i < |prefix| && (i < |s| ==> s[i] != prefix[i])
    ensures !StartsWith(s, prefix)
  {
    if |prefix| <= |s| {
      assert s[..|prefix|][i] == s[i];
    }
  }

  predicate EndsWith(s: string, suffix: string)
  {
    |suffix| <= |s| && s[|s| - |suffix|..] == suffix
  }

  predicate OccursAt(s: string, t: string, i: int)
  {
    0 <= i && i + |t| <= |s| && s[i..i + |t|] == t
  }

  /** Occurrences in the tail of `s` are the occurrences in `s` one position on. */
  lemma OccursAtTail(s: string, t: string, i: int)
    requires s != [] && 0 <= i
    ensures OccursAt(s[1..], t, i) <==> OccursAt(s, t, i + 1)
  {
    if i + |t| <= |s| - 1 {
      assert s[1..][i..i + |t|] == s[i + 1..i + 1 + |t|];
    }
  }

  /** Occurrences in `s` without its last character are those that end before it. */
  lemma OccursAtFront(s: string, t: string, i: int)
    requires s != [] && 0 <= i
    ensures OccursAt(s[..|s| - 1], t, i) <==> OccursAt(s, t, i) && i + |t| < |s|
  {
    if i + |t| < |s| {
      assert s[..|s| - 1][i..i + |t|] == s[i..i + |t|];
    }
  }

  /** Python's `t in s` and JavaScript's s.includes(t). */
  function Contains(s: string, t: string): (b: bool)
    ensures b <==> exists i :: OccursAt(s, t, i)
    decreases |s|
  {
    if StartsWith(s, t) then
      assert OccursAt(s, t, 0);
      true
    else if s == [] then
      false
    else
      var b := Contains(s[1..], t);
      forall i | 0 <= i
        ensures OccursAt(s[1..], t, i) <==> OccursAt(s, t, i + 1)
      {
        OccursAtTail(s, t, i);
      }
      assert !OccursAt(s, t, 0);
      assert forall i :: OccursAt(s, t, i) ==> OccursAt(s[1..], t, i - 1);
      b
  }

  /** Python's s.find(t): the first index at which t occurs, if any. */
  function Find(s: string, t: string): (r: int)
    ensures r == -1 <==> !Contains(s, t)
    ensures r != -1 ==> OccursAt(s, t, r) && forall j :: 0 <= j < r ==> !OccursAt(s, t, j)
    decreases |s|
  {
    if StartsWith(s, t) then
      assert OccursAt(s, t, 0);
      0
    else if s == [] then -1
    else
      var k := Find(s[1..], t);
      forall i | 0 <= i
        ensures OccursAt(s[1..], t, i) <==> OccursAt(s, t, i + 1)
      {
        OccursAtTail(s, t, i);
      }
      assert !OccursAt(s, t, 0);
      assert forall i :: OccursAt(s, t, i) ==> OccursAt(s[1..], t, i - 1);
      if k == -1 then -1 else k + 1
  }

  /** Python's s.rfind(t): the last index at which t occurs, if any. */
  function RFind(s: string, t: string): (r: int)
    ensures r == -1 <==> !Contains(s, t)
    ensures r != -1 ==> OccursAt(s, t, r) && forall j :: r < j ==> !OccursAt(s, t, j)
    decreases |s|
  {
    if |t| > |s| then
      -1
    else if OccursAt(s, t, |s| - |t|) then
      |s| - |t|
    else if s == [] then
      -1
    else
      var front := s[..|s| - 1];
      var k := RFind(front, t);
      forall i | 0 <= i
        ensures OccursAt(front, t, i) <==> OccursAt(s, t, i) && i + |t| < |s|
      {
        OccursAtFront(s, t, i);
      }
      if k == -1 then
        assert forall i :: OccursAt(s, t, i) ==> OccursAt(front, t, i);
        -1
      else
        assert OccursAt(s, t, k);
        k
  }

  /** An occurrence past `a` in `a + b` is an occurrence in `b`. */
  lemma OccursAtShift(a: string, b: string, t: string, i: int)
    requires 0 <= i
    ensures OccursAt(a + b, t, |a| + i) <==> OccursAt(b, t, i)
  {
    if |a| + i + |t| <= |a + b| {
      assert (a + b)[|a| + i..|a| + i + |t|] == b[i..i + |t|];
    }
  }

  /** An occurrence of a pattern of two or more characters starts with its first two. */
  lemma OccursAtStarts(s: string, t: string, j: int)
    requires |t| >= 2
    ensures OccursAt(s, t, j) ==> s[j] == t[0] && s[j + 1] == t[1]
  {
    if OccursAt(s, t, j) {
      assert s[j..j + |t|] == t;
    }
  }

  /** A one-character pattern occurs exactly where that character stands. */
  lemma OccursAtOne(s: string, c: char, i: int)
    ensures OccursAt(s, [c], i) <==> 0 <= i < |s| && s[i] == c
  {
    if 0 <= i < |s| {
      assert s[i..i + 1] == [s[i]];
    }
  }

  /** The first `c` of `head + [c] + rest` is the one after `head` when `head` has none. */
  lemma FindFirstChar(head: string, c: char, rest: string)
    requires c !in head
    ensures Find(head + [c] + rest, [c]) == |head|
  {
    var s := head + [c] + rest;
    OccursAtOne(s, c, |head|);
    forall j | 0 <= j < |head|
      ensures !OccursAt(s, [c], j)
    {
      OccursAtOne(s, c, j);
      assert s[j] == head[j];
    }
  }

  /** The last `c` of `front + [c] + tail` is the one after `front` when `tail` has none. */
  lemma RFindLastChar(front: string, c: char, tail: string)
    requires c !in tail
    ensures RFind(front + [c] + tail, [c]) == |front|
  {
    var s := front + [c] + tail;
    OccursAtOne(s, c, |front|);
    forall j | |front| < j
      ensures !OccursAt(s, [c], j)
    {
      OccursAtOne(s, c, j);
      if j < |s| {
        assert s[j] == tail[j - |front| - 1];
      }
    }
  }

  /**
   * In `head + [c] + mid + [d] + tail`, with no `c` in `head` and no `d` in
   * `tail`, the first `c` and the last `d` enclose `mid`.
   */
  lemma Enclosed(head: string, c: char, mid: string, d: char, tail: string)
    requires c !in head && d !in tail
    ensures var s := head + [c] + mid + [d] + tail;
      && Find(s, [c]) == |head| && RFind(s, [d]) == |head| + |mid| + 1
      && s[|head|..|head| + |mid| + 2] == [c] + mid + [d]
  {
    EnclosedFirst(head, c, mid, d, tail);
    EnclosedLast(head, c, mid, d, tail);
    EnclosedMiddle(head, c, mid, d, tail);
  }

  lemma EnclosedFirst(head: string, c: char, mid: string, d: char, tail: string)
    requires c !in head
    ensures Find(head + [c] + mid + [d] + tail, [c]) == |head|
  {
    assert head + [c] + mid + [d] + tail == head + [c] + (mid + [d] + tail);
    FindFirstChar(head, c, mid + [d] + tail);
  }

  lemma EnclosedLast(head: string, c: char, mid: string, d: char, tail: string)
    requires d !in tail
    ensures RFind(head + [c] + mid + [d] + tail, [d]) == |head| + |mid| + 1
  {
    RFindLastChar(head + [c] + mid, d, tail);
  }

  lemma EnclosedMiddle(head: string, c: char, mid: string, d: char, tail: string)
    ensures var s := head + [c] + mid + [d] + tail;
      s[|head|..|head| + |mid| + 2] == [c] + mid + [d]
  {
    var s := head + [c] + mid + [d] + tail;
    forall i | 0 <= i < |mid| + 2
      ensures s[|head| + i] == ([c] + mid + [d])[i]
    {
    }
  }

  /** sep.join(parts). */
  function Join(parts: seq<string>, sep: string): string
  {
    if parts == [] then ""
    else if |parts| == 1 then parts[0]
    else parts[0] + sep + Join(parts[1..], sep)
  }

  lemma {:induction false} JoinEndsWithLast(parts: seq<string>, sep: string)
    requires parts != []
    ensures EndsWith(Join(parts, sep), parts[|parts| - 1])
  {
    if |parts| > 1 {
      JoinEndsWithLast(parts[1..], sep);
      var j := Join(parts[1..], sep);
      var last := parts[|parts| - 1];
      assert parts[1..][|parts[1..]| - 1] == last;
      assert (parts[0] + sep + j)[|parts[0] + sep + j| - |last|..] == j[|j| - |last|..];
    }
  }

  /** Python's s.replace(pat, rep) and JavaScript's s.replaceAll(pat, rep): left to right, non-overlapping. */
  function ReplaceAll(s: string, pat: string, rep: string): (r: string)
    requires pat != []
    ensures !Contains(s, pat) ==> r == s
    decreases |s|
  {
    if |s| < |pat| then s
    else if s[..|pat|] == pat then
      assert OccursAt(s, pat, 0);
      rep + ReplaceAll(s[|pat|..], pat, rep)
    else
      assert forall i :: OccursAt(s[1..], pat, i) ==> OccursAt(s, pat, i + 1);
      [s[0]] + ReplaceAll(s[1..], pat, rep)
  }

  /** A text that starts with the pattern has it replaced first. */
  lemma ReplaceAllAtStart(pat: string, s: string, rep: string)
    requires pat != []
    ensures ReplaceAll(pat + s, pat, rep) == rep + ReplaceAll(s, pat, rep)
  {
    assert (pat + s)[..|pat|] == pat;
    assert (pat + s)[|pat|..] == s;
  }

  /** JavaScript's s.replace(pat, rep) with a string pattern: the first occurrence only. */
  function ReplaceFirst(s: string, pat: string, rep: string): (r: string)
    ensures Contains(s, pat) ==> var i := Find(s, pat); r == s[..i] + rep + s[i + |pat|..]
    ensures !Contains(s, pat) ==> r == s
  {
    var i := Find(s, pat);
    if i == -1 then s else s[..i] + rep + s[i + |pat|..]
  }

  /** re.sub(r'\s+', ' ', s): every run of whitespace becomes one space. */
  function CollapseSpaces(s: string): (r: string)
    ensures forall i :: 0 <= i < |r| && IsSpace(r[i]) ==> r[i] == ' '
    ensures forall i :: 0 <= i < |r| - 1 ==> !(IsSpace(r[i]) && IsSpace(r[i + 1]))
    ensures r == [] <==> s == []
    decreases |s|
  {
    if s == [] then []
    else if IsSpace(s[0]) then
      var rest := LStripBy(s, IsSpace);
      assert rest == [] || !IsSpace(rest[0]);
      var t := CollapseSpaces(rest);
      assert t == [] || !IsSpace(t[0]);
      [' '] + t
    else
      var t := CollapseSpaces(s[1..]);
      [s[0]] + t
  }

  /** JavaScript's s.split(c) and Python's s.split(c) for a one-character separator. */
  function SplitChar(s: string, c: char): (r: seq<string>)
    ensures r != []
    ensures forall k :: 0 <= k < |r| ==> c !in r[k]
  {
    if s == [] then [""]
    else
      var rest := SplitChar(s[1..], c);
      if s[0] == c then [""] + rest
      else [[s[0]] + rest[0]] + rest[1..]
  }

  /** Splitting and joining again with the same separator gives back the input. */
  lemma {:induction false} SplitJoin(s: string, c: char)
    ensures Join(SplitChar(s, c), [c]) == s
  {
    if s != [] {
      var rest := SplitChar(s[1..], c);
      SplitJoin(s[1..], c);
      if s[0] == c {
        assert SplitChar(s, c) == [""] + rest;
        assert ([""] + rest)[1..] == rest;
      } else {
        var r := SplitChar(s, c);
        assert r == [[s[0]] + rest[0]] + rest[1..];
        if |rest| == 1 {
          assert r == [[s[0]] + rest[0]];
        } else {
          assert r[1..] == rest[1..];
          assert Join(rest, [c]) == rest[0] + [c] + Join(rest[1..], [c]);
        }
      }
    }
  }

  /** Splitting a list joined by a separator none of its entries holds gives back the entries. */
  lemma {:induction false} SplitOfJoin(ts: seq<string>, c: char)
    requires ts != [] && forall i :: 0 <= i < |ts| ==> c !in ts[i]
    ensures SplitChar(Join(ts, [c]), c) == ts
  {
    if |ts| == 1 {
      SplitOfEntry(ts[0], c, []);
    } else {
      SplitOfJoin(ts[1..], c);
      SplitOfEntry(ts[0], c, Join(ts[1..], [c]));
    }
  }

  /** An entry followed by the separator splits off first; alone, it is the whole split. */
  lemma {:induction false} SplitOfEntry(t: string, c: char, rest: string)
    requires c !in t
    ensures SplitChar(t + [c] + rest, c) == [t] + SplitChar(rest, c)
    ensures SplitChar(t, c) == [t]
  {
    if t != [] {
      SplitOfEntry(t[1..], c, rest);
      assert (t + [c] + rest)[1..] == t[1..] + [c] + rest;
      assert [t[0]] + t[1..] == t;
    } else {
      assert [c] + rest == [] + [c] + rest;
      assert ([c] + rest)[1..] == rest;
    }
  }
}

=== FILE: update_from_cache.dfy ===
/**
 * update_from_cache.py: data.js rebuilt from the geocoding cache alone,
 * with no lookups: a row with a website whose address is cached becomes a
 * customer with the cached coordinates.
 */
module UpdateFromCache {
  import opened Wrappers
  import opened Service
  import opened Sheet
  import opened GeoRetry
  import opened ClientSheets
  import opened JsEmit
  import opened GeocodeAllCustomers

  /** What one row contributes: the cached coordinates, with no truthiness test. */
  function FromCache(j: Job, cache: map<string, Coords>): (c: Option<Customer>)
    ensures c.Some? <==> j.client.url.Some? && j.client.address in cache
    ensures c.Some? ==> c.value.lat == cache[j.client.address].lat && c.value.lng == cache[j.client.address].lng
  {
    if j.client.url.Some? && j.client.address in cache then Some(ToCustomer(j.client, j.kind, cache[j.client.address])) else None
  }

  /** The customers of rows in order. */
  function Collected(jobs: seq<Job>, cache: map<string, Coords>): (cs: seq<Customer>)
    ensures |cs| <= |jobs|
  {
    if jobs == [] then []
    else
      var rest := Collected(jobs[..|jobs| - 1], cache);
      match FromCache(jobs[|jobs| - 1], cache)
      case Some(c) => rest + [c]
      case None => rest
  }

  /**
   * The script: both sheet loops over the loaded cache, then data.js in the
   * separated layout with escaped names.
   */
  method Rebuild(charters: seq<Row>, districts: seq<Row>, cache: map<string, Coords>, header: string, show: Coord -> string)
    returns (customers: seq<Customer>, js: string)
    ensures customers == Collected(Jobs(charters, districts), cache)
    ensures js == DataJs(header, customers, show)
  {
    customers := CollectRows(Jobs(charters, districts), |charters|, cache);
    js := EmitSeparated(header, EntryTexts(customers, true, show));
  }

  /** The charter loop over the first `split` rows, then the district loop over the rest. */
  method CollectRows(jobs: seq<Job>, split: nat, cache: map<string, Coords>) returns (customers: seq<Customer>)
    requires split <= |jobs|
    ensures customers == Collected(jobs, cache)
  {
    customers := [];
    for i := 0 to split
      invariant customers == Collected(jobs[..i], cache)
    {
      customers := Visit(customers, jobs, i, cache);
    }
    for i := split to |jobs|
      invariant customers == Collected(jobs[..i], cache)
    {
      customers := Visit(customers, jobs, i, cache);
    }
    assert jobs[..|jobs|] == jobs;
  }

  /** The loop body: append the row's customer when its address is cached. */
  method Visit(customers0: seq<Customer>, jobs: seq<Job>, i: nat, cache: map<string, Coords>) returns (customers: seq<Customer>)
    requires i < |jobs|
    requires customers0 == Collected(jobs[..i], cache)
    ensures customers == Collected(jobs[..i + 1], cache)
  {
    assert jobs[..i + 1][..i] == jobs[..i];
    customers := customers0;
    var j := jobs[i];
    if j.client.url.Some? && j.client.address in cache {
      customers := customers + [ToCustomer(j.client, j.kind, cache[j.client.address])];
    }
  }

  /**
   * An address in the run's cache was in the starting cache with the same
   * coordinates, or its lookup gave a truthy answer, which is what is cached.
   */
  lemma {:induction false} CachedFromLookup(jobs: seq<Job>, cache0: map<string, Coords>, k: nat, svc: Oracle, a: string)
    requires k <= |jobs|
    requires a in StateAt(jobs, cache0, k, svc).cache
    ensures a in cache0 || (Usable(Outcome(svc, a, Retries, 0)) && StateAt(jobs, cache0, k, svc).cache[a] == Outcome(svc, a, Retries, 0).value)
  {
    if k > 0 {
      var s := StateAt(jobs, cache0, k - 1, svc);
      StepCache(s, jobs[k - 1], svc);
      if a in s.cache {
        CachedFromLookup(jobs, cache0, k - 1, svc, a);
      }
    }
  }

  /**
   * Rebuilding from the cache the full run leaves reproduces the run's
   * customers over the first k rows, as long as the starting cache held
   * only truthy coordinates (the lookup answers each address the same way).
   */
  lemma {:induction false} RebuildMatchesRunUpTo(jobs: seq<Job>, cache0: map<string, Coords>, svc: Oracle, k: nat)
    requires k <= |jobs|
    requires TruthyCache(cache0)
    ensures Collected(jobs[..k], StateAt(jobs, cache0, |jobs|, svc).cache) == StateAt(jobs, cache0, k, svc).customers
  {
    if k > 0 {
      RebuildMatchesRunUpTo(jobs, cache0, svc, k - 1);
      assert jobs[..k][..k - 1] == jobs[..k - 1];
      RebuildStep(jobs, cache0, svc, k);
    }
  }

  /** Row k - 1 adds to the run's customers what the rebuild takes for it from the final cache. */
  lemma RebuildStep(jobs: seq<Job>, cache0: map<string, Coords>, svc: Oracle, k: nat)
    requires 0 < k <= |jobs|
    requires TruthyCache(cache0)
    ensures var o := FromCache(jobs[k - 1], StateAt(jobs, cache0, |jobs|, svc).cache);
      var before := StateAt(jobs, cache0, k - 1, svc).customers;
      StateAt(jobs, cache0, k, svc).customers == if o.Some? then before + [o.value] else before
  {
    var fin := StateAt(jobs, cache0, |jobs|, svc).cache;
    var s := StateAt(jobs, cache0, k - 1, svc);
    var j := jobs[k - 1];
    var a := j.client.address;
    StepCache(s, j, svc);
    CacheKept(jobs, cache0, k - 1, |jobs|, svc);
    CacheKept(jobs, cache0, k, |jobs|, svc);
    CacheStaysTruthy(jobs, cache0, k - 1, svc);
    if j.client.url.Some? && a !in s.cache && !Usable(Outcome(svc, a, Retries, 0)) && a in fin {
      CachedFromLookup(jobs, cache0, |jobs|, svc, a);
      CacheKept(jobs, cache0, 0, k - 1, svc);
      assert false;
    }
  }

  /** The whole run: see RebuildMatchesRunUpTo. */
  lemma RebuildMatchesRun(charters: seq<Row>, districts: seq<Row>, cache0: map<string, Coords>, svc: Oracle)
    requires TruthyCache(cache0)
    ensures var jobs := Jobs(charters, districts); var run := StateAt(jobs, cache0, |jobs|, svc);
      Collected(jobs, run.cache) == run.customers
  {
    var jobs := Jobs(charters, districts);
    RebuildMatchesRunUpTo(jobs, cache0, svc, |jobs|);
    assert jobs[..|jobs|] == jobs;
  }

  /** A cached zero coordinate shows the precondition is needed: the run drops the row, the rebuild keeps it. */
  lemma ZeroCachedEntryKeptOnlyByRebuild(c: Client, svc: Oracle)
    requires c.url.Some?
    ensures var jobs := [Job(c, Charter)]; var cache0 := map[c.address := Coords(0.0, 1.0)];
      && StateAt(jobs, cache0, 1, svc).customers == []
      && |Collected(jobs, StateAt(jobs, cache0, 1, svc).cache)| == 1
  {
    var jobs := [Job(c, Charter)];
    var cache0 := map[c.address := Coords(0.0, 1.0)];
    assert jobs[..0] == [];
  }
}

=== FILE: update_inline_data.dfy ===
/**
 * update_inline_data.py: index.html with data.js inlined. The marker
 * comment is looked up, the external data.js script tag is removed, and
 * data.js is spliced in inside an inline script element, preceded by a
 * second copy of the marker.
 */
module UpdateInlineData {
  import opened Wrappers
  import opened Text

  /** The comment that marks where the data goes. */
  const Marker := "<!-- Customer Data -->"

  /** The external script element that loaded data.js. */
  const ScriptTag := "<script src=\"data.js\">" + "</script>"

  /** What is spliced in: the marker, then data.js inside an inline script element. */
  function InlineBlock(content: string): (b: string)
    ensures StartsWith(b, Marker) && |b| == |Marker| + |content| + 36
  {
    Marker + "\n    <script>\n        " + content + "\n    </script>"
  }

  /** index.html with every data.js script tag removed. */
  function Untagged(html: string): (h: string)
    ensures !Contains(html, ScriptTag) ==> h == html
  {
    ReplaceAll(html, ScriptTag, "")
  }

  /** `html[:i] + block + html[i:]`; a cut past the end falls at the end, as Python's slices do. */
  function Splice(html: string, i: nat, block: string): (r: string)
    ensures |r| == |html| + |block|
    ensures var k := if i <= |html| then i else |html|; r[k..k + |block|] == block && r[..k] + r[k + |block|..] == html
  {
    var k := if i <= |html| then i else |html|;
    assert (html[..k] + block + html[k..])[..k] == html[..k];
    assert (html[..k] + block + html[k..])[k + |block|..] == html[k..];
    html[..k] + block + html[k..]
  }

  /**
   * The script as written: the marker's index is taken in the original
   * HTML, the tag is removed, and the cut is made at that index in the
   * shorter text. None is the `exit(1)` when the marker is missing.
   */
  function InlinedAsWritten(content: string, html: string): (r: Option<string>)
    ensures r.None? <==> !Contains(html, Marker)
    ensures r.Some? ==> |r.value| == |Untagged(html)| + |InlineBlock(content)|
  {
    var i := Find(html, Marker);
    if i == -1 then None else Some(Splice(Untagged(html), i, InlineBlock(content)))
  }

  /**
   * The splice at the marker of the text being spliced: the index is taken
   * after the tag is removed. None is the `exit(1)` when that text has no
   * marker.
   */
  function Inlined(content: string, html: string): (r: Option<string>)
    ensures r.None? <==> !Contains(Untagged(html), Marker)
  {
    var h := Untagged(html);
    var j := Find(h, Marker);
    if j == -1 then None else Some(Splice(h, j, InlineBlock(content)))
  }

  /**
   * The corrected splice puts the block right before the first marker of
   * the untagged page, with no marker ahead of it, and taking the block out
   * again gives back the untagged page.
   */
  lemma InlinedBeforeMarker(content: string, html: string)
    requires Inlined(content, html).Some?
    ensures var r := Inlined(content, html).value; var h := Untagged(html);
      var j := Find(h, Marker); var b := InlineBlock(content);
      && r[..j] + r[j + |b|..] == h
      && r[j..j + |b|] == b
      && !Contains(r[..j], Marker)
      && StartsWith(r[j + |b|..], Marker)
  {
    var h := Untagged(html);
    SpliceBeforeFirst(h, Marker, Find(h, Marker), InlineBlock(content));
  }

  /** A block spliced in at the first occurrence of `t` comes right before it, with no `t` ahead of it. */
  lemma SpliceBeforeFirst(h: string, t: string, j: int, b: string)
    requires t != [] && j == Find(h, t) && j != -1
    ensures var r := Splice(h, j, b);
      && r[..j] + r[j + |b|..] == h
      && r[j..j + |b|] == b
      && !Contains(r[..j], t)
      && StartsWith(r[j + |b|..], t)
  {
    var r := Splice(h, j, b);
    assert r[..j] == h[..j];
    NoEarlierOccurrence(h, t, j);
    assert r[j + |b|..] == h[j..];
    assert h[j..][..|t|] == h[j..j + |t|];
  }

  /** Before the first occurrence, the prefix holds none. */
  lemma NoEarlierOccurrence(s: string, t: string, j: nat)
    requires t != [] && j <= |s| && forall i :: 0 <= i < j ==> !OccursAt(s, t, i)
    ensures !Contains(s[..j], t)
  {
    forall i | OccursAt(s[..j], t, i)
      ensures false
    {
      assert i < j;
      assert s[..j][i..i + |t|] == s[i..i + |t|];
      assert OccursAt(s, t, i);
    }
  }

  /** Without a script tag in the page, the written script and the corrected one agree. */
  lemma AgreeWithoutTag(content: string, html: string)
    requires !Contains(html, ScriptTag)
    ensures InlinedAsWritten(content, html) == Inlined(content, html)
  {
  }

  /** The marker is the first thing of `Marker + rest`. */
  lemma FindAtStart(rest: string)
    ensures Find(Marker + rest, Marker) == 0
  {
    assert (Marker + rest)[..|Marker|] == Marker;
    assert OccursAt(Marker + rest, Marker, 0);
  }

  /** In `ScriptTag + Marker + rest` the first marker follows the tag. */
  lemma FindAfterTag(rest: string)
    ensures Find(ScriptTag + Marker + rest, Marker) == |ScriptTag|
  {
    var s := ScriptTag + Marker + rest;
    OccursAtShift(ScriptTag, Marker + rest, Marker, 0);
    assert s == ScriptTag + (Marker + rest);
    assert (Marker + rest)[..|Marker|] == Marker;
    assert '!' !in ScriptTag && ScriptTag[30] == '>';
    forall j | 0 <= j < |ScriptTag|
      ensures !OccursAt(s, Marker, j)
    {
      OccursAtStarts(s, Marker, j);
      if j + 1 < |ScriptTag| {
        assert s[j + 1] == ScriptTag[j + 1] != '!';
      } else {
        assert s[j] == ScriptTag[30] != '<';
      }
    }
  }

  /** A tag cannot straddle the marker and what follows it, nor start inside the marker. */
  lemma NoTagAfterMarker(rest: string)
    requires !Contains(rest, ScriptTag)
    ensures !Contains(Marker + rest, ScriptTag)
  {
    var m := Marker + rest;
    assert '<' !in Marker[1..];
    forall j | 0 <= j
      ensures !OccursAt(m, ScriptTag, j)
    {
      if j >= |Marker| {
        OccursAtShift(Marker, rest, ScriptTag, j - |Marker|);
      } else {
        OccursAtStarts(m, ScriptTag, j);
        if j == 0 {
          assert Marker[1] == '!';
          assert m[1] == Marker[1];
        } else {
          assert m[j] == Marker[1..][j - 1] != '<';
        }
      }
    }
  }

  /** Removing the tags of `ScriptTag + Marker + rest`, with no tag in `rest`, leaves `Marker + rest`. */
  lemma UntagAfterTag(rest: string)
    requires !Contains(rest, ScriptTag)
    ensures Untagged(ScriptTag + Marker + rest) == Marker + rest
  {
    var m := Marker + rest;
    NoTagAfterMarker(rest);
    assert ScriptTag + Marker + rest == ScriptTag + m;
    RemoveLeading(ScriptTag, m);
  }

  /** Removing the tags of a tag followed by tag-free text leaves that text. */
  lemma RemoveLeading(tag: string, m: string)
    requires tag != [] && !Contains(m, tag)
    ensures ReplaceAll(tag + m, tag, "") == m
  {
    ReplaceAllAtStart(tag, m, "");
  }

  /** A cut k characters into the part after `a`. */
  lemma SpliceInside(a: string, rest: string, k: nat, b: string)
    requires k <= |rest|
    ensures Splice(a + rest, |a| + k, b) == a + rest[..k] + b + rest[k..]
  {
    var h := a + rest;
    assert h[..|a| + k] == a + rest[..k];
    assert h[|a| + k..] == rest[k..];
  }

  /** A cut at the start puts the block first. */
  lemma SpliceAtStart(h: string, b: string)
    ensures Splice(h, 0, b) == b + h
  {
    assert h[..0] == [] && h[0..] == h;
  }

  /**
   * A page whose data.js tag stands before the marker: the written script
   * takes the marker's index (31, the tag's length) in the page with the
   * tag and cuts the shortened page there, nine characters past the end
   * of the marker, inside whatever follows it.
   */
  lemma TagBeforeMarkerShiftsSplice(content: string, rest: string)
    requires !Contains(rest, ScriptTag) && |rest| >= 9
    ensures InlinedAsWritten(content, ScriptTag + Marker + rest) == Some(Marker + rest[..9] + InlineBlock(content) + rest[9..])
  {
    FindAfterTag(rest);
    UntagAfterTag(rest);
    AsWrittenCut(content, ScriptTag + Marker + rest, Marker + rest, |Marker| + 9);
    SpliceInside(Marker, rest, 9, InlineBlock(content));
  }

  /** The written script's result, given where the marker was found and what the removal left. */
  lemma AsWrittenCut(content: string, html: string, h: string, i: nat)
    requires Find(html, Marker) == i && Untagged(html) == h
    ensures InlinedAsWritten(content, html) == Some(Splice(h, i, InlineBlock(content)))
  {
  }

  /** The same page with the corrected splice: the block lands right before the marker. */
  lemma TagBeforeMarkerSplicedAtMarker(content: string, rest: string)
    requires !Contains(rest, ScriptTag)
    ensures Inlined(content, ScriptTag + Marker + rest) == Some(InlineBlock(content) + Marker + rest)
  {
    UntagAfterTag(rest);
    FindAtStart(rest);
    SpliceAtStart(Marker + rest, InlineBlock(content));
    assert InlineBlock(content) + (Marker + rest) == InlineBlock(content) + Marker + rest;
  }
}

=== FILE: wrappers.dfy ===
/** Optional values, standing for Python's None and JavaScript's null. */
module Wrappers {
  datatype Option<T> = None | Some(value: T)
  {
    function GetOr(default: T): T
    {
      if Some? then value else default
    }
  }
}
